=== FILE: README.md ===
# Audio-description tools: WAV region codec and script converters

This project models the core of a set of Python tools for audio-description
work, and proves properties of the model in Dafny.

The tools are:

- **Region codec.**
  - `converters/srt2regions.py` reads an SRT subtitle file. It writes a blank
    WAV file whose `cue ` and `LIST`/`adtl` chunks mark one region per subtitle.
  - `audio_video_tools/extract_wav_cues.py` and
    `audio_video_tools/extract_wav_regions.py` walk the RIFF chunks of a WAV
    file. They rebuild an SRT file from its cues, labels and lengths.
- **Text converters**, which move an audio-description script between formats:
  - plain text or RTF, written by `converters/srt_to_rtf_accessible.py` and
    read back by `txt_to_srt.py`;
  - Audacity label tracks (`srt_2_audacity.py`);
  - SMPTE CSV (`srt_to_smpte.py`);
  - Excel studio scripts, both directions (`srt_to_xls.py`,
    `converters/srt_to_studioscript.py`, `converters/xls_to_srt_v2.py`,
    `converters/frazier_csv_to_studioscript.py`);
  - Reaper project markers (`converters/srt_to_reaper_markers.py`).

How Python is modelled:

- **Exceptions.** A Python exception that escapes is a `Raise(exc)` value of
  `PyCore.Result`, and the exception kind is kept.
- **Files and names.**
  - A file is its bytes (`seq<byte>`) or its text (`string`). A file that
    cannot be opened is `None`.
  - Whatever the program reads from outside is a parameter: command-line
    arguments, file contents, the set of paths that exist, `$HOME`, the
    `ffprobe` report and the rows a spreadsheet library returns.
- **Numbers.**
  - Times are exact integers of milliseconds (microseconds for
    `srt_to_smpte.py`).
  - Frame rates are exact fractions `num/den`.
  - Every truncation or floor the source applies is written out explicitly.
- **Python built-ins.** `str.strip`, `split`, `int()`, `isdigit`, the format
  specifications `:02`, `:03` and `:X`, `re.search`, `re.sub` and
  `re.findall` for the patterns the tools use, `struct.pack` and
  `struct.unpack` for `<I` and `<H`, and UTF-8 encoding and lenient decoding
  are all modelled as functions, each with its specification.

The central results are these:

- **The encoder's file reads back.** An SRT file written as four-line blocks
  is parsed back into its regions. The WAV image `add_region_markers` builds
  decodes, under both decoders, to one cue per region at the region's start
  sample, labelled with the region's name. The regenerated SRT parses again
  as the entries it was printed from.
- **Two defects of the source**, each modelled twice (see "## Findings"):
  - the `ltxt` length is read at the wrong offset;
  - the RIFF size field is overstated.
- **Round trips for the script converters:**
  - the plain-text script read back by `txt_to_srt.py`;
  - SRT to SMPTE to SRT, with a bounded loss;
  - Reaper markers spliced into a template and read back;
  - spreadsheet rows written as SRT blocks and matched by the block pattern.

## Model

| member | source | states |
|---|---|---|
| SrtTime.TimeToSample | converters/srt2regions.py:8-14 | `time_to_sample` succeeds exactly when `time_to_seconds` does, and every failure is a `ValueError`. Otherwise the result is the time in milliseconds times the rate, over 1000, truncated toward zero. |
| SrtTime.TimeToMs | converters/srt2regions.py:8-11 | Every failure of `time_to_seconds` is a `ValueError`. The value of a well-formed time is stated by SrtTime.ReadTimestamp. |
| SrtTime.MsToSampleBounds | converters/srt2regions.py:13-14 | The sample position is the product truncated toward zero. It lies within one sample of `ms*rate/1000`, on the side of zero. |
| SrtTime.MsToSample | converters/srt2regions.py:13-14 | The sample position has the sign of the time and lies within one sample of `ms*rate/1000` |
| SrtTime.SampleMs | audio_video_tools/extract_wav_cues.py:100-101 | The milliseconds printed for a sample are the last whole millisecond at or before it |
| SrtTime.ParseAll | converters/srt2regions.py:10 | `map(int, parts)` yields one value per part; a part `int()` rejects raises `ValueError` |
| SrtTime.ParseAllOk | converters/srt2regions.py:10 | When each part converts, `map(int, …)` gives exactly the parts' values in order |
| SrtTime.FieldsRecombine | audio_video_tools/extract_wav_cues.py:41-46 | The four fields `format_time` prints recombine to the time. Minutes and seconds are below 60 and milliseconds below 1000. |
| SrtTime.FormatTime | audio_video_tools/extract_wav_cues.py:41-46 | The text is at least the twelve characters of `HH:MM:SS,mmm`. What it reads back as is stated by SrtTime.TimeRoundTrip. |
| SrtTime.SampleMsBounds | audio_video_tools/extract_wav_cues.py:100-101 | The milliseconds printed for a sample are `sample*1000/rate` rounded down |
| SrtTime.SampleMsMonotone | audio_video_tools/extract_wav_cues.py:100-101 | A later sample never prints as an earlier time |
| SrtTime.SampleMsShift | audio_video_tools/extract_wav_cues.py:97-98 | Adding `seconds*rate` samples adds exactly that many seconds to the printed time. This is how the two-second default duration shows. |
| SrtTime.ReadTimestamp | converters/srt2regions.py:8-11 | A timestamp of four digit fields reads as their weighted sum in milliseconds |
| SrtTime.FieldsRoundTrip | converters/srt2regions.py:8-11 | Fields printed by `format_time` are read back by `time_to_seconds` as their weighted sum |
| SrtTime.TimeRoundTrip | audio_video_tools/extract_wav_cues.py:41-46 | `time_to_seconds(format_time(t))` gives back `t`, in whole milliseconds |
| SrtTime.SampleRoundTrip | audio_video_tools/extract_wav_cues.py:93-104 | A cue offset printed by `generate_srt` and read back by `time_to_sample` lands at most one millisecond's worth of samples early, and never late |
| SrtTime.Sandwich | converters/srt2regions.py:13-14 | Sample to milliseconds to sample loses less than one millisecond's worth of samples |
| SrtTime.PaddedField | audio_video_tools/extract_wav_cues.py:46 | A zero-padded field is all digits and `int()` reads it back as its value |
| RegionEncoder.BlockAt | converters/srt2regions.py:23-27 | One SRT block raises only `IndexError` (no time line) or `ValueError` (the time line does not split into two at ` --> `) |
| RegionEncoder.ParseFrom | converters/srt2regions.py:21-31 | The `parse_srt` scan raises only `IndexError` or `ValueError` |
| RegionEncoder.ParseSrt | converters/srt2regions.py:16-31 | `parse_srt` fails only with `IndexError` or `ValueError`. It finds at most one region per four lines, plus one for a truncated last block. |
| ParseFacts.ParseSrtRoundTrip | converters/srt2regions.py:16-31 | `parse_srt` reads back every well-formed region written as a numbered four-line block, whatever the numbering |
| ParseFacts.ReadsAllParses | converters/srt2regions.py:21-31 | Lines that hold the blocks of some regions are read as exactly those regions |
| ParseFacts.BlockReads | converters/srt2regions.py:23-28 | A block is read as its region, and the scan resumes four lines on |
| ParseFacts.NoRegionsIffNoDigitLine | converters/srt2regions.py:22-30 | The scan yields no region exactly when no line strips to digits |
| ParseFacts.DigitAtEnd | converters/srt2regions.py:23-24 | A digit line that is the last line raises `IndexError` |
| ParseFacts.DigitLastLine | converters/srt2regions.py:23-24 | Appending a lone number line to any file makes `parse_srt` raise `IndexError` |
| ParseFacts.TruncatedBlockName | converters/srt2regions.py:26 | A block cut short after its time line is still read, named `Region <i>` with `i` the index of its digit line |
| ParseFacts.LastBlock | converters/srt2regions.py:26-28 | A block with fewer than four lines left is the last one read |
| MarkerFacts.MaxEndSpec | converters/srt2regions.py:46 | `max(time_to_seconds(end) …)` succeeds exactly when there is a region and every end converts. It is then an upper bound that some region attains. Otherwise it is a `ValueError`. |
| MarkerFacts.FramesSpec | converters/srt2regions.py:33-50 | The frames are all zero bytes, of even length, and at most one byte longer than the blank audio |
| MarkerFacts.BlankAudioLengthPositive | converters/srt2regions.py:33-36 | The blank audio holds `floor(duration*rate) * (bit_depth // 8) * channels` bytes |
| RegionEncoder.LabelBytes | converters/srt2regions.py:66-68 | The label is as long as the UTF-8 name plus its NUL, rounded up to even |
| RegionEncoder.MarkerOf | converters/srt2regions.py:57-76 | A marker that is built has every field in `<I` range |
| MarkerFacts.MarkerOfSpec | converters/srt2regions.py:57-76 | One pass of the region loop succeeds exactly when both times convert and the id, start sample, length and `labl` size fit in a u32. The marker then carries the id, the name and the two samples. |
| MarkerFacts.MarkerOfFailure | converters/srt2regions.py:57-59 | The start's exception comes first, then the end's. A pack out of range raises `StructError`. |
| MarkerFacts.MakeMarkerSpec | converters/srt2regions.py:56-59 | A successful pass for a region gives its id, its name, and start and end samples equal to `time_to_sample` of its times |
| MarkerFacts.MarkersSpec | converters/srt2regions.py:56 | A successful region loop yields one marker per region, marker `k` with id `id + k` |
| MarkerFacts.MarkersFailure | converters/srt2regions.py:56-76 | The region loop succeeds exactly when every region packs. Otherwise it raises what the first failing region raises, after every earlier region packed. |
| MarkerFacts.MarkersFirstFailure | converters/srt2regions.py:56-76 | A failed loop stops at a region that raises the loop's exception, and every region before it packs |
| MarkerFacts.EndBeforeStartRaises | converters/srt2regions.py:59-74 | A region ending before it starts makes `pack('<I', length)` raise `StructError` |
| MarkerFacts.BadTimeRaises | converters/srt2regions.py:57-58 | A malformed start or end time raises `ValueError` before anything is packed |
| RegionEncoder.FmtChunk | converters/srt2regions.py:96-101 | The `fmt ` chunk has a 16-byte payload, or it raises `StructError` when a field is out of range |
| EncoderFacts.CueRecordFields | converters/srt2regions.py:61-64 | A cue record is the id, the start, `data`, two zero fields and the start again |
| EncoderFacts.CueRecordsAt | converters/srt2regions.py:56-64 | Record `k` of the table is marker `k`'s record |
| EncoderFacts.CueChunkSize | converters/srt2regions.py:52-78 | The `cue ` chunk holds the count and 24 bytes per region |
| EncoderFacts.LablFields | converters/srt2regions.py:66-70 | A `labl` payload is the id, the UTF-8 name, then one or two NULs to an even size |
| EncoderFacts.LtxtFields | converters/srt2regions.py:72-76 | An `ltxt` payload is 20 bytes: the id, the length, then zeros |
| EncoderFacts.WrittenParts | converters/srt2regions.py:38-110 | A written file comes from at least one parsed region, a successful region loop and a packable `fmt ` chunk |
| EncoderFacts.WavImageLayout | converters/srt2regions.py:78-110 | The file is `RIFF`, the size field, `WAVE`, then the `fmt `, `data`, `cue ` and `LIST` chunks in order |
| EncoderFacts.RiffSizeOverstated | converters/srt2regions.py:83-88 | As written, the RIFF size field is `len(file) - 8 + 12` |
| EncoderFacts.RiffSizeCorrect | converters/srt2regions.py:82-88 | With the size the comment intends, the field is `len(file) - 8` |
| EncoderFacts.NoRegionsIff | converters/srt2regions.py:40-44 | Nothing is written exactly when no line strips to digits |
| RegionEncoder.WavImage | converters/srt2regions.py:90-110 | The image starts with the `RIFF` tag and has `WAVE` at offset 8. The only failure is the `struct.error` of a value that does not fit its field. |
| RegionEncoder.AddRegionMarkers | converters/srt2regions.py:38-112 | A failing parse fails the call. No regions writes nothing. A written file means the parse found at least one region. |
| RiffWalk.Read | audio_video_tools/extract_wav_cues.py:35-39 | `f.read(n)` returns the `n` bytes at the position, or fewer at the end of the file |
| RiffWalk.ReadHeader | audio_video_tools/extract_wav_cues.py:38-59 | A chunk header is read exactly when 8 bytes remain and the tag is ASCII |
| RiffWalk.AssignSemantics | audio_video_tools/extract_wav_cues.py:66 | `cues[id] = offset` keeps ids unique, makes `id` map to `offset`, leaves other ids alone, and appends only a new id |
| RiffWalk.CueLoopSplit | audio_video_tools/extract_wav_cues.py:62-66 | Reading the records and then assigning them gives what the interleaved loop gives, the exception included |
| RiffWalk.SubChunk | audio_video_tools/extract_wav_cues.py:78-85 | An `adtl` sub-chunk never changes the cue table |
| RiffWalk.ReadAdtl | audio_video_tools/extract_wav_cues.py:72-76 | The `adtl` loop never moves backwards and never touches the cue table |
| RiffWalk.WalkStep | audio_video_tools/extract_wav_cues.py:55-89 | The walk stops exactly when no header can be read. Otherwise it moves on by at least 4 bytes. |
| RiffWalk.ExtractMetadata | audio_video_tools/extract_wav_cues.py:48-49 | A file that cannot be opened raises `OSError` |
| RiffWalk.ExtractRiffMetadata | audio_video_tools/extract_wav_regions.py:43-85 | `extract_riiff_metadata` returns the same dicts as `extract_metadata` when that succeeds, and `None` exactly when it raises |
| RiffWalk.WalkUnique | audio_video_tools/extract_wav_cues.py:51-66 | Every cue table the walk returns has distinct ids |
| RiffWalk.WalkStops | audio_video_tools/extract_wav_cues.py:56-59 | When no chunk header can be read at the position, the walk ends with what it has collected |
| RiffWalk.ExtractUnique | audio_video_tools/extract_wav_cues.py:48-91 | Both decoders return a cue dict: no id appears twice |
| WalkFacts.HeaderIgnored | audio_video_tools/extract_wav_cues.py:50 | Bytes 0-12 are never read. Files differing only there decode identically. |
| ImageReads.AdtlRead | audio_video_tools/extract_wav_cues.py:72-85 | A run of sub-chunks laid out in the file is read chunk by chunk, ending after the last |
| ImageReads.ListStep | audio_video_tools/extract_wav_cues.py:68-85 | The walk reads an `adtl` list chunk by chunk and continues right after it |
| ImageReads.SkipWalk | audio_video_tools/extract_wav_cues.py:88-89 | A chunk other than `cue ` and `LIST` is skipped by its declared size |
| RoundTrip.CueStep | audio_video_tools/extract_wav_cues.py:61-66 | The walk reads the encoder's whole `cue ` chunk and continues right after it |
| RoundTrip.RecordListRead | audio_video_tools/extract_wav_cues.py:63-66 | The records the encoder laid out read back as its markers' ids and starts |
| RoundTrip.LablRead | audio_video_tools/extract_wav_cues.py:78-81 | A `labl` the encoder wrote sets its id's label to the label bytes |
| RoundTrip.LtxtRead | audio_video_tools/extract_wav_cues.py:83-85 | An `ltxt` the encoder wrote sets its id's length to the u32 at the offset read |
| RoundTrip.AdtlApply | converters/srt2regions.py:79-80 | Every `labl`, then every `ltxt`: the labels and lengths of all markers |
| RoundTrip.WalkImage | audio_video_tools/extract_wav_cues.py:55-91 | The walk over the encoder's image, from byte 12 to the end, collects the expected metadata |
| ReadBack.LabelRoundTrip | audio_video_tools/extract_wav_cues.py:80 | A label written by the encoder decodes to the name, less any trailing NULs |
| ReadBack.AddLabelsFrom | audio_video_tools/extract_wav_cues.py:81 | After the `labl` chunks, ids `first` up to `first + n - 1` map to the markers' label bytes, and other ids keep their values |
| ReadBack.AddLengthsFrom | audio_video_tools/extract_wav_cues.py:85 | The same for the lengths dict |
| ReadBack.MarkerFields | converters/srt2regions.py:56-59 | Marker `k` has id `k + 1`, region `k`'s name and its start and end samples |
| ReadBack.ReadBackAsWritten | audio_video_tools/extract_wav_cues.py:84 | Both decoders as written read the encoder's file as a cue per region at its start sample and a label per region, and every length as 0 |
| ReadBack.ReadBackStandard | audio_video_tools/extract_wav_cues.py:84 | Read at payload bytes 4-8, each region's start sample plus its stored length is its end sample |
| CueSrt.SortSpec | audio_video_tools/extract_wav_cues.py:95 | `sorted(cues, key=cues.get)` is ordered by offset, a permutation of the dict, and keeps dict order among equal offsets |
| CueSrt.SortCharacterized | audio_video_tools/extract_wav_cues.py:95 | The stable sort is the one list ordered by offset that keeps dict order among equal offsets |
| CueSrt.SortOfSorted | audio_video_tools/extract_wav_cues.py:95 | A dict already in offset order is left as it is |
| CueSrt.Entries | audio_video_tools/extract_wav_cues.py:94-104 | One entry per cue |
| CueSrt.EntryAt | audio_video_tools/extract_wav_cues.py:95-104 | Entry `k` belongs to the `k`-th cue in offset order |
| CueSrt.StartReads | audio_video_tools/extract_wav_cues.py:96-100 | The printed start reads back as the offset in milliseconds, rounded down |
| CueSrt.EndReads | audio_video_tools/extract_wav_cues.py:97-101 | The printed end reads back as the end sample in milliseconds |
| CueSrt.DefaultDuration | audio_video_tools/extract_wav_cues.py:97 | A stored length is added to the start. Without one, the entry ends exactly two seconds after it starts. |
| CueSrt.EntriesOrdered | audio_video_tools/extract_wav_cues.py:95 | The entries come in order of start time |
| CueSrt.EntriesCoverCues | audio_video_tools/extract_wav_cues.py:95-104 | Every entry belongs to a cue of the dict and every cue has an entry. Ids with only a label or a length get none. |
| CueText.CueEntryFits | audio_video_tools/extract_wav_cues.py:102-104 | An entry is printable as four lines, and `parse_srt` reads it back unchanged when its label is clean |
| CueText.RenderLines | audio_video_tools/extract_wav_cues.py:104-105 | The rendered text is the SRT lines of the entries written one after another |
| CueText.GeneratedLines | audio_video_tools/extract_wav_cues.py:93-105 | `readlines` on `generate_srt`'s text gives four lines per entry: the number, the times, the text and a blank line |
| CueText.GeneratedSrtParses | converters/srt2regions.py:16-31 | `parse_srt` reads `generate_srt`'s output back as exactly its entries |
| CueSrt.GenerateSrt | audio_video_tools/extract_wav_cues.py:93-105 | `generate_srt` gives an empty text exactly when there are no cues |
| Reconstruct.CuesMain | audio_video_tools/extract_wav_cues.py:107-126 | `extract_wav_cues.py` only ever writes an SRT |
| Reconstruct.CuesMainFails | audio_video_tools/extract_wav_cues.py:108-117 | It fails exactly without an argument, when the walk raises, or when no cue is found. Walk exceptions escape as they are, and no cue is exit status 1. |
| Reconstruct.RegionsMain | audio_video_tools/extract_wav_regions.py:111-143 | `extract_wav_regions.py` ends normally exactly when given an argument |
| Reconstruct.MainsAgree | audio_video_tools/extract_wav_regions.py:121-143 | Where the cue tool writes, the regions tool writes the same. Where the cue tool fails past the usage check, the regions tool falls back to chapters. |
| Reconstruct.ReconstructedPathLocal | audio_video_tools/extract_wav_cues.py:120-121 | The output name has no `/`, so it lands in the working directory. Less its 18-character suffix, it is a prefix of the input's base name. |
| Reconstruct.ZeroLengthEntries | audio_video_tools/extract_wav_cues.py:97-98 | When every cue has a stored length of 0, every entry ends where it starts |
| Reconstruct.EncodedZeroLength | audio_video_tools/extract_wav_cues.py:84 | Encoding an SRT and reconstructing it gives one entry per region, each ending where it starts |
| Reconstruct.EncodedEndsStandard | audio_video_tools/extract_wav_cues.py:84 | With the length read at bytes 4-8, entry `k` ends at region `k`'s end sample |
| Reconstruct.EndsFromReports | audio_video_tools/extract_wav_cues.py:97-98 | When the lengths are the ones written, each cue's end sample is its region's end sample |
| Utf8.RoundTrip | converters/srt2regions.py:66 | Lenient UTF-8 decoding of `name.encode('utf-8')` gives back the name |
| Utf8.DecodeNuls | audio_video_tools/extract_wav_cues.py:80 | A run of NUL bytes decodes to the same number of NUL characters |
| Bytes.U32OfReadU32 | audio_video_tools/extract_wav_cues.py:35-36 | Packing what `unpack('<I')` read gives back the four bytes |
| PyText.ParseIntStrip | converters/srt2regions.py:10-11 | `int(s)` is the literal reading of `s.strip()` |
| PyText.ParseInt | converters/srt2regions.py:10 | `int()` on a string fails only with `ValueError` |
| PyText.ParseDigits | converters/srt2regions.py:23-24 | `int()` of a run that `isdigit` accepts succeeds, with the run's digit-by-digit value |
| PyText.ParseZeroPad | audio_video_tools/extract_wav_cues.py:46 | `int()` reads back what a `:0w` format writes, negative numbers included |
| PyText.SplitJoin | converters/srt2regions.py:25 | `sep.join(s.split(sep)) == s`. No piece holds the separator, and there is one piece exactly when the text has none. |
| PyText.DecimalSpec | converters/srt2regions.py:26 | `str(n)` is all digits, reads back as `n`, and has no leading zero |
| AccessibleScript.TimestampFields | converters/srt_to_rtf_accessible.py:8-13 | `format_timestamp`'s hours, minutes and seconds recombine to the whole seconds, and minutes and seconds are below 60 |
| AccessibleScript.FormatTimestamp | converters/srt_to_rtf_accessible.py:8-13 | The `HH:MM:SS` text splits at `:` into the whole hours, the minutes below 60 and the seconds below 60 of the time |
| AccessibleScript.NormalizeMarkerSpec | converters/srt_to_rtf_accessible.py:40-44 | A leading `[…]` marker is kept up to the first `]`, followed by one space and the stripped remainder. Any other text is unchanged. |
| AccessibleScript.NormalizeMarker | converters/srt_to_rtf_accessible.py:40-44 | The result starts with `[` exactly when the content does, and its first `]` is where the content's is |
| AccessibleScript.NormalizeIdempotent | converters/srt_to_rtf_accessible.py:40-44 | Normalising twice is normalising once |
| AccessibleScript.DurationSeconds | converters/srt_to_rtf_accessible.py:46-47 | `math.ceil` of the duration in seconds, pinned down by its bounds |
| AccessibleScript.PlainLayout | converters/srt_to_rtf_accessible.py:63-82 | Entry `k` is lines `k*w` to `k*w + w` of the script, with `w` 6 with timecodes and 4 without |
| AccessibleScript.PlainEntryLines | converters/srt_to_rtf_accessible.py:77-82 | An entry is `Line <n>:`, then `IN:`/`OUT:` exactly with timecodes, the normalised content, `Duration: <n> seconds` and a blank line |
| AccessibleScript.PlainText | converters/srt_to_rtf_accessible.py:63-82 | No subtitles give an empty script. Otherwise the script opens with the `Line 1:` line. |
| AccessibleScript.RtfText | converters/srt_to_rtf_accessible.py:29-57 | The RTF document is the header, the rendered entries in order, and a closing `}` |
| AccessibleScript.RtfFrame | converters/srt_to_rtf_accessible.py:29-57 | The RTF document is the fixed header, the entries and one closing brace |
| AccessibleScript.RtfLayout | converters/srt_to_rtf_accessible.py:35-55 | RTF entry `k` is lines `k*w` to `k*w + w` of the entry part |
| AccessibleScript.Convert | converters/srt_to_rtf_accessible.py:15-84 | A missing input writes nothing. Otherwise one file is written at the input's path with its extension replaced: `.txt` in plain-text mode, `.rtf` otherwise. The `.txt` file holds the plain script with each `\n` written as `\r\n`. The `.rtf` file holds the RTF header, the rendered entries and a closing `}`. |
| NewlineIo.ReadWriteRoundTrip | converters/srt_to_rtf_accessible.py:62 | Text written with `newline='\r\n'` and read in default text mode comes back unchanged |
| NewlineIo.CrLfEveryNewline | converters/srt_to_rtf_accessible.py:62 | Every `\n` of the written file follows a `\r` |
| NewlineIo.WriteCrLf | converters/srt_to_rtf_accessible.py:62 | Every `\n` written through `newline='\r\n'` lands preceded by `\r` |
| NewlineIo.ReadUniversal | txt_to_srt.py:24-25 | Text-mode reading leaves no `\r`, and text without `\r` reads back unchanged |
| TxtToSrt.ParseTimecode | txt_to_srt.py:8-14 | A `ValueError` inside `parse_timecode` becomes exit status 1. The only other failure is the `OverflowError` of `timedelta`, which the `except ValueError` does not catch. A returned time fits in a `timedelta` (under a billion days either way). |
| TxtToSrt.ParseTimecodeShape | txt_to_srt.py:10-14 | Text that is not three `:` parts exits with status 1 |
| TxtToSrt.ParseTimecodeFields | txt_to_srt.py:10-11 | Three zero-padded fields read back as their weighted sum in seconds when that sum is under 999999999 days plus one day. A larger sum raises `OverflowError`. |
| TxtToSrt.ParseTimecodeOverflows | txt_to_srt.py:11 | `24000000000:00:00` converts with `int()` but overflows `timedelta`: `parse_timecode` raises `OverflowError` instead of exiting with status 1 |
| TxtToSrt.StepLine | txt_to_srt.py:31-52 | One loop pass fails only with `IndexError`, exit 1 or `OverflowError`. It appends an entry only when the one being collected is complete. The appended entry carries the current index, the index goes up by one, and collection starts afresh. When nothing is appended the index stays. Which line appends is stated by TxtToSrt.DurationLine. |
| TxtToSrt.RunLines | txt_to_srt.py:30-52 | The loop over every line fails only with `IndexError`, exit 1 or `OverflowError` |
| TxtToSrt.ProcessLines | txt_to_srt.py:27-52 | The entries collected are numbered 1, 2, 3, … in order, and the only failures are `IndexError`, exit 1 and `OverflowError` |
| TxtToSrt.StepShape | txt_to_srt.py:30-52 | One line keeps the numbering and adds at most the completed entry. An entry is added only on a `Duration:` line with a complete partial entry, which then starts afresh. |
| TxtToSrt.DurationLine | txt_to_srt.py:39-50 | `Duration:` emits the entry exactly when start, end and content are all set |
| TxtToSrt.MarkerWithoutSpace | txt_to_srt.py:33-36 | `IN:` or `OUT:` without the following space raises `IndexError` |
| TxtToSrt.RunShape | txt_to_srt.py:30-52 | The loop keeps the numbering and only appends entries |
| TxtToSrt.NoDurationNoEntries | txt_to_srt.py:39-50 | Without a `Duration:` line nothing is emitted |
| TxtToSrt.ProcessNumbered | txt_to_srt.py:27-49 | The subtitles are numbered 1, 2, 3, … |
| TxtToSrt.RunAppend | txt_to_srt.py:30 | Running over two lists of lines is running over the first and then the second |
| TxtToSrt.TxtMain | txt_to_srt.py:16-66 | Without an argument or an existing file nothing is written. Otherwise the output is `<path without extension>.srt`. |
| ScriptRoundTrip.EntryRun | txt_to_srt.py:30-52 | The six lines of one script entry emit that entry under the next number |
| ScriptRoundTrip.AllEntriesRun | txt_to_srt.py:27-52 | All entries of the script emit all subtitles, numbered from 1 |
| ScriptRoundTrip.ScriptReadsBack | txt_to_srt.py:16-54 | `process_txt_to_srt` on the timecoded script gives back each subtitle. Times are whole seconds and the text is the normalised content, stripped. |
| ScriptRoundTrip.ConvertReadsBack | txt_to_srt.py:16-57 | The `.txt` file sits at the input's path with `.txt` for its extension. Read in text mode, it is the script. `txt_to_srt.py` run with that same path as its argument writes the subtitles to the path with `.srt` for its extension. |
| ScriptRoundTrip.OverflowWritesNothing | txt_to_srt.py:16-66 | A script whose `IN:` time overflows a `timedelta` ends `txt_to_srt.py` with `OverflowError` before any `.srt` is written. Without an argument it only prints usage. |
| ScriptRoundTrip.TimestampText | txt_to_srt.py:8-11 | `format_timestamp`'s `HH:MM:SS` reads back through `parse_timecode` as the whole seconds |
| Audacity.LabelLineFields | srt_2_audacity.py:24-28 | The new line has the first two fields and `<counter> <first 15 characters of field 3>`. Fields after the third are dropped. |
| Audacity.BlankLineRaises | srt_2_audacity.py:25-28 | A blank line has one field and raises `IndexError` |
| Audacity.LabelLinesAt | srt_2_audacity.py:20-30 | One output line per input line, in order, the counter going up by one per line |
| Audacity.LabelLinesFail | srt_2_audacity.py:23-30 | The loop fails exactly when some line has fewer than three fields, and then with `IndexError` |
| Audacity.LabelLine | srt_2_audacity.py:24-28 | One line fails only with `IndexError` |
| Audacity.LabelLines | srt_2_audacity.py:20-30 | One label line per input line, and the only failure is `IndexError` |
| Audacity.AudacityMain | srt_2_audacity.py:3-38 | Fewer than two arguments prints usage. A write goes to the second argument and holds the rewritten lines. The only exception is `IndexError`. |
| FrazierCsv.ExtractNotes | converters/frazier_csv_to_studioscript.py:11-16 | An empty or `"0"` field gives no note |
| FrazierCsv.NotesOfMatch | converters/frazier_csv_to_studioscript.py:15-16 | With a bracket pair, the note is the leftmost `[…]` on one line, brackets kept |
| FrazierCsv.NotesWithoutMatch | converters/frazier_csv_to_studioscript.py:16 | Text without a bracket pair comes back unchanged |
| FrazierCsv.NotesIdempotent | converters/frazier_csv_to_studioscript.py:11-16 | Extracting the notes of the notes changes nothing |
| FrazierCsv.DefaultOutput | converters/frazier_csv_to_studioscript.py:77-79 | The default name ends in `_studioscript.xlsx`, and what comes before it is a prefix of the input's base name |
| FrazierCsv.DefaultOutputLocal | converters/frazier_csv_to_studioscript.py:77-79 | The default name holds no `/` |
| Brackets.SearchSpec | converters/frazier_csv_to_studioscript.py:15 | `re.search(r'\[(.*?)\]')` finds the leftmost match, and finds nothing exactly when nothing matches |
| Brackets.CloseAt | converters/frazier_csv_to_studioscript.py:15 | Tried at one position, the lazy group stops at the first `]` and fails at a line break |
| Brackets.Search | converters/frazier_csv_to_studioscript.py:15 | A match found runs from a `[` to the first `]` after it, with no line break in between |
| Brackets.RemoveBrackets | converters/srt_to_studioscript.py:54 | Removing the matches never lengthens the text. That none is left is stated by Brackets.RemovedHasNone. |
| Brackets.RemovedHasNone | converters/srt_to_studioscript.py:54 | After `re.sub(r'\[.*?\]', '', s)` no bracket pair is left on a line |
| SmpteCsv.SmpteFields | srt_to_smpte.py:14-19 | Hours, minutes and seconds recombine to the whole seconds. The frames are the leftover fraction of a second times the rate, floored. |
| SmpteCsv.DeltaToSmpteBack | srt_to_smpte.py:14-19 | The timecode splits at `:` into four numbers. They give the whole seconds and a frame count below the rate that floors the leftover fraction. |
| SmpteCsv.DeltaToSmpte | srt_to_smpte.py:14-19 | The `HH:MM:SS:FF` text splits at `:` into hours, minutes, seconds and frames of the time at the rate |
| SmpteCsv.EntryRow | srt_to_smpte.py:52-65 | An entry of fewer than three lines is skipped. Any other entry makes a row. |
| SmpteCsv.EntryRowOfText | srt_to_smpte.py:52-65 | A written entry gives its number, both timecodes and its text lines joined by spaces |
| SmpteCsv.JoinedTextUnchanged | srt_to_smpte.py:59 | The `.replace('\n', ' ')` after the join changes nothing |
| SmpteCsv.CollectRowsSpec | srt_to_smpte.py:50-65 | One row per entry of three lines or more, in order, with its number and its text |
| SmpteCsv.CollectRows | srt_to_smpte.py:50-65 | The loop makes at most one row per block |
| SmpteCsv.CollectRowsRaises | srt_to_smpte.py:49-71 | One entry that raises fails the whole file |
| SmpteCsv.CsvPathOfSrt | srt_to_smpte.py:40 | A path whose only `.srt` is its extension gets `.csv` |
| SmpteCsv.CsvPathAbsent | srt_to_smpte.py:40 | A path without `.srt` is its own CSV path, so the input is overwritten |
| SmpteCsv.ConvertSrtToCsv | srt_to_smpte.py:31-71 | The CSV is written exactly when every entry converts. It goes to the replaced path and has one row per long entry. |
| Smpte.SmpteFieldsBack | srt_to_xls.py:16 | A timecode split at `:` gives back the four numbers it was printed from |
| Smpte.SplitAnyPieces | srt_to_xls.py:13 | `re.split('[:,]')` pieces hold no separator |
| SrtToXls.SrtToSmpte | srt_to_xls.py:11-16 | `srt_to_smpte` raises `ValueError`, `OverflowError` when the time does not fit a `timedelta`, or `ZeroDivisionError` at rate 0. The `timedelta` is built before the division, so an overflowing time raises `OverflowError` at any rate. On success there were four integer fields, the time fits, and the rate was positive. |
| SrtToXls.SmpteOverflow | srt_to_xls.py:12-13 | With four integer fields, `srt_to_smpte` raises `OverflowError` exactly when the time's whole days fall outside ±999999999, the range of `timedelta` |
| SrtToXls.SmpteOverflows | srt_to_xls.py:12-13 | `24000000000:00:00,000` raises `OverflowError` at every frame rate, 0 included |
| SrtToXls.TimestampFits | srt_to_xls.py:22 | A time the block pattern accepts (`\d{2}` hours) always fits a `timedelta`, so a parsed file never reaches the `OverflowError` |
| SrtToXls.PaddedClock | srt_to_xls.py:12 | `re.split('[:,]', …)` of a zero-padded `HH:MM:SS,mmm` gives back its four fields |
| SrtToXls.ParseSrt | srt_to_xls.py:18-33 | A successful parse has one row per block the pattern finds |
| SrtToXls.FrameOf | srt_to_xls.py:14-15 | The frame count is the fraction of a second times the rate, floored, and below the rate |
| SrtToXls.SmpteKeepsClock | srt_to_xls.py:11-16 | The timecode keeps the hours, minutes and seconds, and its frame field is below the rate |
| SrtToXls.TimestampConverts | srt_to_xls.py:11-29 | Every timestamp the block pattern accepts converts at a positive rate |
| SrtToXls.RowOfWellFormed | srt_to_xls.py:26-31 | A block makes a row with its number's value and its text with line breaks turned into spaces |
| SrtToXls.ParseSrtOk | srt_to_xls.py:18-33 | At a positive rate `parse_srt` never raises: one row per block the pattern finds, in order |
| SrtToXls.ParseSrtZeroRate | srt_to_xls.py:15-28 | At rate 0 a file with a block raises `ZeroDivisionError` |
| SrtToXls.RowsOfRendered | srt_to_xls.py:18-33 | Blocks written out and read back give one row per block, in order, with the block's number and its one-line text |
| SrtToXls.SrtToExcel | srt_to_xls.py:35-54 | The workbook name ends in `.xlsx`. The rows are `parse_srt`'s. A template gets rows from row 2; otherwise a header row and rows from row 3. A parse error escapes. |
| SrtBlocks.FindAllRendered | srt_to_xls.py:22-23 | `findall` on blocks written out finds exactly those blocks, in order |
| SrtBlocks.MatchRender | srt_to_xls.py:22 | A written block is matched at its start, whole, with its own groups |
| SrtBlocks.FindAllShape | srt_to_xls.py:22-23 | Every block found has a digit number, two timestamps of the pattern's shape and a text with no blank line |
| SrtBlocks.NoBlankNoMatch | srt_to_xls.py:22 | A final block with no blank line after its text is not found |
| Workbook.XlsxName | srt_to_xls.py:39-40 | `.xlsx` is appended unless the name already ends with it, case-sensitively |
| Workbook.XlsxNameCi | converters/srt_to_studioscript.py:82-83 | The same with the suffix compared after `lower()` |
| Workbook.XlsxNameIdempotent | srt_to_xls.py:39-40 | Applying either rule twice is applying it once |
| Workbook.UpperCaseSuffix | converters/srt_to_studioscript.py:82-83 | `Script.XLSX` is kept by the case-insensitive rule and becomes `Script.XLSX.xlsx` under the case-sensitive one |
| Workbook.TemplatePath | converters/srt_to_studioscript.py:121-122 | A non-empty `--template` is used, otherwise the default under the home directory |
| Workbook.DefaultTemplate | converters/srt_to_studioscript.py:122 | The expanded default path ends with `/Documents/studioscript_template.xlsx` |
| Workbook.ChooseLayout | converters/srt_to_studioscript.py:85-91 | The template is loaded exactly when it is non-empty and exists |
| Workbook.NoTemplateArgument | converters/frazier_csv_to_studioscript.py:47-84 | Without `--template`, the default template is used exactly when it exists |
| XlsToSrt.RateFrom | converters/xls_to_srt_v2.py:19 | A match found is a position where the pattern matches |
| XlsToSrt.ProbeRateSpec | converters/xls_to_srt_v2.py:8-21 | The rate is the leftmost `r_frame_rate="n/d"`. With none, `ValueError`. |
| XlsToSrt.ProbeRateAtStart | converters/xls_to_srt_v2.py:19-22 | A report starting with the pattern gives its fraction |
| XlsToSrt.ProbeRate | converters/xls_to_srt_v2.py:8-21 | Reading the probed rate fails only with `ValueError` or `ZeroDivisionError` |
| XlsToSrt.SmpteToSrt | converters/xls_to_srt_v2.py:23-32 | A wrong number of parts raises `ValueError`, and rate 0 raises `ZeroDivisionError` |
| XlsToSrt.FrameMs | converters/xls_to_srt_v2.py:31 | The milliseconds are the frames' duration, truncated |
| XlsToSrt.SmpteToSrtFields | converters/xls_to_srt_v2.py:23-32 | The SRT time keeps hours, minutes and seconds, and its milliseconds are the truncated frame duration |
| XlsToSrt.NoCarry | converters/xls_to_srt_v2.py:31-32 | A frame count of a second or more gives a millisecond field of 1000 or more, never carried into the seconds |
| XlsToSrt.SmpteRoundTrip | converters/xls_to_srt_v2.py:23-32 | SRT to SMPTE and back keeps the clock. The milliseconds never grow and lose less than one frame plus one millisecond. |
| XlsToSrt.SrtTextRead | converters/srt2regions.py:8-11 | A time this tool writes is read by `time_to_seconds` as its fields summed |
| XlsToSrt.SrtTextShape | converters/xls_to_srt_v2.py:32 | A time with small enough fields has the shape the SRT block pattern reads |
| XlsToSrt.BlockOf | converters/xls_to_srt_v2.py:44-51 | A row's block keeps its number and its event text |
| XlsToSrt.ExcelToSrt | converters/xls_to_srt_v2.py:34-51 | The rate is probed first, and its failure is the only failure before writing. Otherwise the rows are written. |
| XlsToSrt.WriteRowsSpec | converters/xls_to_srt_v2.py:42-51 | The file holds the blocks of the rows before the first that fails, and then that row's exception escapes |
| XlsToSrt.WriteRows | converters/xls_to_srt_v2.py:42-51 | The loop writes the rendered blocks of every row exactly when every row converts. Otherwise it stops with the first row's exception. |
| XlsToSrt.BlocksOfOk | converters/xls_to_srt_v2.py:43-51 | Every row converts exactly when there is no failing row |
| XlsToSrt.ExcelReadsBack | converters/xls_to_srt_v2.py:34-51 | A sheet whose times all convert writes a complete file, and the block pattern reads back exactly its blocks |
| StudioScript.NormalizeRate | converters/srt_to_studioscript.py:12-18 | 23.976, 29.97 and 59.94 (to three decimals) become the exact NTSC fractions, and any other rate is kept |
| StudioScript.Milli | converters/srt_to_studioscript.py:18 | `round(fps, 3)` lies within half a thousandth of the rate, ties going to the even thousandth |
| StudioScript.NormalizeIdempotent | converters/srt_to_studioscript.py:12-18 | Normalising twice is normalising once |
| StudioScript.EffectiveRealtime | converters/srt_to_studioscript.py:116-119 | Realtime stays on exactly when asked for and the rate is not 24, 25 or 30 |
| StudioScript.FramesAt | converters/srt_to_studioscript.py:28 | The frame count is `total_seconds * frame_rate`, floored |
| StudioScript.SmpteFields | converters/srt_to_studioscript.py:29-34 | Hours, minutes, seconds and frames recombine with weights 86400, 1440 and 24, each field in range |
| StudioScript.SrtToTimecode | converters/srt_to_studioscript.py:20-35 | Only `ValueError` is raised, and the code is realtime exactly in realtime mode |
| StudioScript.SmpteCount | converters/srt_to_studioscript.py:28-35 | The printed SMPTE fields recombine into the frame count |
| StudioScript.NoteFound | converters/srt_to_studioscript.py:51-54 | With a bracket pair, the note is `[stripped inside]` and the text is stripped with no bracket pair left |
| StudioScript.NoteAbsent | converters/srt_to_studioscript.py:55-56 | Without one there is no note, and the text is only flattened onto one line |
| StudioScript.NoteOnce | converters/srt_to_studioscript.py:49-56 | Splitting the remaining text again finds no note |
| StudioScript.SplitNote | converters/srt_to_studioscript.py:49-56 | The script text of a row never holds a newline |
| StudioScript.ParseSrt | converters/srt_to_studioscript.py:37-60 | A successful parse has one row per block the pattern finds |
| StudioScript.RowOf | converters/srt_to_studioscript.py:45-58 | A row's text and note are the note split of the block's text, and its codes are in the mode asked for |
| StudioScript.ParseSrtOk | converters/srt_to_studioscript.py:37-60 | `parse_srt` never raises: one row per block, in order |
| StudioScript.SrtToExcel | converters/srt_to_studioscript.py:78-103 | It always succeeds. The name ends in `.xlsx` case-insensitively, the template is used exactly when it exists, and rows start at row 2. |
| StudioScript.StudioMain | converters/srt_to_studioscript.py:114-129 | The normalised rate and effective realtime flag are used. The default name is `<base>_studioscript.xlsx` or `<base>_realtime.xlsx`, and the template defaults under the home directory. |
| StudioScript.WholeRatesSmpte | converters/srt_to_studioscript.py:117-119 | At 24, 25 or 30 fps every code is SMPTE, whatever was asked for |
| StudioScript.DefaultNameKept | converters/srt_to_studioscript.py:82-127 | The default name is kept by the suffix rule |
| ReaperMarkers.Lazy | converters/srt_to_reaper_markers.py:17 | The lazy text stops at the first position where `\s*` reaches the lookahead |
| ReaperMarkers.MatchCue | converters/srt_to_reaper_markers.py:16-19 | A match has a digit number and two timestamps of the pattern's shape |
| ReaperMarkers.FindCues | converters/srt_to_reaper_markers.py:16-20 | Every cue `findall` returns has start and end text of the `HH:MM:SS,mmm` shape |
| ReaperMarkers.CueText | converters/srt_to_reaper_markers.py:17 | A cue's text is stripped and never runs into the next cue's number line |
| ReaperMarkers.CueEnd | converters/srt_to_reaper_markers.py:17 | A match ends where the next number line starts, or at the end of the text |
| ReaperMarkers.ClockMs | converters/srt_to_reaper_markers.py:9 | The sum succeeds exactly when all four `int()` calls do, and otherwise raises one of their exceptions |
| ReaperMarkers.CueMs | converters/srt_to_reaper_markers.py:7-25 | Every time the pattern matched converts with `to_seconds` |
| ReaperMarkers.ToMsOf | converters/srt_to_reaper_markers.py:7-10 | A time whose four pieces read as integers converts to their weighted sum |
| ReaperMarkers.ToMs | converters/srt_to_reaper_markers.py:7-10 | `to_seconds` fails only with `ValueError` |
| ReaperMarkers.TimestampMs | converters/srt_to_reaper_markers.py:17 | Every time the pattern accepts converts, to a time that is not negative |
| ReaperMarkers.Fixed2Back | converters/srt_to_reaper_markers.py:31-32 | `:.2f` prints the hundredths nearest the time, never more than half a hundredth away |
| ReaperMarkers.Fixed2 | converters/srt_to_reaper_markers.py:31-32 | The `:.2f` text splits at `.` into the whole and hundredth parts of the rounded time |
| ReaperMarkers.Clean | converters/srt_to_reaper_markers.py:26 | The cleaned text has no `"` and no line break |
| ReaperMarkers.CleanStripped | converters/srt_to_reaper_markers.py:26 | Cleaning a stripped text is the two replacements alone, and the result stays stripped |
| ReaperMarkers.GuidFields | converters/srt_to_reaper_markers.py:28-30 | The GUID is braces around five `-`-separated upper-case hex fields, each holding the index |
| ReaperMarkers.GuidWidths | converters/srt_to_reaper_markers.py:28-30 | Below 16^4 the fields have exactly 8, 4, 4, 4 and 12 digits |
| ReaperMarkers.StartMarkerName | converters/srt_to_reaper_markers.py:31 | The name between the quotes of a start marker reads back as the cleaned text |
| ReaperMarkers.EndMarkerName | converters/srt_to_reaper_markers.py:32 | An end marker's name is empty |
| ReaperMarkers.SrtToMarkers | converters/srt_to_reaper_markers.py:12-33 | Two marker lines per cue |
| ReaperMarkers.MarkerLineReadBack | converters/srt_to_reaper_markers.py:23-32 | Line `i` reads back as index `i/2 + 1`. Its quoted name is the cleaned text on a start line and empty on an end line. |
| ReaperMarkers.MarkerLinesOneLine | converters/srt_to_reaper_markers.py:31-32 | No marker line holds a line break |
| ReaperMarkers.InsertAt | converters/srt_to_reaper_markers.py:39 | The insertion point is the last `>`; without one it is `rfind`'s -1, the last character |
| ReaperMarkers.Inject | converters/srt_to_reaper_markers.py:35-43 | The project grows by exactly the inserted block. What lands where is stated by ReaperMarkers.InjectedLines. |
| ReaperMarkers.InjectRemovable | converters/srt_to_reaper_markers.py:35-43 | Cutting the inserted text back out gives the template |
| ReaperMarkers.InjectedLines | converters/srt_to_reaper_markers.py:39-40 | The inserted lines are found again, between the line breaks around them |
| ReaperMarkers.ReaperMainSpec | converters/srt_to_reaper_markers.py:45-55 | The output is the template with the SRT file's marker lines spliced in before its last `>`, each readable again |
| ReaperMarkers.ReaperMain | converters/srt_to_reaper_markers.py:45-55 | The output is the template plus exactly the marker block of the subtitles |

## Left out

- SrtTime.TimeToMs: the model sums the fields exactly, so it has no `OverflowError`. In Python, `int(ms) / 1000` and the int-to-float conversion in the sum at converters/srt2regions.py:11 raise `OverflowError` once a value reaches 2^1024. That takes an hours field of about 305 digits or a milliseconds field of about 312. SrtTime.TimeToSample inherits the gap. Python also raises `OverflowError` at converters/srt2regions.py:14 when `seconds * rate` is infinite, which happens for an hours field of about 300 digits. For such input `add_region_markers` raises `OverflowError` at line 46, before the output file is opened. The model instead returns `Ok` from `TimeToMs`, and `RegionEncoder.WavImage` later fails with `StructError`. The `\d{2}` patterns of the other converters never reach these sizes.
- SrtTime.MsToSample: `int(time_to_seconds(t) * rate)` is computed in binary64 floating point at converters/srt2regions.py:13-14. The model uses the exact product truncated toward zero, so it can differ by one sample where the float product falls just below a whole number.
- SrtTime.SampleMs: `format_time`'s millisecond field (audio_video_tools/extract_wav_cues.py:45) comes from `(t - int(t)) * 1000` in floating point. The model uses the exact `sample * 1000 / rate` rounded down. Offset 110400 at 48000 Hz prints `00:00:02,299` in Python (2.3 - 2 is 0.29999999999999982) and `00:00:02,300` here. CueSrt.GenerateSrt inherits this.
- PyText.IsDigits: `str.isdigit`, and `\d` in the regular expressions, accept every Unicode decimal digit and more (`²`, `٣`). The model accepts ASCII `0-9` only. A line `"²"` opens a block in Python (srt2regions.py:23), and `ParseSrt` skips that line. What Python then does depends on the next line (srt2regions.py:24-28). With no next line, it raises `IndexError`. If the next line, stripped, does not split into exactly two pieces at `' --> '`, it raises `ValueError`. Otherwise it adds a region that the model does not have, and skips four lines where the model skips one.
- PyText.ParseInt: `int()` also accepts non-ASCII decimal digits (`int('٣') == 3`). The model raises `ValueError` for them.
- NewlineIo.ReadUniversal: only the `.txt` output of srt_to_rtf_accessible.py (line 62) is modelled with its `\r\n` translation. Every other file is read and written with the translation ignored. The model assumes inputs hold no `\r`.
- RegionEncoder.WavImage: a pack that raises after the output file was opened leaves a partly written file in Python (srt2regions.py:90-105). The model gives only `Raise(StructError)`. An `OSError` from opening the output file is not modelled.
- The `srt` library: `srt.parse` (srt_to_rtf_accessible.py:25) and `srt.compose` (txt_to_srt.py:54) are not modelled. The accessible-script converter takes the parsed subtitles as a parameter, and `txt_to_srt.py` ends with the subtitles it hands to `srt.compose`.
- `print` output, progress messages and the UTF-8 decoding of input text files are not modelled. Text inputs are Dafny strings.
- SmpteCsv.ConvertSrtToCsv: without exactly two arguments, srt_to_smpte.py:79-85 asks for both paths with `input()`. The model starts from the two paths and does not model the prompt.
- `argparse` parsing is not modelled, nor are `os.path.exists` checks except where they choose a branch. Those branches take the set of existing paths, or `Option` file contents, as a parameter.
- `ffprobe` (extract_wav_regions.py:99-109, xls_to_srt_v2.py:8-21) and `moviepy` (srt_to_smpte.py:22-28) are not run. The chapter fallback takes the chapter text as a parameter, and `get_frame_rate` in xls_to_srt_v2.py takes the report text.
- `openpyxl` and `pandas` (workbooks, `read_csv`, `read_excel`, `to_csv`, `DataFrame`) are not modelled. A sheet is a record of path, layout, first row and rows. The spreadsheet rows read by xls_to_srt_v2.py and frazier_csv_to_studioscript.py are a parameter. Cell fonts, widths and row heights are not modelled.
- FrazierCsv.ExtractNotes: `csv_to_excel` (frazier_csv_to_studioscript.py:36-65) is reduced to its notes rule, its layout choice and its default names. The column renaming is library work.
- SmpteCsv.ConvertSrtToCsv: `datetime.strptime(…, '%H:%M:%S,%f')` (srt_to_smpte.py:10-11) is a parameter `parse` returning microseconds or an exception. Its format rules are not modelled.
- SmpteCsv.SmpteFields: `(t.total_seconds() - total_seconds) * fps` is computed exactly. The float product can floor one frame lower where it is just below a whole number.
- SrtToXls.FrameOf: `(total_seconds * frame_rate) % frame_rate` is computed exactly on the rational rate. The float `%` can differ by one frame at boundaries.
- StudioScript.FramesAt: the frame count `total_seconds * frame_rate` is computed exactly. Float rounding can move a boundary by one frame.
- StudioScript.SrtToTimecode: in realtime mode the code is kept as milliseconds. The text `str(timedelta)[:-3]` (srt_to_studioscript.py:25-26) is not built. That text drops the leading zero of the hours and is cut wrongly when the microseconds are 0.
- StudioScript.Milli: `round(fps, 3)` is rounded half to even on the exact fraction. The float argument can round differently at a tie.
- ReaperMarkers.Fixed2: `:.2f` rounds the binary64 value of `ms / 1000` half to even. The model rounds the exact decimal half to even, which differs where the float lies just off the tie.
- ReaperMarkers.TimestampMs: the contract states only that a matched time converts to a non-negative value. Its exact value is stated by ReaperMarkers.ToMsOf.
- XlsToSrt.ProbeRate: `float(num) / float(denom)` is kept as the exact fraction `num/den`, so every later use is exact.
- Workbook.DefaultTemplate: `os.path.expanduser` is modelled for a `$HOME` given as a parameter. The `~user` forms and an unset `$HOME` are not.
- PyText.AsciiLower: `str.lower()` is modelled on ASCII letters only. It decides only whether a name ends in `.xlsx`, where non-ASCII lowering never yields those letters. The exception is `İ`, whose lower-case form is two characters.
- Smpte.Rate: rates are natural-number fractions, so a negative frame rate is outside the model. argparse's `float` would accept one.
- ReaperMarkers.ToMs: `to_seconds` divides `int(ms)` by 1000 as a float (srt_to_reaper_markers.py:10). The model keeps whole milliseconds, and only the printed `:.2f` value uses it.
- Audacity.AudacityMain: `exit()` after a failed open or write (srt_2_audacity.py:16-18, 36-38) is modelled as outcomes `Unreadable` and `Unwritable`. Python's `exit()` status is not.
- TxtToSrt.ParseTimecode: a time of a billion days or more raises `OverflowError` from `timedelta` (txt_to_srt.py:11), which `except ValueError` does not catch. The model no longer promises that every failure is exit status 1.
- ScriptRoundTrip.ScriptReadsBack: the read-back is proved for subtitles whose times fit a `timedelta`. The writer prints any whole number of hours, and a larger time raises `OverflowError` on reading (ScriptRoundTrip.OverflowWritesNothing).
- RiffWalk.WalkFrom: the recursive walk carries no contract of its own. What it collects is stated by RiffWalk.WalkStep, RiffWalk.WalkStops and RiffWalk.WalkUnique.
- RegionEncoder.WavImage: the contract names the `RIFF` and `WAVE` tags and the one failure. The full byte layout is stated by EncoderFacts.WavImageLayout.
- RegionEncoder.AddRegionMarkers: the contract covers the parse outcome only. The bytes written are stated by EncoderFacts.WrittenParts and EncoderFacts.WavImageLayout.
- SrtTime.FormatTime: the contract states only the length. Its reading is stated by SrtTime.TimeRoundTrip and SrtTime.FieldsRoundTrip.
- CueSrt.GenerateSrt: the contract states only when the text is empty. Its lines are stated by CueText.GeneratedLines.
- Brackets.RemoveBrackets: the contract states only that the text does not grow. That no match is left is stated by Brackets.RemovedHasNone.
- SmpteCsv.CollectRows: the contract bounds the row count. The rows themselves are stated by SmpteCsv.CollectRowsSpec.
- SrtToXls.ParseSrt: the contract gives the row count. The rows are stated by SrtToXls.ParseSrtOk.
- StudioScript.ParseSrt: the contract gives the row count. The rows are stated by StudioScript.ParseSrtOk.
- ReaperMarkers.Inject: the contract gives the length. Where each line lands is stated by ReaperMarkers.InjectedLines.
- ReaperMarkers.ReaperMain: the contract gives the length. The content is stated by ReaperMarkers.ReaperMainSpec.

## Findings

| source | as written | input that shows it | evidently intended | confidence | as-written member | corrected member |
|---|---|---|---|---|---|---|
| audio_video_tools/extract_wav_cues.py:84 (and extract_wav_regions.py:77) | `cue_point_id, _, _, sample_length, _ = unpack('<IIIII', data[:20])` reads the length from payload bytes 12-16. srt2regions.py:72-75 writes the length at bytes 4-8, and the RIFF `ltxt` layout puts dwSampleLength there too. | Any SRT with one region `00:00:01,000 --> 00:00:03,000`. The region is written with length 96000 at 48 kHz, read back with length 0, and regenerated as an entry ending where it starts. | the length is read at bytes 4-8, so each entry ends at its region's end sample | high (proved in the model; not executed) | Reconstruct.EncodedZeroLength (with ReadBack.ReadBackAsWritten) | Reconstruct.EncodedEndsStandard (with ReadBack.ReadBackStandard) |
| converters/srt2regions.py:83-88 | `riff_size` adds 8 for the headers of the `cue ` and `LIST` chunks a second time (`len(cue_chunk)` and `len(list_chunk)` already include them) and leaves out the 4 bytes of `WAVE`. The field is 12 more than the RIFF definition's `len(file) - 8`. | Any SRT with at least one block, such as one region of one second. The file's RIFF size field exceeds its length minus 8 by 12. | the field holds `len(file) - 8`, as the comment at line 82 says | high (proved in the model; not executed) | EncoderFacts.RiffSizeOverstated | EncoderFacts.RiffSizeCorrect |

=== FILE: accessible_script.dfy ===
/** converters/srt_to_rtf_accessible.py: an SRT file rewritten as a
    screen-reader friendly script, either RTF or plain text. Each subtitle
    becomes a numbered `Line` entry with, optionally, its IN and OUT times in
    whole seconds, its text with a leading `[marker]` set apart, and its
    duration rounded up to whole seconds. Subtitle times are whole
    milliseconds; `srt.parse` itself is not modelled, its result is the
    input. */
module AccessibleScript {
  import opened PyCore
  import opened PyText
  import opened SrtTime
  import opened NewlineIo

  /** A subtitle as `srt.parse` yields it. */
  datatype Subtitle = Subtitle(start: nat, end: nat, content: string)

  /** `format_timestamp`: the time truncated to whole seconds, printed as
      `HH:MM:SS` with the hours not wrapped at 24. */
  function FormatTimestamp(ms: nat): (r: string)
    ensures var total := ms / 1000;
      ParseAll(Split(r, ":")) == Ok([total / 3600, total % 3600 / 60, total % 60])
  {
    var total := ms / 1000;
    var h, m, s := total / 3600, total % 3600 / 60, total % 60;
    PaddedField(h, 2);
    PaddedField(m, 2);
    PaddedField(s, 2);
    SplitClock(ZeroPad(h, 2), ZeroPad(m, 2), ZeroPad(s, 2));
    ParseThree(ZeroPad(h, 2), ZeroPad(m, 2), ZeroPad(s, 2), h, m, s);
    ZeroPad(h, 2) + ":" + ZeroPad(m, 2) + ":" + ZeroPad(s, 2)
  }

  /** The three fields `format_timestamp` prints recombine to the whole
      seconds, and minutes and seconds are below 60. */
  lemma TimestampFields(ms: nat)
    ensures var total := ms / 1000;
      && total % 3600 / 60 < 60 && total % 60 < 60
      && (total / 3600) * 3600 + (total % 3600 / 60) * 60 + total % 60 == total
  {
    var total := ms / 1000;
    var h, r := total / 3600, total % 3600;
    var m, sec := r / 60, r % 60;
    assert total == h * 3600 + r;
    assert r == m * 60 + sec && sec < 60;
    ModSixty(total, h * 60 + m, sec);
  }

  lemma ModSixty(x: nat, q: nat, r: nat)
    requires x == q * 60 + r && r < 60
    ensures x % 60 == r
  {
  }

  /** Lines 40-44 (and 68-72): text that starts with `[` and holds a `]`
      keeps everything up to the first `]`, then one space, then the rest
      stripped. */
  function NormalizeMarker(content: string): (r: string)
    ensures StartsWith(r, "[") <==> StartsWith(content, "[")
    ensures FindChar(r, ']') == FindChar(content, ']')
  {
    if StartsWith(content, "[") then
      var k := FindChar(content, ']');
      if k != -1 then
        var rest := " " + Strip(content[k + 1..]);
        FirstCharKept(content[..k + 1], rest, ']', k);
        assert content[..k + 1] + " " + Strip(content[k + 1..]) == content[..k + 1] + rest;
        content[..k + 1] + " " + Strip(content[k + 1..])
      else content
    else content
  }

  /** The marker text is kept, the first `]` stays where it was, and what
      follows it is a single space then the stripped remainder. */
  lemma NormalizeMarkerSpec(content: string)
    ensures StartsWith(content, "[") && FindChar(content, ']') != -1 ==>
      var k := FindChar(content, ']');
      var r := NormalizeMarker(content);
      && r[..k + 1] == content[..k + 1] && FindChar(r, ']') == k
      && r[k + 1..] == " " + Strip(content[k + 1..])
    ensures !(StartsWith(content, "[") && FindChar(content, ']') != -1) ==> NormalizeMarker(content) == content
  {
    if StartsWith(content, "[") && FindChar(content, ']') != -1 {
      var k := FindChar(content, ']');
      var r := NormalizeMarker(content);
      assert r[..k + 1] == content[..k + 1];
      FirstCharKept(content[..k + 1], " " + Strip(content[k + 1..]), ']', k);
    }
  }

  /** A first occurrence inside a prefix stays the first occurrence. */
  lemma FirstCharKept(p: string, rest: string, c: char, k: nat)
    requires k < |p| && p[k] == c && forall j :: 0 <= j < k ==> p[j] != c
    ensures FindChar(p + rest, c) == k
  {
    var s := p + rest;
    assert s[k] == c;
    assert forall j :: 0 <= j < k ==> s[j] == p[j];
  }

  /** Stripping text with a single leading space gives the text back when it
      is already stripped. */
  lemma StripSpaceStripped(s: string)
    requires IsStripped(s)
    ensures Strip(" " + s) == s
  {
    StripAfterSpaces(" ", s);
    StripOfStripped(s);
  }

  /** Text already in normal form: a marker whose only `]` is its last
      character, a space, and stripped text. */
  lemma NormalFormKept(marker: string, rest: string)
    requires |marker| > 0 && marker[0] == '[' && marker[|marker| - 1] == ']'
    requires forall j :: 0 <= j < |marker| - 1 ==> marker[j] != ']'
    requires IsStripped(rest)
    ensures NormalizeMarker(marker + " " + rest) == marker + " " + rest
  {
    var r := marker + " " + rest;
    var k := |marker| - 1;
    FirstCharKept(marker, " " + rest, ']', k);
    assert r == marker + (" " + rest);
    assert r[..1] == "[";
    assert r[..k + 1] == marker;
    assert r[k + 1..] == " " + rest;
    StripSpaceStripped(rest);
  }

  /** Normalising twice is normalising once. */
  lemma NormalizeIdempotent(content: string)
    ensures NormalizeMarker(NormalizeMarker(content)) == NormalizeMarker(content)
  {
    if StartsWith(content, "[") && FindChar(content, ']') != -1 {
      var k := FindChar(content, ']');
      StripIsStripped(content[k + 1..]);
      assert content[..k + 1][0] == content[..1][0] == '[';
      NormalFormKept(content[..k + 1], Strip(content[k + 1..]));
    }
  }

  /** `math.ceil(duration.total_seconds())`: the duration in seconds,
      rounded up; negative when the subtitle ends before it starts. */
  function DurationSeconds(s: Subtitle): (r: int)
    ensures (r - 1) * 1000 < s.end - s.start <= r * 1000
  {
    CeilDiv(s.end - s.start, 1000)
  }

  // ------------------------------------------------------------ plain text

  /** The lines one entry of the plain-text script adds (lines 77-82): the
      last write, `Duration: ... seconds` and an empty line, is two lines. */
  function PlainEntry(idx: nat, s: Subtitle, timecodes: bool): (lines: seq<string>)
    ensures |lines| == EntryWidth(timecodes)
  {
    ["Line " + IntStr(idx) + ":\n"]
    + (if timecodes then ["IN: " + FormatTimestamp(s.start) + "\n", "OUT: " + FormatTimestamp(s.end) + "\n"] else [])
    + [NormalizeMarker(s.content) + "\n", "Duration: " + IntStr(DurationSeconds(s)) + " seconds\n", "\n"]
  }

  /** How many lines one entry takes. */
  function EntryWidth(timecodes: bool): nat {
    if timecodes then 6 else 4
  }

  /** `enumerate(subtitles, start=1)`: entry `k` is subtitle `k`, numbered
      `k + 1`. */
  function PlainEntries(subs: seq<Subtitle>, timecodes: bool): (es: seq<seq<string>>)
    ensures |es| == |subs|
  {
    seq(|subs|, k requires 0 <= k < |subs| => PlainEntry(k + 1, subs[k], timecodes))
  }

  /** The plain-text script as the program writes it; the file opened with
      `newline='\r\n'` holds `WriteCrLf` of it. */
  function PlainText(subs: seq<Subtitle>, timecodes: bool): (r: string)
    ensures |subs| == 0 ==> r == ""
    ensures |subs| > 0 ==> StartsWith(r, "Line " + IntStr(1) + ":\n")
  {
    var es := PlainEntries(subs, timecodes);
    if |subs| > 0 then
      var lines := Flatten(es);
      assert lines == es[0] + Flatten(es[1..]) && lines[0] == es[0][0];
      assert Concat(lines) == lines[0] + Concat(lines[1..]);
      Concat(lines)
    else Concat(Flatten(es))
  }

  // ------------------------------------------------------------ RTF

  /** The fixed four header lines (lines 30-33). */
  const RTF_HEADER: seq<string> := [
    "{\\rtf1\\ansi\\deff0\\nouicompat\n",
    "{\\fonttbl {\\f0\\fswiss Helvetica;}}\n",
    "\\viewkind4\\uc1\n",
    "\\pard\\sa200\\sl276\\slmult1\\f0\\fs22\n"
  ]

  /** The lines one RTF entry adds (lines 49-55). */
  function RtfEntry(idx: nat, s: Subtitle, timecodes: bool): (lines: seq<string>)
    ensures |lines| == EntryWidth(timecodes)
  {
    ["Line " + IntStr(idx) + ": \\par\n"]
    + (if timecodes then ["IN: " + FormatTimestamp(s.start) + "\\par\n", "OUT: " + FormatTimestamp(s.end) + "\\par\n"] else [])
    + [NormalizeMarker(s.content) + "\\par\n", "Duration: " + IntStr(DurationSeconds(s)) + " seconds\\par\n", "\\par\n"]
  }

  function RtfEntries(subs: seq<Subtitle>, timecodes: bool): (es: seq<seq<string>>)
    ensures |es| == |subs|
  {
    seq(|subs|, k requires 0 <= k < |subs| => RtfEntry(k + 1, subs[k], timecodes))
  }

  /** The RTF document: the header, the entries, and one closing brace. */
  function RtfText(subs: seq<Subtitle>, timecodes: bool): (r: string)
    ensures r == RTF_HEADER_TEXT + Concat(Flatten(RtfEntries(subs, timecodes))) + "}"
    ensures StartsWith(r, RTF_HEADER_TEXT) && EndsWith(r, "}")
  {
    Concat4(RTF_HEADER[0], RTF_HEADER[1], RTF_HEADER[2], RTF_HEADER[3]);
    Framed(RTF_HEADER, Flatten(RtfEntries(subs, timecodes)), "}");
    Concat(RTF_HEADER + Flatten(RtfEntries(subs, timecodes)) + ["}"])
  }

  // ------------------------------------------------------------ the conversion

  /** The one file a conversion writes: its path and the text it holds. */
  datatype Output = Output(path: string, text: string)

  /** `convert_srt_to_accessible_formats`: a missing input writes nothing;
      otherwise exactly one file, `<path without extension>.txt` in plain-text
      mode and `.rtf` otherwise. The `.txt` file is opened with
      `newline='\r\n'`, so each `\n` the script writes lands as `\r\n`; the
      `.rtf` file keeps `\n`. */
  function Convert(input: string, subs: Option<seq<Subtitle>>, plainText: bool, timecodes: bool): (r: Option<Output>)
    ensures r.Some? <==> subs.Some?
    ensures r.Some? ==> StartsWith(r.value.path, StripExt(input))
    ensures r.Some? ==> (EndsWith(r.value.path, ".txt") <==> plainText)
    ensures r.Some? ==> (EndsWith(r.value.path, ".rtf") <==> !plainText)
    ensures r.Some? ==> r.value.path == StripExt(input) + (if plainText then ".txt" else ".rtf")
    ensures r.Some? && plainText ==> CrBeforeLf(r.value.text)
    ensures r.Some? && plainText ==> r.value.text == WriteCrLf(PlainText(subs.value, timecodes))
    ensures r.Some? && !plainText ==>
      r.value.text == RTF_HEADER_TEXT + Concat(Flatten(RtfEntries(subs.value, timecodes))) + "}"
  {
    match subs
    case None => None
    case Some(ss) =>
      var base := StripExt(input);
      if plainText then
        CrLfEveryNewline(PlainText(ss, timecodes));
        Some(Output(base + ".txt", WriteCrLf(PlainText(ss, timecodes))))
      else
        RtfFrame(ss, timecodes);
        Some(Output(base + ".rtf", RtfText(ss, timecodes)))
  }

  // ------------------------------------------------------------ layout

  /** Entry `k` of the plain-text script is lines `k * w` to `k * w + w` of
      it, `w` being 6 with timecodes and 4 without. */
  lemma PlainLayout(subs: seq<Subtitle>, timecodes: bool, k: nat)
    requires k < |subs|
    ensures var lines, w := Flatten(PlainEntries(subs, timecodes)), EntryWidth(timecodes);
      && |lines| == |subs| * w
      && k * w + w <= |lines|
      && lines[k * w .. k * w + w] == PlainEntry(k + 1, subs[k], timecodes)
  {
    FlattenUniform(PlainEntries(subs, timecodes), EntryWidth(timecodes), k);
  }

  /** The lines of one plain-text entry: `Line <n>:`, then the IN and OUT
      times only with timecodes, then the text with its marker set apart,
      the duration and a blank line. */
  lemma PlainEntryLines(idx: nat, s: Subtitle, timecodes: bool)
    ensures var block, w := PlainEntry(idx, s, timecodes), EntryWidth(timecodes);
      && block[0] == "Line " + IntStr(idx) + ":\n"
      && (timecodes ==>
            block[1] == "IN: " + FormatTimestamp(s.start) + "\n" && block[2] == "OUT: " + FormatTimestamp(s.end) + "\n")
      && block[w - 3] == NormalizeMarker(s.content) + "\n"
      && block[w - 2] == "Duration: " + IntStr(DurationSeconds(s)) + " seconds\n"
      && block[w - 1] == "\n"
  {
  }

  /** The four header lines joined. */
  const RTF_HEADER_TEXT: string := RTF_HEADER[0] + RTF_HEADER[1] + RTF_HEADER[2] + RTF_HEADER[3]

  /** The RTF document is the fixed header, the entries, and a single
      closing brace. */
  lemma RtfFrame(subs: seq<Subtitle>, timecodes: bool)
    ensures RtfText(subs, timecodes) == RTF_HEADER_TEXT + Concat(Flatten(RtfEntries(subs, timecodes))) + "}"
    ensures StartsWith(RtfText(subs, timecodes), RTF_HEADER_TEXT) && EndsWith(RtfText(subs, timecodes), "}")
  {
    Concat4(RTF_HEADER[0], RTF_HEADER[1], RTF_HEADER[2], RTF_HEADER[3]);
    Framed(RTF_HEADER, Flatten(RtfEntries(subs, timecodes)), "}");
  }

  /** Pieces between a fixed head and a last piece concatenate between
      their concatenations. */
  lemma Framed(head: seq<string>, body: seq<string>, last: string)
    ensures var t := Concat(head + body + [last]);
      && t == Concat(head) + Concat(body) + last
      && StartsWith(t, Concat(head)) && EndsWith(t, last)
  {
    ConcatAppend(head + body, [last]);
    ConcatAppend(head, body);
    assert Concat([last]) == last + Concat([]);
    var t := Concat(head) + Concat(body) + last;
    assert t[..|Concat(head)|] == Concat(head);
    assert t[|t| - |last|..] == last;
  }

  /** Entry `k` of the RTF document is lines `k * w` to `k * w + w` of the
      entry part. */
  lemma RtfLayout(subs: seq<Subtitle>, timecodes: bool, k: nat)
    requires k < |subs|
    ensures var lines, w := Flatten(RtfEntries(subs, timecodes)), EntryWidth(timecodes);
      && |lines| == |subs| * w
      && k * w + w <= |lines|
      && lines[k * w .. k * w + w] == RtfEntry(k + 1, subs[k], timecodes)
  {
    FlattenUniform(RtfEntries(subs, timecodes), EntryWidth(timecodes), k);
  }
}

=== FILE: audacity.dfy ===
/** srt_2_audacity.py: every line of a tab-separated label file is stripped,
    cut at its tabs, and rewritten as its first two fields and a third field
    made of a running number and the first 15 characters of the original
    third field. */
module Audacity {
  import opened PyCore
  import opened PyText
  import opened SrtTime
  import opened NewlineIo
  import opened Smpte

  /** `s[:n]` for `n >= 0`. */
  function Head(s: string, n: nat): (r: string)
    ensures |r| == if |s| < n then |s| else n
    ensures StartsWith(s, r)
  {
    if |s| <= n then s else s[..n]
  }

  /** The new third field: the counter, a space, at most 15 characters of
      the old one, and the line end. */
  function LabelField(counter: int, field: string): string {
    IntStr(counter) + " " + Head(field, 15) + "\n"
  }

  /** One pass of the loop (lines 24-28): `fields[0]`, `fields[1]` and
      `fields[2]` are read before anything is built, so a line with fewer
      than three fields raises `IndexError`. */
  function LabelLine(counter: int, raw: string): (r: Result<string>)
    ensures r.Raise? ==> r.exc == IndexError
  {
    var fields := Split(Strip(raw), "\t");
    if |fields| < 3 then Raise(IndexError)
    else Ok(Join([fields[0], fields[1], LabelField(counter, fields[2])], "\t"))
  }

  /** The loop over all lines, the counter going up by one per line; the
      first line that raises ends the program. */
  function LabelLines(counter: int, lines: seq<string>): (r: Result<seq<string>>)
    ensures r.Ok? ==> |r.value| == |lines|
    ensures r.Raise? ==> r.exc == IndexError
    decreases |lines|
  {
    if |lines| == 0 then Ok([])
    else
      var out :- LabelLine(counter, lines[0]);
      var rest :- LabelLines(counter + 1, lines[1..]);
      Ok([out] + rest)
  }

  /** What a run leaves behind. Each early `exit()` prints a message and
      ends the program with status 0 before anything is written. */
  datatype Outcome = Usage | Unreadable | Unwritable | Wrote(path: string, text: string)

  /** The whole script. `input` is the list `readlines()` returns, or `None`
      when opening or reading fails; `writable` says whether the output file
      can be opened for writing. */
  function AudacityMain(argv: seq<string>, input: Option<seq<string>>, writable: bool): (r: Result<Outcome>)
    ensures |argv| < 3 ==> r == Ok(Usage)
    ensures r.Ok? && r.value.Wrote? ==> |argv| >= 3 && input.Some? && writable && r.value.path == argv[2]
    ensures r.Ok? && r.value.Wrote? ==> LabelLines(1, input.value).Ok? && r.value.text == Concat(LabelLines(1, input.value).value)
    ensures r.Raise? ==> r.exc == IndexError
  {
    if |argv| < 3 then Ok(Usage)
    else match input
      case None => Ok(Unreadable)
      case Some(lines) =>
        var out :- LabelLines(1, lines);
        if !writable then Ok(Unwritable) else Ok(Wrote(argv[2], Concat(out)))
  }

  // ------------------------------------------------------------ properties

  /** A written line splits at its tabs into exactly three fields: the
      first two fields of the stripped input line, unchanged, then the
      counter, a space and the first 15 characters of the third field.
      Fields after the third are gone. */
  lemma LabelLineFields(counter: int, raw: string)
    requires LabelLine(counter, raw).Ok?
    ensures var f := Split(Strip(raw), "\t");
      Split(LabelLine(counter, raw).value, "\t") == [f[0], f[1], LabelField(counter, f[2])]
  {
    var f := Split(Strip(raw), "\t");
    SplitJoin(Strip(raw), "\t");
    NotContainsNoChar(f[0], '\t');
    NotContainsNoChar(f[1], '\t');
    NotContainsNoChar(f[2], '\t');
    var h := Head(f[2], 15);
    assert NoChar(h, '\t');
    ZeroPadNoChar(counter, 0, '\t');
    ConcatNoChar(IntStr(counter), " ", '\t');
    ConcatNoChar(IntStr(counter) + " ", h, '\t');
    ConcatNoChar(IntStr(counter) + " " + h, "\n", '\t');
    SplitOfJoin([f[0], f[1], LabelField(counter, f[2])], "\t");
  }

  lemma NotContainsNoChar(s: string, c: char)
    requires !Contains(s, [c])
    ensures NoChar(s, c)
  {
    forall i | 0 <= i < |s|
      ensures s[i] != c
    {
      assert !Occurs(s, [c], i);
      assert s[i..i + 1] == [s[i]];
    }
  }

  /** A blank line, or one of only whitespace, has a single empty field and
      raises `IndexError`. */
  lemma BlankLineRaises(counter: int, raw: string)
    requires Strip(raw) == ""
    ensures LabelLine(counter, raw) == Raise(IndexError)
  {
    NoCharNotContains("", "\t");
    SplitAbsent("", "\t");
  }

  /** One output line per input line, in order, the counter starting at
      `counter` and going up by one per line. */
  lemma {:induction false} LabelLinesAt(counter: int, lines: seq<string>)
    requires LabelLines(counter, lines).Ok?
    ensures forall k :: 0 <= k < |lines| ==>
      LabelLine(counter + k, lines[k]) == Ok(LabelLines(counter, lines).value[k])
    decreases |lines|
  {
    if |lines| > 0 {
      LabelLinesAt(counter + 1, lines[1..]);
      forall k | 1 <= k < |lines|
        ensures LabelLine(counter + k, lines[k]) == Ok(LabelLines(counter, lines).value[k])
      {
        assert lines[k] == lines[1..][k - 1];
        assert LabelLines(counter, lines).value[k] == LabelLines(counter + 1, lines[1..]).value[k - 1];
      }
    }
  }

  /** The loop fails exactly when some line has fewer than three fields,
      and then with `IndexError`. */
  lemma {:induction false} LabelLinesFail(counter: int, lines: seq<string>)
    ensures LabelLines(counter, lines).Raise? <==>
      exists k :: 0 <= k < |lines| && |Split(Strip(lines[k]), "\t")| < 3
    decreases |lines|
  {
    if |lines| > 0 {
      LabelLinesFail(counter + 1, lines[1..]);
      if exists k :: 1 <= k < |lines| && |Split(Strip(lines[k]), "\t")| < 3 {
        var k :| 1 <= k < |lines| && |Split(Strip(lines[k]), "\t")| < 3;
        assert lines[1..][k - 1] == lines[k];
      }
      if exists k :: 0 <= k < |lines| - 1 && |Split(Strip(lines[1..][k]), "\t")| < 3 {
        var k :| 0 <= k < |lines| - 1 && |Split(Strip(lines[1..][k]), "\t")| < 3;
        assert lines[1..][k] == lines[k + 1];
      }
    }
  }
}

=== FILE: brackets.dfy ===
/** The bracket pattern `\[(.*?)\]` without `re.DOTALL`, as `re.search` and
    `re.sub` apply it in the two studio-script converters: a `[`, then as few
    characters as possible, none a line break, then a `]`. */
module Brackets {
  import opened PyCore
  import opened PyText
  import opened SrtTime

  /** The pattern tried at `i` matches `s[i..j + 1]`: a `[`, then the first
      `]` after it, with no line break before that `]`. */
  predicate BracketAt(s: string, i: int, j: int) {
    && 0 <= i < j < |s|
    && s[i] == '[' && s[j] == ']'
    && forall k :: i < k < j ==> s[k] != ']' && s[k] != '\n'
  }

  /** The first position at or after `k` where the lazy `.*?` must stop:
      a `]` ends the match, a line break ends the attempt. */
  function StopFrom(s: string, k: nat): (r: Option<nat>)
    ensures r.Some? ==> k <= r.value < |s| && (s[r.value] == ']' || s[r.value] == '\n')
    ensures r.Some? ==> forall q :: k <= q < r.value ==> s[q] != ']' && s[q] != '\n'
    ensures r.None? ==> forall q :: k <= q < |s| ==> s[q] != ']' && s[q] != '\n'
    decreases |s| - k
  {
    if k >= |s| then None
    else if s[k] == ']' || s[k] == '\n' then Some(k)
    else StopFrom(s, k + 1)
  }

  /** The pattern tried at position `i`: where its `]` is, if it matches. */
  function CloseAt(s: string, i: nat): (r: Option<nat>)
    ensures forall j :: BracketAt(s, i, j) <==> r == Some(j)
  {
    if i < |s| && s[i] == '[' then
      match StopFrom(s, i + 1)
      case Some(j) => if s[j] == ']' then Some(j) else None
      case None => None
    else None
  }

  /** `re.search` from position `i` on: the pattern is tried at `i`, `i + 1`,
      ... and the first position where it matches wins. */
  function SearchFrom(s: string, i: nat): (r: Option<(nat, nat)>)
    ensures r.Some? ==> i <= r.value.0 && BracketAt(s, r.value.0, r.value.1)
    decreases |s| - i
  {
    if i >= |s| then None
    else
      match CloseAt(s, i)
      case Some(j) => Some((i, j))
      case None => SearchFrom(s, i + 1)
  }

  /** `re.search(r'\[(.*?)\]', s)`: the span `(start, index of ])` of the
      match. */
  function Search(s: string): (r: Option<(nat, nat)>)
    ensures r.Some? ==> BracketAt(s, r.value.0, r.value.1)
  {
    SearchFrom(s, 0)
  }

  lemma {:induction false} SearchFromSpec(s: string, i: nat)
    ensures SearchFrom(s, i).Some? ==>
      forall a, b :: i <= a < SearchFrom(s, i).value.0 ==> !BracketAt(s, a, b)
    ensures SearchFrom(s, i).None? ==> forall a, b :: i <= a ==> !BracketAt(s, a, b)
    decreases |s| - i
  {
    if i < |s| && CloseAt(s, i).None? {
      SearchFromSpec(s, i + 1);
    }
  }

  /** The search finds the leftmost match, and finds nothing exactly when
      nothing matches. */
  lemma SearchSpec(s: string)
    ensures Search(s).Some? ==>
      forall a, b :: 0 <= a < Search(s).value.0 ==> !BracketAt(s, a, b)
    ensures Search(s).None? <==> forall a, b :: !BracketAt(s, a, b)
  {
    SearchFromSpec(s, 0);
  }

  /** A `[` with neither a `]` nor a line break after it on its line never
      starts a match, nor does a `[` whose line ends before the next `]`. */
  lemma UnclosedNoMatch(s: string, i: nat)
    requires i < |s| && s[i] == '['
    requires StopFrom(s, i + 1).None? || s[StopFrom(s, i + 1).value] == '\n'
    ensures forall j :: !BracketAt(s, i, j)
  {
  }

  /** `re.sub(r'\[.*?\]', '', s)`: every match, scanning left to right and
      resuming after each one, removed. */
  function RemoveBrackets(s: string): (r: string)
    ensures |r| <= |s|
    decreases |s|
  {
    match Search(s)
    case None => s
    case Some((i, j)) => s[..i] + RemoveBrackets(s[j + 1..])
  }

  /** On one line, nothing before the leftmost match is a `[`: a `[` there
      would itself start a match, closed by the `]` that closes the first. */
  lemma NoOpenBefore(s: string)
    requires NoChar(s, '\n') && Search(s).Some?
    ensures forall a :: 0 <= a < Search(s).value.0 ==> s[a] != '['
  {
    var (i, j) := Search(s).value;
    SearchSpec(s);
    forall a | 0 <= a < i
      ensures s[a] != '['
    {
      if s[a] == '[' {
        var stop := StopFrom(s, a + 1);
        assert stop.Some? by {
          assert a + 1 <= j < |s| && s[j] == ']';
        }
        assert BracketAt(s, a, stop.value);
      }
    }
  }

  /** A match in a slice is a match in the whole text, shifted. */
  lemma BracketInSlice(s: string, lo: nat, hi: nat, a: int, b: int)
    requires lo <= hi <= |s| && BracketAt(s[lo..hi], a, b)
    ensures BracketAt(s, lo + a, lo + b)
  {
    var t := s[lo..hi];
    forall k | lo + a < k < lo + b
      ensures s[k] != ']' && s[k] != '\n'
    {
      assert s[k] == t[k - lo];
    }
  }

  /** On one line, what `re.sub` leaves holds no bracket pair at all. */
  lemma {:induction false} RemovedHasNone(s: string)
    requires NoChar(s, '\n')
    ensures forall a, b :: !BracketAt(RemoveBrackets(s), a, b)
    decreases |s|
  {
    SearchSpec(s);
    match Search(s)
    case None =>
    case Some((i, j)) =>
      var tail := s[j + 1..];
      assert NoChar(tail, '\n') by {
        forall k | 0 <= k < |tail| ensures tail[k] != '\n' { assert tail[k] == s[j + 1 + k]; }
      }
      RemovedHasNone(tail);
      NoOpenBefore(s);
      var rest := RemoveBrackets(tail);
      assert RemoveBrackets(s) == s[..i] + rest;
      forall a, b | BracketAt(s[..i] + rest, a, b)
        ensures false
      {
        if a >= i {
          BracketInSuffix(s[..i], rest, a, b);
        }
      }
  }

  /** A match after a prefix is a match in what follows the prefix. */
  lemma BracketInSuffix(p: string, q: string, a: int, b: int)
    requires BracketAt(p + q, a, b) && a >= |p|
    ensures BracketAt(q, a - |p|, b - |p|)
  {
    var s := p + q;
    forall k | a - |p| < k < b - |p|
      ensures q[k] != ']' && q[k] != '\n'
    {
      assert q[k] == s[|p| + k];
    }
    assert q[a - |p|] == s[a];
    assert q[b - |p|] == s[b];
  }

  /** Stripping keeps a slice of the text, so it cannot create a match. */
  lemma StripHasNone(s: string)
    requires forall a, b :: !BracketAt(s, a, b)
    ensures forall a, b :: !BracketAt(Strip(s), a, b)
  {
    var lo := |s| - |LStrip(s)|;
    LStripSpec(s);
    RStripSpec(LStrip(s));
    assert Strip(s) == s[lo..lo + |Strip(s)|];
    forall a, b | BracketAt(Strip(s), a, b)
      ensures false
    {
      BracketInSlice(s, lo, lo + |Strip(s)|, a, b);
    }
  }
}

=== FILE: bytes.dfy ===
/** Byte strings and the fixed-width little-endian fields that `struct.pack`
    and `struct.unpack` produce and consume with the formats `<I` and `<H`. */
module Bytes {
  import opened PyCore

  type byte = x: int | 0 <= x < 256

  const TWO_16: int := 0x1_0000
  const TWO_32: int := 0x1_0000_0000

  /** `struct.pack('<H', x)` for a value in range. */
  function U16(x: nat): (r: seq<byte>)
    requires x < TWO_16
    ensures |r| == 2 && r[0] as int + 256 * (r[1] as int) == x
  {
    [x % 256, x / 256]
  }

  /** `struct.pack('<I', x)` for a value in range. */
  function U32(x: nat): (r: seq<byte>)
    requires x < TWO_32
    ensures |r| == 4
    ensures ReadU32(r) == x
  {
    var b0 := x % 256;
    var q0 := x / 256;
    var b1 := q0 % 256;
    var q1 := q0 / 256;
    var b2 := q1 % 256;
    var b3 := q1 / 256;
    assert x == b0 + 256 * q0 && q0 == b1 + 256 * q1 && q1 == b2 + 256 * b3;
    [b0, b1, b2, b3]
  }

  /** `struct.unpack('<I', b)[0]` for exactly four bytes. */
  function ReadU32(b: seq<byte>): (x: nat)
    requires |b| == 4
    ensures x < TWO_32
  {
    var b0: int, b1: int, b2: int, b3: int := b[0], b[1], b[2], b[3];
    b0 + 256 * (b1 + 256 * (b2 + 256 * b3))
  }

  /** Unpacking four bytes and packing the value again gives the same bytes. */
  lemma U32OfReadU32(b: seq<byte>)
    requires |b| == 4
    ensures U32(ReadU32(b)) == b
  {
    var x := ReadU32(b);
    var b0: int, b1: int, b2: int, b3: int := b[0], b[1], b[2], b[3];
    var q1 := b2 + 256 * b3;
    var q0 := b1 + 256 * q1;
    DivMod256(x, b0, q0);
    DivMod256(q0, b1, q1);
    DivMod256(q1, b2, b3);
  }

  lemma DivMod256(x: int, lo: int, hi: int)
    requires 0 <= lo < 256 && x == lo + 256 * hi
    ensures x % 256 == lo && x / 256 == hi
  {
  }

  /** `struct.pack('<I', x)`: `struct.error` unless `0 <= x < 2^32`. */
  function PackU32(x: int): (r: Result<seq<byte>>)
    ensures r.Ok? <==> 0 <= x < TWO_32
    ensures r.Ok? ==> |r.value| == 4 && ReadU32(r.value) == x
    ensures r.Raise? ==> r.exc == StructError
  {
    if 0 <= x < TWO_32 then Ok(U32(x)) else Raise(StructError)
  }

  /** `struct.pack('<H', x)`: `struct.error` unless `0 <= x < 2^16`. */
  function PackU16(x: int): (r: Result<seq<byte>>)
    ensures r.Ok? <==> 0 <= x < TWO_16
    ensures r.Ok? ==> |r.value| == 2 && r.value[0] as int + 256 * (r.value[1] as int) == x
    ensures r.Raise? ==> r.exc == StructError
  {
    if 0 <= x < TWO_16 then Ok(U16(x)) else Raise(StructError)
  }

  /** Every byte decodes under the `ascii` codec. */
  predicate IsAscii(b: seq<byte>) {
    forall i :: 0 <= i < |b| ==> b[i] < 128
  }

  /** The bytes of an ASCII literal such as `b'RIFF'`. */
  function Ascii(s: string): (r: seq<byte>)
    requires forall i :: 0 <= i < |s| ==> (s[i] as int) < 128
    ensures |r| == |s| && IsAscii(r)
  {
    seq(|s|, i requires 0 <= i < |s| => s[i] as int)
  }

  /** `b'\x00' * n` */
  function Zeros(n: nat): (r: seq<byte>)
    ensures |r| == n && forall i :: 0 <= i < n ==> r[i] == 0
  {
    seq(n, _ => 0)
  }
}

=== FILE: cue_srt.dfy ===
/** `generate_srt` (extract_wav_cues.py) and its twin `generate_srt_from_riiff`
    (extract_wav_regions.py): the cue dict, ordered by sample offset, becomes
    numbered SRT entries whose times are printed by `format_time`; and the two
    scripts' entry points, which decide whether such an SRT is written. */
module CueSrt {
  import opened PyCore
  import opened PyText
  import opened SrtTime
  import opened RiffWalk
  import opened RegionEncoder

  // ------------------------------------------------------------ sorted(cues, key=cues.get)

  predicate SortedByOffset(t: seq<CuePoint>) {
    forall i, j :: 0 <= i < j < |t| ==> t[i].offset <= t[j].offset
  }

  /** `c` placed after every entry of `s` whose offset is not greater than
      its own. */
  function InsertByOffset(s: seq<CuePoint>, c: CuePoint): (r: seq<CuePoint>)
    ensures |r| == |s| + 1
  {
    if |s| == 0 || c.offset < s[0].offset then [c] + s
    else [s[0]] + InsertByOffset(s[1..], c)
  }

  /** `sorted(cues, key=cues.get)`: the dict's entries by ascending offset.
      Python's sort is stable, so entries with equal offsets keep the dict's
      insertion order. */
  function SortByOffset(t: seq<CuePoint>): (r: seq<CuePoint>)
    ensures |r| == |t|
  {
    if |t| == 0 then [] else InsertByOffset(SortByOffset(t[..|t| - 1]), t[|t| - 1])
  }

  /** The entries of `t` at offset `v`, in their order in `t`. */
  function AtOffset(t: seq<CuePoint>, v: nat): seq<CuePoint> {
    if |t| == 0 then [] else (if t[0].offset == v then [t[0]] else []) + AtOffset(t[1..], v)
  }

  lemma {:induction false} AtOffsetAppend(a: seq<CuePoint>, b: seq<CuePoint>, v: nat)
    ensures AtOffset(a + b, v) == AtOffset(a, v) + AtOffset(b, v)
    decreases |a|
  {
    if |a| == 0 {
      assert a + b == b;
    } else {
      assert (a + b)[0] == a[0] && (a + b)[1..] == a[1..] + b;
      AtOffsetAppend(a[1..], b, v);
    }
  }

  /** Nothing in a sorted list lies below its first offset. */
  lemma {:induction false} AtOffsetBelow(s: seq<CuePoint>, v: nat)
    requires SortedByOffset(s) && |s| > 0 && v < s[0].offset
    ensures AtOffset(s, v) == []
    decreases |s|
  {
    if |s| > 1 {
      AtOffsetBelow(s[1..], v);
    }
  }

  /** The same entries at every offset, in the same order. */
  ghost predicate SameAtOffsets(a: seq<CuePoint>, b: seq<CuePoint>) {
    forall v :: AtOffset(a, v) == AtOffset(b, v)
  }

  lemma {:induction false} InsertMultiset(s: seq<CuePoint>, c: CuePoint)
    ensures multiset(InsertByOffset(s, c)) == multiset(s) + multiset{c}
    decreases |s|
  {
    if |s| > 0 && c.offset >= s[0].offset {
      InsertMultiset(s[1..], c);
      assert s == [s[0]] + s[1..];
    }
  }

  lemma {:induction false} InsertSorted(s: seq<CuePoint>, c: CuePoint)
    requires SortedByOffset(s)
    ensures SortedByOffset(InsertByOffset(s, c))
    decreases |s|
  {
    if |s| > 0 && c.offset >= s[0].offset {
      var rest := InsertByOffset(s[1..], c);
      InsertSorted(s[1..], c);
      InsertMultiset(s[1..], c);
      forall j | 0 <= j < |rest|
        ensures s[0].offset <= rest[j].offset
      {
        assert rest[j] in multiset(s[1..]) + multiset{c};
      }
    }
  }

  lemma AtSingle(c: CuePoint, v: nat)
    ensures AtOffset([c], v) == if c.offset == v then [c] else []
  {
    assert AtOffset([c], v) == (if c.offset == v then [c] else []) + AtOffset([c][1..], v);
  }

  lemma ConsAt(x: CuePoint, xs: seq<CuePoint>, ys: seq<CuePoint>, v: nat)
    ensures (if x.offset == v then [x] else []) + (xs + ys)
         == ((if x.offset == v then [x] else []) + xs) + ys
  {
  }

  lemma {:induction false} InsertAtOffset(s: seq<CuePoint>, c: CuePoint, v: nat)
    requires SortedByOffset(s)
    ensures AtOffset(InsertByOffset(s, c), v) == AtOffset(s, v) + AtOffset([c], v)
    decreases |s|
  {
    var r := InsertByOffset(s, c);
    AtSingle(c, v);
    if |s| == 0 || c.offset < s[0].offset {
      assert r[0] == c && r[1..] == s;
      if c.offset == v && |s| > 0 {
        AtOffsetBelow(s, v);
      }
    } else {
      InsertAtOffset(s[1..], c, v);
      assert r[0] == s[0] && r[1..] == InsertByOffset(s[1..], c);
      ConsAt(s[0], AtOffset(s[1..], v), AtOffset([c], v), v);
    }
  }

  /** The sort gives a list ordered by offset in which the entries at each
      offset come in their dict order; it is a permutation of the dict. */
  lemma {:induction false} SortSpec(t: seq<CuePoint>)
    ensures SortedByOffset(SortByOffset(t))
    ensures SameAtOffsets(SortByOffset(t), t)
    ensures multiset(SortByOffset(t)) == multiset(t)
    decreases |t|
  {
    if |t| > 0 {
      var init, last := t[..|t| - 1], t[|t| - 1];
      SortSpec(init);
      InsertSorted(SortByOffset(init), last);
      InsertMultiset(SortByOffset(init), last);
      assert t == init + [last];
      forall v ensures AtOffset(SortByOffset(t), v) == AtOffset(t, v) {
        InsertAtOffset(SortByOffset(init), last, v);
        AtOffsetAppend(init, [last], v);
      }
    }
  }

  /** A non-empty list has something at its first offset. */
  lemma AtFirstOffset(a: seq<CuePoint>)
    requires |a| > 0
    ensures AtOffset(a, a[0].offset) == [a[0]] + AtOffset(a[1..], a[0].offset)
  {
  }

  lemma AtOtherOffset(a: seq<CuePoint>, v: nat)
    requires |a| > 0 && a[0].offset != v
    ensures AtOffset(a, v) == AtOffset(a[1..], v)
  {
    assert AtOffset(a, v) == [] + AtOffset(a[1..], v);
  }

  lemma ConsEqual(x: CuePoint, xs: seq<CuePoint>, y: CuePoint, ys: seq<CuePoint>)
    requires [x] + xs == [y] + ys
    ensures x == y && xs == ys
  {
    assert ([x] + xs)[0] == x && ([y] + ys)[0] == y;
    assert ([x] + xs)[1..] == xs && ([y] + ys)[1..] == ys;
  }

  /** Two lists ordered by offset with the same entries at every offset
      start at the same offset. */
  lemma SameFirstOffset(a: seq<CuePoint>, b: seq<CuePoint>)
    requires SortedByOffset(a) && SortedByOffset(b) && SameAtOffsets(a, b)
    requires |a| > 0 && |b| > 0
    ensures a[0].offset == b[0].offset
  {
    var va, vb := a[0].offset, b[0].offset;
    AtFirstOffset(a);
    AtFirstOffset(b);
    if va < vb {
      AtOffsetBelow(b, va);
      assert false;
    } else if vb < va {
      AtOffsetBelow(a, vb);
      assert false;
    }
  }

  /** Two lists ordered by offset that hold the same entries at each offset
      in the same order are equal. */
  lemma {:induction false} SortedUnique(a: seq<CuePoint>, b: seq<CuePoint>)
    requires SortedByOffset(a) && SortedByOffset(b) && SameAtOffsets(a, b)
    ensures a == b
    decreases |a|
  {
    if |a| == 0 {
      if |b| > 0 {
        AtFirstOffset(b);
        assert false;
      }
    } else if |b| == 0 {
      AtFirstOffset(a);
      assert false;
    } else {
      SameFirstOffset(a, b);
      var va := a[0].offset;
      AtFirstOffset(a);
      AtFirstOffset(b);
      assert AtOffset(a, va) == AtOffset(b, va);
      ConsEqual(a[0], AtOffset(a[1..], va), b[0], AtOffset(b[1..], va));
      forall v ensures AtOffset(a[1..], v) == AtOffset(b[1..], v) {
        if v != va {
          AtOtherOffset(a, v);
          AtOtherOffset(b, v);
          assert AtOffset(a, v) == AtOffset(b, v);
        }
      }
      SortedUnique(a[1..], b[1..]);
      assert a == [a[0]] + a[1..] && b == [b[0]] + b[1..];
    }
  }

  /** The sorted list is the one list ordered by offset that keeps the dict
      order among entries at each offset. */
  lemma SortCharacterized(t: seq<CuePoint>, r: seq<CuePoint>)
    ensures r == SortByOffset(t) <==> SortedByOffset(r) && SameAtOffsets(r, t)
  {
    SortSpec(t);
    if SortedByOffset(r) && SameAtOffsets(r, t) {
      SortedUnique(r, SortByOffset(t));
    }
  }

  /** A dict already in offset order is left as it is. */
  lemma SortOfSorted(t: seq<CuePoint>)
    requires SortedByOffset(t)
    ensures SortByOffset(t) == t
  {
    SortCharacterized(t, t);
  }

  // ------------------------------------------------------------ generate_srt

  /** The rate both scripts pass: `generate_srt`'s default `sample_rate`. */
  const SRT_RATE: pos := 48000

  /** `labels.get(cue_id, f"Cue {cue_id}")`: the label, or the raw cue id. */
  function CueText(m: Metadata, id: nat): string {
    if id in m.labels then LabelText(m.labels[id]) else "Cue " + IntStr(id)
  }

  /** `regions.get(cue_id, sample_rate * 2)`: the stored length, or two
      seconds' worth of samples. */
  function CueDuration(m: Metadata, id: nat, rate: pos): nat {
    if id in m.lengths then m.lengths[id] else rate * 2
  }

  /** `start_sample + duration`: where the cue's entry ends. */
  function EndSample(m: Metadata, c: CuePoint, rate: pos): nat {
    c.offset + CueDuration(m, c.id, rate)
  }

  /** The entry for one cue: `format_time` of `start_sample / sample_rate`
      and of `end_sample / sample_rate`, and the text. */
  function CueEntry(m: Metadata, c: CuePoint, rate: pos): Region {
    Region(FormatTime(SampleMs(c.offset, rate)),
           FormatTime(SampleMs(EndSample(m, c, rate), rate)),
           CueText(m, c.id))
  }

  /** The entries, one per cue in sorted order. */
  function Entries(m: Metadata, rate: pos): (es: seq<Region>)
    ensures |es| == |m.cues|
  {
    var sorted := SortByOffset(m.cues);
    seq(|sorted|, k requires 0 <= k < |sorted| => CueEntry(m, sorted[k], rate))
  }

  /** `f"{n}\n{start} --> {end}\n{text}\n\n"` */
  function EntryText(n: nat, e: Region): string {
    IntStr(n) + "\n" + e.start + ARROW + e.end + "\n" + e.name + "\n\n"
  }

  /** `''.join(entries)`, the entries numbered from `n`. */
  function RenderFrom(es: seq<Region>, n: nat): (r: string)
    ensures |r| == 0 <==> |es| == 0
    decreases |es|
  {
    if |es| == 0 then "" else EntryText(n, es[0]) + RenderFrom(es[1..], n + 1)
  }

  /** `generate_srt(cues, labels, regions, sample_rate)`; numbering starts
      at `len(entries) + 1 == 1`. */
  function GenerateSrt(m: Metadata, rate: pos): (r: string)
    ensures |r| == 0 <==> |Entries(m, rate)| == 0
  {
    RenderFrom(Entries(m, rate), 1)
  }

  // ------------------------------------------------------------ what the entries say

  /** The printed start of a cue's entry reads back as its offset in
      milliseconds. */
  lemma StartReads(m: Metadata, c: CuePoint, rate: pos)
    ensures TimeToMs(CueEntry(m, c, rate).start) == Ok(SampleMs(c.offset, rate))
  {
    TimeRoundTrip(SampleMs(c.offset, rate));
  }

  /** The printed end of a cue's entry reads back as its end sample in
      milliseconds. */
  lemma EndReads(m: Metadata, c: CuePoint, rate: pos)
    ensures TimeToMs(CueEntry(m, c, rate).end) == Ok(SampleMs(EndSample(m, c, rate), rate))
  {
    TimeRoundTrip(SampleMs(EndSample(m, c, rate), rate));
  }

  /** Entry `k` is the entry of the `k`-th cue in offset order. */
  lemma EntryAt(m: Metadata, rate: pos, k: nat)
    requires k < |m.cues|
    ensures SortByOffset(m.cues)[k] in m.cues
    ensures Entries(m, rate)[k] == CueEntry(m, SortByOffset(m.cues)[k], rate)
  {
    var sorted := SortByOffset(m.cues);
    SortSpec(m.cues);
    assert sorted[k] in multiset(sorted);
  }

  /** The end of a cue's entry is its stored length after its start, or
      two seconds when none is stored; the latter prints as exactly 2000 ms
      after the start. */
  lemma DefaultDuration(m: Metadata, c: CuePoint, rate: pos)
    ensures c.id in m.lengths ==> EndSample(m, c, rate) == c.offset + m.lengths[c.id]
    ensures c.id !in m.lengths ==>
      SampleMs(EndSample(m, c, rate), rate) == SampleMs(c.offset, rate) + 2000
  {
    if c.id !in m.lengths {
      SampleMsShift(c.offset, 2, rate);
    }
  }

  /** The entries come in order of start time. */
  lemma EntriesOrdered(m: Metadata, rate: pos, i: nat, j: nat)
    requires i <= j < |m.cues|
    ensures var es := Entries(m, rate);
      && TimeToMs(es[i].start).Ok? && TimeToMs(es[j].start).Ok?
      && TimeToMs(es[i].start).value <= TimeToMs(es[j].start).value
  {
    var sorted := SortByOffset(m.cues);
    SortSpec(m.cues);
    assert sorted[i].offset <= sorted[j].offset;
    SampleMsMonotone(sorted[i].offset, sorted[j].offset, rate);
    TimeRoundTrip(SampleMs(sorted[i].offset, rate));
    TimeRoundTrip(SampleMs(sorted[j].offset, rate));
  }

  /** Every entry is the entry of some cue of the dict, and every cue of the
      dict has an entry; ids that only have a label or a length have none. */
  lemma EntriesCoverCues(m: Metadata, rate: pos)
    ensures forall k :: 0 <= k < |m.cues| ==>
      exists c :: c in m.cues && Entries(m, rate)[k] == CueEntry(m, c, rate)
    ensures forall c :: c in m.cues ==>
      exists k :: 0 <= k < |m.cues| && Entries(m, rate)[k] == CueEntry(m, c, rate)
  {
    forall k | 0 <= k < |m.cues|
      ensures exists c :: c in m.cues && Entries(m, rate)[k] == CueEntry(m, c, rate)
    {
      EntryAt(m, rate, k);
    }
    forall c | c in m.cues
      ensures exists k :: 0 <= k < |m.cues| && Entries(m, rate)[k] == CueEntry(m, c, rate)
    {
      var sorted := SortByOffset(m.cues);
      SortSpec(m.cues);
      assert c in multiset(m.cues);
      var k :| 0 <= k < |sorted| && sorted[k] == c;
      EntryAt(m, rate, k);
    }
  }
}

=== FILE: cue_text.dfy ===
/** The text `generate_srt` writes, read back line by line: it is the SRT
    layout the region encoder parses, so a reconstructed file can be fed back
    to the encoder and yields the same regions. */
module CueText {
  import opened PyCore
  import opened PyText
  import opened SrtTime
  import opened RiffWalk
  import opened RegionEncoder
  import opened ParseFacts
  import opened CueSrt

  // ------------------------------------------------------------ character classes

  /** The characters `format_time` prints: digits, `:` and `,`. */
  predicate TimeChars(s: string) {
    forall i :: 0 <= i < |s| ==> IsDigitChar(s[i]) || s[i] == ':' || s[i] == ','
  }

  lemma TimeCharsConcat(a: string, b: string)
    requires TimeChars(a) && TimeChars(b)
    ensures TimeChars(a + b)
  {
    forall i | 0 <= i < |a + b|
      ensures IsDigitChar((a + b)[i]) || (a + b)[i] == ':' || (a + b)[i] == ','
    {
      if i >= |a| { assert (a + b)[i] == b[i - |a|]; }
    }
  }

  lemma ZeroPadTimeChars(n: nat, width: nat)
    ensures TimeChars(ZeroPad(n, width))
  {
    ZeroFillValue(n, width);
  }

  /** A printed time is one non-blank word without a line break. */
  lemma FormatTimeToken(ms: nat)
    ensures Token(FormatTime(ms)) && NoChar(FormatTime(ms), '\n')
  {
    var hh, mm := ZeroPad(ms / 3_600_000, 2), ZeroPad(ms / 60_000 % 60, 2);
    var ss, fff := ZeroPad(ms / 1000 % 60, 2), ZeroPad(ms % 1000, 3);
    ZeroPadTimeChars(ms / 3_600_000, 2);
    ZeroPadTimeChars(ms / 60_000 % 60, 2);
    ZeroPadTimeChars(ms / 1000 % 60, 2);
    ZeroPadTimeChars(ms % 1000, 3);
    TimeCharsConcat(hh, ":");
    TimeCharsConcat(hh + ":", mm);
    TimeCharsConcat(hh + ":" + mm, ":");
    TimeCharsConcat(hh + ":" + mm + ":", ss);
    TimeCharsConcat(hh + ":" + mm + ":" + ss, ",");
    TimeCharsConcat(hh + ":" + mm + ":" + ss + ",", fff);
    assert FormatTime(ms) == Timestamp(hh, mm, ss, fff);
  }

  /** A word holds no line break, since a line break is whitespace. */
  lemma TokenNoNewline(s: string)
    requires Token(s)
    ensures NoChar(s, '\n')
  {
    assert IsSpace('\n');
  }

  /** Text without a line break, followed by one, is one line. */
  lemma LineOf(s: string)
    requires NoChar(s, '\n')
    ensures IsLine(s + "\n")
  {
    var l := s + "\n";
    forall i | 0 <= i < |l| - 1
      ensures l[i] != '\n'
    {
      assert l[i] == s[i];
    }
  }

  // ------------------------------------------------------------ entries

  /** An entry the writer can print as four lines: its times are words and
      its text holds no line break. */
  predicate Printable(e: Region) {
    Token(e.start) && Token(e.end) && NoChar(e.name, '\n')
  }

  /** Label texts that fit on one line and carry no surrounding
      whitespace, the ones `parse_srt` reads back unchanged. */
  predicate CleanLabels(m: Metadata) {
    forall id :: id in LabelTexts(m) ==> NoChar(LabelTexts(m)[id], '\n') && IsStripped(LabelTexts(m)[id])
  }

  /** `Cue <id>` fits on one line and has no surrounding whitespace. */
  lemma DefaultText(id: nat)
    ensures NoChar("Cue " + IntStr(id), '\n') && IsStripped("Cue " + IntStr(id))
  {
    var d := IntStr(id);
    IndexLine(id);
    DigitsNoChar(d, '\n');
    ConcatNoChar("Cue ", d, '\n');
    var t := "Cue " + d;
    assert t[0] == 'C' && t[|t| - 1] == d[|d| - 1];
  }

  /** The entry of a cue is printable, and well formed for `parse_srt` when
      its label is clean. */
  lemma CueEntryFits(m: Metadata, c: CuePoint, rate: pos)
    requires CleanLabels(m)
    ensures Printable(CueEntry(m, c, rate)) && WellFormed(CueEntry(m, c, rate))
  {
    CueEntryTimes(m, c, rate);
    CueTextFits(m, c.id);
    assert CueEntry(m, c, rate).name == CueText(m, c.id);
  }

  lemma CueEntryTimes(m: Metadata, c: CuePoint, rate: pos)
    ensures Token(CueEntry(m, c, rate).start) && Token(CueEntry(m, c, rate).end)
  {
    FormatTimeToken(SampleMs(c.offset, rate));
    FormatTimeToken(SampleMs(EndSample(m, c, rate), rate));
  }

  lemma CueTextFits(m: Metadata, id: nat)
    requires CleanLabels(m)
    ensures NoChar(CueText(m, id), '\n') && IsStripped(CueText(m, id))
  {
    if id in m.labels {
      assert id in LabelTexts(m);
    } else {
      DefaultText(id);
    }
  }

  lemma EntriesFit(m: Metadata, rate: pos)
    requires CleanLabels(m)
    ensures forall k :: 0 <= k < |Entries(m, rate)| ==>
      Printable(Entries(m, rate)[k]) && WellFormed(Entries(m, rate)[k])
  {
    forall k | 0 <= k < |Entries(m, rate)|
      ensures Printable(Entries(m, rate)[k]) && WellFormed(Entries(m, rate)[k])
    {
      EntryAt(m, rate, k);
      CueEntryFits(m, SortByOffset(m.cues)[k], rate);
    }
  }

  // ------------------------------------------------------------ text and lines

  lemma EntryTextParts(i: string, s: string, e: string, name: string)
    ensures (i + "\n") + (s + ARROW + e + "\n") + (name + "\n") + "\n"
         == i + "\n" + s + ARROW + e + "\n" + name + "\n\n"
  {
  }

  /** One entry's text is its four lines written one after another. */
  lemma BlockText(n: nat, e: Region)
    ensures Concat(BlockLines(n, e)) == EntryText(n, e)
  {
    Concat4(IntStr(n) + "\n", e.start + ARROW + e.end + "\n", e.name + "\n", "\n");
    EntryTextParts(IntStr(n), e.start, e.end, e.name);
  }

  /** The rendered text is the SRT lines of the entries, numbered from
      `n`, written one after another. */
  lemma {:induction false} RenderLines(es: seq<Region>, n: nat)
    ensures RenderFrom(es, n) == Concat(SrtLines(es, n))
    decreases |es|
  {
    if |es| > 0 {
      SrtLinesCons(es, n);
      ConcatAppend(BlockLines(n, es[0]), SrtLines(es[1..], n + 1));
      BlockText(n, es[0]);
      RenderLines(es[1..], n + 1);
    }
  }

  /** Each of the four lines of a printable entry is one line. */
  lemma BlockAreLines(n: nat, e: Region)
    requires Printable(e)
    ensures forall i :: 0 <= i < 4 ==> IsLine(BlockLines(n, e)[i])
  {
    IndexLine(n);
    DigitsNoChar(IntStr(n), '\n');
    LineOf(IntStr(n));
    TokenNoNewline(e.start);
    TokenNoNewline(e.end);
    ConcatNoChar(e.start, ARROW, '\n');
    ConcatNoChar(e.start + ARROW, e.end, '\n');
    LineOf(e.start + ARROW + e.end);
    LineOf(e.name);
    LineOf("");
    assert "" + "\n" == "\n";
  }

  lemma {:induction false} SrtLinesAreLines(es: seq<Region>, n: nat)
    requires forall j :: 0 <= j < |es| ==> Printable(es[j])
    ensures forall i :: 0 <= i < |SrtLines(es, n)| ==> IsLine(SrtLines(es, n)[i])
    decreases |es|
  {
    if |es| > 0 {
      var b, rest := BlockLines(n, es[0]), SrtLines(es[1..], n + 1);
      SrtLinesCons(es, n);
      BlockAreLines(n, es[0]);
      SrtLinesAreLines(es[1..], n + 1);
      forall i | 0 <= i < |b + rest|
        ensures IsLine((b + rest)[i])
      {
        if i < |b| {
          ConcatBefore(b, rest, i);
        } else {
          ConcatAt(b, rest, i - |b|);
        }
      }
    }
  }

  // ------------------------------------------------------------ read back

  /** With labels on one line, `readlines` on the reconstructed text gives
      four lines per cue in offset order: the number from 1, the two times
      joined by ` --> `, the text, and a blank line. */
  lemma GeneratedLines(m: Metadata, rate: pos)
    requires CleanLabels(m)
    ensures ReadLines(GenerateSrt(m, rate)) == SrtLines(Entries(m, rate), 1)
  {
    EntriesFit(m, rate);
    RenderLines(Entries(m, rate), 1);
    SrtLinesAreLines(Entries(m, rate), 1);
    ReadLinesConcat(SrtLines(Entries(m, rate), 1));
  }

  /** The region encoder's `parse_srt`, run on the reconstructed file, gives
      back exactly the entries: one region per cue, in offset order, with
      the printed times and the label or `Cue <id>`. */
  lemma GeneratedSrtParses(m: Metadata, rate: pos)
    requires CleanLabels(m)
    ensures ParseSrt(ReadLines(GenerateSrt(m, rate))) == Ok(Entries(m, rate))
  {
    GeneratedLines(m, rate);
    EntriesFit(m, rate);
    ParseSrtRoundTrip(Entries(m, rate), 1);
  }
}

=== FILE: encoder_facts.dfy ===
/** Where `srt2regions.py` puts each value in the file it writes. */
module EncoderFacts {
  import opened PyCore
  import opened Bytes
  import opened PyText
  import opened SrtTime
  import opened RiffChunks
  import opened RegionEncoder
  import opened ParseFacts
  import opened MarkerFacts
  import Utf8

  // ------------------------------------------------------------ byte layout

  lemma U32Slices(a: seq<byte>, x: nat, b: seq<byte>)
    requires x < TWO_32
    ensures (a + U32(x) + b)[|a|..|a| + 4] == U32(x)
  {
    assert (a + U32(x) + b)[|a|..|a| + 4] == U32(x);
  }

  /** Cue record: id, start, `data`, two zero fields, start again. */
  lemma CueRecordFields(m: Marker)
    requires Packable(m)
    ensures var r := CueRecord(m);
      && ReadU32(r[0..4]) == m.id && ReadU32(r[4..8]) == m.start
      && r[8..12] == DATA_TAG
      && ReadU32(r[12..16]) == 0 && ReadU32(r[16..20]) == 0
      && ReadU32(r[20..24]) == m.start
  {
    var r := CueRecord(m);
    TagsAreFourBytes();
    assert r[0..4] == U32(m.id);
    assert r[4..8] == U32(m.start);
    assert r[8..12] == DATA_TAG;
    assert r[12..16] == U32(0);
    assert r[16..20] == U32(0);
    assert r[20..24] == U32(m.start);
  }

  /** Record `k` of the table is the record of marker `k`. */
  lemma {:induction false} CueRecordsAt(ms: seq<Marker>, k: nat)
    requires AllPackable(ms) && k < |ms|
    ensures CueRecords(ms)[24 * k..24 * k + 24] == CueRecord(ms[k])
    decreases k
  {
    var rest := CueRecords(ms[1..]);
    assert CueRecords(ms) == CueRecord(ms[0]) + rest;
    if k > 0 {
      CueRecordsAt(ms[1..], k - 1);
      assert CueRecords(ms)[24 * k..24 * k + 24] == rest[24 * (k - 1)..24 * (k - 1) + 24];
    }
  }

  /** The `cue ` chunk declares `4 + 24 n` bytes: the count and `n` records. */
  lemma CueChunkSize(ms: seq<Marker>)
    requires AllPackable(ms) && |ms| < TWO_32
    ensures |CueChunk(ms).payload| == 4 + 24 * |ms|
    ensures ReadU32(CueChunk(ms).payload[..4]) == |ms|
  {
    assert CueChunk(ms).payload[..4] == U32(|ms|);
  }

  /** `labl` payload: the id, then the UTF-8 name, then one or two NULs so that
      the payload, and so the declared size, is even. */
  lemma LablFields(m: Marker)
    requires Packable(m)
    ensures var p := LablChunk(m).payload; var e := Utf8.Encode(m.name);
      && |p| % 2 == 0 && ReadU32(p[..4]) == m.id
      && p[4..4 + |e|] == e
      && (|p| == 4 + |e| + 1 || |p| == 4 + |e| + 2)
      && forall i :: 4 + |e| <= i < |p| ==> p[i] == 0
  {
    var p := LablChunk(m).payload;
    var e := Utf8.Encode(m.name);
    assert p[..4] == U32(m.id);
    assert p[4..] == LabelBytes(m.name);
  }

  /** `ltxt` payload: 20 bytes, the id, the length, then zeros. */
  lemma LtxtFields(m: Marker)
    requires Packable(m)
    ensures var p := LtxtChunk(m).payload;
      && |p| == 20 && ReadU32(p[0..4]) == m.id && ReadU32(p[4..8]) == m.length
      && ReadU32(p[8..12]) == 0 && ReadU32(p[12..16]) == 0 && ReadU32(p[16..20]) == 0
  {
    var p := LtxtChunk(m).payload;
    assert p[0..4] == U32(m.id);
    assert p[4..8] == U32(m.length);
    assert p[8..12] == U32(0);
    assert p[12..16] == Zeros(8)[..4];
    assert p[16..20] == Zeros(8)[4..];
  }

  // ------------------------------------------------------------ the file

  /** What a written file is made of: the parsed regions (at least one), the
      markers of the region loop and the `fmt ` chunk. */
  lemma WrittenParts(rule: RiffSizeRule, lines: seq<string>, rate: int, bitDepth: int, channels: int)
    requires EncodeWith(rule, lines, rate, bitDepth, channels).Ok?
    requires EncodeWith(rule, lines, rate, bitDepth, channels).value.Written?
    ensures ParseSrt(lines).Ok? && |ParseSrt(lines).value| > 0
    ensures var regions := ParseSrt(lines).value;
      && MaxEndMs(regions).Ok? && |regions| < TWO_32
      && Markers(regions, 1, rate).Ok?
      && FmtChunk(rate, bitDepth, channels).Ok?
      && WavImage(rule, Markers(regions, 1, rate).value,
                  Frames(MaxEndMs(regions).value, rate, bitDepth, channels),
                  FmtChunk(rate, bitDepth, channels).value)
         == Ok(EncodeWith(rule, lines, rate, bitDepth, channels).value.wav)
  {
  }

  /** The image: header, then `fmt `, `data`, `cue ` and `LIST` chunks, with
      the RIFF size field holding `RiffSize`. */
  lemma WavImageLayout(rule: RiffSizeRule, ms: seq<Marker>, frames: seq<byte>, fmt: Chunk)
    requires AllPackable(ms) && |ms| < TWO_32 && Writable(fmt) && |fmt.payload| == 16
    requires WavImage(rule, ms, frames, fmt).Ok?
    ensures Writable(CueChunk(ms)) && Writable(ListChunk(ms)) && Writable(Chunk(DATA_TAG, frames))
    ensures var w := WavImage(rule, ms, frames, fmt).value;
      var cueLen, listLen := |ChunkBytes(CueChunk(ms))|, |ChunkBytes(ListChunk(ms))|;
      && |w| == 12 + 24 + (8 + |frames|) + cueLen + listLen
      && w[0..4] == RIFF_TAG && w[8..12] == WAVE_TAG
      && ReadU32(w[4..8]) == RiffSize(rule, |frames|, cueLen, listLen)
      && w[12..] == ChunkBytes(fmt) + ChunkBytes(Chunk(DATA_TAG, frames))
                    + ChunkBytes(CueChunk(ms)) + ChunkBytes(ListChunk(ms))
  {
    TagsAreFourBytes();
    var cue, list, data := CueChunk(ms), ListChunk(ms), Chunk(DATA_TAG, frames);
    ChunksBytesFour(fmt, data, cue, list);
    var riffSize := RiffSize(rule, |frames|, |ChunkBytes(cue)|, |ChunkBytes(list)|);
    var w := WavImage(rule, ms, frames, fmt).value;
    var body := ChunksBytes([fmt, data, cue, list]);
    assert w == RIFF_TAG + U32(riffSize) + WAVE_TAG + body;
    assert w[4..8] == U32(riffSize);
    assert w[12..] == body;
  }

  /** As written, the RIFF size field overstates the size the RIFF definition
      gives (every byte after the field, `len(file) - 8`) by 12. */
  lemma RiffSizeOverstated(lines: seq<string>, rate: int, bitDepth: int, channels: int)
    requires AddRegionMarkers(lines, rate, bitDepth, channels).Ok?
    requires AddRegionMarkers(lines, rate, bitDepth, channels).value.Written?
    ensures var w := AddRegionMarkers(lines, rate, bitDepth, channels).value.wav;
      |w| >= 12 && ReadU32(w[4..8]) == (|w| - 8) + 12
  {
    WrittenParts(SumOfParts, lines, rate, bitDepth, channels);
    var regions := ParseSrt(lines).value;
    WavImageLayout(SumOfParts, Markers(regions, 1, rate).value,
                   Frames(MaxEndMs(regions).value, rate, bitDepth, channels),
                   FmtChunk(rate, bitDepth, channels).value);
  }

  /** With the corrected size rule the field holds `len(file) - 8`. */
  lemma RiffSizeCorrect(lines: seq<string>, rate: int, bitDepth: int, channels: int)
    requires AddRegionMarkersCorrected(lines, rate, bitDepth, channels).Ok?
    requires AddRegionMarkersCorrected(lines, rate, bitDepth, channels).value.Written?
    ensures var w := AddRegionMarkersCorrected(lines, rate, bitDepth, channels).value.wav;
      |w| >= 12 && ReadU32(w[4..8]) == |w| - 8
  {
    WrittenParts(FileLengthMinus8, lines, rate, bitDepth, channels);
    var regions := ParseSrt(lines).value;
    WavImageLayout(FileLengthMinus8, Markers(regions, 1, rate).value,
                   Frames(MaxEndMs(regions).value, rate, bitDepth, channels),
                   FmtChunk(rate, bitDepth, channels).value);
  }

  /** Nothing is written exactly when no line strips to digits. */
  lemma NoRegionsIff(rule: RiffSizeRule, lines: seq<string>, rate: int, bitDepth: int, channels: int)
    ensures EncodeWith(rule, lines, rate, bitDepth, channels) == Ok(NoRegions)
        <==> forall j :: 0 <= j < |lines| ==> !OpensBlock(lines[j])
  {
    NoRegionsIffNoDigitLine(lines, 0);
  }
}

=== FILE: frazier.dfy ===
/** converters/frazier_csv_to_studioscript.py: the `Dialogue` column of a
    script exported as CSV becomes the notes column of a studio script, and
    the output and template paths are chosen from the arguments. Reading the
    CSV and writing the workbook are pandas and openpyxl work and are not
    modelled. */
module FrazierCsv {
  import opened PyCore
  import opened PyText
  import opened SrtTime
  import opened Brackets
  import opened Workbook

  /** `extract_dialogue_notes`. A cell pandas reads as missing (`NaN`) is
      `None`; so is the placeholder `"0"`. Otherwise the first same-line
      `[...]` is kept, brackets included, or the text is returned as it is. */
  function ExtractNotes(dialogue: Option<string>): (r: Option<string>)
    ensures dialogue.None? || dialogue == Some("0") ==> r.None?
    ensures r.Some? ==> dialogue.Some?
  {
    match dialogue
    case None => None
    case Some(s) =>
      if s == "0" then None
      else
        match Search(s)
        case Some((i, j)) => Some("[" + s[i + 1..j] + "]")
        case None => Some(s)
  }

  /** When the text holds a bracket pair on one line, the note is exactly
      the leftmost such pair, `[` and `]` included, with its inside kept
      unstripped; the inside holds no `]` and no line break. */
  lemma NotesOfMatch(s: string)
    requires s != "0" && Search(s).Some?
    ensures var (i, j) := Search(s).value;
      && ExtractNotes(Some(s)) == Some(s[i..j + 1])
      && (forall k :: i < k < j ==> s[k] != ']' && s[k] != '\n')
      && (forall a, b :: 0 <= a < i ==> !BracketAt(s, a, b))
  {
    var (i, j) := Search(s).value;
    SearchSpec(s);
    assert s[i..j + 1] == "[" + s[i + 1..j] + "]";
  }

  /** Text with no bracket pair on one line comes back unchanged. */
  lemma NotesWithoutMatch(s: string)
    requires s != "0"
    requires forall a, b :: !BracketAt(s, a, b)
    ensures ExtractNotes(Some(s)) == Some(s)
  {
    SearchSpec(s);
  }

  /** A `[` whose line ends, or whose text ends, before any `]` is no
      match: with no other `[`, the text comes back unchanged. */
  lemma UnclosedKept(s: string, i: nat)
    requires s != "0" && i < |s| && s[i] == '['
    requires forall k :: i < k < |s| ==> s[k] != ']'
    requires forall k :: 0 <= k < |s| && k != i ==> s[k] != '['
    ensures ExtractNotes(Some(s)) == Some(s)
  {
    NotesWithoutMatch(s);
  }

  /** Extracting the notes of the notes changes nothing: a kept pair is
      its own leftmost match, and text without a match stays without one. */
  lemma NotesIdempotent(dialogue: Option<string>)
    ensures ExtractNotes(ExtractNotes(dialogue)) == ExtractNotes(dialogue)
  {
    if dialogue.Some? && dialogue.value != "0" {
      var s := dialogue.value;
      match Search(s)
      case Some((i, j)) =>
        var t := "[" + s[i + 1..j] + "]";
        assert BracketAt(t, 0, |t| - 1) by {
          forall k | 0 < k < |t| - 1
            ensures t[k] != ']' && t[k] != '\n'
          {
            assert t[k] == s[i + k];
          }
        }
        assert CloseAt(t, 0) == Some(|t| - 1);
        assert Search(t) == Some((0, |t| - 1));
        assert t[1..|t| - 1] == s[i + 1..j];
      case None =>
    }
  }

  // ------------------------------------------------------------ paths

  /** The default output name (lines 77-79): the input's file name without
      its extension, plus `_studioscript.xlsx`, in the working directory. */
  function DefaultOutput(input: string): (r: string)
    ensures EndsWith(r, "_studioscript.xlsx")
    ensures StartsWith(Basename(input), r[..|r| - 18])
  {
    var stem := StripExt(Basename(input));
    var r := stem + "_studioscript.xlsx";
    assert r[..|r| - 18] == stem;
    r
  }

  /** The default name holds no `/`: it names a file in the working
      directory whatever directory the input is in. */
  lemma DefaultOutputLocal(input: string)
    ensures NoChar(DefaultOutput(input), '/')
  {
    var b := Basename(input);
    var stem := StripExt(b);
    var r := DefaultOutput(input);
    forall i | 0 <= i < |r|
      ensures r[i] != '/'
    {
      if i < |stem| {
        assert r[i] == stem[i] == b[i];
      }
    }
  }

  /** The header row and widths of the default layout (lines 25-26). */
  const DEFAULT_HEADERS: seq<string> := ["Line Number", "Timecode In", "Timecode Out", "Script/Text", "Dialogue (Notes)"]
  const DEFAULT_WIDTHS: seq<nat> := [12, 15, 15, 50, 30]
}

=== FILE: image_reads.dfy ===
/** What the chunk walk of the decoders reads where a chunk, or a run of
    chunks, sits at a known position of the file. */
module ImageReads {
  import opened PyCore
  import opened Bytes
  import opened RiffChunks
  import opened RiffWalk

  /** `bytes` sit in `f` starting at position `p`, byte by byte. */
  predicate At(f: seq<byte>, p: nat, bytes: seq<byte>)
    decreases |bytes|
  {
    if |bytes| == 0 then p <= |f| else p < |f| && f[p] == bytes[0] && At(f, p + 1, bytes[1..])
  }

  /** The bytes sit at `p` exactly when the slice of the file starting there
      is those bytes. */
  lemma {:induction false} AtSlice(f: seq<byte>, p: nat, bytes: seq<byte>)
    ensures At(f, p, bytes) <==> p + |bytes| <= |f| && f[p..p + |bytes|] == bytes
    decreases |bytes|
  {
    if |bytes| > 0 {
      AtSlice(f, p + 1, bytes[1..]);
      if p + |bytes| <= |f| {
        assert f[p..p + |bytes|] == [f[p]] + f[p + 1..p + |bytes|];
        assert bytes == [bytes[0]] + bytes[1..];
      }
    }
  }

  /** Where a concatenation sits, each of its parts sits. */
  lemma AtSplit(f: seq<byte>, p: nat, a: seq<byte>, b: seq<byte>)
    requires At(f, p, a + b)
    ensures At(f, p + |a|, b) && At(f, p, a)
  {
    AtSlice(f, p, a + b);
    AtSlice(f, p, a);
    AtSlice(f, p + |a|, b);
    assert f[p..p + |a|] == (a + b)[..|a|];
    assert f[p + |a|..p + |a| + |b|] == (a + b)[|a|..];
  }

  /** The tail of a file sits at the position where it starts. */
  lemma AtSuffix(f: seq<byte>, p: nat)
    requires p <= |f|
    ensures At(f, p, f[p..])
  {
    AtSlice(f, p, f[p..]);
  }

  /** The tail of a file that is known sits where it starts and runs to the end. */
  lemma TailAt(f: seq<byte>, p: nat, bytes: seq<byte>)
    requires p <= |f| && f[p..] == bytes
    ensures At(f, p, bytes) && p + |bytes| == |f|
  {
    AtSuffix(f, p);
  }

  /** A read inside bytes that are known returns those bytes. */
  lemma ReadAt(f: seq<byte>, p: nat, bytes: seq<byte>, n: nat)
    requires At(f, p, bytes) && n <= |bytes|
    ensures Read(f, p, n) == bytes[..n]
  {
    AtSlice(f, p, bytes);
    assert f[p..p + n] == bytes[..n];
  }

  /** The header of a chunk with an ASCII tag reads as its tag and payload
      length, and the payload follows it. */
  lemma HeaderAt(f: seq<byte>, p: nat, c: Chunk)
    requires Writable(c) && IsAscii(c.tag) && At(f, p, ChunkBytes(c))
    ensures ReadHeader(f, p) == Some(Header(c.tag, |c.payload|))
    ensures At(f, p + 8, c.payload)
  {
    AtSplit(f, p, c.tag + U32(|c.payload|), c.payload);
    AtSplit(f, p, c.tag, U32(|c.payload|));
    ReadAt(f, p, c.tag, 4);
    ReadAt(f, p + 4, U32(|c.payload|), 4);
    assert c.tag[..4] == c.tag;
    assert U32(|c.payload|)[..4] == U32(|c.payload|);
  }

  /** No header can be read at the end of the file. */
  lemma HeaderAtEnd(f: seq<byte>)
    ensures ReadHeader(f, |f|) == None
  {
  }

  /** A chunk the walk does not look into is skipped by its declared size. */
  /** `c` sits at `p` and is neither a `cue ` nor a `LIST` chunk. */
  predicate Skippable(f: seq<byte>, p: nat, c: Chunk) {
    Writable(c) && IsAscii(c.tag) && c.tag != CUE_TAG && c.tag != LIST_TAG && At(f, p, ChunkBytes(c))
  }

  lemma SkipStep(f: seq<byte>, p: nat, c: Chunk, acc: Metadata, lengthAt: nat)
    requires lengthAt + 4 <= 20 && Skippable(f, p, c)
    ensures Passes(f, p, acc, lengthAt, Ok(Continue(acc, p + 8 + |c.payload|)))
  {
    HeaderAt(f, p, c);
  }

  /** One pass of the top-level loop at `p` gives `r`. */
  ghost predicate Passes(f: seq<byte>, p: nat, acc: Metadata, lengthAt: nat, r: Result<Step>)
    requires lengthAt + 4 <= 20
  {
    WalkStep(f, p, acc, lengthAt) == r
  }

  /** The walk from `p` collects `m`. */
  ghost predicate Walks(f: seq<byte>, p: nat, acc: Metadata, lengthAt: nat, m: Metadata)
    requires lengthAt + 4 <= 20
  {
    WalkFrom(f, p, acc, lengthAt) == Ok(m)
  }

  /** A pass that continues, followed by a walk from where it stops, is the
      walk from where it started. */
  lemma Handover(f: seq<byte>, p: nat, acc: Metadata, lengthAt: nat, acc': Metadata, next: nat, result: Metadata)
    requires lengthAt + 4 <= 20
    requires Passes(f, p, acc, lengthAt, Ok(Continue(acc', next)))
    requires Walks(f, next, acc', lengthAt, result)
    ensures Walks(f, p, acc, lengthAt, result)
  {
  }

  /** The walk passes over a chunk other than `cue ` and `LIST`. */
  lemma SkipWalk(f: seq<byte>, p: nat, c: Chunk, acc: Metadata, lengthAt: nat, next: nat, result: Metadata)
    requires lengthAt + 4 <= 20 && Skippable(f, p, c) && next == p + 8 + |c.payload|
    requires Walks(f, next, acc, lengthAt, result)
    ensures Walks(f, p, acc, lengthAt, result)
  {
    assert Passes(f, p, acc, lengthAt, Ok(Continue(acc, next))) by {
      SkipStep(f, p, c, acc, lengthAt);
    }
    Handover(f, p, acc, lengthAt, acc, next, result);
  }

  /** At the end of the file the walk returns what it has collected. */
  lemma WalkAtEnd(f: seq<byte>, acc: Metadata, lengthAt: nat)
    requires lengthAt + 4 <= 20
    ensures Walks(f, |f|, acc, lengthAt, acc)
  {
    HeaderAtEnd(f);
  }

  // ------------------------------------------------------------ adtl lists

  predicate AsciiTags(cs: seq<Chunk>) {
    forall i :: 0 <= i < |cs| ==> IsAscii(cs[i].tag)
  }

  /** The sub-chunks of an `adtl` list applied one after another to the
      dicts, as the loop would if it read exactly these chunks. */
  function ApplySubs(cs: seq<Chunk>, acc: Metadata, lengthAt: nat): (r: Result<Metadata>)
    requires lengthAt + 4 <= 20
    ensures r.Ok? ==> r.value.cues == acc.cues
    decreases |cs|
  {
    if |cs| == 0 then Ok(acc)
    else
      var acc' :- SubChunk(cs[0].tag, cs[0].payload, acc, lengthAt);
      ApplySubs(cs[1..], acc', lengthAt)
  }

  /** The first sub-chunk, then the rest. */
  lemma ApplyCons(cs: seq<Chunk>, acc: Metadata, lengthAt: nat, acc': Metadata, r: Result<Metadata>)
    requires lengthAt + 4 <= 20 && |cs| > 0
    requires SubChunk(cs[0].tag, cs[0].payload, acc, lengthAt) == Ok(acc')
    requires ApplySubs(cs[1..], acc', lengthAt) == r
    ensures ApplySubs(cs, acc, lengthAt) == r
  {
  }

  /** Applying two runs of sub-chunks is applying the first, then the second. */
  lemma {:induction false} ApplySubsAppend(a: seq<Chunk>, b: seq<Chunk>, acc: Metadata, lengthAt: nat)
    requires lengthAt + 4 <= 20 && ApplySubs(a, acc, lengthAt).Ok?
    ensures ApplySubs(a + b, acc, lengthAt) == ApplySubs(b, ApplySubs(a, acc, lengthAt).value, lengthAt)
    decreases |a|
  {
    if |a| == 0 {
      assert a + b == b;
    } else {
      assert (a + b)[0] == a[0];
      assert (a + b)[1..] == a[1..] + b;
      var acc' := SubChunk(a[0].tag, a[0].payload, acc, lengthAt).value;
      ApplySubsAppend(a[1..], b, acc', lengthAt);
    }
  }

  /** The three reads that take in a chunk whose bytes are known: the tag,
      the size field and the payload. */
  lemma ChunkReads(f: seq<byte>, p: nat, c: Chunk)
    requires Writable(c) && At(f, p, ChunkBytes(c))
    ensures Read(f, p, 4) == c.tag
    ensures Read(f, p + 4, 4) == U32(|c.payload|)
    ensures Read(f, p + 8, |c.payload|) == c.payload
  {
    AtSplit(f, p, c.tag + U32(|c.payload|), c.payload);
    AtSplit(f, p, c.tag, U32(|c.payload|));
    ReadAt(f, p, c.tag, 4);
    ReadAt(f, p + 4, U32(|c.payload|), 4);
    ReadAt(f, p + 8, c.payload, |c.payload|);
    assert c.tag[..4] == c.tag;
    assert U32(|c.payload|)[..4] == U32(|c.payload|);
    assert c.payload[..|c.payload|] == c.payload;
  }

  /** One sub-chunk whose bytes are known: the dicts it updates, the
      position after it and its declared size. */
  lemma AdtlStepAt(f: seq<byte>, p: nat, c: Chunk, acc: Metadata, lengthAt: nat)
    requires lengthAt + 4 <= 20
    requires Writable(c) && IsAscii(c.tag) && At(f, p, ChunkBytes(c))
    requires SubChunk(c.tag, c.payload, acc, lengthAt).Ok?
    ensures AdtlStep(f, p, acc, lengthAt)
         == Ok((SubChunk(c.tag, c.payload, acc, lengthAt).value, p + 8 + |c.payload|, |c.payload|))
  {
    ChunkReads(f, p, c);
  }

  /** Each chunk of the run sits right after the one before it, starting
      at `p`, and has an ASCII tag. */
  predicate Laid(f: seq<byte>, p: nat, cs: seq<Chunk>)
    decreases |cs|
  {
    |cs| > 0 ==>
      && Writable(cs[0]) && IsAscii(cs[0].tag) && At(f, p, ChunkBytes(cs[0]))
      && Laid(f, p + 8 + |cs[0].payload|, cs[1..])
  }

  /** A run of chunks written out at `p` is laid out there. */
  lemma {:induction false} LaidOut(f: seq<byte>, p: nat, cs: seq<Chunk>)
    requires AllWritable(cs) && AsciiTags(cs) && At(f, p, ChunksBytes(cs))
    ensures Laid(f, p, cs)
    decreases |cs|
  {
    if |cs| > 0 {
      assert AllWritable(cs[1..]) && AsciiTags(cs[1..]);
      AtSplit(f, p, ChunkBytes(cs[0]), ChunksBytes(cs[1..]));
      LaidOut(f, p + 8 + |cs[0].payload|, cs[1..]);
    }
  }

  /** The `adtl` loop over a run of sub-chunks whose declared sizes add up
      to what is left of the list reads each of them and stops after the
      last. */
  lemma {:induction false} AdtlRead(f: seq<byte>, p: nat, bytesRead: int, size: nat, cs: seq<Chunk>,
                                    acc: Metadata, lengthAt: nat)
    requires lengthAt + 4 <= 20
    requires AllWritable(cs) && AsciiTags(cs) && At(f, p, ChunksBytes(cs))
    requires bytesRead + |ChunksBytes(cs)| == size
    requires ApplySubs(cs, acc, lengthAt).Ok?
    ensures ReadsTo(f, p, bytesRead, size, acc, lengthAt, ApplySubs(cs, acc, lengthAt).value, p + |ChunksBytes(cs)|)
  {
    assert Laid(f, p, cs) by {
      LaidOut(f, p, cs);
    }
    assert |ChunksBytes(cs)| == Span(cs) by {
      ChunksSpan(cs);
    }
    AdtlReadLaid(f, p, bytesRead, size, cs, acc, lengthAt);
  }

  /** The bytes a run of chunks takes: 8 for each header plus the payloads. */
  function Span(cs: seq<Chunk>): nat
    decreases |cs|
  {
    if |cs| == 0 then 0 else 8 + |cs[0].payload| + Span(cs[1..])
  }

  lemma {:induction false} ChunksSpan(cs: seq<Chunk>)
    requires AllWritable(cs)
    ensures |ChunksBytes(cs)| == Span(cs)
    decreases |cs|
  {
    if |cs| > 0 {
      assert AllWritable(cs[1..]);
      ChunksSpan(cs[1..]);
    }
  }

  /** Each pass of the `adtl` loop from `p` consumes the next chunk of the
      run, and the passes together leave `result`. */
  ghost predicate Steps(f: seq<byte>, p: nat, cs: seq<Chunk>, acc: Metadata, lengthAt: nat, result: Metadata)
    decreases |cs|
  {
    if |cs| == 0 then result == acc
    else
      && lengthAt + 4 <= 20
      && AdtlStep(f, p, acc, lengthAt).Ok?
      && AdtlStep(f, p, acc, lengthAt).value.1 == p + 8 + |cs[0].payload|
      && AdtlStep(f, p, acc, lengthAt).value.2 == |cs[0].payload|
      && Steps(f, p + 8 + |cs[0].payload|, cs[1..], AdtlStep(f, p, acc, lengthAt).value.0, lengthAt, result)
  }

  ghost predicate Run(f: seq<byte>, p: nat, cs: seq<Chunk>, acc: Metadata, lengthAt: nat, result: Metadata) {
    Steps(f, p, cs, acc, lengthAt, result)
  }

  /** A run laid out at `p` whose sub-chunks all apply is read pass by pass. */
  lemma {:induction false} LaidSteps(f: seq<byte>, p: nat, cs: seq<Chunk>, acc: Metadata, lengthAt: nat)
    requires lengthAt + 4 <= 20
    requires Laid(f, p, cs) && ApplySubs(cs, acc, lengthAt).Ok?
    ensures Steps(f, p, cs, acc, lengthAt, ApplySubs(cs, acc, lengthAt).value)
    decreases |cs|
  {
    if |cs| > 0 {
      assert AdtlStep(f, p, acc, lengthAt)
          == Ok((SubChunk(cs[0].tag, cs[0].payload, acc, lengthAt).value, p + 8 + |cs[0].payload|, |cs[0].payload|)) by {
        AdtlStepAt(f, p, cs[0], acc, lengthAt);
      }
      LaidSteps(f, p + 8 + |cs[0].payload|, cs[1..], SubChunk(cs[0].tag, cs[0].payload, acc, lengthAt).value, lengthAt);
    }
  }

  lemma AdtlReadLaid(f: seq<byte>, p: nat, bytesRead: int, size: nat, cs: seq<Chunk>,
                     acc: Metadata, lengthAt: nat)
    requires lengthAt + 4 <= 20
    requires Laid(f, p, cs) && bytesRead + Span(cs) == size
    requires ApplySubs(cs, acc, lengthAt).Ok?
    ensures ReadsTo(f, p, bytesRead, size, acc, lengthAt, ApplySubs(cs, acc, lengthAt).value, p + Span(cs))
  {
    LaidSteps(f, p, cs, acc, lengthAt);
    StepsRead(f, p, bytesRead, size, cs, acc, lengthAt, ApplySubs(cs, acc, lengthAt).value, p + Span(cs));
  }

  /** The `adtl` loop makes those passes and stops once the declared sizes
      are used up. */
  lemma {:induction false} StepsRead(f: seq<byte>, p: nat, bytesRead: int, size: nat, cs: seq<Chunk>,
                                     acc: Metadata, lengthAt: nat, result: Metadata, end: nat)
    requires lengthAt + 4 <= 20
    requires Run(f, p, cs, acc, lengthAt, result) && bytesRead + Span(cs) == size && end == p + Span(cs)
    ensures ReadsTo(f, p, bytesRead, size, acc, lengthAt, result, end)
    decreases |cs|, 1
  {
    if |cs| == 0 {
      StepsNone(f, p, bytesRead, size, cs, acc, lengthAt, result, end);
    } else {
      StepsReadMore(f, p, bytesRead, size, cs, acc, lengthAt, result, end);
    }
  }

  /** The first pass, then the loop over the rest of the run. */
  lemma {:induction false} StepsReadMore(f: seq<byte>, p: nat, bytesRead: int, size: nat, cs: seq<Chunk>,
                                         acc: Metadata, lengthAt: nat, result: Metadata, end: nat)
    requires lengthAt + 4 <= 20 && |cs| > 0
    requires Run(f, p, cs, acc, lengthAt, result) && bytesRead + Span(cs) == size && end == p + Span(cs)
    ensures ReadsTo(f, p, bytesRead, size, acc, lengthAt, result, end)
    decreases |cs|, 0
  {
    var acc', sub := StepsHead(f, p, bytesRead, size, cs, acc, lengthAt, result, end);
    StepsRead(f, p + 8 + sub, bytesRead + 8 + sub, size, cs[1..], acc', lengthAt, result, end);
    StepsCons(f, p, bytesRead, size, cs, acc, lengthAt, result, end, acc', sub);
  }

  /** With no sub-chunk left the declared size is used up and the loop stops
      where it is. */
  lemma StepsNone(f: seq<byte>, p: nat, bytesRead: int, size: nat, cs: seq<Chunk>, acc: Metadata, lengthAt: nat,
                  result: Metadata, end: nat)
    requires lengthAt + 4 <= 20 && |cs| == 0 && Run(f, p, cs, acc, lengthAt, result)
    requires bytesRead + Span(cs) == size && end == p + Span(cs)
    ensures ReadsTo(f, p, bytesRead, size, acc, lengthAt, result, end)
  {
  }

  /** One pass of the `adtl` loop at `p` reads a sub-chunk of `subsize`
      bytes and leaves `acc'`. */
  ghost predicate StepIs(f: seq<byte>, p: nat, acc: Metadata, lengthAt: nat, acc': Metadata, subsize: nat)
    requires lengthAt + 4 <= 20
  {
    AdtlStep(f, p, acc, lengthAt) == Ok((acc', p + 8 + subsize, subsize))
  }

  /** The first of the passes. */
  lemma StepsHead(f: seq<byte>, p: nat, bytesRead: int, size: nat, cs: seq<Chunk>, acc: Metadata, lengthAt: nat,
                  result: Metadata, end: nat)
    returns (acc': Metadata, sub: nat)
    requires lengthAt + 4 <= 20 && |cs| > 0 && Run(f, p, cs, acc, lengthAt, result)
    requires bytesRead + Span(cs) == size && end == p + Span(cs)
    ensures bytesRead < size
    ensures bytesRead + 8 + sub + Span(cs[1..]) == size && end == p + 8 + sub + Span(cs[1..])
    ensures acc' == AdtlStep(f, p, acc, lengthAt).value.0 && sub == |cs[0].payload|
    ensures Run(f, p + 8 + sub, cs[1..], acc', lengthAt, result)
  {
    acc' := AdtlStep(f, p, acc, lengthAt).value.0;
    sub := |cs[0].payload|;
  }

  /** The first pass, then the loop over the rest of the run. */
  lemma StepsCons(f: seq<byte>, p: nat, bytesRead: int, size: nat, cs: seq<Chunk>, acc: Metadata, lengthAt: nat,
                  result: Metadata, end: nat, acc': Metadata, sub: nat)
    requires lengthAt + 4 <= 20 && |cs| > 0 && Run(f, p, cs, acc, lengthAt, result) && bytesRead < size
    requires acc' == AdtlStep(f, p, acc, lengthAt).value.0 && sub == |cs[0].payload|
    requires ReadsTo(f, p + 8 + sub, bytesRead + 8 + sub, size, acc', lengthAt, result, end)
    ensures ReadsTo(f, p, bytesRead, size, acc, lengthAt, result, end)
  {
    StepsFirst(f, p, cs, acc, lengthAt, result, acc', sub);
    ReadAdtlCons(f, p, bytesRead, size, acc, lengthAt, acc', sub, result, end);
  }

  lemma StepsFirst(f: seq<byte>, p: nat, cs: seq<Chunk>, acc: Metadata, lengthAt: nat, result: Metadata,
                   acc': Metadata, sub: nat)
    requires lengthAt + 4 <= 20 && |cs| > 0 && Run(f, p, cs, acc, lengthAt, result)
    requires acc' == AdtlStep(f, p, acc, lengthAt).value.0 && sub == |cs[0].payload|
    ensures StepIs(f, p, acc, lengthAt, acc', sub)
  {
  }

  /** The `adtl` loop from `p` ends with `result` at `end`. */
  ghost predicate ReadsTo(f: seq<byte>, p: nat, bytesRead: int, size: nat, acc: Metadata, lengthAt: nat,
                          result: Metadata, end: nat)
    requires lengthAt + 4 <= 20
  {
    ReadAdtl(f, p, bytesRead, size, acc, lengthAt) == Ok((result, end))
  }

  /** A pass of the `adtl` loop, then the rest of the loop from where it
      stops, is the whole loop. */
  lemma ReadAdtlCons(f: seq<byte>, p: nat, bytesRead: int, size: nat, acc: Metadata, lengthAt: nat,
                     acc': Metadata, subsize: nat, result: Metadata, end: nat)
    requires lengthAt + 4 <= 20 && bytesRead < size
    requires StepIs(f, p, acc, lengthAt, acc', subsize)
    requires ReadsTo(f, p + 8 + subsize, bytesRead + 8 + subsize, size, acc', lengthAt, result, end)
    ensures ReadsTo(f, p, bytesRead, size, acc, lengthAt, result, end)
  {
  }

  /** A `LIST` chunk of type `adtl` holding the run `cs`. */
  function AdtlList(cs: seq<Chunk>): Chunk
    requires AllWritable(cs)
  {
    Chunk(LIST_TAG, ADTL_TAG + ChunksBytes(cs))
  }

  /** The walk reads an `adtl` list chunk by chunk and continues right after
      it. */
  lemma ListStep(f: seq<byte>, p: nat, cs: seq<Chunk>, acc: Metadata, lengthAt: nat)
    requires lengthAt + 4 <= 20
    requires AllWritable(cs) && AsciiTags(cs) && Writable(AdtlList(cs))
    requires At(f, p, ChunkBytes(AdtlList(cs)))
    requires ApplySubs(cs, acc, lengthAt).Ok?
    ensures Passes(f, p, acc, lengthAt,
            Ok(Continue(ApplySubs(cs, acc, lengthAt).value, p + 8 + |AdtlList(cs).payload|)))
  {
    ListHeader(f, p, cs);
    ListBody(f, p + 8, cs, acc, lengthAt);
    WalkStepList(f, p, acc, lengthAt, 4 + |ChunksBytes(cs)|,
                 Ok(Continue(ApplySubs(cs, acc, lengthAt).value, p + 12 + |ChunksBytes(cs)|)));
  }

  lemma ListHeader(f: seq<byte>, p: nat, cs: seq<Chunk>)
    requires AllWritable(cs) && Writable(AdtlList(cs)) && At(f, p, ChunkBytes(AdtlList(cs)))
    ensures ReadHeader(f, p) == Some(Header(LIST_TAG, 4 + |ChunksBytes(cs)|))
    ensures At(f, p + 8, ADTL_TAG + ChunksBytes(cs))
  {
    TagsAreFourBytes();
    HeaderAt(f, p, AdtlList(cs));
  }

  /** The body of a `LIST` chunk at `p` gives `r`. */
  ghost predicate ListGives(f: seq<byte>, p: nat, size: nat, acc: Metadata, lengthAt: nat, r: Result<Step>)
    requires lengthAt + 4 <= 20 && p >= 4
  {
    ListChunk(f, p, size, acc, lengthAt) == r
  }

  /** The body of an `adtl` list: the type, then the run of sub-chunks. */
  lemma ListBody(f: seq<byte>, q: nat, cs: seq<Chunk>, acc: Metadata, lengthAt: nat)
    requires lengthAt + 4 <= 20 && q >= 4
    requires AllWritable(cs) && AsciiTags(cs) && At(f, q, ADTL_TAG + ChunksBytes(cs))
    requires ApplySubs(cs, acc, lengthAt).Ok?
    ensures ListGives(f, q, 4 + |ChunksBytes(cs)|, acc, lengthAt,
                      Ok(Continue(ApplySubs(cs, acc, lengthAt).value, q + 4 + |ChunksBytes(cs)|)))
  {
    ListType(f, q, ChunksBytes(cs));
    ListRun(f, q, cs, acc, lengthAt);
    ListChunkAdtl(f, q, 4 + |ChunksBytes(cs)|, acc, lengthAt,
                  ApplySubs(cs, acc, lengthAt).value, q + 4 + |ChunksBytes(cs)|);
  }

  lemma ListType(f: seq<byte>, q: nat, rest: seq<byte>)
    requires At(f, q, ADTL_TAG + rest)
    ensures Read(f, q, 4) == ADTL_TAG
  {
    TagsAreFourBytes();
    AtSplit(f, q, ADTL_TAG, rest);
    ReadAt(f, q, ADTL_TAG, 4);
    assert ADTL_TAG[..4] == ADTL_TAG;
  }

  lemma ListRun(f: seq<byte>, q: nat, cs: seq<Chunk>, acc: Metadata, lengthAt: nat)
    requires lengthAt + 4 <= 20
    requires AllWritable(cs) && AsciiTags(cs) && At(f, q, ADTL_TAG + ChunksBytes(cs))
    requires ApplySubs(cs, acc, lengthAt).Ok?
    ensures ReadsTo(f, q + 4, 4, 4 + |ChunksBytes(cs)|, acc, lengthAt,
                    ApplySubs(cs, acc, lengthAt).value, q + 4 + |ChunksBytes(cs)|)
  {
    assert At(f, q + 4, ChunksBytes(cs)) by {
      TagsAreFourBytes();
      AtSplit(f, q, ADTL_TAG, ChunksBytes(cs));
    }
    AdtlRead(f, q + 4, 4, 4 + |ChunksBytes(cs)|, cs, acc, lengthAt);
  }

  /** A `LIST` header hands the rest of the pass to `ListChunk`. */
  lemma WalkStepList(f: seq<byte>, p: nat, acc: Metadata, lengthAt: nat, size: nat, r: Result<Step>)
    requires lengthAt + 4 <= 20
    requires ReadHeader(f, p) == Some(Header(LIST_TAG, size))
    requires ListGives(f, p + 8, size, acc, lengthAt, r)
    ensures Passes(f, p, acc, lengthAt, r)
  {
    TagsAreFourBytes();
    assert LIST_TAG[0] != CUE_TAG[0];
  }

  /** A list of type `adtl` is read by the `adtl` loop. */
  lemma ListChunkAdtl(f: seq<byte>, p: nat, size: nat, acc: Metadata, lengthAt: nat, acc': Metadata, next: nat)
    requires lengthAt + 4 <= 20 && p >= 4
    requires Read(f, p, 4) == ADTL_TAG
    requires ReadsTo(f, p + 4, 4, size, acc, lengthAt, acc', next)
    ensures ListGives(f, p, size, acc, lengthAt, Ok(Continue(acc', next)))
  {
    TagsAreFourBytes();
  }
}

=== FILE: marker_facts.dfy ===
/** The per-region work of `srt2regions.py`: the length of the blank audio
    and the region loop that turns every region into a marker. */
module MarkerFacts {
  import opened PyCore
  import opened Bytes
  import opened SrtTime
  import opened RegionEncoder

  // ------------------------------------------------------------ max end

  /** The duration of the blank audio is the largest end time; it exists
      exactly when there is a region and every end parses, and otherwise the
      first malformed end raises `ValueError`. */
  lemma MaxEndSpec(regions: seq<Region>)
    ensures MaxEndMs(regions).Ok? <==> |regions| > 0 && forall k :: 0 <= k < |regions| ==> TimeToMs(regions[k].end).Ok?
    ensures MaxEndMs(regions).Ok? ==>
      && (forall k :: 0 <= k < |regions| ==> TimeToMs(regions[k].end).value <= MaxEndMs(regions).value)
      && exists k :: 0 <= k < |regions| && TimeToMs(regions[k].end).value == MaxEndMs(regions).value
    ensures MaxEndMs(regions).Raise? ==> MaxEndMs(regions).exc == ValueError
  {
    var ends := EndTimes(regions);
    forall k | 0 <= k < |regions| ensures ends[k] == TimeToMs(regions[k].end) {
      EndTimesAt(regions, k);
    }
    AllOkSpec(ends);
    if AllOk(ends).Ok? && |regions| > 0 {
      AllOkMax(ends);
    }
  }

  lemma EndTimesAt(regions: seq<Region>, k: nat)
    requires k < |regions|
    ensures EndTimes(regions)[k] == TimeToMs(regions[k].end)
  {
  }

  // ------------------------------------------------------------ frames

  /** The frames are the blank audio's zero bytes, padded to an even length. */
  lemma FramesSpec(durationMs: int, rate: int, bitDepth: int, channels: int)
    ensures var f := Frames(durationMs, rate, bitDepth, channels);
      var n := BlankAudioLength(durationMs, rate, bitDepth, channels);
      && |f| % 2 == 0 && n <= |f| <= n + 1
      && forall i :: 0 <= i < |f| ==> f[i] == 0
  {
  }

  /** For a positive duration, rate, width and channel count the blank audio
      holds `floor(duration * rate) * (bit_depth // 8) * channels` bytes. */
  lemma BlankAudioLengthPositive(durationMs: nat, rate: nat, bitDepth: int, channels: nat)
    requires bitDepth >= 8
    ensures BlankAudioLength(durationMs, rate, bitDepth, channels)
         == (durationMs * rate / 1000) * (bitDepth / 8) * channels
  {
    var n := MsToSample(durationMs, rate);
    assert n == durationMs * rate / 1000;
  }

  // ------------------------------------------------------------ markers

  /** The packs succeed exactly when both conversions succeed and the id,
      the start sample, the length and the label fit their fields; the
      marker then holds the id, the name, the start sample and the distance
      from start to end. */
  lemma MarkerOfSpec(id: nat, start: Result<int>, end: Result<int>, name: string)
    ensures MarkerOf(id, start, end, name).Ok? <==>
      && start.Ok? && end.Ok? && id < TWO_32
      && 0 <= start.value < TWO_32 && 0 <= end.value - start.value < TWO_32
      && LabelLength(name) + 4 < TWO_32
    ensures MarkerOf(id, start, end, name).Ok? ==>
      var m := MarkerOf(id, start, end, name).value;
      && m.id == id && m.name == name
      && start == Ok(m.start as int) && end == Ok(m.start + m.length)
  {
  }

  /** A failed conversion of the start raises its exception; so does one of
      the end after a good start; with both converted, only `StructError`
      can follow. */
  lemma MarkerOfFailure(id: nat, start: Result<int>, end: Result<int>, name: string)
    ensures start.Raise? ==> MarkerOf(id, start, end, name) == Raise(start.exc)
    ensures start.Ok? && end.Raise? ==> MarkerOf(id, start, end, name) == Raise(end.exc)
    ensures start.Ok? && end.Ok? && MarkerOf(id, start, end, name).Raise? ==>
      MarkerOf(id, start, end, name).exc == StructError
  {
  }

  /** One successful step of the region loop: the marker carries the id and
      the name, and its start and length are the sample indices of the
      region's times. */
  lemma MakeMarkerSpec(region: Region, id: nat, rate: int)
    requires MakeMarker(region, id, rate).Ok?
    ensures var m := MakeMarker(region, id, rate).value;
      && m.id == id && m.name == region.name
      && TimeToSample(region.start, rate) == Ok(m.start as int)
      && TimeToSample(region.end, rate) == Ok(m.start + m.length)
  {
    MarkerOfSpec(id, TimeToSample(region.start, rate), TimeToSample(region.end, rate), region.name);
  }

  /** A successful region loop yields one marker per region, marker `k`
      being region `k`'s with id `id + k`. */
  lemma MarkersSpec(regions: seq<Region>, id: nat, rate: int)
    requires Markers(regions, id, rate).Ok?
    ensures |Markers(regions, id, rate).value| == |regions|
    ensures forall k :: 0 <= k < |regions| ==> MakeMarker(regions[k], id + k, rate) == Ok(Markers(regions, id, rate).value[k])
  {
    forall k | 0 <= k < |regions|
      ensures MakeMarker(regions[k], id + k, rate) == Ok(Markers(regions, id, rate).value[k])
    {
      MarkerAt(regions, id, rate, k);
    }
  }

  lemma MarkerAt(regions: seq<Region>, id: nat, rate: int, k: nat)
    requires Markers(regions, id, rate).Ok? && k < |regions|
    ensures MakeMarker(regions[k], id + k, rate) == Ok(Markers(regions, id, rate).value[k])
  {
    var rs := MarkerResults(regions, id, rate);
    AllOkSpec(rs);
    PassAt(regions, id, rate, k);
  }

  /** Pass `k` of the region loop makes the marker of region `k` with id
      `id + k`. */
  lemma PassAt(regions: seq<Region>, id: nat, rate: int, k: nat)
    requires k < |regions|
    ensures MarkerResults(regions, id, rate)[k] == MakeMarker(regions[k], id + k, rate)
  {
  }

  /** The region loop succeeds when every region packs. */
  lemma MarkersAllOk(regions: seq<Region>, id: nat, rate: int)
    requires forall k :: 0 <= k < |regions| ==> MakeMarker(regions[k], id + k, rate).Ok?
    ensures Markers(regions, id, rate).Ok?
  {
    var rs := MarkerResults(regions, id, rate);
    forall k | 0 <= k < |rs|
      ensures rs[k].Ok?
    {
      PassAt(regions, id, rate, k);
    }
    AllOkSpec(rs);
  }

  /** Every region of a prefix that packs as a whole packs on its own. */
  lemma MarkersPrefixOk(regions: seq<Region>, id: nat, rate: int, k: nat)
    requires k <= |regions| && Markers(regions[..k], id, rate).Ok?
    ensures forall j :: 0 <= j < k ==> MakeMarker(regions[j], id + j, rate).Ok?
  {
    forall j | 0 <= j < k
      ensures MakeMarker(regions[j], id + j, rate).Ok?
    {
      MarkerAt(regions[..k], id, rate, j);
      assert regions[..k][j] == regions[j];
    }
  }

  /** A failed region loop stops at a region that raises what the loop
      raises, after packing every region before it. */
  lemma MarkersFirstFailure(regions: seq<Region>, id: nat, rate: int) returns (k: nat)
    requires Markers(regions, id, rate).Raise?
    ensures k < |regions|
    ensures MakeMarker(regions[k], id + k, rate) == Raise(Markers(regions, id, rate).exc)
    ensures Markers(regions[..k], id, rate).Ok?
  {
    var rs := MarkerResults(regions, id, rate);
    AllOkSpec(rs);
    k :| 0 <= k < |rs| && rs[k].Raise? && AllOk(rs).exc == rs[k].exc
      && forall j :: 0 <= j < k ==> rs[j].Ok?;
    PassAt(regions, id, rate, k);
    forall j | 0 <= j < k
      ensures MakeMarker(regions[..k][j], id + j, rate).Ok?
    {
      PassAt(regions, id, rate, j);
      assert regions[..k][j] == regions[j];
    }
    MarkersAllOk(regions[..k], id, rate);
  }

  /** The region loop succeeds exactly when every region packs; otherwise
      it raises what the first failing region raises. */
  lemma MarkersFailure(regions: seq<Region>, id: nat, rate: int)
    ensures Markers(regions, id, rate).Ok? <==>
      forall k :: 0 <= k < |regions| ==> MakeMarker(regions[k], id + k, rate).Ok?
    ensures Markers(regions, id, rate).Raise? ==>
      exists k :: 0 <= k < |regions|
        && MakeMarker(regions[k], id + k, rate) == Raise(Markers(regions, id, rate).exc)
        && forall j :: 0 <= j < k ==> MakeMarker(regions[j], id + j, rate).Ok?
  {
    MarkersOkIff(regions, id, rate);
    if Markers(regions, id, rate).Raise? {
      var k := MarkersFirstFailure(regions, id, rate);
      MarkersPrefixOk(regions, id, rate, k);
      assert k < |regions|
        && MakeMarker(regions[k], id + k, rate) == Raise(Markers(regions, id, rate).exc)
        && forall j :: 0 <= j < k ==> MakeMarker(regions[j], id + j, rate).Ok?;
    }
  }

  lemma MarkersOkIff(regions: seq<Region>, id: nat, rate: int)
    ensures Markers(regions, id, rate).Ok? <==>
      forall k :: 0 <= k < |regions| ==> MakeMarker(regions[k], id + k, rate).Ok?
  {
    if Markers(regions, id, rate).Raise? {
      var k := MarkersFirstFailure(regions, id, rate);
      assert !MakeMarker(regions[k], id + k, rate).Ok?;
    } else {
      MarkersSpec(regions, id, rate);
    }
    if forall k :: 0 <= k < |regions| ==> MakeMarker(regions[k], id + k, rate).Ok? {
      MarkersAllOk(regions, id, rate);
    }
  }

  /** A region whose times both convert but whose end sample lies before its
      start sample makes the pack of its length raise `StructError`. */
  lemma EndBeforeStartRaises(region: Region, id: nat, rate: int)
    requires TimeToSample(region.start, rate).Ok? && TimeToSample(region.end, rate).Ok?
    requires TimeToSample(region.end, rate).value < TimeToSample(region.start, rate).value
    ensures MakeMarker(region, id, rate) == Raise(StructError)
  {
    MarkerOfSpec(id, TimeToSample(region.start, rate), TimeToSample(region.end, rate), region.name);
    MarkerOfFailure(id, TimeToSample(region.start, rate), TimeToSample(region.end, rate), region.name);
  }

  /** A malformed start or end time raises `ValueError` before anything is
      packed. */
  lemma BadTimeRaises(region: Region, id: nat, rate: int)
    requires TimeToMs(region.start).Raise? || TimeToMs(region.end).Raise?
    ensures MakeMarker(region, id, rate) == Raise(ValueError)
  {
    MarkerOfFailure(id, TimeToSample(region.start, rate), TimeToSample(region.end, rate), region.name);
  }
}

=== FILE: newline_io.dfy ===
/** Python's text-mode newline handling: a file opened for writing with
    `newline='\r\n'` turns every `\n` written into `\r\n`, and a file opened
    for reading with the default `newline=None` turns `\r\n` and a lone `\r`
    into `\n` before the text reaches the program. */
module NewlineIo {
  import opened PyCore
  import opened PyText
  import opened SrtTime

  /** The text that lands in a file opened with `newline='\r\n'`. */
  function WriteCrLf(t: string): (w: string)
    ensures CrBeforeLf(w)
  {
    var parts := Split(t, "\n");
    SplitJoin(t, "\n");
    JoinCrLf(parts);
    Replace(t, "\n", "\r\n")
  }

  /** The text a program reads from a file opened in the default text mode:
      each `\r\n` (left to right) and then each remaining `\r` becomes `\n`. */
  function ReadUniversal(s: string): (t: string)
    ensures NoChar(t, '\r')
    ensures NoChar(s, '\r') ==> t == s
  {
    if NoChar(s, '\r') then
      NoCharNotContains(s, "\r\n");
      ReplaceAbsent(s, "\r\n", "\n");
      ReplaceCharAbsent(s, '\r', '\n');
      ReplaceChar(Replace(s, "\r\n", "\n"), '\r', '\n')
    else ReplaceChar(Replace(s, "\r\n", "\n"), '\r', '\n')
  }

  /** Pieces none of which holds the separator's first character are what
      splitting their join gives back. */
  lemma {:induction false} SplitOfJoin(parts: seq<string>, sep: string)
    requires |sep| > 0 && |parts| > 0
    requires forall i :: 0 <= i < |parts| ==> NoChar(parts[i], sep[0])
    ensures Split(Join(parts, sep), sep) == parts
    decreases |parts|
  {
    if |parts| == 1 {
      NoCharNotContains(parts[0], sep);
      SplitAbsent(parts[0], sep);
    } else {
      var rest := parts[1..];
      assert Join(parts, sep) == parts[0] + sep + Join(rest, sep);
      SplitCons(parts[0], sep, Join(rest, sep));
      SplitOfJoin(rest, sep);
      assert parts == [parts[0]] + rest;
    }
  }

  /** A character absent from a join is absent from every piece. */
  lemma {:induction false} JoinNoChar(parts: seq<string>, sep: string, c: char)
    requires NoChar(Join(parts, sep), c)
    ensures forall i :: 0 <= i < |parts| ==> NoChar(parts[i], c)
    decreases |parts|
  {
    if |parts| > 1 {
      var j := Join(parts, sep);
      var tail := sep + Join(parts[1..], sep);
      assert j == parts[0] + tail;
      forall i | 0 <= i < |parts[0]| ensures parts[0][i] != c {
        assert j[i] == parts[0][i];
      }
      forall i | 0 <= i < |Join(parts[1..], sep)| ensures Join(parts[1..], sep)[i] != c {
        assert j[|parts[0]| + |sep| + i] == Join(parts[1..], sep)[i];
      }
      JoinNoChar(parts[1..], sep, c);
      forall i | 1 <= i < |parts| ensures NoChar(parts[i], c) {
        assert parts[i] == parts[1..][i - 1];
      }
    }
  }

  /** Replacing a character the text does not hold changes nothing. */
  lemma ReplaceCharAbsent(s: string, a: char, b: char)
    requires NoChar(s, a)
    ensures ReplaceChar(s, a, b) == s
  {
  }

  /** Text without `\r`, written with `\r\n` line ends and read back in
      the default text mode, is the text that was written. */
  lemma ReadWriteRoundTrip(t: string)
    requires NoChar(t, '\r')
    ensures ReadUniversal(WriteCrLf(t)) == t
  {
    var parts := Split(t, "\n");
    SplitJoin(t, "\n");
    JoinNoChar(parts, "\n", '\r');
    SplitOfJoin(parts, "\r\n");
    assert Replace(WriteCrLf(t), "\r\n", "\n") == t;
    ReplaceCharAbsent(t, '\r', '\n');
  }

  /** Every `\n` of the written file comes right after a `\r`. */
  lemma CrLfEveryNewline(t: string)
    ensures CrBeforeLf(WriteCrLf(t))
  {
    var parts := Split(t, "\n");
    SplitJoin(t, "\n");
    assert WriteCrLf(t) == Join(parts, "\r\n");
    JoinCrLf(parts);
  }

  lemma NoNewlineAt(p: string, i: nat)
    requires !Contains(p, "\n") && i < |p|
    ensures p[i] != '\n'
  {
    assert !Occurs(p, "\n", i);
    assert p[i..i + 1] == [p[i]];
  }

  /** Every `\n` of `w` comes right after a `\r`. */
  predicate CrBeforeLf(w: string) {
    forall i :: 0 <= i < |w| && w[i] == '\n' ==> i > 0 && w[i - 1] == '\r'
  }

  lemma {:induction false} JoinCrLf(parts: seq<string>)
    requires forall i :: 0 <= i < |parts| ==> !Contains(parts[i], "\n")
    ensures CrBeforeLf(Join(parts, "\r\n"))
    decreases |parts|
  {
    var w := Join(parts, "\r\n");
    if |parts| == 1 {
      forall i | 0 <= i < |w| ensures w[i] != '\n' {
        NoNewlineAt(parts[0], i);
      }
    } else if |parts| > 1 {
      var p, rest := parts[0], Join(parts[1..], "\r\n");
      JoinCrLf(parts[1..]);
      assert CrBeforeLf(rest);
      assert w == p + "\r\n" + rest;
      forall i | 0 <= i < |w|
        ensures w[i] == '\n' ==> i > 0 && w[i - 1] == '\r'
      {
        if i < |p| {
          NoNewlineAt(p, i);
          assert p[i] == w[i];
        } else if i >= |p| + 2 {
          var j := i - |p| - 2;
          assert rest[j] == w[i];
          if j > 0 {
            assert rest[j - 1] == w[i - 1];
          }
        }
      }
    }
  }
}

=== FILE: parse_facts.dfy ===
/** What `parse_srt` in `srt2regions.py` reads: which lines become regions,
    which raise, and that the blocks an SRT writer emits are read back. */
module ParseFacts {
  import opened PyCore
  import opened PyText
  import opened RegionEncoder

  // ------------------------------------------------------------ parse_srt

  /** Text with no whitespace anywhere, as every formatted timestamp is. */
  predicate Token(s: string) {
    |s| > 0 && forall i :: 0 <= i < |s| ==> !IsSpace(s[i])
  }

  /** A region an SRT writer can emit so that `parse_srt` reads it back. */
  predicate WellFormed(r: Region) {
    Token(r.start) && Token(r.end) && IsStripped(r.name)
  }

  /** The four lines of SRT block number `k`, as `readlines` returns them. */
  function BlockLines(k: nat, r: Region): seq<string> {
    [IntStr(k) + "\n", r.start + ARROW + r.end + "\n", r.name + "\n", "\n"]
  }

  /** The lines of an SRT file holding `regions`, numbered from `k`. */
  function SrtLines(regions: seq<Region>, k: nat): (lines: seq<string>)
    ensures |lines| == 4 * |regions|
  {
    if |regions| == 0 then [] else BlockLines(k, regions[0]) + SrtLines(regions[1..], k + 1)
  }

  lemma DigitsStripped(d: string)
    requires IsDigits(d)
    ensures IsStripped(d)
  {
    assert IsDigitChar(d[0]) && IsDigitChar(d[|d| - 1]);
  }

  lemma IndexLine(k: nat)
    ensures IsDigits(IntStr(k)) && Strip(IntStr(k) + "\n") == IntStr(k)
  {
    var d := Decimal(k);
    DecimalSpec(k);
    assert IntStr(k) == ZeroFill(d, 0) == d;
    DigitsStripped(d);
    StripNewline(d);
    StripOfStripped(d);
  }

  lemma TimesLine(start: string, end: string)
    requires Token(start) && Token(end)
    ensures Strip(start + ARROW + end + "\n") == start + ARROW + end
    ensures Split(start + ARROW + end, ARROW) == [start, end]
  {
    var t := start + ARROW + end;
    assert t[0] == start[0] && t[|t| - 1] == end[|end| - 1];
    StripNewline(t);
    StripOfStripped(t);
    assert ARROW[0] == ' ' && IsSpace(' ');
    NoCharNotContains(end, ARROW);
    SplitPair(start, ARROW, end);
  }

  /** Lines `i` to `i + 3` hold a block `parse_srt` reads as `r`: a digit
      line, a line whose stripped text splits into the two times, and a line
      that strips to the name. */
  predicate ReadsAs(lines: seq<string>, i: nat, r: Region) {
    && i + 4 <= |lines| && OpensBlock(lines[i])
    && Split(Strip(lines[i + 1]), ARROW) == [r.start, r.end]
    && Strip(lines[i + 2]) == r.name
  }

  /** From line `i` to the end, the lines are the blocks of `regions`. */
  predicate ReadsAll(lines: seq<string>, i: nat, regions: seq<Region>)
    decreases |regions|
  {
    if |regions| == 0 then i == |lines|
    else ReadsAs(lines, i, regions[0]) && ReadsAll(lines, i + 4, regions[1..])
  }

  /** A block is read as its region, and the scan resumes 4 lines on. */
  lemma BlockReads(lines: seq<string>, i: nat, r: Region)
    requires ReadsAs(lines, i, r)
    ensures ParseFrom(lines, i + 4).Ok? ==> ParseFrom(lines, i) == Ok([r] + ParseFrom(lines, i + 4).value)
  {
  }

  /** Lines holding the blocks of `regions` are read as those regions. */
  lemma {:induction false} ReadsAllParses(lines: seq<string>, i: nat, regions: seq<Region>)
    requires ReadsAll(lines, i, regions)
    ensures ParseFrom(lines, i) == Ok(regions)
    decreases |regions|
  {
    if |regions| > 0 {
      ReadsAllParses(lines, i + 4, regions[1..]);
      BlockReads(lines, i, regions[0]);
      assert [regions[0]] + regions[1..] == regions;
    }
  }

  /** Line `j` of a block written after `prefix`. */
  lemma LineOfBlock(prefix: seq<string>, block: seq<string>, rest: seq<string>, j: nat)
    requires j < |block|
    ensures (prefix + (block + rest))[|prefix| + j] == block[j]
  {
    ConcatAt(prefix, block + rest, j);
    ConcatBefore(block, rest, j);
  }

  /** The index line of a written block opens it. */
  lemma IndexLineRead(prefix: seq<string>, rest: seq<string>, k: nat, r: Region)
    ensures OpensBlock((prefix + (BlockLines(k, r) + rest))[|prefix|])
  {
    LineOfBlock(prefix, BlockLines(k, r), rest, 0);
    IndexLine(k);
  }

  /** The time line of a written block splits into its two times. */
  lemma TimesLineRead(prefix: seq<string>, rest: seq<string>, k: nat, r: Region)
    requires Token(r.start) && Token(r.end)
    ensures Split(Strip((prefix + (BlockLines(k, r) + rest))[|prefix| + 1]), ARROW) == [r.start, r.end]
  {
    LineOfBlock(prefix, BlockLines(k, r), rest, 1);
    TimesLine(r.start, r.end);
  }

  /** The name line of a written block strips to its name. */
  lemma NameLineRead(prefix: seq<string>, rest: seq<string>, k: nat, r: Region)
    requires IsStripped(r.name)
    ensures Strip((prefix + (BlockLines(k, r) + rest))[|prefix| + 2]) == r.name
  {
    LineOfBlock(prefix, BlockLines(k, r), rest, 2);
    StripNewline(r.name);
    StripOfStripped(r.name);
  }

  /** The four lines an SRT writer emits for a well-formed region are read
      as that region. */
  lemma BlockLinesRead(prefix: seq<string>, rest: seq<string>, k: nat, r: Region)
    requires WellFormed(r)
    ensures ReadsAs(prefix + (BlockLines(k, r) + rest), |prefix|, r)
  {
    IndexLineRead(prefix, rest, k, r);
    TimesLineRead(prefix, rest, k, r);
    NameLineRead(prefix, rest, k, r);
  }

  lemma SrtLinesCons(regions: seq<Region>, k: nat)
    requires |regions| > 0
    ensures SrtLines(regions, k) == BlockLines(k, regions[0]) + SrtLines(regions[1..], k + 1)
  {
  }

  /** Blocks written after any `prefix` hold their regions from the line
      where they start. */
  lemma {:induction false} WrittenBlocksRead(prefix: seq<string>, regions: seq<Region>, k: nat)
    requires forall m :: 0 <= m < |regions| ==> WellFormed(regions[m])
    ensures ReadsAll(prefix + SrtLines(regions, k), |prefix|, regions)
    decreases |regions|
  {
    if |regions| == 0 {
      assert |prefix + SrtLines(regions, k)| == |prefix|;
    } else {
      var block := BlockLines(k, regions[0]);
      var rest := SrtLines(regions[1..], k + 1);
      SrtLinesCons(regions, k);
      ConcatAssoc(prefix, block, rest);
      WrittenBlocksRead(prefix + block, regions[1..], k + 1);
      BlockLinesRead(prefix, rest, k, regions[0]);
    }
  }

  /** `parse_srt` reads back every well-formed region written as a numbered
      four-line block, whatever the numbering. */
  lemma ParseSrtRoundTrip(regions: seq<Region>, k: nat)
    requires forall m :: 0 <= m < |regions| ==> WellFormed(regions[m])
    ensures ParseSrt(SrtLines(regions, k)) == Ok(regions)
  {
    WrittenBlocksRead([], regions, k);
    assert [] + SrtLines(regions, k) == SrtLines(regions, k);
    ReadsAllParses(SrtLines(regions, k), 0, regions);
  }

  /** The scan yields no region exactly when no line from `i` on strips to
      digits: every such line either starts a region or raises. */
  lemma {:induction false} NoRegionsIffNoDigitLine(lines: seq<string>, i: nat)
    ensures ParseFrom(lines, i) == Ok([]) <==> forall j :: i <= j < |lines| ==> !OpensBlock(lines[j])
    decreases |lines| - i
  {
    if i < |lines| {
      NoRegionsIffNoDigitLine(lines, i + 1);
      if OpensBlock(lines[i]) {
        assert ParseFrom(lines, i).Raise? || |ParseFrom(lines, i).value| > 0;
      } else {
        assert ParseFrom(lines, i) == ParseFrom(lines, i + 1);
      }
    }
  }

  /** A digit line with no line after it raises `IndexError`. */
  lemma DigitLastLine(lines: seq<string>, k: nat)
    ensures ParseFrom(lines + [IntStr(k) + "\n"], |lines|) == Raise(IndexError)
  {
    var all := lines + [IntStr(k) + "\n"];
    IndexLine(k);
    assert all[|lines|] == IntStr(k) + "\n";
    DigitAtEnd(all, |lines|);
  }

  /** A digit line that is the last line raises `IndexError`. */
  lemma DigitAtEnd(lines: seq<string>, i: nat)
    requires i + 1 == |lines| && OpensBlock(lines[i])
    ensures ParseFrom(lines, i) == Raise(IndexError)
  {
  }

  /** A block cut short after its time line is still read; its name is
      `Region <index of its digit line>`. */
  lemma TruncatedBlockName(lines: seq<string>, k: nat, start: string, end: string)
    requires Token(start) && Token(end)
    ensures ParseFrom(lines + [IntStr(k) + "\n", start + ARROW + end + "\n"], |lines|)
         == Ok([Region(start, end, "Region " + IntStr(|lines|))])
  {
    var all := lines + [IntStr(k) + "\n", start + ARROW + end + "\n"];
    assert OpensBlock(all[|lines|]) by {
      assert all[|lines|] == IntStr(k) + "\n";
      IndexLine(k);
    }
    assert Split(Strip(all[|lines| + 1]), ARROW) == [start, end] by {
      assert all[|lines| + 1] == start + ARROW + end + "\n";
      TimesLine(start, end);
    }
    TruncatedAt(all, |lines|, start, end);
  }

  /** A digit line followed by one time line that ends the file. */
  lemma TruncatedAt(lines: seq<string>, i: nat, start: string, end: string)
    requires i + 2 == |lines| && OpensBlock(lines[i])
    requires Split(Strip(lines[i + 1]), ARROW) == [start, end]
    ensures ParseFrom(lines, i) == Ok([Region(start, end, "Region " + IntStr(i))])
  {
    TruncatedBlockAt(lines, i, start, end);
    LastBlock(lines, i, Region(start, end, "Region " + IntStr(i)));
  }

  /** A block with fewer than four lines left from its digit line is the
      last one read. */
  lemma LastBlock(lines: seq<string>, i: nat, r: Region)
    requires i < |lines| <= i + 4 && OpensBlock(lines[i]) && BlockAt(lines, i) == Ok(r)
    ensures ParseFrom(lines, i) == Ok([r])
  {
    assert [r] + [] == [r];
  }

  lemma TruncatedBlockAt(lines: seq<string>, i: nat, start: string, end: string)
    requires i + 2 == |lines|
    requires Split(Strip(lines[i + 1]), ARROW) == [start, end]
    ensures BlockAt(lines, i) == Ok(Region(start, end, "Region " + IntStr(i)))
  {
  }
}

=== FILE: py_core.dfy ===
/** Python runtime notions the scripts rely on: the exceptions they can raise,
    a failure-compatible result, and integer division as Python performs it. */
module PyCore {

  /** The exception classes the modelled scripts can raise. `Exit(code)` stands
      for `sys.exit(code)`. */
  datatype Exc =
    | ValueError
    | IndexError
    | StructError
    | UnicodeDecodeError
    | ZeroDivisionError
    | OSError
    | OverflowError
    | Exit(code: int)

  /** A value, or the exception that escaped while computing it. */
  datatype Result<+T> = Ok(value: T) | Raise(exc: Exc) {
    predicate IsFailure() {
      Raise?
    }

    function PropagateFailure<U>(): Result<U>
      requires Raise?
    {
      Raise(exc)
    }

    function Extract(): T
      requires Ok?
    {
      value
    }
  }

  datatype Option<+T> = None | Some(value: T)

  /** `timedelta.max.days`: `timedelta` raises `OverflowError` for a
      duration whose day count lies outside `-MAX_DELTA_DAYS ..
      MAX_DELTA_DAYS`. */
  const MAX_DELTA_DAYS: int := 999999999

  const SECONDS_PER_DAY: int := 86400
  const MS_PER_DAY: int := 86400000

  /** Whether `timedelta` holds a duration of `total` units, `perDay` of them
      to a day: the day count it normalises to, the floor of the quotient,
      is in range. */
  predicate DeltaFits(total: int, perDay: int)
    requires perDay > 0
  {
    -MAX_DELTA_DAYS <= total / perDay <= MAX_DELTA_DAYS
  }

  type pos = x: int | x > 0 witness 1

  /** `a // d` for a positive divisor: Python's floor division, which
      Dafny's `/` agrees with, leaves a remainder below `d`. */
  lemma FloorBounds(a: int, d: pos)
    ensures (a / d) * d <= a < (a / d + 1) * d
    ensures a >= 0 ==> a / d >= 0
  {
  }

  /** `int(a / b)` for a positive divisor: division that truncates toward zero. */
  function TruncDiv(a: int, b: pos): (q: int)
    ensures 0 <= a ==> q * b <= a < (q + 1) * b
    ensures a < 0 ==> (q - 1) * b < a <= q * b
  {
    if a >= 0 then a / b else -((-a) / b)
  }

  /** `math.ceil(a / b)` for a positive divisor. */
  function CeilDiv(a: int, b: pos): (q: int)
    ensures (q - 1) * b < a <= q * b
  {
    -((-a) / b)
  }

  /** `round(a / b)` for `b > 0`: the nearest whole number, ties to the even
      one, as Python's `round` does. */
  function RoundHalfEven(a: int, b: pos): (q: int)
    ensures 2 * (q * b - a) <= b && 2 * (a - q * b) <= b
  {
    var q, r := a / b, a % b;
    if 2 * r < b then q
    else if 2 * r > b then q + 1
    else if q % 2 == 0 then q else q + 1
  }

  function Max(a: int, b: int): int {
    if a < b then b else a
  }

  /** The values of `rs` in order, or the first exception among them: a
      loop over pure steps that stops at the first one that raises. */
  function AllOk<T>(rs: seq<Result<T>>): (r: Result<seq<T>>)
    ensures r.Ok? ==> |r.value| == |rs|
  {
    if |rs| == 0 then Ok([])
    else
      var v :- rs[0];
      var vs :- AllOk(rs[1..]);
      Ok([v] + vs)
  }

  /** `AllOk` succeeds exactly when every step does, with their values, and
      otherwise raises what the first failing step raises. */
  lemma {:induction false} AllOkSpec<T>(rs: seq<Result<T>>)
    ensures AllOk(rs).Ok? <==> forall k :: 0 <= k < |rs| ==> rs[k].Ok?
    ensures AllOk(rs).Ok? ==> forall k :: 0 <= k < |rs| ==> AllOk(rs).value[k] == rs[k].value
    ensures AllOk(rs).Raise? ==> exists k :: 0 <= k < |rs| && rs[k].Raise? && AllOk(rs).exc == rs[k].exc
                                          && forall j :: 0 <= j < k ==> rs[j].Ok?
  {
    if |rs| > 0 {
      AllOkSpec(rs[1..]);
      assert forall k :: 1 <= k < |rs| ==> rs[k] == rs[1..][k - 1];
      if rs[0].Ok? && AllOk(rs[1..]).Raise? {
        var k :| 0 <= k < |rs| - 1 && rs[1..][k].Raise? && AllOk(rs[1..]).exc == rs[1..][k].exc
                 && forall j :: 0 <= j < k ==> rs[1..][j].Ok?;
        assert rs[k + 1].Raise? && forall j :: 0 <= j < k + 1 ==> rs[j].Ok?;
      }
    }
  }

  /** `max(values)` of a non-empty list. */
  function MaxOf(values: seq<int>): int
    requires |values| > 0
  {
    if |values| == 1 then values[0] else Max(values[0], MaxOf(values[1..]))
  }

  /** The maximum is at least every element and is one of them. */
  lemma {:induction false} MaxOfSpec(values: seq<int>)
    requires |values| > 0
    ensures forall k :: 0 <= k < |values| ==> values[k] <= MaxOf(values)
    ensures exists k :: 0 <= k < |values| && values[k] == MaxOf(values)
  {
    if |values| > 1 {
      MaxOfSpec(values[1..]);
      assert forall k :: 1 <= k < |values| ==> values[k] == values[1..][k - 1];
      var j :| 0 <= j < |values| - 1 && values[1..][j] == MaxOf(values[1..]);
      if values[0] < MaxOf(values[1..]) {
        assert values[j + 1] == MaxOf(values);
      } else {
        assert values[0] == MaxOf(values);
      }
    } else {
      assert values[0] == MaxOf(values);
    }
  }

  /** The maximum of the values of a list of results that all succeeded is
      at least each of them and is one of them. */
  lemma AllOkMax(rs: seq<Result<int>>)
    requires AllOk(rs).Ok? && |rs| > 0
    ensures forall k :: 0 <= k < |rs| ==> rs[k].Ok? && rs[k].value <= MaxOf(AllOk(rs).value)
    ensures exists k :: 0 <= k < |rs| && rs[k].Ok? && rs[k].value == MaxOf(AllOk(rs).value)
  {
    AllOkSpec(rs);
    MaxOfSpec(AllOk(rs).value);
    var j :| 0 <= j < |rs| && AllOk(rs).value[j] == MaxOf(AllOk(rs).value);
    assert rs[j].value == MaxOf(AllOk(rs).value);
  }

  /** Sequence facts stated once on a generic element type, where they are
      cheap, for use on lists of strings, where they are not. */
  lemma ConcatAssoc<T>(a: seq<T>, b: seq<T>, c: seq<T>)
    ensures (a + b) + c == a + (b + c)
  {
  }

  lemma ConcatMiddle<T>(a: seq<T>, b: seq<T>, c: seq<T>)
    ensures (a + (b + c))[|a|..|a| + |b|] == b
  {
  }

  lemma ConcatAt<T>(a: seq<T>, b: seq<T>, i: nat)
    requires i < |b|
    ensures (a + b)[|a| + i] == b[i]
  {
  }

  lemma ConcatBefore<T>(a: seq<T>, b: seq<T>, i: nat)
    requires i < |a|
    ensures (a + b)[i] == a[i]
  {
  }

  /** The blocks written one after another. */
  function Flatten<T>(blocks: seq<seq<T>>): seq<T> {
    if |blocks| == 0 then [] else blocks[0] + Flatten(blocks[1..])
  }

  /** Blocks of one width `w` lie end to end: block `k` occupies positions
      `k * w` up to `k * w + w` of the flattened list, which holds
      `|blocks| * w` elements. */
  lemma {:induction false} FlattenUniform<T>(blocks: seq<seq<T>>, w: nat, k: nat)
    requires forall i :: 0 <= i < |blocks| ==> |blocks[i]| == w
    requires k < |blocks|
    ensures |Flatten(blocks)| == |blocks| * w
    ensures k * w + w <= |Flatten(blocks)|
    ensures Flatten(blocks)[k * w .. k * w + w] == blocks[k]
    decreases k
  {
    var rest := blocks[1..];
    assert forall i :: 0 <= i < |rest| ==> |rest[i]| == w by {
      forall i | 0 <= i < |rest| ensures |rest[i]| == w {
        assert rest[i] == blocks[i + 1];
      }
    }
    FlattenLength(rest, w);
    assert |blocks| * w == |rest| * w + w;
    if k > 0 {
      FlattenUniform(rest, w, k - 1);
      assert k * w == (k - 1) * w + w;
      assert rest[k - 1] == blocks[k];
    }
  }

  lemma {:induction false} FlattenLength<T>(blocks: seq<seq<T>>, w: nat)
    requires forall i :: 0 <= i < |blocks| ==> |blocks[i]| == w
    ensures |Flatten(blocks)| == |blocks| * w
    decreases |blocks|
  {
    if |blocks| > 0 {
      var rest := blocks[1..];
      forall i | 0 <= i < |rest| ensures |rest[i]| == w {
        assert rest[i] == blocks[i + 1];
      }
      FlattenLength(rest, w);
      assert |blocks| * w == |rest| * w + w;
    }
  }

  /** One more block lands after the ones before it. */
  lemma {:induction false} FlattenSnoc<T>(blocks: seq<seq<T>>, b: seq<T>)
    ensures Flatten(blocks + [b]) == Flatten(blocks) + b
    decreases |blocks|
  {
    if |blocks| == 0 {
      assert blocks + [b] == [b];
      assert Flatten([b]) == b + Flatten([b][1..]);
    } else {
      assert (blocks + [b])[1..] == blocks[1..] + [b];
      FlattenSnoc(blocks[1..], b);
    }
  }

  /** A property every element of every block has, every element of the
      flattened list has. */
  lemma {:induction false} FlattenAll<T>(blocks: seq<seq<T>>, P: T -> bool)
    requires forall k, j :: 0 <= k < |blocks| && 0 <= j < |blocks[k]| ==> P(blocks[k][j])
    ensures forall i :: 0 <= i < |Flatten(blocks)| ==> P(Flatten(blocks)[i])
    decreases |blocks|
  {
    if |blocks| > 0 {
      var rest := blocks[1..];
      forall k, j | 0 <= k < |rest| && 0 <= j < |rest[k]| ensures P(rest[k][j]) {
        assert rest[k] == blocks[k + 1];
      }
      FlattenAll(rest, P);
      forall i | 0 <= i < |Flatten(blocks)| ensures P(Flatten(blocks)[i]) {
        if i < |blocks[0]| {
          ConcatBefore(blocks[0], Flatten(rest), i);
        } else {
          ConcatAt(blocks[0], Flatten(rest), i - |blocks[0]|);
        }
      }
    }
  }
}

=== FILE: py_text.dfy ===
/** The `str` operations the scripts use, with Python's semantics: `strip`,
    `split` on a separator, `join`, `replace`, `find`/`rfind`, `startswith`,
    `int()` parsing and integer formatting with zero padding. */
module PyText {
  import opened PyCore

  /** `str.isspace()` for one character: Python's whitespace code points. */
  predicate IsSpace(c: char) {
    var x := c as int;
    (9 <= x <= 13) || (0x1c <= x <= 0x20) || x == 0x85 || x == 0xa0 || x == 0x1680
    || (0x2000 <= x <= 0x200a) || x == 0x2028 || x == 0x2029 || x == 0x202f
    || x == 0x205f || x == 0x3000
  }

  /** `s.lstrip()` */
  function LStrip(s: string): (r: string)
    ensures |r| <= |s|
  {
    if |s| > 0 && IsSpace(s[0]) then LStrip(s[1..]) else s
  }

  /** `lstrip` keeps a suffix that does not start with whitespace. */
  lemma {:induction false} LStripSpec(s: string)
    ensures var r := LStrip(s); r == s[|s| - |r|..] && (r == [] || !IsSpace(r[0]))
  {
    if |s| > 0 && IsSpace(s[0]) {
      LStripSpec(s[1..]);
      assert s[1..][|s| - 1 - |LStrip(s)|..] == s[|s| - |LStrip(s)|..];
    }
  }

  /** `s.rstrip()` */
  function RStrip(s: string): (r: string)
    ensures |r| <= |s|
  {
    if |s| > 0 && IsSpace(s[|s| - 1]) then RStrip(s[..|s| - 1]) else s
  }

  /** `rstrip` keeps a prefix that does not end with whitespace. */
  lemma {:induction false} RStripSpec(s: string)
    ensures var r := RStrip(s); r == s[..|r|] && (r == [] || !IsSpace(r[|r| - 1]))
  {
    if |s| > 0 && IsSpace(s[|s| - 1]) {
      RStripSpec(s[..|s| - 1]);
      assert s[..|s| - 1][..|RStrip(s)|] == s[..|RStrip(s)|];
    }
  }

  /** Only whitespace is removed from the front. */
  lemma {:induction false} LStripRemovesSpaces(s: string)
    ensures forall i :: 0 <= i < |s| - |LStrip(s)| ==> IsSpace(s[i])
  {
    if |s| > 0 && IsSpace(s[0]) {
      LStripRemovesSpaces(s[1..]);
      forall i | 1 <= i < |s| - |LStrip(s)|
        ensures IsSpace(s[i])
      {
        assert s[i] == s[1..][i - 1];
      }
    }
  }

  /** Only whitespace is removed from the back. */
  lemma {:induction false} RStripRemovesSpaces(s: string)
    ensures forall i :: |RStrip(s)| <= i < |s| ==> IsSpace(s[i])
  {
    if |s| > 0 && IsSpace(s[|s| - 1]) {
      RStripRemovesSpaces(s[..|s| - 1]);
      forall i | |RStrip(s)| <= i < |s| - 1
        ensures IsSpace(s[i])
      {
        assert s[i] == s[..|s| - 1][i];
      }
    }
  }

  /** `s.strip()` */
  function Strip(s: string): string {
    RStrip(LStrip(s))
  }

  /** No leading or trailing whitespace: `s.strip() == s`. */
  predicate IsStripped(s: string) {
    s == [] || (!IsSpace(s[0]) && !IsSpace(s[|s| - 1]))
  }

  lemma StripOfStripped(s: string)
    requires IsStripped(s)
    ensures Strip(s) == s
  {
  }

  /** `strip` leaves no whitespace at either end. */
  lemma StripIsStripped(s: string)
    ensures IsStripped(Strip(s))
  {
    var l := LStrip(s);
    LStripSpec(s);
    RStripSpec(l);
    if Strip(s) != [] {
      assert Strip(s)[0] == l[0];
    }
  }

  /** Leading whitespace does not survive `strip`. */
  lemma {:induction false} StripAfterSpaces(w: string, s: string)
    requires forall i :: 0 <= i < |w| ==> IsSpace(w[i])
    ensures Strip(w + s) == Strip(s)
  {
    if |w| > 0 {
      assert (w + s)[1..] == w[1..] + s;
      StripAfterSpaces(w[1..], s);
    } else {
      assert w + s == s;
    }
  }

  /** A trailing whitespace character does not survive `strip` when the text
      does not start with whitespace. */
  lemma StripBeforeSpace(s: string)
    requires |s| > 0 && !IsSpace(s[0]) && IsSpace(s[|s| - 1])
    ensures Strip(s) == Strip(s[..|s| - 1])
  {
    assert LStrip(s) == s;
    if |s| > 1 {
      assert LStrip(s[..|s| - 1]) == s[..|s| - 1];
    }
  }

  /** Stripping text with a line end added is stripping the text: the
      `\n` goes with the trailing whitespace. */
  lemma StripNewline(s: string)
    ensures Strip(s + "\n") == Strip(s)
  {
    LStripAppend(s, "\n");
    if LStrip(s) != [] {
      assert (LStrip(s) + "\n")[..|LStrip(s)|] == LStrip(s);
    }
  }

  /** `lstrip` of two pieces: the second piece is reached only when the
      first is all whitespace. */
  lemma {:induction false} LStripAppend(s: string, t: string)
    ensures LStrip(s + t) == if LStrip(s) == [] then LStrip(t) else LStrip(s) + t
    decreases |s|
  {
    if |s| == 0 {
      assert s + t == t;
    } else {
      assert (s + t)[0] == s[0];
      if IsSpace(s[0]) {
        assert (s + t)[1..] == s[1..] + t;
        LStripAppend(s[1..], t);
      }
    }
  }

  /** `s.rstrip(c)` for a single character `c`. */
  function RStripChar(s: string, c: char): (r: string)
    ensures |r| <= |s| && r == s[..|r|]
    ensures forall i :: |r| <= i < |s| ==> s[i] == c
    ensures r == [] || r[|r| - 1] != c
  {
    if |s| > 0 && s[|s| - 1] == c then RStripChar(s[..|s| - 1], c) else s
  }

  lemma {:induction false} RStripCharAppended(s: string, c: char, n: nat)
    requires s == [] || s[|s| - 1] != c
    ensures RStripChar(s + seq(n, _ => c), c) == s
  {
    if n > 0 {
      assert (s + seq(n, _ => c))[..|s| + n - 1] == s + seq(n - 1, _ => c);
      RStripCharAppended(s, c, n - 1);
    } else {
      assert s + seq(0, _ => c) == s;
    }
  }

  /** Characters `c` appended to the text are stripped with the rest. */
  lemma {:induction false} RStripCharMore(s: string, c: char, n: nat)
    ensures RStripChar(s + seq(n, _ => c), c) == RStripChar(s, c)
  {
    if n > 0 {
      assert (s + seq(n, _ => c))[..|s| + n - 1] == s + seq(n - 1, _ => c);
      RStripCharMore(s, c, n - 1);
    } else {
      assert s + seq(0, _ => c) == s;
    }
  }

  predicate StartsWith(s: string, prefix: string) {
    |prefix| <= |s| && s[..|prefix|] == prefix
  }

  predicate EndsWith(s: string, suffix: string) {
    |suffix| <= |s| && s[|s| - |suffix|..] == suffix
  }

  /** `sep` occurs in `s` at index `k`. */
  predicate Occurs(s: string, sep: string, k: int) {
    0 <= k && k + |sep| <= |s| && s[k..k + |sep|] == sep
  }

  predicate Contains(s: string, sep: string) {
    exists k :: 0 <= k <= |s| && Occurs(s, sep, k)
  }

  /** The first position at or after `from` where `sep` starts. */
  function FindFrom(s: string, sep: string, from: nat): (r: Option<nat>)
    requires from <= |s|
    ensures r.Some? ==> from <= r.value && r.value + |sep| <= |s|
    decreases |s| - from
  {
    if from + |sep| > |s| then None
    else if s[from..from + |sep|] == sep then Some(from)
    else FindFrom(s, sep, from + 1)
  }

  /** `FindFrom` finds an occurrence with none before it, or reports that
      there is none. */
  lemma {:induction false} FindFromSpec(s: string, sep: string, from: nat)
    requires from <= |s|
    ensures var r := FindFrom(s, sep, from);
      && (r.Some? ==> Occurs(s, sep, r.value) && forall j :: from <= j < r.value ==> !Occurs(s, sep, j))
      && (r.None? ==> forall j :: from <= j ==> !Occurs(s, sep, j))
    decreases |s| - from
  {
    if from + |sep| <= |s| && s[from..from + |sep|] != sep {
      FindFromSpec(s, sep, from + 1);
    }
  }

  /** `s.find(sep)`, with `None` for Python's -1. */
  function IndexOf(s: string, sep: string): (r: Option<nat>)
    ensures r.Some? ==> r.value + |sep| <= |s|
  {
    FindFrom(s, sep, 0)
  }

  /** `IndexOf` gives the first occurrence, and `None` exactly when there is
      no occurrence. */
  lemma IndexOfSpec(s: string, sep: string)
    ensures var r := IndexOf(s, sep);
      && (r.Some? ==> Occurs(s, sep, r.value) && forall j :: 0 <= j < r.value ==> !Occurs(s, sep, j))
      && (r.None? ==> !Contains(s, sep))
  {
    FindFromSpec(s, sep, 0);
  }

  /** `s.find(c)` for a single character: the first index, or -1. */
  function FindChar(s: string, c: char): (k: int)
    ensures -1 <= k < |s|
    ensures k >= 0 ==> s[k] == c && forall j :: 0 <= j < k ==> s[j] != c
    ensures k == -1 ==> forall j :: 0 <= j < |s| ==> s[j] != c
  {
    if |s| == 0 then -1
    else if s[0] == c then 0
    else var k := FindChar(s[1..], c); if k == -1 then -1 else k + 1
  }

  /** `s.rfind(c)` for a single character: the last index, or -1. */
  function RFindChar(s: string, c: char): (k: int)
    ensures -1 <= k < |s|
    ensures k >= 0 ==> s[k] == c && forall j :: k < j < |s| ==> s[j] != c
    ensures k == -1 ==> forall j :: 0 <= j < |s| ==> s[j] != c
  {
    if |s| == 0 then -1
    else if s[|s| - 1] == c then |s| - 1
    else RFindChar(s[..|s| - 1], c)
  }

  /** `sep.join(parts)` */
  function Join(parts: seq<string>, sep: string): string {
    if |parts| == 0 then ""
    else if |parts| == 1 then parts[0]
    else parts[0] + sep + Join(parts[1..], sep)
  }

  lemma NotOccursInPrefix(s: string, sep: string, k: nat)
    requires |sep| > 0 && k <= |s|
    requires forall j :: 0 <= j < k ==> !Occurs(s, sep, j)
    ensures !Contains(s[..k], sep)
  {
    forall j | Occurs(s[..k], sep, j)
      ensures false
    {
      assert s[..k][j..j + |sep|] == s[j..j + |sep|];
      assert Occurs(s, sep, j);
    }
  }

  lemma JoinCons(a: string, rest: seq<string>, sep: string)
    requires |rest| >= 1
    ensures Join([a] + rest, sep) == a + sep + Join(rest, sep)
  {
    assert ([a] + rest)[1..] == rest;
  }

  /** `"".join(parts)` */
  function Concat(parts: seq<string>): string {
    if |parts| == 0 then "" else parts[0] + Concat(parts[1..])
  }

  /** Writing two lists of pieces one after the other. */
  lemma {:induction false} ConcatAppend(a: seq<string>, b: seq<string>)
    ensures Concat(a + b) == Concat(a) + Concat(b)
    decreases |a|
  {
    if |a| == 0 {
      assert a + b == b;
    } else {
      assert (a + b)[1..] == a[1..] + b;
      ConcatAppend(a[1..], b);
    }
  }

  /** Four pieces written one after another. */
  lemma Concat4(a: string, b: string, c: string, d: string)
    ensures Concat([a, b, c, d]) == a + b + c + d
  {
    assert [a, b, c, d][1..] == [b, c, d];
    assert [b, c, d][1..] == [c, d];
    assert [c, d][1..] == [d];
    assert [d][1..] == [];
    assert Concat([d]) == d;
    assert Concat([c, d]) == c + d;
    assert Concat([b, c, d]) == b + (c + d) == b + c + d;
  }

  /** One line as `readlines` returns it: text ending in its only `\n`. */
  predicate IsLine(l: string) {
    |l| > 0 && l[|l| - 1] == '\n' && forall i :: 0 <= i < |l| - 1 ==> l[i] != '\n'
  }

  /** `readlines()` on text whose line ends are `\n`: every line keeps its
      `\n`, and text after the last `\n` forms a last line of its own. */
  function ReadLines(s: string): (lines: seq<string>)
    decreases |s|
  {
    if |s| == 0 then []
    else
      var k := FindChar(s, '\n');
      if k < 0 then [s] else [s[..k + 1]] + ReadLines(s[k + 1..])
  }

  /** Reading back lines written one after another gives those lines. */
  lemma {:induction false} ReadLinesConcat(lines: seq<string>)
    requires forall i :: 0 <= i < |lines| ==> IsLine(lines[i])
    ensures ReadLines(Concat(lines)) == lines
    decreases |lines|
  {
    if |lines| > 0 {
      var l, rest := lines[0], Concat(lines[1..]);
      var s := l + rest;
      assert IsLine(l);
      assert s[|l| - 1] == '\n';
      forall j | 0 <= j < |l| - 1 ensures s[j] != '\n' {
        assert s[j] == l[j];
      }
      var k := FindChar(s, '\n');
      assert k == |l| - 1;
      assert s[..k + 1] == l && s[k + 1..] == rest;
      ReadLinesConcat(lines[1..]);
      assert lines == [l] + lines[1..];
    }
  }

  /** `s.split(sep)` for a non-empty separator: the pieces between the
      non-overlapping occurrences of `sep`, scanned left to right. */
  function Split(s: string, sep: string): (parts: seq<string>)
    requires |sep| > 0
    ensures |parts| >= 1
    decreases |s|
  {
    match IndexOf(s, sep)
    case None => [s]
    case Some(k) => [s[..k]] + Split(s[k + |sep|..], sep)
  }

  /** Joining the pieces with the separator gives back the text; no piece
      holds the separator, and there is more than one piece exactly when the
      text holds it. */
  lemma {:induction false} SplitJoin(s: string, sep: string)
    requires |sep| > 0
    ensures Join(Split(s, sep), sep) == s
    ensures forall i :: 0 <= i < |Split(s, sep)| ==> !Contains(Split(s, sep)[i], sep)
    ensures |Split(s, sep)| == 1 <==> !Contains(s, sep)
    decreases |s|
  {
    IndexOfSpec(s, sep);
    match IndexOf(s, sep)
    case None =>
    case Some(k) =>
      SplitJoin(s[k + |sep|..], sep);
      SplitStep(s, sep, k, Split(s[k + |sep|..], sep));
  }

  lemma SplitStep(s: string, sep: string, k: nat, rest: seq<string>)
    requires |sep| > 0 && Occurs(s, sep, k)
    requires forall j :: 0 <= j < k ==> !Occurs(s, sep, j)
    requires |rest| >= 1 && Join(rest, sep) == s[k + |sep|..]
    requires forall i :: 0 <= i < |rest| ==> !Contains(rest[i], sep)
    ensures Join([s[..k]] + rest, sep) == s
    ensures forall i :: 0 <= i < |[s[..k]] + rest| ==> !Contains(([s[..k]] + rest)[i], sep)
    ensures Contains(s, sep)
  {
    NotOccursInPrefix(s, sep, k);
    JoinCons(s[..k], rest, sep);
    assert s == s[..k] + sep + s[k + |sep|..];
    assert Occurs(s, sep, k);
  }

  /** Splitting text in which the separator does not occur yields the text. */
  lemma SplitAbsent(s: string, sep: string)
    requires |sep| > 0 && !Contains(s, sep)
    ensures Split(s, sep) == [s]
  {
    IndexOfSpec(s, sep);
  }

  /** `a + sep + b` splits at the separator when `a` cannot hold the start of
      an occurrence and `b` holds none. */
  lemma SplitPair(a: string, sep: string, b: string)
    requires |sep| > 0
    requires forall i :: 0 <= i < |a| ==> a[i] != sep[0]
    requires !Contains(b, sep)
    ensures Split(a + sep + b, sep) == [a, b]
  {
    var s := a + sep + b;
    assert Occurs(s, sep, |a|) by { assert s[|a|..|a| + |sep|] == sep; }
    forall j | 0 <= j < |a|
      ensures !Occurs(s, sep, j)
    {
      assert s[j] == a[j];
    }
    IndexOfSpec(s, sep);
    assert IndexOf(s, sep) == Some(|a|);
    assert s[..|a|] == a;
    assert s[|a| + |sep|..] == b;
    SplitAbsent(b, sep);
  }

  /** A text none of whose characters starts `sep` does not contain it. */
  lemma NoCharNotContains(s: string, sep: string)
    requires |sep| > 0
    requires forall i :: 0 <= i < |s| ==> s[i] != sep[0]
    ensures !Contains(s, sep)
  {
    forall k | 0 <= k <= |s|
      ensures !Occurs(s, sep, k)
    {
      if k < |s| {
        assert s[k] != sep[0];
      }
    }
  }

  /** Splitting `a + sep + rest` peels off `a` when `a` cannot hold the start
      of an occurrence. */
  lemma SplitCons(a: string, sep: string, rest: string)
    requires |sep| > 0
    requires forall i :: 0 <= i < |a| ==> a[i] != sep[0]
    ensures Split(a + sep + rest, sep) == [a] + Split(rest, sep)
  {
    var s := a + sep + rest;
    assert Occurs(s, sep, |a|) by { assert s[|a|..|a| + |sep|] == sep; }
    forall j | 0 <= j < |a|
      ensures !Occurs(s, sep, j)
    {
      assert s[j] == a[j];
    }
    IndexOfSpec(s, sep);
    assert IndexOf(s, sep) == Some(|a|);
    assert s[..|a|] == a;
    assert s[|a| + |sep|..] == rest;
  }

  /** `s.replace(pat, rep)` for a non-empty `pat`. */
  function Replace(s: string, pat: string, rep: string): string
    requires |pat| > 0
  {
    Join(Split(s, pat), rep)
  }

  /** Replacing a pattern the text does not hold leaves it unchanged. */
  lemma ReplaceAbsent(s: string, pat: string, rep: string)
    requires |pat| > 0 && !Contains(s, pat)
    ensures Replace(s, pat, rep) == s
  {
    SplitAbsent(s, pat);
  }

  /** `s.replace(a, b)` for single characters `a` and `b`. */
  function ReplaceChar(s: string, a: char, b: char): (r: string)
    ensures |r| == |s|
    ensures forall i :: 0 <= i < |s| ==> r[i] == (if s[i] == a then b else s[i])
    ensures a != b ==> forall i :: 0 <= i < |r| ==> r[i] != a
  {
    seq(|s|, i requires 0 <= i < |s| => if s[i] == a then b else s[i])
  }

  // ---------------------------------------------------------------- digits

  predicate IsDigitChar(c: char) {
    '0' <= c <= '9'
  }

  /** `s.isdigit()` over ASCII digits: non-empty and every character a digit. */
  predicate IsDigits(s: string) {
    |s| > 0 && forall i :: 0 <= i < |s| ==> IsDigitChar(s[i])
  }

  function DigitValue(c: char): nat
    requires IsDigitChar(c)
  {
    (c as int) - ('0' as int)
  }

  function DigitChar(d: nat): (c: char)
    requires d < 10
    ensures IsDigitChar(c) && DigitValue(c) == d
  {
    (('0' as int) + d) as char
  }

  /** The value of a string of decimal digits, most significant first. */
  function DigitsValue(s: string): nat
    requires forall i :: 0 <= i < |s| ==> IsDigitChar(s[i])
  {
    if |s| == 0 then 0 else DigitsValue(s[..|s| - 1]) * 10 + DigitValue(s[|s| - 1])
  }

  /** `str(n)` for a natural number: shortest decimal numeral. */
  function Decimal(n: nat): (s: string)
    ensures |s| > 0
  {
    if n < 10 then [DigitChar(n)] else Decimal(n / 10) + [DigitChar(n % 10)]
  }

  /** Numbers below 10, 100 and 1000 take at most one, two and three
      digits. */
  lemma DecimalShort(n: nat)
    ensures n < 10 ==> |Decimal(n)| == 1
    ensures n < 100 ==> |Decimal(n)| <= 2
    ensures n < 1000 ==> |Decimal(n)| <= 3
  {
    if n >= 10 {
      DecimalShort(n / 10);
    }
  }

  /** The numeral is all digits, reads back as `n` and has no leading zero. */
  lemma {:induction false} DecimalSpec(n: nat)
    ensures var s := Decimal(n);
      IsDigits(s) && DigitsValue(s) == n && (n > 0 ==> s[0] != '0')
  {
    if n >= 10 {
      DecimalSpec(n / 10);
      var s := Decimal(n);
      assert s[..|s| - 1] == Decimal(n / 10);
    }
  }

  lemma {:induction false} LeadingZerosValue(z: nat, s: string)
    requires forall i :: 0 <= i < |s| ==> IsDigitChar(s[i])
    ensures var t := seq(z, _ => '0') + s;
      (forall i :: 0 <= i < |t| ==> IsDigitChar(t[i])) && DigitsValue(t) == DigitsValue(s)
  {
    var t := seq(z, _ => '0') + s;
    if |s| == 0 {
      if z > 0 {
        assert t[..|t| - 1] == seq(z - 1, _ => '0') + s;
        LeadingZerosValue(z - 1, s);
      }
    } else {
      assert t[..|t| - 1] == seq(z, _ => '0') + s[..|s| - 1];
      LeadingZerosValue(z, s[..|s| - 1]);
    }
  }

  /** Left-fill with `'0'` up to `width` characters. */
  function ZeroFill(s: string, width: int): (r: string)
    ensures |r| == Max(|s|, width)
  {
    if |s| >= width then s else seq(width - |s|, _ => '0') + s
  }

  /** The filled text ends with `s` and is `'0'` before it. */
  lemma ZeroFillSpec(s: string, width: int)
    ensures var r := ZeroFill(s, width);
      r[|r| - |s|..] == s && forall i :: 0 <= i < |r| - |s| ==> r[i] == '0'
  {
  }

  /** Python's `f"{n:0{width}}"` (also `:02`, `:03`): the sign, then the
      decimal digits zero-filled so the whole field is at least `width` wide. */
  function ZeroPad(n: int, width: nat): (r: string)
    ensures |r| >= width
  {
    if n >= 0 then ZeroFill(Decimal(n), width)
    else "-" + ZeroFill(Decimal(-n), width - 1)
  }

  /** Python's `str(n)` / `f"{n}"`. */
  function IntStr(n: int): string {
    ZeroPad(n, 0)
  }

  // ---------------------------------------------------------------- int()

  /** The body of an integer literal as `int()` accepts it: digits, with single
      underscores allowed between digits. */
  predicate IsIntBody(s: string) {
    && |s| > 0
    && IsDigitChar(s[0]) && IsDigitChar(s[|s| - 1])
    && (forall i :: 0 <= i < |s| ==> IsDigitChar(s[i]) || s[i] == '_')
    && (forall i :: 0 <= i < |s| - 1 ==> !(s[i] == '_' && s[i + 1] == '_'))
  }

  function DropUnderscores(s: string): (r: string)
    requires forall i :: 0 <= i < |s| ==> IsDigitChar(s[i]) || s[i] == '_'
    ensures forall i :: 0 <= i < |r| ==> IsDigitChar(r[i])
    ensures (forall i :: 0 <= i < |s| ==> IsDigitChar(s[i])) ==> r == s
  {
    if |s| == 0 then ""
    else if s[0] == '_' then DropUnderscores(s[1..])
    else [s[0]] + DropUnderscores(s[1..])
  }

  /** Python's `int(s)` on a string: surrounding whitespace ignored, then an
      integer literal; anything else raises `ValueError`. The whitespace is
      peeled one character at a time (`ParseIntStrip` relates this to
      `strip`). */
  function ParseInt(s: string): (r: Result<int>)
    ensures r.Raise? ==> r.exc == ValueError
    decreases |s|
  {
    if |s| > 0 && IsSpace(s[0]) then ParseInt(s[1..])
    else if |s| > 0 && IsSpace(s[|s| - 1]) then ParseInt(s[..|s| - 1])
    else ParseLiteral(s)
  }

  /** An integer literal without surrounding whitespace: an optional sign,
      then an integer body. */
  function ParseLiteral(t: string): (r: Result<int>)
    ensures r.Raise? ==> r.exc == ValueError
  {
    var neg := |t| > 0 && t[0] == '-';
    var body := if |t| > 0 && (t[0] == '-' || t[0] == '+') then t[1..] else t;
    if IsIntBody(body) then
      var v: int := DigitsValue(DropUnderscores(body));
      Ok(if neg then -v else v)
    else Raise(ValueError)
  }

  /** A string of digits reads as its decimal value. */
  lemma ParseDigits(s: string)
    requires IsDigits(s)
    ensures ParseInt(s) == Ok(DigitsValue(s))
  {
    assert IsDigitChar(s[0]) && IsDigitChar(s[|s| - 1]);
  }

  /** `int(s)` is the literal reading of `s.strip()`. */
  lemma {:induction false} ParseIntStrip(s: string)
    ensures ParseInt(s) == ParseLiteral(Strip(s))
    decreases |s|
  {
    if |s| > 0 && IsSpace(s[0]) {
      ParseIntStrip(s[1..]);
      StripAfterSpaces([s[0]], s[1..]);
      assert [s[0]] + s[1..] == s;
    } else if |s| > 0 && IsSpace(s[|s| - 1]) {
      ParseIntStrip(s[..|s| - 1]);
      StripBeforeSpace(s);
    } else {
      StripOfStripped(s);
    }
  }

  /** A zero-filled numeral is an integer body with the numeral's value. */
  lemma ZeroFillDigits(n: nat, width: int)
    ensures var f := ZeroFill(Decimal(n), width);
      IsDigits(f) && IsIntBody(f) && DigitsValue(DropUnderscores(f)) == n
  {
    var f := ZeroFill(Decimal(n), width);
    ZeroFillValue(n, width);
    DigitsAreIntBody(f);
  }

  lemma ZeroFillValue(n: nat, width: int)
    ensures var f := ZeroFill(Decimal(n), width);
      IsDigits(f) && DigitsValue(f) == n
  {
    var d := Decimal(n);
    var f := ZeroFill(d, width);
    DecimalSpec(n);
    LeadingZerosValue(|f| - |d|, d);
    assert f == seq(|f| - |d|, _ => '0') + d;
  }

  /** A run of digits is an integer body with nothing to drop. */
  lemma DigitsAreIntBody(s: string)
    requires IsDigits(s)
    ensures IsIntBody(s) && DropUnderscores(s) == s
  {
  }

  /** `int()` reads back what the `:0w` format writes. */
  lemma ParseZeroPad(n: int, width: nat)
    ensures ParseInt(ZeroPad(n, width)) == Ok(n)
  {
    if n >= 0 {
      ParseZeroPadNonNegative(n, width);
    } else {
      ParseNegative(n, width);
    }
  }

  lemma ParseZeroPadNonNegative(n: int, width: nat)
    requires n >= 0
    ensures ParseInt(ZeroPad(n, width)) == Ok(n)
  {
    ParseNonNegative(n, width);
    assert ZeroPad(n, width) == ZeroFill(Decimal(n), width);
  }

  lemma ParseNonNegative(n: nat, width: nat)
    ensures ParseInt(ZeroFill(Decimal(n), width)) == Ok(n)
  {
    var f := ZeroFill(Decimal(n), width);
    ZeroFillDigits(n, width);
    assert DropUnderscores(f) == f;
    ParseDigits(f);
  }

  lemma ParseNegative(n: int, width: nat)
    requires n < 0
    ensures ParseInt(ZeroPad(n, width)) == Ok(n)
  {
    var m: nat := -n;
    var f := ZeroFill(Decimal(m), width - 1);
    assert ZeroPad(n, width) == "-" + f;
    ZeroFillDigits(m, width - 1);
    MinusDigitsStripped(f);
    ParseMinus("-" + f, m);
  }

  lemma MinusDigitsStripped(f: string)
    requires IsDigits(f)
    ensures var p := "-" + f; !IsSpace(p[|p| - 1]) && p[1..] == f
  {
    var p := "-" + f;
    assert p[|p| - 1] == f[|f| - 1];
  }

  lemma ParseMinus(t: string, v: nat)
    requires |t| > 1 && t[0] == '-' && !IsSpace(t[|t| - 1])
    requires IsIntBody(t[1..]) && DigitsValue(DropUnderscores(t[1..])) == v
    ensures ParseInt(t) == Ok(-(v as int))
  {
    assert !IsSpace(t[0]);
    assert ParseInt(t) == ParseLiteral(t);
  }

  // ---------------------------------------------------------------- hex

  function HexDigit(d: nat): char
    requires d < 16
  {
    if d < 10 then DigitChar(d) else (('A' as int) + d - 10) as char
  }

  /** Upper-case hexadecimal numeral of `n`, shortest form. */
  function Hex(n: nat): (s: string)
    ensures |s| > 0
  {
    if n < 16 then [HexDigit(n)] else Hex(n / 16) + [HexDigit(n % 16)]
  }

  /** Python's `"{:0{width}X}".format(n)` for a natural number. */
  function HexPad(n: nat, width: nat): (r: string)
    ensures |r| >= width
  {
    ZeroFill(Hex(n), width)
  }

  // ---------------------------------------------------------------- paths

  function AsciiLowerChar(c: char): char {
    if 'A' <= c <= 'Z' then ((c as int) + 32) as char else c
  }

  /** `s.lower()` restricted to the ASCII letters. Only used for suffix tests
      against ASCII text, where non-ASCII characters cannot lower-case into a
      match. */
  function AsciiLower(s: string): (r: string)
    ensures |r| == |s|
    ensures forall i :: 0 <= i < |s| ==> r[i] == AsciiLowerChar(s[i])
  {
    seq(|s|, i requires 0 <= i < |s| => AsciiLowerChar(s[i]))
  }

  /** `os.path.basename(p)` on POSIX: the text after the last `/`. */
  function Basename(p: string): (r: string)
    ensures forall i :: 0 <= i < |r| ==> r[i] != '/'
    ensures EndsWith(p, r)
  {
    var k := RFindChar(p, '/');
    p[k + 1..]
  }

  /** `os.path.splitext(p)[0]` on POSIX: `p` without its extension, where the
      extension starts at the last `.` of the last path component, unless all
      characters before that dot in the component are dots. */
  function StripExt(p: string): (r: string)
    ensures StartsWith(p, r)
  {
    var sepIndex := RFindChar(p, '/');
    var dotIndex := RFindChar(p, '.');
    if dotIndex > sepIndex
       && exists j :: sepIndex + 1 <= j < dotIndex && p[j] != '.'
    then p[..dotIndex]
    else p
  }
}

=== FILE: read_back.dfy ===
/** The decoders applied to a file `srt2regions.py` wrote: what
    `extract_metadata` and `extract_riiff_metadata` return, region by region,
    under either RIFF size rule, and what the same walk returns once the
    `ltxt` length is read where the encoder put it. */
module ReadBack {
  import opened PyCore
  import opened Bytes
  import opened PyText
  import opened SrtTime
  import opened RiffChunks
  import opened RegionEncoder
  import opened MarkerFacts
  import opened EncoderFacts
  import opened RiffWalk
  import opened ImageReads
  import opened RoundTrip
  import Utf8

  // ------------------------------------------------------------ the dicts

  /** Labels added for markers numbered `first`, `first + 1`, ... to a dict
      whose keys are all below `first`: the old entries stay, and each new id
      maps to its marker's label bytes. */
  lemma {:induction false} AddLabelsFrom(labels: map<nat, seq<byte>>, ms: seq<Marker>, first: nat)
    requires IdsFrom(ms, first)
    requires forall id :: id in labels ==> id < first
    ensures forall id :: id in AddLabels(labels, ms) <==> id in labels || first <= id < first + |ms|
    ensures forall id :: id in labels ==> AddLabels(labels, ms)[id] == labels[id]
    ensures forall k :: 0 <= k < |ms| ==> AddLabels(labels, ms)[first + k] == LabelBytes(ms[k].name)
    decreases |ms|
  {
    if |ms| > 0 {
      var next := labels[first := LabelBytes(ms[0].name)];
      assert IdsFrom(ms[1..], first + 1) by {
        forall k | 0 <= k < |ms| - 1 ensures ms[1..][k].id == first + 1 + k {
          assert ms[1..][k] == ms[k + 1];
        }
      }
      AddLabelsFrom(next, ms[1..], first + 1);
      assert AddLabels(labels, ms) == AddLabels(next, ms[1..]);
      forall k | 0 <= k < |ms|
        ensures AddLabels(labels, ms)[first + k] == LabelBytes(ms[k].name)
      {
        if k > 0 {
          assert ms[1..][k - 1] == ms[k];
        }
      }
    }
  }

  /** The same for the lengths dict. */
  lemma {:induction false} AddLengthsFrom(lengths: map<nat, nat>, ms: seq<Marker>, first: nat, lengthAt: nat)
    requires IdsFrom(ms, first)
    requires forall id :: id in lengths ==> id < first
    ensures forall id :: id in AddLengths(lengths, ms, lengthAt) <==> id in lengths || first <= id < first + |ms|
    ensures forall id :: id in lengths ==> AddLengths(lengths, ms, lengthAt)[id] == lengths[id]
    ensures forall k :: 0 <= k < |ms| ==> AddLengths(lengths, ms, lengthAt)[first + k] == StoredLength(ms[k], lengthAt)
    decreases |ms|
  {
    if |ms| > 0 {
      var next := lengths[first := StoredLength(ms[0], lengthAt)];
      assert IdsFrom(ms[1..], first + 1) by {
        forall k | 0 <= k < |ms| - 1 ensures ms[1..][k].id == first + 1 + k {
          assert ms[1..][k] == ms[k + 1];
        }
      }
      AddLengthsFrom(next, ms[1..], first + 1, lengthAt);
      assert AddLengths(lengths, ms, lengthAt) == AddLengths(next, ms[1..], lengthAt);
      forall k | 0 <= k < |ms|
        ensures AddLengths(lengths, ms, lengthAt)[first + k] == StoredLength(ms[k], lengthAt)
      {
        if k > 0 {
          assert ms[1..][k - 1] == ms[k];
        }
      }
    }
  }

  /** The label the decoders keep is the name the encoder was given, less
      any NULs it ended with: the padding NULs decode to NUL characters and
      `rstrip('\x00')` removes them. */
  lemma LabelRoundTrip(name: string)
    ensures LabelText(LabelBytes(name)) == RStripChar(name, '\0')
  {
    var e := Utf8.Encode(name);
    var z := if (|e| + 1) % 2 != 0 then 2 else 1;
    assert LabelBytes(name) == e + seq(z, _ => 0);
    Utf8.DecodeEncode(name, seq(z, _ => 0));
    Utf8.DecodeNuls(z);
    RStripCharMore(name, '\0', z);
  }

  /** `m` starts at the region's start sample and ends at its end sample. */
  ghost predicate Spans(region: Region, rate: int, m: Marker) {
    && TimeToSample(region.start, rate) == Ok(m.start as int)
    && TimeToSample(region.end, rate) == Ok(m.start + m.length)
  }

  /** Marker `k` of a successful region loop numbered from 1. */
  lemma MarkerFields(regions: seq<Region>, rate: int, ms: seq<Marker>, k: nat)
    requires Markers(regions, 1, rate) == Ok(ms) && k < |regions|
    ensures k < |ms| && ms[k].id == k + 1 && ms[k].name == regions[k].name
    ensures Spans(regions[k], rate, ms[k])
  {
    MarkerAt(regions, 1, rate, k);
    MarkerOfRegion(regions[k], 1 + k, rate, ms[k]);
  }

  /** The fields of one marker the loop built from `region`, stated of the
      marker itself so that the loop's definition stays out of the proof. */
  lemma MarkerOfRegion(region: Region, id: nat, rate: int, m: Marker)
    requires MakeMarker(region, id, rate) == Ok(m)
    ensures m.id == id && m.name == region.name
    ensures Spans(region, rate, m)
  {
    MakeMarkerSpec(region, id, rate);
  }

  // ------------------------------------------------------------ the file

  /** The chunks of the encoder's file sit one after another from byte 12 to
      its end. */
  lemma ImageWhole(rule: RiffSizeRule, ms: seq<Marker>, frames: seq<byte>, fmt: Chunk)
    requires AllPackable(ms) && |ms| < TWO_32 && Writable(fmt) && |fmt.payload| == 16
    requires WavImage(rule, ms, frames, fmt).Ok?
    ensures Writable(RegionEncoder.CueChunk(ms)) && Writable(RegionEncoder.ListChunk(ms))
    ensures Writable(Chunk(DATA_TAG, frames))
    ensures var w := WavImage(rule, ms, frames, fmt).value;
      var x := ChunkBytes(fmt) + ChunkBytes(Chunk(DATA_TAG, frames))
               + ChunkBytes(RegionEncoder.CueChunk(ms)) + ChunkBytes(RegionEncoder.ListChunk(ms));
      At(w, 12, x) && 12 + |x| == |w|
  {
    WavImageLayout(rule, ms, frames, fmt);
    TailAt(WavImage(rule, ms, frames, fmt).value, 12,
           ChunkBytes(fmt) + ChunkBytes(Chunk(DATA_TAG, frames))
           + ChunkBytes(RegionEncoder.CueChunk(ms)) + ChunkBytes(RegionEncoder.ListChunk(ms)));
  }

  /** The walk over the image the encoder builds from numbered markers. */
  lemma ImageWalk(rule: RiffSizeRule, ms: seq<Marker>, frames: seq<byte>, fmt: Chunk, lengthAt: nat)
    requires Reads(lengthAt) && AllPackable(ms) && |ms| < TWO_32 && IdsFrom(ms, 1)
    requires Writable(fmt) && |fmt.payload| == 16 && fmt.tag == FMT_TAG
    requires WavImage(rule, ms, frames, fmt).Ok?
    ensures Walks(WavImage(rule, ms, frames, fmt).value, 12, EMPTY, lengthAt, Expected(ms, lengthAt))
  {
    ImageWhole(rule, ms, frames, fmt);
    Placed(WavImage(rule, ms, frames, fmt).value,
           ChunkBytes(fmt), ChunkBytes(Chunk(DATA_TAG, frames)),
           ChunkBytes(RegionEncoder.CueChunk(ms)), ChunkBytes(RegionEncoder.ListChunk(ms)),
           20 + |fmt.payload|, 28 + |fmt.payload| + |frames|,
           36 + |fmt.payload| + |frames| + |RegionEncoder.CueChunk(ms).payload|);
    WalkImage(WavImage(rule, ms, frames, fmt).value, fmt, frames, ms, lengthAt,
              20 + |fmt.payload|, 28 + |fmt.payload| + |frames|,
              36 + |fmt.payload| + |frames| + |RegionEncoder.CueChunk(ms).payload|);
  }

  /** The walk over a file `add_region_markers` wrote, under either size
      rule. */
  lemma EncodedWalk(rule: RiffSizeRule, lines: seq<string>, rate: int, bitDepth: int, channels: int, lengthAt: nat)
    requires Reads(lengthAt)
    requires EncodeWith(rule, lines, rate, bitDepth, channels).Ok?
    requires EncodeWith(rule, lines, rate, bitDepth, channels).value.Written?
    ensures ParseSrt(lines).Ok? && Markers(ParseSrt(lines).value, 1, rate).Ok?
    ensures Walks(EncodeWith(rule, lines, rate, bitDepth, channels).value.wav, 12, EMPTY, lengthAt,
                  Expected(Markers(ParseSrt(lines).value, 1, rate).value, lengthAt))
  {
    WrittenParts(rule, lines, rate, bitDepth, channels);
    MarkersDescribe(ParseSrt(lines).value, rate);
    NumberedIds(ParseSrt(lines).value, Markers(ParseSrt(lines).value, 1, rate).value);
    ImageWalk(rule, Markers(ParseSrt(lines).value, 1, rate).value,
              Frames(MaxEndMs(ParseSrt(lines).value).value, rate, bitDepth, channels),
              FmtChunk(rate, bitDepth, channels).value, lengthAt);
  }

  // ------------------------------------------------------------ region by region

  /** Marker `k` carries region `k`'s number, counted from 1, and its name. */
  ghost predicate Numbered(regions: seq<Region>, ms: seq<Marker>) {
    && |ms| == |regions|
    && forall k :: 0 <= k < |ms| ==> ms[k].id == k + 1 && ms[k].name == regions[k].name
  }

  /** Marker `k` starts at region `k`'s start sample and ends at its end
      sample. */
  ghost predicate SpanAt(regions: seq<Region>, rate: int, ms: seq<Marker>, k: nat)
    requires k < |regions| && k < |ms|
  {
    Spans(regions[k], rate, ms[k])
  }

  /** Every marker spans its region. */
  ghost predicate Timed(regions: seq<Region>, rate: int, ms: seq<Marker>) {
    && |ms| == |regions|
    && forall k: nat :: k < |ms| ==> SpanAt(regions, rate, ms, k)
  }

  lemma MarkersDescribe(regions: seq<Region>, rate: int)
    requires Markers(regions, 1, rate).Ok?
    ensures Numbered(regions, Markers(regions, 1, rate).value)
    ensures Timed(regions, rate, Markers(regions, 1, rate).value)
  {
    var ms := Markers(regions, 1, rate).value;
    forall k: nat | k < |regions|
      ensures ms[k].id == k + 1 && ms[k].name == regions[k].name
      ensures SpanAt(regions, rate, ms, k)
    {
      MarkerFields(regions, rate, ms, k);
    }
  }

  lemma NumberedIds(regions: seq<Region>, ms: seq<Marker>)
    requires Numbered(regions, ms)
    ensures IdsFrom(ms, 1)
  {
  }

  /** A cue per region, numbered from 1, at the region's start sample. */
  ghost predicate CuesReport(regions: seq<Region>, rate: int, cues: seq<CuePoint>) {
    && |cues| == |regions|
    && forall k :: 0 <= k < |regions| ==>
         cues[k].id == k + 1 && TimeToSample(regions[k].start, rate) == Ok(cues[k].offset as int)
  }

  /** A label per region, keyed 1 to n: the region's name less trailing NULs. */
  ghost predicate LabelsReport(regions: seq<Region>, texts: map<nat, string>) {
    && (forall id :: id in texts <==> 1 <= id <= |regions|)
    && forall k :: 0 <= k < |regions| ==> texts[k + 1] == RStripChar(regions[k].name, '\0')
  }

  /** A length per region, keyed 1 to n. */
  ghost predicate LengthsReport(regions: seq<Region>, lengths: map<nat, nat>) {
    forall id :: id in lengths <==> 1 <= id <= |regions|
  }

  /** What the walk collects, stated per region. */
  ghost predicate Reports(regions: seq<Region>, rate: int, m: Metadata) {
    CuesReport(regions, rate, m.cues) && LabelsReport(regions, LabelTexts(m)) && LengthsReport(regions, m.lengths)
  }

  lemma ExpectedCues(regions: seq<Region>, rate: int, ms: seq<Marker>)
    requires Timed(regions, rate, ms) && Numbered(regions, ms)
    ensures CuesReport(regions, rate, CuesOf(ms))
  {
    forall k: nat | k < |regions|
      ensures CuesOf(ms)[k].id == k + 1 && TimeToSample(regions[k].start, rate) == Ok(CuesOf(ms)[k].offset as int)
    {
      assert SpanAt(regions, rate, ms, k);
    }
  }

  lemma ExpectedLabels(regions: seq<Region>, rate: int, ms: seq<Marker>, lengthAt: nat)
    requires Numbered(regions, ms)
    ensures LabelsReport(regions, LabelTexts(Expected(ms, lengthAt)))
  {
    NumberedIds(regions, ms);
    AddLabelsFrom(map[], ms, 1);
    LabelsRead(regions, ms, AddLabels(map[], ms), LabelTexts(Expected(ms, lengthAt)));
  }

  lemma LabelsRead(regions: seq<Region>, ms: seq<Marker>, labels: map<nat, seq<byte>>, texts: map<nat, string>)
    requires Numbered(regions, ms)
    requires forall id :: id in labels <==> 1 <= id < 1 + |ms|
    requires forall k :: 0 <= k < |ms| ==> labels[1 + k] == LabelBytes(ms[k].name)
    requires texts.Keys == labels.Keys
    requires forall id :: id in texts ==> texts[id] == LabelText(labels[id])
    ensures LabelsReport(regions, texts)
  {
    forall k | 0 <= k < |regions|
      ensures texts[k + 1] == RStripChar(regions[k].name, '\0')
    {
      assert labels[1 + k] == LabelBytes(ms[k].name);
      LabelRoundTrip(ms[k].name);
    }
  }

  lemma ExpectedLengths(regions: seq<Region>, rate: int, ms: seq<Marker>, lengthAt: nat)
    requires Numbered(regions, ms)
    ensures LengthsReport(regions, AddLengths(map[], ms, lengthAt))
    ensures forall k :: 0 <= k < |regions| ==> AddLengths(map[], ms, lengthAt)[k + 1] == StoredLength(ms[k], lengthAt)
  {
    NumberedIds(regions, ms);
    AddLengthsFrom(map[], ms, 1, lengthAt);
  }

  /** The metadata the walk collects from markers that describe the regions. */
  lemma ExpectedReports(regions: seq<Region>, rate: int, ms: seq<Marker>, lengthAt: nat)
    requires Timed(regions, rate, ms) && Numbered(regions, ms)
    ensures Reports(regions, rate, Expected(ms, lengthAt))
    ensures forall k :: 0 <= k < |regions| ==> Expected(ms, lengthAt).lengths[k + 1] == StoredLength(ms[k], lengthAt)
  {
    ExpectedCues(regions, rate, ms);
    ExpectedLabels(regions, rate, ms, lengthAt);
    ExpectedLengths(regions, rate, ms, lengthAt);
  }

  /** Read at bytes 12-16, every length is 0. */
  lemma ZeroLengths(regions: seq<Region>, rate: int, ms: seq<Marker>)
    requires Numbered(regions, ms)
    ensures forall id :: id in Expected(ms, LTXT_LENGTH_AS_WRITTEN).lengths ==>
      Expected(ms, LTXT_LENGTH_AS_WRITTEN).lengths[id] == 0
  {
    ExpectedLengths(regions, rate, ms, LTXT_LENGTH_AS_WRITTEN);
    forall id | id in Expected(ms, LTXT_LENGTH_AS_WRITTEN).lengths
      ensures Expected(ms, LTXT_LENGTH_AS_WRITTEN).lengths[id] == 0
    {
      assert Expected(ms, LTXT_LENGTH_AS_WRITTEN).lengths[(id - 1) + 1] == StoredLength(ms[id - 1], LTXT_LENGTH_AS_WRITTEN);
    }
  }

  /** Each region's start sample plus the length stored for it is its end
      sample. */
  ghost predicate EndsReport(regions: seq<Region>, rate: int, m: Metadata) {
    forall k :: 0 <= k < |regions| ==>
      && k < |m.cues| && k + 1 in m.lengths
      && TimeToSample(regions[k].end, rate) == Ok(m.cues[k].offset + m.lengths[k + 1])
  }

  /** Read at bytes 4-8, each region's start plus its length is its end. */
  lemma EndsBack(regions: seq<Region>, rate: int, ms: seq<Marker>, m: Metadata)
    requires Timed(regions, rate, ms) && Numbered(regions, ms)
    requires m.cues == CuesOf(ms) && m.lengths == AddLengths(map[], ms, LTXT_LENGTH_STANDARD)
    ensures EndsReport(regions, rate, m)
  {
    ExpectedLengths(regions, rate, ms, LTXT_LENGTH_STANDARD);
    forall k | 0 <= k < |regions|
      ensures k < |m.cues| && k + 1 in m.lengths
      ensures TimeToSample(regions[k].end, rate) == Ok(m.cues[k].offset + m.lengths[k + 1])
    {
      TimedAt(regions, rate, ms, k);
      EndBack(regions[k].end, rate, ms[k], m.cues[k], m.lengths[k + 1]);
    }
  }

  lemma TimedAt(regions: seq<Region>, rate: int, ms: seq<Marker>, k: nat)
    requires Timed(regions, rate, ms) && k < |ms|
    ensures TimeToSample(regions[k].end, rate) == Ok(ms[k].start + ms[k].length)
  {
    assert SpanAt(regions, rate, ms, k);
  }

  lemma EndBack(end: string, rate: int, marker: Marker, cue: CuePoint, length: nat)
    requires TimeToSample(end, rate) == Ok(marker.start + marker.length)
    requires cue.offset == marker.start && length == StoredLength(marker, LTXT_LENGTH_STANDARD)
    ensures TimeToSample(end, rate) == Ok(cue.offset + length)
  {
  }

  /** The decoders' entry points run the walk from byte 12. */
  lemma Extracted(w: seq<byte>, m: Metadata, lengthAt: nat)
    requires Reads(lengthAt) && Walks(w, 12, EMPTY, lengthAt, m)
    ensures lengthAt == LTXT_LENGTH_AS_WRITTEN ==>
      ExtractMetadata(Some(w)) == Ok(m) && ExtractRiffMetadata(Some(w)) == Some(m)
    ensures lengthAt == LTXT_LENGTH_STANDARD ==> ExtractMetadataStandard(Some(w)) == Ok(m)
  {
  }

  /** `extract_metadata` and `extract_riiff_metadata` on a file whose walk
      collects what markers describing the regions say. */
  lemma ReportsAsWritten(regions: seq<Region>, rate: int, ms: seq<Marker>, w: seq<byte>)
    requires Timed(regions, rate, ms) && Numbered(regions, ms)
    requires Walks(w, 12, EMPTY, LTXT_LENGTH_AS_WRITTEN, Expected(ms, LTXT_LENGTH_AS_WRITTEN))
    ensures var r := ExtractMetadata(Some(w));
      && r.Ok? && Reports(regions, rate, r.value)
      && (forall id :: id in r.value.lengths ==> r.value.lengths[id] == 0)
      && ExtractRiffMetadata(Some(w)) == Some(r.value)
  {
    ExpectedReports(regions, rate, ms, LTXT_LENGTH_AS_WRITTEN);
    ZeroLengths(regions, rate, ms);
    Extracted(w, Expected(ms, LTXT_LENGTH_AS_WRITTEN), LTXT_LENGTH_AS_WRITTEN);
  }

  /** The walk with the `ltxt` length read where the encoder put it, on the
      same file. */
  lemma ReportsStandard(regions: seq<Region>, rate: int, ms: seq<Marker>, w: seq<byte>)
    requires Timed(regions, rate, ms) && Numbered(regions, ms)
    requires Walks(w, 12, EMPTY, LTXT_LENGTH_STANDARD, Expected(ms, LTXT_LENGTH_STANDARD))
    ensures var r := ExtractMetadataStandard(Some(w));
      r.Ok? && Reports(regions, rate, r.value) && EndsReport(regions, rate, r.value)
  {
    ExpectedReports(regions, rate, ms, LTXT_LENGTH_STANDARD);
    EndsBack(regions, rate, ms, Expected(ms, LTXT_LENGTH_STANDARD));
    Extracted(w, Expected(ms, LTXT_LENGTH_STANDARD), LTXT_LENGTH_STANDARD);
  }

  /** `extract_metadata` (and `extract_riiff_metadata`, which agrees with it)
      on a file `add_region_markers` wrote, under either size rule: a cue per
      region numbered from 1 at the region's start sample, the region's name
      as label, an entry per region in the lengths dict, and every length 0,
      because the decoders read the `ltxt` length from bytes the encoder
      leaves zero. */
  lemma ReadBackAsWritten(rule: RiffSizeRule, lines: seq<string>, rate: int, bitDepth: int, channels: int)
    requires EncodeWith(rule, lines, rate, bitDepth, channels).Ok?
    requires EncodeWith(rule, lines, rate, bitDepth, channels).value.Written?
    ensures ParseSrt(lines).Ok?
    ensures var w := EncodeWith(rule, lines, rate, bitDepth, channels).value.wav;
      var r := ExtractMetadata(Some(w));
      && r.Ok? && Reports(ParseSrt(lines).value, rate, r.value)
      && (forall id :: id in r.value.lengths ==> r.value.lengths[id] == 0)
      && ExtractRiffMetadata(Some(w)) == Some(r.value)
  {
    EncodedWalk(rule, lines, rate, bitDepth, channels, LTXT_LENGTH_AS_WRITTEN);
    MarkersDescribe(ParseSrt(lines).value, rate);
    ReportsAsWritten(ParseSrt(lines).value, rate, Markers(ParseSrt(lines).value, 1, rate).value,
                     EncodeWith(rule, lines, rate, bitDepth, channels).value.wav);
  }

  /** With the `ltxt` length read where the encoder put it, each region's
      length comes back: the cue's offset plus its length is the region's end
      sample. */
  lemma ReadBackStandard(rule: RiffSizeRule, lines: seq<string>, rate: int, bitDepth: int, channels: int)
    requires EncodeWith(rule, lines, rate, bitDepth, channels).Ok?
    requires EncodeWith(rule, lines, rate, bitDepth, channels).value.Written?
    ensures ParseSrt(lines).Ok?
    ensures var w := EncodeWith(rule, lines, rate, bitDepth, channels).value.wav;
      var r := ExtractMetadataStandard(Some(w));
      r.Ok? && Reports(ParseSrt(lines).value, rate, r.value) && EndsReport(ParseSrt(lines).value, rate, r.value)
  {
    EncodedWalk(rule, lines, rate, bitDepth, channels, LTXT_LENGTH_STANDARD);
    MarkersDescribe(ParseSrt(lines).value, rate);
    ReportsStandard(ParseSrt(lines).value, rate, Markers(ParseSrt(lines).value, 1, rate).value,
                    EncodeWith(rule, lines, rate, bitDepth, channels).value.wav);
  }
}

=== FILE: reaper.dfy ===
/** converters/srt_to_reaper_markers.py: every SRT cue becomes a pair of
    Reaper `MARKER` lines, and the lines are spliced into a `.rpp` project
    text before its last `>`. Reading and writing the files and the
    argument parser are not modelled; the cue pattern, the marker text and
    the splice are. */
module ReaperMarkers {
  import opened PyCore
  import opened PyText
  import opened SrtTime
  import opened SrtBlocks
  import opened NewlineIo
  import opened Smpte

  // ------------------------------------------------------------ the cue pattern

  /** `\s+` / `\s*` at the start of `s`: the whole run of whitespace. */
  function SpaceRun(s: string): (n: nat)
    ensures n <= |s|
    ensures forall i :: 0 <= i < n ==> IsSpace(s[i])
    ensures n < |s| ==> !IsSpace(s[n])
    decreases |s|
  {
    if |s| > 0 && IsSpace(s[0]) then 1 + SpaceRun(s[1..]) else 0
  }

  /** `\d+\n` at the start of `s`. Only the whole digit run can be followed
      by the line break, so backtracking into the digits finds nothing
      more. */
  predicate NumberLine(s: string) {
    var r := DigitRun(s);
    0 < r < |s| && s[r] == '\n'
  }

  /** The lookahead `(?=\n\d+\n|\Z)` at position `e`: the next cue's number
      line starts here, or the text ends. */
  predicate Look(s: string, e: nat)
    requires e <= |s|
  {
    e == |s| || (s[e] == '\n' && NumberLine(s[e + 1..]))
  }

  /** The greedy `\s*` before the lookahead, tried from its longest run
      `top` down to `i`: the first end at which the lookahead holds. */
  function Back(s: string, i: nat, top: nat): (r: Option<nat>)
    requires i <= top <= |s|
    ensures r.Some? ==> i <= r.value <= top && Look(s, r.value)
    ensures r.None? ==> forall j :: i <= j <= top ==> !Look(s, j)
    decreases top - i
  {
    if Look(s, top) then Some(top)
    else if top == i then None
    else Back(s, i, top - 1)
  }

  /** `\s*(?=\n\d+\n|\Z)` tried at position `i`. */
  function Greedy(s: string, i: nat): (r: Option<nat>)
    requires i <= |s|
    ensures r.Some? ==> i <= r.value <= |s| && Look(s, r.value)
    ensures r.Some? ==> forall j :: i <= j < r.value ==> IsSpace(s[j])
  {
    var n := SpaceRun(s[i..]);
    assert forall j :: i <= j < i + n ==> IsSpace(s[j]) by {
      forall j | i <= j < i + n ensures IsSpace(s[j]) { assert s[j] == s[i..][j - i]; }
    }
    Back(s, i, i + n)
  }

  /** The lazy `(.*?)` from `i` (which, under `re.DOTALL`, crosses line
      breaks): it grows one character at a time until `\s*` and the
      lookahead can follow. The result is the end of the text and the end
      of the match. */
  function Lazy(s: string, i: nat): (r: (nat, nat))
    requires i <= |s|
    ensures i <= r.0 <= r.1 <= |s|
    ensures Look(s, r.1) && forall j :: r.0 <= j < r.1 ==> IsSpace(s[j])
    ensures forall j :: i <= j < r.0 ==> Greedy(s, j).None?
    decreases |s| - i
  {
    if i == |s| then (i, i)
    else
      match Greedy(s, i)
      case Some(e) => (i, e)
      case None => Lazy(s, i + 1)
  }

  /** The groups of one match: the number, the two times and the text. */
  datatype Cue = Cue(number: string, start: string, end: string, text: string)

  /** The fixed part of the pattern of lines 16-19 tried at the start of
      `s`: `(\d+)\s+(TS) --> (TS)\s+`, where TS is `\d{2}:\d{2}:\d{2},\d{3}`.
      The digit and whitespace runs are taken whole: giving any back would
      put a digit where whitespace is needed or whitespace where a digit
      is. The result is where the number ends (`d`), where the first time
      starts (`a`) and where the text starts (`q`). */
  function Fixed(s: string): (r: Option<Span>)
    ensures r.Some? ==> FixedAt(s, r.value)
  {
    var d := DigitRun(s);
    if d == 0 then None
    else
      var w := SpaceRun(s[d..]);
      var a := d + w;
      if w == 0 || a + 29 > |s| then None
      else if !IsTimestamp(s[a..a + 12]) || s[a + 12..a + 17] != " --> " || !IsTimestamp(s[a + 17..a + 29]) then None
      else
        var w2 := SpaceRun(s[a + 29..]);
        if w2 == 0 then None
        else
          FixedFacts(s, d, a, w2);
          Some(Span(d, a, a + 29 + w2))
  }

  /** Where the number ends (`d`), the first time starts (`a`) and the text
      starts (`q`). */
  datatype Span = Span(d: nat, a: nat, q: nat)

  predicate FixedAt(s: string, sp: Span) {
    && 0 < sp.d <= sp.a && sp.a + 29 < sp.q <= |s|
    && IsDigits(s[..sp.d]) && IsTimestamp(s[sp.a..sp.a + 12]) && IsTimestamp(s[sp.a + 17..sp.a + 29])
    && (sp.q < |s| ==> !IsSpace(s[sp.q]))
  }

  lemma FixedFacts(s: string, d: nat, a: nat, w2: nat)
    requires 0 < d == DigitRun(s) <= a && a + 29 <= |s| && 0 < w2 == SpaceRun(s[a + 29..])
    requires IsTimestamp(s[a..a + 12]) && IsTimestamp(s[a + 17..a + 29])
    ensures FixedAt(s, Span(d, a, a + 29 + w2))
  {
    DigitRunDigits(s);
    SpaceRunStops(s, a + 29);
  }

  /** The digits a run takes are a number. */
  lemma DigitRunDigits(s: string)
    requires DigitRun(s) > 0
    ensures IsDigits(s[..DigitRun(s)])
  {
    var d := DigitRun(s);
    forall i | 0 <= i < d ensures IsDigitChar(s[..d][i]) { assert s[..d][i] == s[i]; }
  }

  /** A run of whitespace from `p` stops before a character that is not
      whitespace. */
  lemma SpaceRunStops(s: string, p: nat)
    requires p <= |s|
    ensures var q := p + SpaceRun(s[p..]); q <= |s| && (q < |s| ==> !IsSpace(s[q]))
  {
    var w := SpaceRun(s[p..]);
    if p + w < |s| {
      assert s[p + w] == s[p..][w];
    }
  }

  /** The whole pattern tried at the start of `s`: the fixed part, then
      `(.*?)\s*(?=\n\d+\n|\Z)`. The result is the groups and the length of
      the match. */
  function MatchCue(s: string): (r: Option<(Cue, nat)>)
    ensures r.Some? ==> 0 < r.value.1 <= |s|
    ensures r.Some? ==> IsDigits(r.value.0.number) && IsTimestamp(r.value.0.start) && IsTimestamp(r.value.0.end)
  {
    match Fixed(s)
    case None => None
    case Some(sp) => Some((CueAt(s, sp), Lazy(s, sp.q).1))
  }

  /** The groups of a match whose fixed part is `sp`. */
  function CueAt(s: string, sp: Span): (c: Cue)
    requires FixedAt(s, sp)
    ensures IsDigits(c.number) && IsTimestamp(c.start) && IsTimestamp(c.end)
  {
    Cue(s[..sp.d], s[sp.a..sp.a + 12], s[sp.a + 17..sp.a + 29], s[sp.q..Lazy(s, sp.q).0])
  }

  /** `pattern.findall(srt_data)`: matches tried at each position from the
      left, each search resuming where the last match ended. */
  function FindCues(s: string): (cues: seq<Cue>)
    ensures AllTimed(cues)
    decreases |s|
  {
    if |s| == 0 then []
    else
      match MatchCue(s)
      case Some((c, e)) => TimedCons(c, FindCues(s[e..])); [c] + FindCues(s[e..])
      case None => FindCues(s[1..])
  }

  /** Both times of every cue have the pattern's shape. */
  predicate AllTimed(cues: seq<Cue>) {
    forall k :: 0 <= k < |cues| ==> IsTimestamp(cues[k].start) && IsTimestamp(cues[k].end)
  }

  lemma TimedCons(c: Cue, cues: seq<Cue>)
    requires IsTimestamp(c.start) && IsTimestamp(c.end) && AllTimed(cues)
    ensures AllTimed([c] + cues)
  {
    forall k | 0 < k < |[c] + cues| ensures ([c] + cues)[k] == cues[k - 1] { }
  }

  /** `\d+\n` followed inside the text at a line break. */
  predicate NumberLineAt(t: string, j: int) {
    0 <= j < |t| && t[j] == '\n' && NumberLine(t[j + 1..])
  }

  /** A digit run that stops inside `u` is not lengthened by what follows. */
  lemma {:induction false} DigitRunPrefix(u: string, v: string)
    requires DigitRun(u) < |u|
    ensures DigitRun(u + v) == DigitRun(u)
    decreases |u|
  {
    if IsDigitChar(u[0]) {
      assert (u + v)[1..] == u[1..] + v;
      DigitRunPrefix(u[1..], v);
    }
  }

  /** A number line inside the text is one in the whole file. */
  lemma NumberLineExtends(u: string, v: string)
    requires NumberLine(u)
    ensures NumberLine(u + v)
  {
    DigitRunPrefix(u, v);
  }

  /** At a position the lazy text passed, no lookahead held: a position
      is itself among the ends its `\s*` tries. */
  lemma PassedNoLook(s: string, j: nat)
    requires j <= |s| && Greedy(s, j).None?
    ensures !Look(s, j)
  {
  }

  /** Whitespace up to a lookahead makes `\s*` succeed. */
  lemma SpacesToLook(s: string, i: nat, e: nat)
    requires i <= e <= |s| && Look(s, e)
    requires forall j :: i <= j < e ==> IsSpace(s[j])
    ensures Greedy(s, i).Some?
  {
    SpaceRunAtLeast(s[i..], e - i);
  }

  lemma {:induction false} SpaceRunAtLeast(s: string, k: nat)
    requires k <= |s| && forall j :: 0 <= j < k ==> IsSpace(s[j])
    ensures SpaceRun(s) >= k
    decreases k
  {
    if k > 0 {
      SpaceRunAtLeast(s[1..], k - 1);
    }
  }

  /** Where the text of a match starts. */
  function TextStart(s: string): (q: nat)
    requires MatchCue(s).Some?
    ensures q <= |s| && MatchCue(s).value.0.text == s[q..Lazy(s, q).0]
    ensures MatchCue(s).value.1 == Lazy(s, q).1
    ensures q < |s| ==> !IsSpace(s[q])
  {
    Fixed(s).value.q
  }

  /** The lazy text is stripped when it starts after whitespace: it stops
      as soon as only whitespace is left before the lookahead. */
  lemma LazyStripped(s: string, q: nat)
    requires q <= |s| && (q < |s| ==> !IsSpace(s[q]))
    ensures IsStripped(s[q..Lazy(s, q).0])
  {
    var te := Lazy(s, q).0;
    if q < te {
      LazyLastNotSpace(s, q);
      StrippedEnds(s, q, te);
    }
  }

  /** The lazy text never ends in whitespace: from there `\s*` would
      already have reached the lookahead. */
  lemma LazyLastNotSpace(s: string, q: nat)
    requires q <= |s| && q < Lazy(s, q).0
    ensures !IsSpace(s[Lazy(s, q).0 - 1])
  {
    var (te, e) := Lazy(s, q);
    assert Greedy(s, te - 1).None?;
    if IsSpace(s[te - 1]) {
      assert false;
    }
  }

  lemma StrippedEnds(s: string, q: nat, te: nat)
    requires q < te <= |s| && !IsSpace(s[q]) && !IsSpace(s[te - 1])
    ensures IsStripped(s[q..te])
  {
    var t := s[q..te];
    assert t[0] == s[q];
    assert t[|t| - 1] == s[te - 1];
  }

  /** The lazy text never runs into the next cue: no line break in it is
      followed by a line of digits alone. */
  lemma LazyOwn(s: string, q: nat)
    requires q <= |s|
    ensures forall j :: !NumberLineAt(s[q..Lazy(s, q).0], j)
  {
    var (te, e) := Lazy(s, q);
    var t := s[q..te];
    forall j | NumberLineAt(t, j)
      ensures false
    {
      assert s[q + j + 1..] == t[j + 1..] + s[te..];
      NumberLineExtends(t[j + 1..], s[te..]);
      assert s[q + j] == t[j];
      assert Look(s, q + j);
      PassedNoLook(s, q + j);
    }
  }

  /** The text of a cue is stripped, and it never runs into the next cue. */
  lemma CueText(s: string)
    requires MatchCue(s).Some?
    ensures IsStripped(MatchCue(s).value.0.text)
    ensures forall j :: !NumberLineAt(MatchCue(s).value.0.text, j)
  {
    var q := TextStart(s);
    LazyStripped(s, q);
    LazyOwn(s, q);
  }

  /** A cue's match ends where the next cue's number line starts, or at the
      end of the file, after nothing but whitespace. */
  lemma CueEnd(s: string)
    requires MatchCue(s).Some?
    ensures var e := MatchCue(s).value.1; Look(s, e)
  {
  }

  // ------------------------------------------------------------ times

  /** The four numbers of a time as text. */
  datatype Clock = Clock(h: string, m: string, sec: string, ms: string)

  /** The two unpackings of `to_seconds` (lines 8-9): exactly two `:` and
      then exactly one `,`, else `ValueError`. */
  function ClockPieces(tc: string): Option<Clock> {
    var parts := Split(tc, ":");
    if |parts| != 3 then None
    else
      var sm := Split(parts[2], ",");
      if |sm| != 2 then None
      else Some(Clock(parts[0], parts[1], sm[0], sm[1]))
  }

  /** `to_seconds` (lines 7-10), in milliseconds: a time that does not
      unpack raises `ValueError`, as `int()` does for a piece that is not an
      integer. */
  function ToMs(tc: string): (r: Result<int>)
    ensures r.Raise? ==> r.exc == ValueError
  {
    match ClockPieces(tc)
    case None => Raise(ValueError)
    case Some(c) => ClockMs(ParseInt(c.h), ParseInt(c.m), ParseInt(c.sec), ParseInt(c.ms))
  }

  /** Hours, minutes, seconds and milliseconds read with `int()`, summed;
      the first that did not read raises. */
  function ClockMs(h: Result<int>, m: Result<int>, sec: Result<int>, ms: Result<int>): (r: Result<int>)
    ensures r.Ok? <==> h.Ok? && m.Ok? && sec.Ok? && ms.Ok?
    ensures r.Raise? ==> (h.Raise? && r.exc == h.exc) || (m.Raise? && r.exc == m.exc)
                         || (sec.Raise? && r.exc == sec.exc) || (ms.Raise? && r.exc == ms.exc)
  {
    var hv :- h;
    var mv :- m;
    var sv :- sec;
    var msv :- ms;
    Ok(hv * 3600000 + mv * 60000 + sv * 1000 + msv)
  }

  /** Every time the pattern matched converts, to a time that is not
      negative: each of its four pieces is a run of digits. */
  lemma TimestampMs(t: string)
    requires IsTimestamp(t)
    ensures ToMs(t).Ok? && ToMs(t).value >= 0
  {
    TimestampClock(t);
    var h, m, sec, ms := t[..2], t[3..5], t[6..8], t[9..];
    assert IsDigits(h) && IsDigits(ms) by {
      assert h == t[0..2] && ms == t[9..12];
      SliceDigits(t, 0, 2);
      SliceDigits(t, 9, 12);
    }
    SliceDigits(t, 3, 5);
    SliceDigits(t, 6, 8);
    ParseDigits(h);
    ParseDigits(m);
    ParseDigits(sec);
    ParseDigits(ms);
    ToMsOf(t, Clock(h, m, sec, ms), DigitsValue(h), DigitsValue(m), DigitsValue(sec), DigitsValue(ms));
  }

  /** A time whose four pieces read as integers converts to their sum. */
  lemma ToMsOf(tc: string, c: Clock, h: int, m: int, sec: int, ms: int)
    requires ClockPieces(tc) == Some(c)
    requires ParseInt(c.h) == Ok(h) && ParseInt(c.m) == Ok(m) && ParseInt(c.sec) == Ok(sec) && ParseInt(c.ms) == Ok(ms)
    ensures ToMs(tc) == Ok(h * 3600000 + m * 60000 + sec * 1000 + ms)
  {
    assert ToMs(tc) == ClockMs(Ok(h), Ok(m), Ok(sec), Ok(ms));
  }

  /** `HH:MM:SS,mmm` unpacks into its four runs of digits. */
  lemma TimestampClock(t: string)
    requires IsTimestamp(t)
    ensures ClockPieces(t) == Some(Clock(t[..2], t[3..5], t[6..8], t[9..]))
  {
    var h, m, sec, ms := t[..2], t[3..5], t[6..8], t[9..];
    assert t == h + ":" + m + ":" + sec + "," + ms;
    assert h == t[0..2] && ms == t[9..12];
    SliceNoSeparator(t, 0, 2);
    SliceNoSeparator(t, 3, 5);
    SliceNoSeparator(t, 6, 8);
    SliceNoSeparator(t, 9, 12);
    SplitClock(h, m, sec, ms);
  }

  /** A slice of digits holds neither separator of a time. */
  lemma SliceNoSeparator(t: string, i: nat, j: nat)
    requires i <= j <= |t| && forall k :: i <= k < j ==> IsDigitChar(t[k])
    ensures NoChar(t[i..j], ':') && NoChar(t[i..j], ',')
  {
    forall k | 0 <= k < j - i ensures t[i..j][k] == t[i + k] { }
  }

  /** Four pieces without separators, joined as a time is written, unpack
      into those pieces. */
  lemma SplitClock(h: string, m: string, sec: string, ms: string)
    requires NoChar(h, ':') && NoChar(m, ':') && NoChar(sec, ':') && NoChar(ms, ':')
    requires NoChar(sec, ',') && NoChar(ms, ',')
    ensures ClockPieces(h + ":" + m + ":" + sec + "," + ms) == Some(Clock(h, m, sec, ms))
  {
    var last := sec + "," + ms;
    var t := h + ":" + m + ":" + sec + "," + ms;
    assert t == h + ":" + (m + ":" + last);
    assert Split(t, ":") == [h, m, last] by {
      ConcatNoChar(sec, ",", ':');
      ConcatNoChar(sec + ",", ms, ':');
      NoCharNotContains(last, ":");
      SplitAbsent(last, ":");
      SplitCons(m, ":", last);
      SplitCons(h, ":", m + ":" + last);
    }
    assert Split(last, ",") == [sec, ms] by {
      NoCharNotContains(ms, ",");
      SplitPair(sec, ",", ms);
    }
  }

  lemma SliceDigits(t: string, i: nat, j: nat)
    requires i < j <= |t| && forall k :: i <= k < j ==> IsDigitChar(t[k])
    ensures IsDigits(t[i..j])
  {
    forall k | 0 <= k < j - i ensures IsDigitChar(t[i..j][k]) { assert t[i..j][k] == t[i + k]; }
  }

  /** The milliseconds of a matched time. */
  function CueMs(t: string): (ms: nat)
    requires IsTimestamp(t)
    ensures ToMs(t) == Ok(ms)
  {
    TimestampMs(t);
    ToMs(t).value
  }

  /** `f"{ms / 1000:.2f}"` for a non-negative time: hundredths of a second,
      rounded half to even. */
  function Fixed2(ms: nat): (r: string)
    ensures var c := Centis(ms);
      ParseAll(Split(r, ".")) == Ok([c / 100, c % 100])
  {
    var c := Centis(ms);
    var whole, frac := Decimal(c / 100), ZeroFill(Decimal(c % 100), 2);
    DecimalSpec(c / 100);
    ZeroFillValue(c % 100, 2);
    DigitsNoChar(frac, '.');
    NoCharNotContains(frac, ".");
    SplitPair(whole, ".", frac);
    ParseDigits(whole);
    ParseDigits(frac);
    ParseAllOk([whole, frac], [c / 100, c % 100]);
    whole + "." + frac
  }

  function Centis(ms: nat): (c: nat)
    ensures 2 * (c * 10 - ms) <= 10 && 2 * (ms - c * 10) <= 10
  {
    RoundHalfEven(ms, 10)
  }

  /** The seconds printed read back, at `.`, as the hundredths nearest the
      time: never more than half a hundredth away. */
  lemma Fixed2Back(ms: nat)
    ensures var parts := Split(Fixed2(ms), ".");
      && |parts| == 2 && IsDigits(parts[0]) && IsDigits(parts[1]) && |parts[1]| == 2
      && var c := DigitsValue(parts[0]) * 100 + DigitsValue(parts[1]);
      && -5 <= c * 10 - ms <= 5
  {
    var c := Centis(ms);
    var whole, frac := Decimal(c / 100), ZeroFill(Decimal(c % 100), 2);
    DecimalSpec(c / 100);
    ZeroFillValue(c % 100, 2);
    DigitsNoChar(frac, '.');
    NoCharNotContains(frac, ".");
    SplitPair(whole, ".", frac);
    DecimalShort(c % 100);
  }

  // ------------------------------------------------------------ markers

  /** Line 26: line breaks become spaces, the ends are stripped, and double
      quotes become single quotes, so the name cannot close the quoted
      field it is written in. */
  function Clean(text: string): (r: string)
    ensures NoChar(r, '"') && NoChar(r, '\n')
  {
    var flat := ReplaceChar(text, '\n', ' ');
    StripNoChar(flat, '\n');
    ReplaceChar(Strip(flat), '"', '\'')
  }

  /** A stripped text stays stripped: the replacements only turn a line
      break into a space inside it and a quote into a quote. */
  lemma CleanStripped(text: string)
    requires IsStripped(text)
    ensures Clean(text) == ReplaceChar(ReplaceChar(text, '\n', ' '), '"', '\'')
    ensures IsStripped(Clean(text))
  {
    var flat := ReplaceChar(text, '\n', ' ');
    assert IsStripped(flat);
    StripOfStripped(flat);
  }

  /** The placeholder GUID of lines 28-30: every field is the marker index
      in upper-case hexadecimal, zero-filled to 8, 4, 4, 4 and 12 digits. */
  function Guid(idx: nat): string {
    "{" + HexPad(idx, 8) + "-" + HexPad(idx, 4) + "-" + HexPad(idx, 4) + "-" + HexPad(idx, 4) + "-" + HexPad(idx, 12) + "}"
  }

  /** What both lines of a pair start with: `MARKER`, the index and the
      time. */
  function Head(idx: nat, ms: nat): string {
    "  MARKER " + IntStr(idx) + " " + Fixed2(ms) + " "
  }

  /** The first line of a pair (line 31): index, start time, the quoted
      name, the flags `1 0 1 B`, the GUID and `0`. */
  function StartMarker(idx: nat, ms: nat, name: string): string {
    Head(idx, ms) + "\"" + name + "\"" + Flags(idx)
  }

  function Flags(idx: nat): string {
    " 1 0 1 B " + Guid(idx) + " 0"
  }

  /** The second line of a pair (line 32): same index, the end time, an
      empty name and flag 1. */
  function EndMarker(idx: nat, ms: nat): string {
    Head(idx, ms) + "\"" + "\"" + " 1"
  }

  /** Line `i` of the markers of `cues`: cue `i / 2`, numbered from 1, its
      start marker for even `i` and its end marker for odd `i`. */
  function MarkerLine(cues: seq<Cue>, i: nat): string
    requires i < 2 * |cues|
    requires AllTimed(cues)
  {
    var c := cues[i / 2];
    if i % 2 == 0 then StartMarker(i / 2 + 1, CueMs(c.start), Clean(c.text))
    else EndMarker(i / 2 + 1, CueMs(c.end))
  }

  /** `srt_to_markers` (lines 12-33) on the file's text: the loop of lines
      23-32 appends two lines per match, `enumerate(..., start=1)` giving
      the index. */
  function SrtToMarkers(content: string): (lines: seq<string>)
    ensures |lines| == 2 * |FindCues(content)|
  {
    var cues := FindCues(content);
    seq(2 * |cues|, i requires 0 <= i < 2 * |cues| => MarkerLine(cues, i))
  }

  lemma HexDigitNoChar(d: nat, c: char)
    requires d < 16 && !IsDigitChar(c) && !('A' <= c <= 'F')
    ensures HexDigit(d) != c
  {
  }

  lemma {:induction false} HexNoChar(n: nat, c: char)
    requires !IsDigitChar(c) && !('A' <= c <= 'F')
    ensures NoChar(Hex(n), c)
    decreases n
  {
    HexDigitNoChar(n % 16, c);
    if n >= 16 {
      HexNoChar(n / 16, c);
      ConcatNoChar(Hex(n / 16), [HexDigit(n % 16)], c);
    }
  }

  /** A hexadecimal field holds no character outside `0-9A-F`. */
  lemma HexPadNoChar(n: nat, width: nat, c: char)
    requires !IsDigitChar(c) && !('A' <= c <= 'F')
    ensures NoChar(HexPad(n, width), c)
  {
    HexNoChar(n, c);
    ZeroFillSpec(Hex(n), width);
  }

  /** Inside its braces, the GUID splits at `-` into the five fields. */
  lemma GuidFields(idx: nat)
    ensures var g := Guid(idx);
      |g| >= 2 && g[0] == '{' && g[|g| - 1] == '}'
      && Split(g[1..|g| - 1], "-") == [HexPad(idx, 8), HexPad(idx, 4), HexPad(idx, 4), HexPad(idx, 4), HexPad(idx, 12)]
  {
    var h8, h4, h12 := HexPad(idx, 8), HexPad(idx, 4), HexPad(idx, 12);
    var parts := [h8, h4, h4, h4, h12];
    HexPadNoChar(idx, 8, '-');
    HexPadNoChar(idx, 4, '-');
    HexPadNoChar(idx, 12, '-');
    GuidInner(idx);
    JoinFive(h8, h4, h4, h4, h12, "-");
    assert forall i :: 0 <= i < |parts| ==> NoChar(parts[i], '-');
    SplitOfJoin(parts, "-");
  }

  lemma GuidInner(idx: nat)
    ensures var g := Guid(idx);
      |g| >= 2 && g[0] == '{' && g[|g| - 1] == '}'
      && g[1..|g| - 1] == HexPad(idx, 8) + "-" + HexPad(idx, 4) + "-" + HexPad(idx, 4) + "-" + HexPad(idx, 4) + "-" + HexPad(idx, 12)
  {
    var inner := HexPad(idx, 8) + "-" + HexPad(idx, 4) + "-" + HexPad(idx, 4) + "-" + HexPad(idx, 4) + "-" + HexPad(idx, 12);
    assert Guid(idx) == "{" + inner + "}";
  }

  lemma JoinFive(a: string, b: string, c: string, d: string, e: string, sep: string)
    ensures Join([a, b, c, d, e], sep) == a + sep + b + sep + c + sep + d + sep + e
  {
    assert [a, b, c, d, e][1..] == [b, c, d, e];
    JoinFour(b, c, d, e, sep);
  }

  function Pow16(k: nat): pos {
    if k == 0 then 1 else 16 * Pow16(k - 1)
  }

  /** A number below 16^k takes at most `k` hexadecimal digits. */
  lemma {:induction false} HexBelow(n: nat, k: nat)
    requires k >= 1 && n < Pow16(k)
    ensures |Hex(n)| <= k
    decreases k
  {
    if n >= 16 {
      assert k >= 2;
      HexBelow(n / 16, k - 1);
    }
  }

  /** Below 16^4 every GUID field has exactly its width. */
  lemma GuidWidths(idx: nat)
    requires idx < 0x10000
    ensures |HexPad(idx, 4)| == 4 && |HexPad(idx, 8)| == 8 && |HexPad(idx, 12)| == 12
  {
    assert Pow16(4) == 0x10000;
    HexBelow(idx, 4);
  }

  /** The name field of a start marker reads back, between its double
      quotes, as the cleaned text. */
  lemma StartMarkerName(idx: nat, ms: nat, text: string)
    ensures var parts := Split(StartMarker(idx, ms, Clean(text)), "\"");
      |parts| == 3 && parts[1] == Clean(text)
  {
    var name := Clean(text);
    var head, flags := Head(idx, ms), Flags(idx);
    HeadNoChar(idx, ms, '"');
    FlagsNoChar(idx, '"');
    assert StartMarker(idx, ms, name) == head + "\"" + (name + "\"" + flags);
    SplitCons(head, "\"", name + "\"" + flags);
    NoCharNotContains(flags, "\"");
    SplitPair(name, "\"", flags);
  }

  /** The name field of an end marker is empty. */
  lemma EndMarkerName(idx: nat, ms: nat)
    ensures Split(EndMarker(idx, ms), "\"") == [Head(idx, ms), "", " 1"]
  {
    var head := Head(idx, ms);
    HeadNoChar(idx, ms, '"');
    assert EndMarker(idx, ms) == head + "\"" + ("" + "\"" + " 1");
    SplitCons(head, "\"", "" + "\"" + " 1");
    NoCharNotContains(" 1", "\"");
    SplitPair("", "\"", " 1");
  }

  lemma HeadNoChar(idx: nat, ms: nat, c: char)
    requires !IsDigitChar(c) && c !in "-. MARKE"
    ensures NoChar(Head(idx, ms), c)
  {
    ZeroPadNoChar(idx, 0, c);
    Fixed2NoChar(ms, c);
    ConcatNoChar("  MARKER ", IntStr(idx), c);
    ConcatNoChar("  MARKER " + IntStr(idx), " ", c);
    ConcatNoChar("  MARKER " + IntStr(idx) + " ", Fixed2(ms), c);
    ConcatNoChar("  MARKER " + IntStr(idx) + " " + Fixed2(ms), " ", c);
  }

  lemma FlagsNoChar(idx: nat, c: char)
    requires !IsDigitChar(c) && !('A' <= c <= 'F') && c !in "{}- "
    ensures NoChar(Flags(idx), c)
  {
    GuidNoChar(idx, c);
    ConcatNoChar(" 1 0 1 B ", Guid(idx), c);
    ConcatNoChar(" 1 0 1 B " + Guid(idx), " 0", c);
  }

  lemma Fixed2NoChar(ms: nat, c: char)
    requires !IsDigitChar(c) && c != '.'
    ensures NoChar(Fixed2(ms), c)
  {
    var c2 := Centis(ms);
    DecimalSpec(c2 / 100);
    ZeroFillValue(c2 % 100, 2);
    DigitsNoChar(Decimal(c2 / 100), c);
    DigitsNoChar(ZeroFill(Decimal(c2 % 100), 2), c);
    ConcatNoChar(Decimal(c2 / 100), ".", c);
    ConcatNoChar(Decimal(c2 / 100) + ".", ZeroFill(Decimal(c2 % 100), 2), c);
  }

  lemma GuidNoChar(idx: nat, c: char)
    requires !IsDigitChar(c) && !('A' <= c <= 'F') && c !in "{}-"
    ensures NoChar(Guid(idx), c)
  {
    HexPadNoChar(idx, 8, c);
    HexPadNoChar(idx, 4, c);
    HexPadNoChar(idx, 12, c);
    var g := Guid(idx);
    forall i | 0 <= i < |g| ensures g[i] != c {
    }
  }

  /** The index field of a marker reads back as its index. */
  lemma MarkerIndex(idx: nat, rest: string)
    ensures var parts := Split("  MARKER " + IntStr(idx) + " " + rest, " ");
      |parts| >= 4 && parts[..3] == ["", "", "MARKER"] && ParseInt(parts[3]) == Ok(idx)
  {
    ZeroPadNoChar(idx, 0, ' ');
    HeadFields(IntStr(idx), rest);
    ParseZeroPad(idx, 0);
  }

  /** Split at spaces, a head line gives two empty fields, `MARKER` and
      the word after it. */
  lemma HeadFields(a: string, rest: string)
    requires NoChar(a, ' ')
    ensures var parts := Split("  MARKER " + a + " " + rest, " ");
      |parts| >= 4 && parts[..3] == ["", "", "MARKER"] && parts[3] == a
  {
    var t3 := a + " " + rest;
    var t2 := "MARKER" + " " + t3;
    var t1 := "" + " " + t2;
    assert "  MARKER " + a + " " + rest == "" + " " + t1;
    var parts := Split("  MARKER " + a + " " + rest, " ");
    var p1, p2, p3 := Split(t1, " "), Split(t2, " "), Split(t3, " ");
    assert parts == [""] + p1 by { SplitCons("", " ", t1); }
    assert p1 == [""] + p2 by { SplitCons("", " ", t2); }
    assert p2 == ["MARKER"] + p3 by { SplitCons("MARKER", " ", t3); }
    assert p3[0] == a by { SplitCons(a, " ", rest); }
    assert parts[0] == "" && parts[1] == p1[0] == "" && parts[2] == p2[0] == "MARKER";
    assert parts[3] == p3[0];
    assert parts[..3] == ["", "", "MARKER"];
  }

  /** A start marker is one line when its name is. */
  lemma StartNoBreak(idx: nat, ms: nat, name: string)
    requires NoChar(name, '\n')
    ensures NoChar(StartMarker(idx, ms, name), '\n')
  {
    var head := Head(idx, ms);
    HeadNoChar(idx, ms, '\n');
    FlagsNoChar(idx, '\n');
    ConcatNoChar(head, "\"", '\n');
    ConcatNoChar(head + "\"", name, '\n');
    ConcatNoChar(head + "\"" + name, "\"", '\n');
    ConcatNoChar(head + "\"" + name + "\"", Flags(idx), '\n');
  }

  lemma EndNoBreak(idx: nat, ms: nat)
    ensures NoChar(EndMarker(idx, ms), '\n')
  {
    var head := Head(idx, ms);
    HeadNoChar(idx, ms, '\n');
    ConcatNoChar(head, "\"", '\n');
    ConcatNoChar(head + "\"", "\"", '\n');
    ConcatNoChar(head + "\"" + "\"", " 1", '\n');
  }

  lemma MarkerLineNoBreak(cues: seq<Cue>, i: nat)
    requires i < 2 * |cues|
    requires AllTimed(cues)
    ensures NoChar(MarkerLine(cues, i), '\n')
  {
    var c := cues[i / 2];
    if i % 2 == 0 {
      StartNoBreak(i / 2 + 1, CueMs(c.start), Clean(c.text));
    } else {
      EndNoBreak(i / 2 + 1, CueMs(c.end));
    }
  }

  /** Marker lines hold no line break, so joined by `\n` they stay apart. */
  lemma MarkerLinesOneLine(content: string)
    ensures var lines := SrtToMarkers(content);
      forall k :: 0 <= k < |lines| ==> NoChar(lines[k], '\n')
  {
    var cues := FindCues(content);
    forall k | 0 <= k < 2 * |cues|
      ensures NoChar(SrtToMarkers(content)[k], '\n')
    {
      MarkerLineNoBreak(cues, k);
    }
  }

  /** Each marker line reads back: its fourth space-separated field is the
      1-based position of its cue, whatever number the SRT gave it, and its
      quoted name is the cue's cleaned text on the first line of the pair
      and empty on the second. */
  lemma MarkerLineReadBack(cues: seq<Cue>, i: nat)
    requires i < 2 * |cues|
    requires AllTimed(cues)
    ensures var line := MarkerLine(cues, i);
      && |Split(line, " ")| >= 4 && ParseInt(Split(line, " ")[3]) == Ok(i / 2 + 1)
      && |Split(line, "\"")| == 3
      && Split(line, "\"")[1] == (if i % 2 == 0 then Clean(cues[i / 2].text) else "")
  {
    var c := cues[i / 2];
    if i % 2 == 0 {
      StartIndexBack(i / 2 + 1, CueMs(c.start), Clean(c.text));
      StartMarkerName(i / 2 + 1, CueMs(c.start), c.text);
    } else {
      EndIndexBack(i / 2 + 1, CueMs(c.end));
      EndMarkerName(i / 2 + 1, CueMs(c.end));
    }
  }

  lemma StartIndexBack(idx: nat, ms: nat, name: string)
    ensures var parts := Split(StartMarker(idx, ms, name), " ");
      |parts| >= 4 && ParseInt(parts[3]) == Ok(idx)
  {
    var rest := "\"" + name + "\"" + Flags(idx);
    assert StartMarker(idx, ms, name) == Head(idx, ms) + rest by {
      assert Head(idx, ms) + "\"" + name + "\"" + Flags(idx) == Head(idx, ms) + rest;
    }
    HeadIndex(idx, ms, rest);
  }

  lemma EndIndexBack(idx: nat, ms: nat)
    ensures var parts := Split(EndMarker(idx, ms), " ");
      |parts| >= 4 && ParseInt(parts[3]) == Ok(idx)
  {
    var rest := "\"" + "\"" + " 1";
    assert EndMarker(idx, ms) == Head(idx, ms) + rest;
    HeadIndex(idx, ms, rest);
  }

  /** Whatever follows the head, the index is the fourth field. */
  lemma HeadIndex(idx: nat, ms: nat, rest: string)
    ensures var parts := Split(Head(idx, ms) + rest, " ");
      |parts| >= 4 && ParseInt(parts[3]) == Ok(idx)
  {
    var tail := Fixed2(ms) + " " + rest;
    assert Head(idx, ms) + rest == "  MARKER " + IntStr(idx) + " " + tail;
    MarkerIndex(idx, tail);
  }

  // ------------------------------------------------------------ the splice

  /** Where the markers go (line 39): at the last `>`; with none, `rfind`
      gives -1 and the slices `[:-1]` and `[-1:]` put them before the last
      character. */
  function InsertAt(base: string): (k: nat)
    ensures k <= |base|
    ensures RFindChar(base, '>') >= 0 ==> k == RFindChar(base, '>') && base[k] == '>'
    ensures RFindChar(base, '>') == -1 ==> k == Max(|base| - 1, 0)
  {
    var k := RFindChar(base, '>');
    if k >= 0 then k else if |base| > 0 then |base| - 1 else 0
  }

  /** The text put in: the marker lines, one per line, with a line break
      on either side. */
  function Inserted(lines: seq<string>): string {
    "\n" + Join(lines, "\n") + "\n"
  }

  /** `inject_markers_into_rpp` (lines 35-43) on the template's text. */
  function Inject(base: string, lines: seq<string>): (r: string)
    ensures |r| == |base| + |Inserted(lines)|
  {
    var k := InsertAt(base);
    base[..k] + Inserted(lines) + base[k..]
  }

  /** Nothing of the template changes: cutting the inserted text back out
      gives the template, and the cut starts at its last `>`. */
  lemma InjectRemovable(base: string, lines: seq<string>)
    ensures var r := Inject(base, lines);
      var k := InsertAt(base);
      var n := |Inserted(lines)|;
      r[..k] + r[k + n..] == base && r[k..k + n] == Inserted(lines)
  {
    var r := Inject(base, lines);
    var k := InsertAt(base);
    var n := |Inserted(lines)|;
    assert r[..k] == base[..k];
    assert r[k + n..] == base[k..];
    assert base[..k] + base[k..] == base;
  }

  /** The inserted lines read back, split at line breaks, as the lines. */
  lemma InsertedLines(lines: seq<string>)
    requires |lines| > 0 && forall k :: 0 <= k < |lines| ==> NoChar(lines[k], '\n')
    ensures var t := Inserted(lines); Split(t[1..|t| - 1], "\n") == lines
  {
    var t := Inserted(lines);
    assert t[1..|t| - 1] == Join(lines, "\n");
    SplitOfJoin(lines, "\n");
  }

  /** The inserted lines are found again in the result, between the line
      breaks that open and close the insertion. */
  lemma InjectedLines(base: string, lines: seq<string>)
    requires |lines| > 0 && forall k :: 0 <= k < |lines| ==> NoChar(lines[k], '\n')
    ensures var r := Inject(base, lines);
      var k := InsertAt(base);
      var n := |Inserted(lines)|;
      Split(r[k + 1..k + n - 1], "\n") == lines
  {
    var r := Inject(base, lines);
    var k := InsertAt(base);
    var n := |Inserted(lines)|;
    assert r[k + 1..k + n - 1] == Join(lines, "\n") by {
      InjectRemovable(base, lines);
      assert r[k + 1..k + n - 1] == Inserted(lines)[1..n - 1];
    }
    SplitOfJoin(lines, "\n");
  }

  /** The splice of one-line marker lines: the template comes back when
      the insertion is cut out, and the lines when it is split. */
  lemma SpliceFacts(base: string, lines: seq<string>)
    requires forall k :: 0 <= k < |lines| ==> NoChar(lines[k], '\n')
    ensures var r := Inject(base, lines);
      var k := InsertAt(base);
      var n := |Inserted(lines)|;
      && r[..k] + r[k + n..] == base
      && (|lines| > 0 ==> Split(r[k + 1..k + n - 1], "\n") == lines)
  {
    InjectRemovable(base, lines);
    if |lines| > 0 {
      InjectedLines(base, lines);
    }
  }

  /** `main` (lines 45-55): the template with the SRT file's markers
      spliced in. */
  function ReaperMain(srt: string, template: string): (r: string)
    ensures |r| == |template| + |Inserted(SrtToMarkers(srt))|
  {
    Inject(template, SrtToMarkers(srt))
  }

  /** The result is the template with one text inserted at its last `>`
      (or before its last character), and that text is the marker lines:
      two per cue the pattern finds. */
  lemma ReaperMainSpec(srt: string, template: string)
    ensures var lines := SrtToMarkers(srt);
      var r := ReaperMain(srt, template);
      var k := InsertAt(template);
      var n := |Inserted(lines)|;
      && r[..k] + r[k + n..] == template
      && (|lines| > 0 ==> Split(r[k + 1..k + n - 1], "\n") == lines)
  {
    MarkerLinesOneLine(srt);
    SpliceFacts(template, SrtToMarkers(srt));
  }
}

=== FILE: reconstruct.dfy ===
/** The two decoders' command-line entry points: `extract_wav_cues.py`, which
    lets every exception escape, and `extract_wav_regions.py`, which falls
    back to chapter metadata when the RIFF walk fails or finds no cue. The
    chapter text comes from an external `ffprobe` run and is a parameter here. */
module Reconstruct {
  import opened PyCore
  import opened Bytes
  import opened PyText
  import opened SrtTime
  import opened RiffWalk
  import opened RegionEncoder
  import opened CueSrt
  import opened ReadBack

  /** What a decoder run leaves behind: no file, or the text it writes and
      where. */
  datatype SrtOutcome = NotWritten | WroteSrt(path: string, text: string)

  /** `os.path.splitext(os.path.basename(input_wav))[0] + "_reconstructed.srt"` */
  function ReconstructedPath(input: string): string {
    StripExt(Basename(input)) + "_reconstructed.srt"
  }

  /** The output goes to the working directory whatever directory the input
      is in: the name is the input's file name, less its extension, plus the
      suffix. */
  lemma ReconstructedPathLocal(input: string)
    ensures forall i :: 0 <= i < |ReconstructedPath(input)| ==> ReconstructedPath(input)[i] != '/'
    ensures StartsWith(Basename(input), ReconstructedPath(input)[..|ReconstructedPath(input)| - 18])
  {
    var b := Basename(input);
    var stem := StripExt(b);
    var p := ReconstructedPath(input);
    assert p[..|p| - 18] == stem;
    forall i | 0 <= i < |p|
      ensures p[i] != '/'
    {
      if i < |stem| {
        assert p[i] == stem[i] == b[i];
      }
    }
  }

  /** The `__main__` block of `extract_wav_cues.py`: without an argument, or
      when the file holds no cue, exit status 1; a failing walk raises;
      otherwise the SRT text is written. */
  function CuesMain(argv: seq<string>, file: Option<seq<byte>>): (r: Result<SrtOutcome>)
    ensures r.Ok? ==> r.value.WroteSrt?
  {
    if |argv| < 2 then Raise(Exit(1))
    else
      var m :- ExtractMetadata(file);
      if |m.cues| == 0 then Raise(Exit(1))
      else Ok(WroteSrt(ReconstructedPath(argv[1]), GenerateSrt(m, SRT_RATE)))
  }

  /** The chapter fallback of `extract_wav_regions.py`: the text
      `extract_chapters_with_ffmpeg` returned, written when non-empty; an
      exception there is reported and nothing is written. */
  function ChapterFallback(path: string, chapters: Result<string>): SrtOutcome {
    match chapters
    case Raise(_) => NotWritten
    case Ok(text) => if |text| > 0 then WroteSrt(path, text) else NotWritten
  }

  /** The `__main__` block of `extract_wav_regions.py`. */
  function RegionsMain(argv: seq<string>, file: Option<seq<byte>>, chapters: Result<string>): (r: Result<SrtOutcome>)
    ensures |argv| >= 2 <==> r.Ok?
  {
    if |argv| < 2 then Raise(Exit(1))
    else
      var path := ReconstructedPath(argv[1]);
      var riff := ExtractRiffMetadata(file);
      if riff.Some? && |riff.value.cues| > 0 then Ok(WroteSrt(path, GenerateSrt(riff.value, SRT_RATE)))
      else Ok(ChapterFallback(path, chapters))
  }

  /** The two entry points agree whenever `extract_wav_cues.py` writes a
      file, whatever the chapters say; when it does not, the regions script
      writes exactly what the chapter fallback writes. */
  lemma MainsAgree(argv: seq<string>, file: Option<seq<byte>>, chapters: Result<string>)
    requires |argv| >= 2
    ensures CuesMain(argv, file).Ok? ==> RegionsMain(argv, file, chapters) == CuesMain(argv, file)
    ensures CuesMain(argv, file).Raise? ==>
      RegionsMain(argv, file, chapters) == Ok(ChapterFallback(ReconstructedPath(argv[1]), chapters))
  {
  }

  /** `extract_wav_cues.py` fails exactly when it has no argument, when the
      walk raises, or when the walk finds no cue; the last two exit with
      status 1 rather than the walk's exception only in the no-cue case. */
  lemma CuesMainFails(argv: seq<string>, file: Option<seq<byte>>)
    ensures CuesMain(argv, file).Raise? <==>
      |argv| < 2 || ExtractMetadata(file).Raise? || |ExtractMetadata(file).value.cues| == 0
    ensures |argv| >= 2 && ExtractMetadata(file).Raise? ==>
      CuesMain(argv, file) == Raise(ExtractMetadata(file).exc)
    ensures |argv| >= 2 && ExtractMetadata(file).Ok? && |ExtractMetadata(file).value.cues| == 0 ==>
      CuesMain(argv, file) == Raise(Exit(1))
  {
  }

  // ------------------------------------------------------------ files the encoder wrote

  /** When every cue has a stored length of 0, every entry ends where it
      starts. */
  lemma ZeroLengthEntries(m: Metadata, rate: pos)
    requires forall c :: c in m.cues ==> c.id in m.lengths && m.lengths[c.id] == 0
    ensures forall k :: 0 <= k < |m.cues| ==> Entries(m, rate)[k].end == Entries(m, rate)[k].start
  {
    forall k | 0 <= k < |m.cues|
      ensures Entries(m, rate)[k].end == Entries(m, rate)[k].start
    {
      EntryAt(m, rate, k);
      var c := SortByOffset(m.cues)[k];
      assert EndSample(m, c, rate) == c.offset;
    }
  }

  /** In the metadata read back from a file `add_region_markers` wrote, cue
      `k` has id `k + 1` and every cue has a stored length of 0. */
  lemma ReadBackZero(regions: seq<Region>, rate: int, m: Metadata)
    requires Reports(regions, rate, m)
    requires forall id :: id in m.lengths ==> m.lengths[id] == 0
    ensures forall c :: c in m.cues ==> c.id in m.lengths && m.lengths[c.id] == 0
  {
    forall c | c in m.cues
      ensures c.id in m.lengths && m.lengths[c.id] == 0
    {
      var j :| 0 <= j < |m.cues| && m.cues[j] == c;
      assert m.cues[j].id == j + 1;
    }
  }

  /** Encoding an SRT and reconstructing it from the file gives one entry
      per region, each ending where it starts: the decoder reads the region
      lengths from bytes the encoder leaves zero. */
  lemma EncodedZeroLength(rule: RiffSizeRule, lines: seq<string>, rate: int, bitDepth: int, channels: int)
    requires EncodeWith(rule, lines, rate, bitDepth, channels).Ok?
    requires EncodeWith(rule, lines, rate, bitDepth, channels).value.Written?
    ensures var w := EncodeWith(rule, lines, rate, bitDepth, channels).value.wav;
      && ParseSrt(lines).Ok? && ExtractMetadata(Some(w)).Ok?
      && var m := ExtractMetadata(Some(w)).value;
      && |m.cues| == |ParseSrt(lines).value| > 0
      && forall k :: 0 <= k < |m.cues| ==> Entries(m, SRT_RATE)[k].end == Entries(m, SRT_RATE)[k].start
  {
    ReadBackAsWritten(rule, lines, rate, bitDepth, channels);
    var w := EncodeWith(rule, lines, rate, bitDepth, channels).value.wav;
    var m := ExtractMetadata(Some(w)).value;
    ReadBackZero(ParseSrt(lines).value, rate, m);
    ZeroLengthEntries(m, SRT_RATE);
  }

  /** Reading the `ltxt` length where the encoder put it instead, the
      entry of region `k` ends at the region's end sample. */
  lemma EncodedEndsStandard(rule: RiffSizeRule, lines: seq<string>, rate: int, bitDepth: int, channels: int)
    requires EncodeWith(rule, lines, rate, bitDepth, channels).Ok?
    requires EncodeWith(rule, lines, rate, bitDepth, channels).value.Written?
    ensures var w := EncodeWith(rule, lines, rate, bitDepth, channels).value.wav;
      && ParseSrt(lines).Ok? && ExtractMetadataStandard(Some(w)).Ok?
      && var m := ExtractMetadataStandard(Some(w)).value;
      && |m.cues| == |ParseSrt(lines).value|
      && forall k :: 0 <= k < |m.cues| ==>
           TimeToSample(ParseSrt(lines).value[k].end, rate) == Ok(EndSample(m, m.cues[k], SRT_RATE) as int)
  {
    ReadBackStandard(rule, lines, rate, bitDepth, channels);
    var w := EncodeWith(rule, lines, rate, bitDepth, channels).value.wav;
    EndsFromReports(ParseSrt(lines).value, rate, ExtractMetadataStandard(Some(w)).value);
  }

  /** Cue `k` of metadata that reports the regions, ends included, ends at
      region `k`'s end sample. */
  lemma EndsFromReports(regions: seq<Region>, rate: int, m: Metadata)
    requires CuesReport(regions, rate, m.cues) && EndsReport(regions, rate, m)
    ensures |m.cues| == |regions|
    ensures forall k :: 0 <= k < |m.cues| ==>
      TimeToSample(regions[k].end, rate) == Ok(EndSample(m, m.cues[k], SRT_RATE) as int)
  {
    forall k | 0 <= k < |m.cues|
      ensures TimeToSample(regions[k].end, rate) == Ok(EndSample(m, m.cues[k], SRT_RATE) as int)
    {
      EndOf(regions, rate, m, k);
    }
  }

  lemma EndOf(regions: seq<Region>, rate: int, m: Metadata, k: nat)
    requires CuesReport(regions, rate, m.cues) && EndsReport(regions, rate, m) && k < |m.cues|
    ensures TimeToSample(regions[k].end, rate) == Ok(EndSample(m, m.cues[k], SRT_RATE) as int)
  {
    assert m.cues[k].id == k + 1;
    LengthAt(regions, rate, m, k);
    EndAt(TimeToSample(regions[k].end, rate), m, m.cues[k], k);
  }

  lemma LengthAt(regions: seq<Region>, rate: int, m: Metadata, k: nat)
    requires EndsReport(regions, rate, m) && k < |regions|
    ensures k < |m.cues| && k + 1 in m.lengths
    ensures TimeToSample(regions[k].end, rate) == Ok(m.cues[k].offset + m.lengths[k + 1])
  {
    var r := regions[k];
  }

  lemma EndAt(t: Result<int>, m: Metadata, c: CuePoint, k: nat)
    requires c.id == k + 1 && k + 1 in m.lengths && t == Ok(c.offset + m.lengths[k + 1])
    ensures t == Ok(EndSample(m, c, SRT_RATE) as int)
  {
  }
}

=== FILE: region_encoder.dfy ===
/** `srt2regions.py`: SRT lines become a silent RIFF/WAVE image that marks one
    region per subtitle block. The image holds a PCM `fmt ` chunk, a silent
    `data` payload, a `cue ` table and a `LIST`/`adtl` list with one `labl`
    and one `ltxt` per region. Times are exact milliseconds, sample indices
    are truncated toward zero as `int()` truncates, and every `struct.pack`
    range check is an explicit `StructError`. */
module RegionEncoder {
  import opened PyCore
  import opened Bytes
  import opened PyText
  import opened SrtTime
  import opened RiffChunks
  import Utf8

  // ------------------------------------------------------------ parse_srt

  /** One block as `parse_srt` returns it: start and end timestamps as text,
      and the region name. */
  datatype Region = Region(start: string, end: string, name: string)

  const ARROW: string := " --> "

  /** `line.strip().isdigit()`: the line opens a block. */
  predicate OpensBlock(line: string) {
    IsDigits(Strip(line))
  }

  /** The block whose digit line is line `i`: the next line holds
      `start --> end` (`IndexError` when there is none, `ValueError` unless
      it splits into exactly two parts) and the one after it the name, or
      `Region <i>` when there is no such line. */
  function BlockAt(lines: seq<string>, i: nat): (r: Result<Region>)
    ensures r.Raise? ==> r.exc == IndexError || r.exc == ValueError
  {
    if i + 1 >= |lines| then Raise(IndexError)
    else
      var times := Split(Strip(lines[i + 1]), ARROW);
      if |times| != 2 then Raise(ValueError)
      else
        var name := if i + 2 < |lines| then Strip(lines[i + 2]) else "Region " + IntStr(i);
        Ok(Region(times[0], times[1], name))
  }

  /** The `parse_srt` loop from line `i`. A line whose stripped text is all
      digits starts a block, and the scan then moves 4 lines on; any other
      line moves it 1 line on. */
  function ParseFrom(lines: seq<string>, i: nat): (r: Result<seq<Region>>)
    ensures r.Raise? ==> r.exc == IndexError || r.exc == ValueError
    ensures r.Ok? ==> 4 * |r.value| <= if i < |lines| then |lines| - i + 2 else 0
    decreases |lines| - i
  {
    if i >= |lines| then Ok([])
    else if OpensBlock(lines[i]) then
      var region :- BlockAt(lines, i);
      var rest :- ParseFrom(lines, i + 4);
      Ok([region] + rest)
    else ParseFrom(lines, i + 1)
  }

  /** `parse_srt` on the lines `readlines` returned. */
  function ParseSrt(lines: seq<string>): (r: Result<seq<Region>>)
    ensures r.Raise? ==> r.exc == IndexError || r.exc == ValueError
    ensures r.Ok? ==> 4 * |r.value| <= |lines| + 2
  {
    ParseFrom(lines, 0)
  }

  // ------------------------------------------------------------ blank audio

  /** `time_to_seconds(end)` of every region, in milliseconds. */
  function EndTimes(regions: seq<Region>): (r: seq<Result<int>>)
    ensures |r| == |regions|
  {
    seq(|regions|, k requires 0 <= k < |regions| => TimeToMs(regions[k].end))
  }

  /** `max(time_to_seconds(end) for ...)`, in milliseconds: the first
      malformed end raises, and so does `max` of nothing. */
  function MaxEndMs(regions: seq<Region>): (r: Result<int>)
  {
    var ends :- AllOk(EndTimes(regions));
    if |ends| == 0 then Raise(ValueError) else Ok(MaxOf(ends))
  }

  /** `len(create_blank_audio(...))`: `int(duration * rate)` frames of
      `bit_depth // 8` zero bytes, repeated `channels` times. Repeating bytes
      a negative number of times gives nothing. */
  function BlankAudioLength(durationMs: int, rate: int, bitDepth: int, channels: int): nat {
    var width: nat := Max(0, bitDepth / 8);
    var samples: nat := Max(0, MsToSample(durationMs, rate));
    var copies: nat := Max(0, channels);
    var frame: nat := width * samples;
    frame * copies
  }

  /** The frames that are written: the blank audio, padded with one zero
      byte when its length is odd. */
  function Frames(durationMs: int, rate: int, bitDepth: int, channels: int): seq<byte> {
    var silence := Zeros(BlankAudioLength(durationMs, rate, bitDepth, channels));
    if |silence| % 2 != 0 then silence + [0] else silence
  }

  // ------------------------------------------------------------ markers

  /** What one region contributes to the `cue ` and `adtl` chunks: its 1-based
      id, start sample, length in samples and name. */
  datatype Marker = Marker(id: nat, start: nat, length: nat, name: string)

  /** The length of the label: the encoded name and its NUL, rounded up to
      an even number of bytes. */
  function LabelLength(name: string): nat {
    var n := Utf8.EncodedLength(name) + 1;
    if n % 2 != 0 then n + 1 else n
  }

  /** `name.encode('utf-8') + b'\x00'`, with one more NUL when that is odd. */
  function LabelBytes(name: string): (r: seq<byte>)
    ensures |r| == LabelLength(name)
  {
    var text := Utf8.Encode(name) + [0];
    if |text| % 2 != 0 then text + [0] else text
  }

  /** Every field of the marker fits the `<I` format it is packed with. */
  predicate Packable(m: Marker) {
    m.id < TWO_32 && m.start < TWO_32 && m.length < TWO_32 && LabelLength(m.name) + 4 < TWO_32
  }

  predicate AllPackable(ms: seq<Marker>) {
    forall k :: 0 <= k < |ms| ==> Packable(ms[k])
  }

  /** The packs of one pass of the region loop, once both times have been
      converted: a failed conversion of the start, then of the end, raises
      first; then a start or length outside `[0, 2^32)`, which includes an
      end before its start, raises `StructError`. */
  function MarkerOf(id: nat, start: Result<int>, end: Result<int>, name: string): (r: Result<Marker>)
    ensures r.Ok? ==> Packable(r.value)
  {
    var s :- start;
    var e :- end;
    if id < TWO_32 && 0 <= s < TWO_32 && 0 <= e - s < TWO_32 && LabelLength(name) + 4 < TWO_32
    then Ok(Marker(id, s, e - s, name))
    else Raise(StructError)
  }

  /** One pass of the region loop: `time_to_sample` of the start, then of the
      end, then the packs. */
  function MakeMarker(region: Region, id: nat, rate: int): (r: Result<Marker>)
    ensures r.Ok? ==> Packable(r.value)
  {
    MarkerOf(id, TimeToSample(region.start, rate), TimeToSample(region.end, rate), region.name)
  }

  /** What each pass of the region loop gives, ids counting up from `id`. */
  function MarkerResults(regions: seq<Region>, id: nat, rate: int): (rs: seq<Result<Marker>>)
    ensures |rs| == |regions|
    ensures forall k :: 0 <= k < |rs| && rs[k].Ok? ==> Packable(rs[k].value)
  {
    seq(|regions|, k requires 0 <= k < |regions| => MakeMarker(regions[k], id + k, rate))
  }

  /** The region loop: the markers of every pass, or the exception of the
      first pass that raises (the passes have no side effects, so stopping
      at the first failure and reading the passes in order agree). */
  function Markers(regions: seq<Region>, id: nat, rate: int): (r: Result<seq<Marker>>)
    ensures r.Ok? ==> |r.value| == |regions| && AllPackable(r.value)
  {
    AllOkSpec(MarkerResults(regions, id, rate));
    AllOk(MarkerResults(regions, id, rate))
  }

  // ------------------------------------------------------------ chunk bytes

  /** `pack('<I', idx) + pack('<I', start) + b'data' + pack('<III', 0, 0, start)` */
  function CueRecord(m: Marker): (r: seq<byte>)
    requires Packable(m)
    ensures |r| == 24
  {
    U32(m.id) + U32(m.start) + DATA_TAG + U32(0) + U32(0) + U32(m.start)
  }

  function CueRecords(ms: seq<Marker>): (r: seq<byte>)
    requires AllPackable(ms)
    ensures |r| == 24 * |ms|
  {
    if |ms| == 0 then [] else CueRecord(ms[0]) + CueRecords(ms[1..])
  }

  /** `cue_data`: the record count, then the records. */
  function CueChunk(ms: seq<Marker>): (c: Chunk)
    requires AllPackable(ms) && |ms| < TWO_32
  {
    Chunk(CUE_TAG, U32(|ms|) + CueRecords(ms))
  }

  /** A `labl` sub-chunk: declared size `len(label) + 4`, then id and label. */
  function LablChunk(m: Marker): (c: Chunk)
    requires Packable(m)
    ensures Writable(c)
  {
    Chunk(LABL_TAG, U32(m.id) + LabelBytes(m.name))
  }

  /** An `ltxt` sub-chunk: declared size 20, then id, length, a zero u32 and
      four zero u16. */
  function LtxtChunk(m: Marker): (c: Chunk)
    requires Packable(m)
    ensures Writable(c)
  {
    Chunk(LTXT_TAG, U32(m.id) + U32(m.length) + U32(0) + Zeros(8))
  }

  function LablChunks(ms: seq<Marker>): (r: seq<Chunk>)
    requires AllPackable(ms)
    ensures |r| == |ms| && AllWritable(r)
  {
    seq(|ms|, k requires 0 <= k < |ms| => LablChunk(ms[k]))
  }

  function LtxtChunks(ms: seq<Marker>): (r: seq<Chunk>)
    requires AllPackable(ms)
    ensures |r| == |ms| && AllWritable(r)
  {
    seq(|ms|, k requires 0 <= k < |ms| => LtxtChunk(ms[k]))
  }

  /** `adtl_data`: every `labl`, then every `ltxt`, in region order. */
  function AdtlChunks(ms: seq<Marker>): (r: seq<Chunk>)
    requires AllPackable(ms)
    ensures AllWritable(r)
  {
    LablChunks(ms) + LtxtChunks(ms)
  }

  /** `list_chunk`: declared size `len(adtl_data) + 4`, then `adtl` and the
      sub-chunks. */
  function ListChunk(ms: seq<Marker>): Chunk
    requires AllPackable(ms)
  {
    Chunk(LIST_TAG, ADTL_TAG + ChunksBytes(AdtlChunks(ms)))
  }

  /** The `fmt ` chunk: `pack('<IHHIIHH', 16, 1, channels, rate, byte_rate,
      block_align, bit_depth)` after the tag, where the leading 16 is the
      chunk size. Any field out of range raises `StructError`. */
  function FmtChunk(rate: int, bitDepth: int, channels: int): (r: Result<Chunk>)
    ensures r.Ok? ==> Writable(r.value) && r.value.tag == FMT_TAG && |r.value.payload| == 16
    ensures r.Raise? ==> r.exc == StructError
  {
    var width := bitDepth / 8;
    var byteRate := rate * channels * width;
    var blockAlign := channels * width;
    if 0 <= channels < TWO_16 && 0 <= rate < TWO_32 && 0 <= byteRate < TWO_32
       && 0 <= blockAlign < TWO_16 && 0 <= bitDepth < TWO_16
    then Ok(Chunk(FMT_TAG, U16(1) + U16(channels) + U32(rate) + U32(byteRate) + U16(blockAlign) + U16(bitDepth)))
    else Raise(StructError)
  }

  // ------------------------------------------------------------ the file

  /** What `add_region_markers` leaves behind: nothing, when the SRT holds no
      region, or the bytes of the file it writes. */
  datatype Outcome = NoRegions | Written(wav: seq<byte>)

  /** How the RIFF size field is computed. */
  datatype RiffSizeRule =
    | /** lines 83-88: 8 + 16, plus 8 + each of the frames, the whole cue
          chunk and the whole LIST chunk */
      SumOfParts
    | /** the RIFF definition: every byte after the size field */
      FileLengthMinus8

  /** The RIFF size for a file whose frames, cue chunk and LIST chunk have
      the given lengths (the chunk lengths include their 8-byte headers). */
  function RiffSize(rule: RiffSizeRule, framesLen: nat, cueLen: nat, listLen: nat): nat {
    match rule
    case SumOfParts => (8 + 16) + (8 + framesLen) + (8 + cueLen) + (8 + listLen)
    case FileLengthMinus8 => 4 + (8 + 16) + (8 + framesLen) + cueLen + listLen
  }

  /** The bytes written once the regions are known: the header, then the
      `fmt `, `data`, `cue ` and `LIST` chunks. A size too large for its
      u32 field raises `StructError`. */
  function WavImage(rule: RiffSizeRule, ms: seq<Marker>, frames: seq<byte>, fmt: Chunk): (r: Result<seq<byte>>)
    requires AllPackable(ms) && |ms| < TWO_32 && Writable(fmt)
    ensures r.Raise? ==> r.exc == StructError
    ensures r.Ok? ==> |r.value| >= 12 && r.value[..4] == RIFF_TAG && r.value[8..12] == WAVE_TAG
  {
    var cue := CueChunk(ms);
    var list := ListChunk(ms);
    var data := Chunk(DATA_TAG, frames);
    TagsAreFourBytes();
    if !(Writable(cue) && Writable(list) && Writable(data)) then Raise(StructError)
    else
      var riffSize := RiffSize(rule, |frames|, |ChunkBytes(cue)|, |ChunkBytes(list)|);
      if riffSize >= TWO_32 then Raise(StructError)
      else
        var image := RIFF_TAG + U32(riffSize) + WAVE_TAG + ChunksBytes([fmt, data, cue, list]);
        assert image[..4] == RIFF_TAG && image[8..12] == WAVE_TAG;
        Ok(image)
  }

  /** `add_region_markers` with the RIFF size computed by `rule`. After the
      regions are parsed, the end times are converted first (`ValueError`),
      then the count is packed, then the region loop runs; every later
      failure is a pack out of range (`StructError`). */
  function EncodeWith(rule: RiffSizeRule, lines: seq<string>, rate: int, bitDepth: int, channels: int)
    : (r: Result<Outcome>)
  {
    var regions :- ParseSrt(lines);
    if |regions| == 0 then Ok(NoRegions)
    else
      var maxEnd :- MaxEndMs(regions);
      if |regions| >= TWO_32 then Raise(StructError)
      else
        var ms :- Markers(regions, 1, rate);
        var fmt :- FmtChunk(rate, bitDepth, channels);
        var wav :- WavImage(rule, ms, Frames(maxEnd, rate, bitDepth, channels), fmt);
        Ok(Written(wav))
  }

  /** `add_region_markers` as written. */
  function AddRegionMarkers(lines: seq<string>, rate: int, bitDepth: int, channels: int): (r: Result<Outcome>)
    ensures ParseSrt(lines).Raise? ==> r == Raise(ParseSrt(lines).exc)
    ensures ParseSrt(lines) == Ok([]) ==> r == Ok(NoRegions)
    ensures r.Ok? && r.value.Written? ==> ParseSrt(lines).Ok? && |ParseSrt(lines).value| > 0
  {
    EncodeWith(SumOfParts, lines, rate, bitDepth, channels)
  }

  /** `add_region_markers` with the RIFF size the standard defines. */
  function AddRegionMarkersCorrected(lines: seq<string>, rate: int, bitDepth: int, channels: int): Result<Outcome> {
    EncodeWith(FileLengthMinus8, lines, rate, bitDepth, channels)
  }

  const DEFAULT_RATE: int := 48000
  const DEFAULT_BIT_DEPTH: int := 24
  const DEFAULT_CHANNELS: int := 1

  /** `os.path.splitext(srt_path)[0] + '_regions.wav'` */
  function RegionsPath(srtPath: string): string {
    StripExt(srtPath) + "_regions.wav"
  }
}

=== FILE: riff_chunks.dfy ===
/** RIFF chunks as both sides of the WAV region codec see them: a four-byte
    ASCII tag, a little-endian u32 size, then that many payload bytes. The
    encoder writes every chunk and sub-chunk in this shape with no pad byte. */
module RiffChunks {
  import opened PyCore
  import opened Bytes

  const RIFF_TAG: seq<byte> := Ascii("RIFF")
  const WAVE_TAG: seq<byte> := Ascii("WAVE")
  const FMT_TAG: seq<byte> := Ascii("fmt ")
  const DATA_TAG: seq<byte> := Ascii("data")
  const CUE_TAG: seq<byte> := Ascii("cue ")
  const LIST_TAG: seq<byte> := Ascii("LIST")
  const ADTL_TAG: seq<byte> := Ascii("adtl")
  const LABL_TAG: seq<byte> := Ascii("labl")
  const LTXT_TAG: seq<byte> := Ascii("ltxt")

  lemma TagsAreFourBytes()
    ensures |RIFF_TAG| == |WAVE_TAG| == |FMT_TAG| == |DATA_TAG| == |CUE_TAG| == 4
    ensures |LIST_TAG| == |ADTL_TAG| == |LABL_TAG| == |LTXT_TAG| == 4
  {
  }

  datatype Chunk = Chunk(tag: seq<byte>, payload: seq<byte>)

  /** A chunk `struct.pack` can write: a four-byte tag and a size that fits
      in a u32. */
  predicate Writable(c: Chunk) {
    |c.tag| == 4 && |c.payload| < TWO_32
  }

  predicate AllWritable(cs: seq<Chunk>) {
    forall i :: 0 <= i < |cs| ==> Writable(cs[i])
  }

  /** `tag + struct.pack('<I', len(payload)) + payload` */
  function ChunkBytes(c: Chunk): (r: seq<byte>)
    requires Writable(c)
    ensures |r| == 8 + |c.payload|
  {
    c.tag + U32(|c.payload|) + c.payload
  }

  /** The chunks written one after another. */
  function ChunksBytes(cs: seq<Chunk>): (r: seq<byte>)
    requires AllWritable(cs)
  {
    if |cs| == 0 then [] else ChunkBytes(cs[0]) + ChunksBytes(cs[1..])
  }

  /** Writing two lists of chunks is writing their concatenation. */
  lemma {:induction false} ChunksBytesAppend(a: seq<Chunk>, b: seq<Chunk>)
    requires AllWritable(a) && AllWritable(b)
    ensures AllWritable(a + b)
    ensures ChunksBytes(a + b) == ChunksBytes(a) + ChunksBytes(b)
  {
    if |a| > 0 {
      assert (a + b)[1..] == a[1..] + b;
      ChunksBytesAppend(a[1..], b);
    } else {
      assert a + b == b;
    }
  }

  /** Four chunks written one after another. */
  lemma ChunksBytesFour(a: Chunk, b: Chunk, c: Chunk, d: Chunk)
    requires Writable(a) && Writable(b) && Writable(c) && Writable(d)
    ensures AllWritable([a, b, c, d])
    ensures ChunksBytes([a, b, c, d]) == ChunkBytes(a) + ChunkBytes(b) + ChunkBytes(c) + ChunkBytes(d)
  {
    assert [a, b, c, d][1..] == [b, c, d];
    assert [b, c, d][1..] == [c, d];
    assert [c, d][1..] == [d];
    assert [d][1..] == [];
    assert ChunksBytes([d]) == ChunkBytes(d);
    assert ChunksBytes([c, d]) == ChunkBytes(c) + ChunkBytes(d);
    assert ChunksBytes([b, c, d]) == ChunkBytes(b) + ChunkBytes(c) + ChunkBytes(d);
  }
}

=== FILE: riff_walk.dfy ===
/** The RIFF chunk walk shared by `extract_metadata` (extract_wav_cues.py) and
    `extract_riiff_metadata` (extract_wav_regions.py): starting at byte 12, read
    chunk headers until one cannot be read, collecting cue offsets from `cue `
    and labels and region lengths from `LIST`/`adtl`.

    The file is a byte sequence and the file position a natural number that may
    lie past the end, as Python's `seek` allows; a read there returns fewer
    bytes (or none) and advances the position by what it returned. */
module RiffWalk {
  import opened PyCore
  import opened Bytes
  import opened RiffChunks
  import Utf8
  import PyText

  // ------------------------------------------------------------ cue table

  /** One entry of the `cues` dict: cue id to sample offset. */
  datatype CuePoint = CuePoint(id: nat, offset: nat)

  /** The three dicts the walk returns. `cues` keeps Python's dict insertion
      order, which decides ties when entries are later sorted by offset.
      `labels` keeps each label's payload bytes after the id; the text Python
      stores for it is `LabelText` of them (see `LabelTexts`). Decoding with
      errors ignored cannot fail, so decoding when the label is read and
      decoding when it is used give the same text. */
  datatype Metadata = Metadata(cues: seq<CuePoint>, labels: map<nat, seq<byte>>, lengths: map<nat, nat>)

  /** `data[4:].decode('utf-8', errors='ignore').rstrip('\x00')` */
  function LabelText(raw: seq<byte>): string {
    PyText.RStripChar(Utf8.DecodeIgnore(raw), '\0')
  }

  /** The `labels` dict as Python holds it: id to decoded text. */
  function LabelTexts(m: Metadata): (r: map<nat, string>)
    ensures r.Keys == m.labels.Keys
    ensures forall id :: id in r ==> r[id] == LabelText(m.labels[id])
  {
    map id | id in m.labels :: LabelText(m.labels[id])
  }

  const EMPTY: Metadata := Metadata([], map[], map[])

  predicate UniqueIds(t: seq<CuePoint>) {
    forall i, j :: 0 <= i < j < |t| ==> t[i].id != t[j].id
  }

  /** Position of `id` in the table, or -1. */
  function PositionOf(t: seq<CuePoint>, id: nat): (k: int)
    ensures -1 <= k < |t|
    ensures k >= 0 ==> t[k].id == id && forall j :: 0 <= j < k ==> t[j].id != id
    ensures k == -1 ==> forall j :: 0 <= j < |t| ==> t[j].id != id
  {
    if |t| == 0 then -1
    else if t[|t| - 1].id == id && PositionOf(t[..|t| - 1], id) == -1 then |t| - 1
    else PositionOf(t[..|t| - 1], id)
  }

  /** `cues[id]`, if present. */
  function Lookup(t: seq<CuePoint>, id: nat): Option<nat> {
    var k := PositionOf(t, id);
    if k >= 0 then Some(t[k].offset) else None
  }

  /** `cues[id] = offset`: an existing key keeps its place and takes the new
      value; a new key goes to the end (see `AssignSemantics`). */
  function Assign(t: seq<CuePoint>, id: nat, offset: nat): (r: seq<CuePoint>)
    ensures |r| == |t| || r == t + [CuePoint(id, offset)]
  {
    var k := PositionOf(t, id);
    if k >= 0 then t[k := CuePoint(id, offset)] else t + [CuePoint(id, offset)]
  }

  /** Assignment behaves as on a Python dict: the key maps to the new value,
      every other key keeps its value, existing keys keep their order and a
      new key is appended. */
  lemma AssignSemantics(t: seq<CuePoint>, id: nat, offset: nat)
    requires UniqueIds(t)
    ensures UniqueIds(Assign(t, id, offset))
    ensures Lookup(Assign(t, id, offset), id) == Some(offset)
    ensures forall other :: other != id ==> Lookup(Assign(t, id, offset), other) == Lookup(t, other)
    ensures |Assign(t, id, offset)| == if Lookup(t, id).Some? then |t| else |t| + 1
    ensures forall i :: 0 <= i < |t| ==> Assign(t, id, offset)[i].id == t[i].id
  {
    var r := Assign(t, id, offset);
    var k := PositionOf(t, id);
    AssignUnique(t, id, offset);
    if k >= 0 {
      LookupByPosition(r, id, k);
      forall other | other != id
        ensures Lookup(r, other) == Lookup(t, other)
      {
        SameIdsSamePositions(t, r, other);
      }
    } else {
      assert r[..|t|] == t;
      LookupByPosition(r, id, |t|);
      forall other | other != id
        ensures Lookup(r, other) == Lookup(t, other)
      {
        LookupAppend(t, CuePoint(id, offset), other);
      }
    }
  }

  /** Assignment keeps the keys distinct. */
  lemma AssignUnique(t: seq<CuePoint>, id: nat, offset: nat)
    requires UniqueIds(t)
    ensures UniqueIds(Assign(t, id, offset))
  {
  }

  lemma LookupAppend(t: seq<CuePoint>, c: CuePoint, id: nat)
    requires c.id != id
    ensures Lookup(t + [c], id) == Lookup(t, id)
  {
    assert (t + [c])[..|t|] == t;
  }

  lemma LookupByPosition(t: seq<CuePoint>, id: nat, k: nat)
    requires UniqueIds(t) && k < |t| && t[k].id == id
    ensures PositionOf(t, id) == k && Lookup(t, id) == Some(t[k].offset)
  {
  }

  lemma SameIdsSamePositions(t: seq<CuePoint>, r: seq<CuePoint>, id: nat)
    requires |t| == |r|
    requires forall i :: 0 <= i < |t| ==> r[i].id == t[i].id
    requires forall i :: 0 <= i < |t| && t[i].id == id ==> r[i] == t[i]
    ensures Lookup(r, id) == Lookup(t, id)
  {
    if |t| > 0 {
      SameIdsSamePositions(t[..|t| - 1], r[..|r| - 1], id);
    }
  }

  // ------------------------------------------------------------ reading

  function Min(a: nat, b: nat): nat {
    if a < b then a else b
  }

  /** `f.read(n)` at position `pos`: at most `n` bytes, fewer at end of file. */
  function Read(f: seq<byte>, pos: nat, n: nat): (r: seq<byte>)
    ensures |r| <= n
    ensures pos + n <= |f| ==> r == f[pos..pos + n]
    ensures pos + n > |f| && n > 0 ==> |r| < n
  {
    f[Min(pos, |f|)..Min(pos + n, |f|)]
  }

  /** Where the decoders read an `ltxt` region length: payload bytes 12-16. */
  const LTXT_LENGTH_AS_WRITTEN: nat := 12
  /** Where dwSampleLength sits in the standard `ltxt` layout: bytes 4-8. */
  const LTXT_LENGTH_STANDARD: nat := 4

  datatype Header = Header(tag: seq<byte>, size: nat)

  /** `read_chunk_header`: a 4-byte tag that must decode as ASCII, then a
      little-endian u32. `None` when either step raises. */
  function ReadHeader(f: seq<byte>, pos: nat): (r: Option<Header>)
    ensures r.Some? <==> pos + 8 <= |f| && IsAscii(f[pos..pos + 4])
    ensures r.Some? ==> r.value.tag == f[pos..pos + 4] && r.value.size == ReadU32(f[pos + 4..pos + 8])
  {
    var tag := Read(f, pos, 4);
    if !IsAscii(tag) then None
    else
      var size := Read(f, pos + |tag|, 4);
      if |size| < 4 then None else Some(Header(tag, ReadU32(size)))
  }

  /** The `cue ` branch after the count, as the loop runs it: `count` records
      of 24 bytes, id in bytes 0-4 and offset in bytes 20-24, each assigned
      into the table as it is read. A short record raises. */
  function CueLoop(f: seq<byte>, pos: nat, count: nat, t: seq<CuePoint>): (r: Result<seq<CuePoint>>)
    ensures r.Raise? ==> r.exc == StructError
    decreases count
  {
    if count == 0 then Ok(t)
    else
      var rec := Read(f, pos, 24);
      if |rec| < 24 then Raise(StructError)
      else CueLoop(f, pos + 24, count - 1, Assign(t, ReadU32(rec[0..4]), ReadU32(rec[20..24])))
  }

  /** The `(id, offset)` pairs of `count` records from `pos`, in file order;
      a record cut short raises. */
  function RecordList(f: seq<byte>, pos: nat, count: nat): (r: Result<seq<CuePoint>>)
    ensures r.Ok? ==> |r.value| == count
    ensures r.Raise? ==> r.exc == StructError
    decreases count
  {
    if count == 0 then Ok([])
    else
      var rec := Read(f, pos, 24);
      if |rec| < 24 then Raise(StructError)
      else
        var rest :- RecordList(f, pos + 24, count - 1);
        Ok([CuePoint(ReadU32(rec[0..4]), ReadU32(rec[20..24]))] + rest)
  }

  /** `cues[id] = offset` for each pair in turn. */
  function AssignAll(t: seq<CuePoint>, ps: seq<CuePoint>): seq<CuePoint>
    decreases |ps|
  {
    if |ps| == 0 then t else AssignAll(Assign(t, ps[0].id, ps[0].offset), ps[1..])
  }

  /** The record loop with the reads done first and the assignments after
      them, and the position it stops at. An exception discards the table, so
      this gives what the loop gives (`CueLoopSplit`). */
  function ReadCueRecords(f: seq<byte>, pos: nat, count: nat, t: seq<CuePoint>): (r: Result<(seq<CuePoint>, nat)>)
    ensures r.Ok? ==> r.value.1 == pos + 24 * count
    ensures r.Raise? ==> r.exc == StructError
  {
    var ps :- RecordList(f, pos, count);
    Ok((AssignAll(t, ps), pos + 24 * count))
  }

  /** One `labl` payload: the id, then the bytes of the text (decoded by
      `LabelText`). A payload shorter than 4 bytes raises. */
  function LablEntry(data: seq<byte>): Result<(nat, seq<byte>)> {
    if |data| < 4 then Raise(StructError)
    else Ok((ReadU32(data[..4]), data[4..]))
  }

  /** One `ltxt` payload: the id and the u32 at `lengthAt`. A payload shorter
      than 20 bytes raises. */
  function LtxtEntry(data: seq<byte>, lengthAt: nat): Result<(nat, nat)>
    requires lengthAt + 4 <= 20
  {
    if |data| < 20 then Raise(StructError)
    else Ok((ReadU32(data[..4]), ReadU32(data[lengthAt..lengthAt + 4])))
  }

  /** What one `adtl` sub-chunk contributes: a `labl` sets a label, an `ltxt`
      a length, anything else nothing. A short payload raises. */
  function SubChunk(tag: seq<byte>, data: seq<byte>, acc: Metadata, lengthAt: nat): (r: Result<Metadata>)
    requires lengthAt + 4 <= 20
    ensures r.Ok? ==> r.value.cues == acc.cues
  {
    if tag == LABL_TAG then
      var (id, raw) :- LablEntry(data);
      Ok(acc.(labels := acc.labels[id := raw]))
    else if tag == LTXT_TAG then
      var (id, length) :- LtxtEntry(data, lengthAt);
      Ok(acc.(lengths := acc.lengths[id := length]))
    else
      Ok(acc)
  }

  /** One `adtl` sub-chunk at `pos`: the updated dicts, the position after
      the bytes actually read, and the declared sub-chunk size. A non-ASCII
      tag and a short size field raise. */
  function AdtlStep(f: seq<byte>, pos: nat, acc: Metadata, lengthAt: nat): (r: Result<(Metadata, nat, nat)>)
    requires lengthAt + 4 <= 20
    ensures r.Ok? ==> r.value.1 >= pos + 8 && r.value.0.cues == acc.cues
  {
    var tag := Read(f, pos, 4);
    if !IsAscii(tag) then Raise(UnicodeDecodeError)
    else
      var sizeBytes := Read(f, pos + |tag|, 4);
      if |sizeBytes| < 4 then Raise(StructError)
      else
        var subsize := ReadU32(sizeBytes);
        var data := Read(f, pos + |tag| + 4, subsize);
        var acc' :- SubChunk(tag, data, acc, lengthAt);
        Ok((acc', pos + |tag| + 4 + |data|, subsize))
  }

  /** The `adtl` loop: sub-chunks are consumed while `bytesRead < size`;
      `bytesRead` grows by 8 plus the declared sub-chunk size, while the file
      position grows by what was actually read. No pad byte is skipped. */
  function ReadAdtl(f: seq<byte>, pos: nat, bytesRead: int, size: nat, acc: Metadata, lengthAt: nat)
    : (r: Result<(Metadata, nat)>)
    requires lengthAt + 4 <= 20
    ensures r.Ok? ==> r.value.1 >= pos && r.value.0.cues == acc.cues
    decreases size - bytesRead
  {
    if bytesRead >= size then Ok((acc, pos))
    else
      var (acc', next, subsize) :- AdtlStep(f, pos, acc, lengthAt);
      ReadAdtl(f, next, bytesRead + 8 + subsize, size, acc', lengthAt)
  }

  /** What one pass of the top-level loop does: stop, or continue from a new
      position with updated dicts. */
  datatype Step = Stop | Continue(acc: Metadata, next: nat)

  /** The body of a `cue ` chunk whose header ended at `p`: the count, then
      that many records. The declared chunk size plays no part. */
  function CueChunk(f: seq<byte>, p: nat, acc: Metadata): (r: Result<Step>)
    ensures r.Ok? ==> r.value.Continue? && r.value.next >= p + 4
  {
    var countBytes := Read(f, p, 4);
    if |countBytes| < 4 then Raise(StructError)
    else
      var (cues, next) :- ReadCueRecords(f, p + 4, ReadU32(countBytes), acc.cues);
      Ok(Continue(acc.(cues := cues), next))
  }

  /** The body of a `LIST` chunk of declared `size` whose header ended at `p`:
      an `adtl` list is walked sub-chunk by sub-chunk, any other list type is
      skipped by `size - 4` bytes counted from after the type field. */
  function ListChunk(f: seq<byte>, p: nat, size: nat, acc: Metadata, lengthAt: nat): (r: Result<Step>)
    requires lengthAt + 4 <= 20
    requires p >= 4
    ensures r.Ok? ==> r.value.Continue? && r.value.next >= p - 4 && r.value.acc.cues == acc.cues
  {
    var listType := Read(f, p, 4);
    if !IsAscii(listType) then Raise(UnicodeDecodeError)
    else if listType == ADTL_TAG then
      var (acc', next) :- ReadAdtl(f, p + 4, 4, size, acc, lengthAt);
      Ok(Continue(acc', next))
    else
      Ok(Continue(acc, p + |listType| + size - 4))
  }

  /** One pass of the top-level loop at `pos`. A header that cannot be read
      stops the walk; `cue ` consumes its records, `LIST` its list, and any
      other chunk is skipped by its declared size. */
  function WalkStep(f: seq<byte>, pos: nat, acc: Metadata, lengthAt: nat): (r: Result<Step>)
    requires lengthAt + 4 <= 20
    ensures r == Ok(Stop) <==> ReadHeader(f, pos).None?
    ensures r.Ok? && r.value.Continue? ==> pos + 8 <= |f| && r.value.next >= pos + 4
  {
    match ReadHeader(f, pos)
    case None => Ok(Stop)
    case Some(Header(tag, size)) =>
      if tag == CUE_TAG then CueChunk(f, pos + 8, acc)
      else if tag == LIST_TAG then ListChunk(f, pos + 8, size, acc, lengthAt)
      else Ok(Continue(acc, pos + 8 + size))
  }

  /** The top-level loop from file position `pos`. A header that cannot be
      read ends the walk with what has been collected; every other failure
      escapes as the exception Python would raise. */
  function WalkFrom(f: seq<byte>, pos: nat, acc: Metadata, lengthAt: nat): (r: Result<Metadata>)
    requires lengthAt + 4 <= 20
    decreases |f| - pos
  {
    match WalkStep(f, pos, acc, lengthAt)
    case Raise(e) => Raise(e)
    case Ok(Stop) => Ok(acc)
    case Ok(Continue(acc', next)) => WalkFrom(f, next, acc', lengthAt)
  }

  /** A header that cannot be read ends the walk with what it has
      collected. */
  lemma WalkStops(f: seq<byte>, pos: nat, acc: Metadata, lengthAt: nat)
    requires lengthAt + 4 <= 20 && ReadHeader(f, pos).None?
    ensures WalkFrom(f, pos, acc, lengthAt) == Ok(acc)
  {
  }

  /** `extract_metadata` (extract_wav_cues.py): the walk from byte 12 with the
      RIFF header unread; a file that cannot be opened raises, and so does
      every failure past the top-level header read. */
  function ExtractMetadata(file: Option<seq<byte>>): (r: Result<Metadata>)
    ensures file.None? ==> r == Raise(OSError)
  {
    match file
    case None => Raise(OSError)
    case Some(f) => WalkFrom(f, 12, EMPTY, LTXT_LENGTH_AS_WRITTEN)
  }

  /** `extract_metadata` with the `ltxt` length read where the standard puts
      dwSampleLength (payload bytes 4-8) instead of bytes 12-16. */
  function ExtractMetadataStandard(file: Option<seq<byte>>): (r: Result<Metadata>)
    ensures file.None? ==> r == Raise(OSError)
  {
    match file
    case None => Raise(OSError)
    case Some(f) => WalkFrom(f, 12, EMPTY, LTXT_LENGTH_STANDARD)
  }

  /** `extract_riiff_metadata` (extract_wav_regions.py): the same walk, but
      any exception, the open failure included, yields `None` and discards
      the partial dicts. It therefore returns exactly what `extract_metadata`
      returns when that does not raise, and `None` when it does. */
  function ExtractRiffMetadata(file: Option<seq<byte>>): (r: Option<Metadata>)
    ensures r.Some? <==> ExtractMetadata(file).Ok?
    ensures r.Some? ==> r.value == ExtractMetadata(file).value
  {
    match file
    case None => None
    case Some(f) =>
      match WalkFrom(f, 12, EMPTY, LTXT_LENGTH_AS_WRITTEN)
      case Ok(m) => Some(m)
      case Raise(_) => None
  }

  // ------------------------------------------------------------ the cue dict

  /** Reading the records first and assigning them afterwards gives what
      the loop gives, the exception included. */
  lemma {:induction false} CueLoopSplit(f: seq<byte>, pos: nat, count: nat, t: seq<CuePoint>)
    ensures CueLoop(f, pos, count, t).Ok? <==> ReadCueRecords(f, pos, count, t).Ok?
    ensures CueLoop(f, pos, count, t).Ok? ==> CueLoop(f, pos, count, t).value == ReadCueRecords(f, pos, count, t).value.0
    decreases count
  {
    if count > 0 {
      var rec := Read(f, pos, 24);
      if |rec| == 24 {
        var c := CuePoint(ReadU32(rec[0..4]), ReadU32(rec[20..24]));
        CueLoopSplit(f, pos + 24, count - 1, Assign(t, c.id, c.offset));
        match RecordList(f, pos + 24, count - 1)
        case Raise(_) =>
        case Ok(rest) =>
          assert ([c] + rest)[1..] == rest;
      }
    }
  }

  /** Assignment keeps the cue ids distinct, as a dict keeps its keys. */
  lemma {:induction false} AssignAllUnique(t: seq<CuePoint>, ps: seq<CuePoint>)
    requires UniqueIds(t)
    ensures UniqueIds(AssignAll(t, ps))
    decreases |ps|
  {
    if |ps| > 0 {
      AssignUnique(t, ps[0].id, ps[0].offset);
      AssignAllUnique(Assign(t, ps[0].id, ps[0].offset), ps[1..]);
    }
  }

  lemma WalkStepUnique(f: seq<byte>, pos: nat, acc: Metadata, lengthAt: nat)
    requires lengthAt + 4 <= 20
    ensures UniqueIds(acc.cues) && WalkStep(f, pos, acc, lengthAt).Ok? && WalkStep(f, pos, acc, lengthAt).value.Continue?
            ==> UniqueIds(WalkStep(f, pos, acc, lengthAt).value.acc.cues)
  {
    var p := pos + 8;
    if UniqueIds(acc.cues) && |Read(f, p, 4)| == 4 && RecordList(f, p + 4, ReadU32(Read(f, p, 4))).Ok? {
      AssignAllUnique(acc.cues, RecordList(f, p + 4, ReadU32(Read(f, p, 4))).value);
    }
  }

  /** Every cue table the walk returns has distinct ids. */
  lemma {:induction false} WalkUnique(f: seq<byte>, pos: nat, acc: Metadata, lengthAt: nat)
    requires lengthAt + 4 <= 20 && UniqueIds(acc.cues)
    ensures WalkFrom(f, pos, acc, lengthAt).Ok? ==> UniqueIds(WalkFrom(f, pos, acc, lengthAt).value.cues)
    decreases |f| - pos
  {
    WalkStepUnique(f, pos, acc, lengthAt);
    match WalkStep(f, pos, acc, lengthAt)
    case Raise(_) =>
    case Ok(Stop) =>
    case Ok(Continue(acc', next)) => WalkUnique(f, next, acc', lengthAt);
  }

  /** `extract_metadata`, either way of reading `ltxt`, returns a cue dict:
      no id appears twice in the table. */
  lemma ExtractUnique(file: Option<seq<byte>>)
    ensures ExtractMetadata(file).Ok? ==> UniqueIds(ExtractMetadata(file).value.cues)
    ensures ExtractMetadataStandard(file).Ok? ==> UniqueIds(ExtractMetadataStandard(file).value.cues)
  {
    if file.Some? {
      WalkUnique(file.value, 12, EMPTY, LTXT_LENGTH_AS_WRITTEN);
      WalkUnique(file.value, 12, EMPTY, LTXT_LENGTH_STANDARD);
    }
  }
}

=== FILE: round_trip.dfy ===
/** What the decoders' chunk walk reads back from a file `srt2regions.py`
    wrote: one cue per region, numbered from 1, at the region's start sample;
    the region's name as its label; and, because the decoders read the
    `ltxt` length from the wrong bytes, a length of 0 for every region. */
module RoundTrip {
  import opened PyCore
  import opened Bytes
  import opened PyText
  import opened SrtTime
  import opened RiffChunks
  import opened RegionEncoder
  import opened MarkerFacts
  import opened EncoderFacts
  import opened RiffWalk
  import opened ImageReads
  import Utf8

  // ------------------------------------------------------------ cue table

  /** The cue table the walk should rebuild: id and start of each marker. */
  function CuesOf(ms: seq<Marker>): (r: seq<CuePoint>)
    ensures |r| == |ms|
    ensures forall k :: 0 <= k < |ms| ==> r[k] == CuePoint(ms[k].id, ms[k].start)
  {
    seq(|ms|, k requires 0 <= k < |ms| => CuePoint(ms[k].id, ms[k].start))
  }

  /** The markers are numbered `first`, `first + 1`, ... */
  predicate IdsFrom(ms: seq<Marker>, first: nat) {
    forall k :: 0 <= k < |ms| ==> ms[k].id == first + k
  }

  /** Every id already in the table is below `first`. */
  predicate IdsBelow(t: seq<CuePoint>, first: nat) {
    forall i :: 0 <= i < |t| ==> t[i].id < first
  }

  /** A new id is appended to the table. */
  lemma AssignFresh(t: seq<CuePoint>, id: nat, offset: nat)
    requires IdsBelow(t, id)
    ensures Assign(t, id, offset) == t + [CuePoint(id, offset)]
  {
    assert PositionOf(t, id) == -1;
  }

  /** The fields the loop takes from a record the encoder wrote. */
  lemma CueRecordRead(f: seq<byte>, pos: nat, m: Marker)
    requires Packable(m) && At(f, pos, CueRecord(m))
    ensures |Read(f, pos, 24)| == 24
    ensures ReadU32(Read(f, pos, 24)[0..4]) == m.id && ReadU32(Read(f, pos, 24)[20..24]) == m.start
  {
    ReadAt(f, pos, CueRecord(m), 24);
    assert CueRecord(m)[..24] == CueRecord(m);
    CueRecordFields(m);
  }

  /** Appending an entry whose id is above every id of the table keeps the
      ids unique. */
  lemma FreshAppend(t: seq<CuePoint>, c: CuePoint, first: nat)
    requires IdsBelow(t, first) && c.id == first
    ensures IdsBelow(t + [c], first + 1)
  {
  }

  /** The record loop from `pos` ends with the table `cues` at `next`. */
  ghost predicate RecordsGive(f: seq<byte>, pos: nat, count: nat, t: seq<CuePoint>, cues: seq<CuePoint>, next: nat)
  {
    ReadCueRecords(f, pos, count, t) == Ok((cues, next))
  }

  /** The cue branch at `q` gives `r`. */
  ghost predicate CueGives(f: seq<byte>, q: nat, acc: Metadata, r: Result<Step>)
  {
    RiffWalk.CueChunk(f, q, acc) == r
  }

  lemma CuesCons(t: seq<CuePoint>, ms: seq<Marker>)
    requires |ms| > 0
    ensures t + CuesOf(ms) == (t + [CuePoint(ms[0].id, ms[0].start)]) + CuesOf(ms[1..])
  {
  }

  /** Each marker's record sits right after the one before it, from `pos`. */
  predicate RecordsLaid(f: seq<byte>, pos: nat, ms: seq<Marker>)
    decreases |ms|
  {
    |ms| > 0 ==>
      && |Read(f, pos, 24)| == 24
      && ReadU32(Read(f, pos, 24)[0..4]) == ms[0].id && ReadU32(Read(f, pos, 24)[20..24]) == ms[0].start
      && RecordsLaid(f, pos + 24, ms[1..])
  }

  lemma {:induction false} RecordsLaidOut(f: seq<byte>, pos: nat, ms: seq<Marker>)
    requires AllPackable(ms) && At(f, pos, CueRecords(ms))
    ensures RecordsLaid(f, pos, ms)
    decreases |ms|
  {
    if |ms| > 0 {
      assert CueRecords(ms) == CueRecord(ms[0]) + CueRecords(ms[1..]);
      AtSplit(f, pos, CueRecord(ms[0]), CueRecords(ms[1..]));
      CueRecordRead(f, pos, ms[0]);
      assert AllPackable(ms[1..]);
      RecordsLaidOut(f, pos + 24, ms[1..]);
    }
  }

  /** The record loop reads back every record of the table, appending each
      marker's id and start. */
  lemma CueRecordsRead(f: seq<byte>, pos: nat, ms: seq<Marker>, t: seq<CuePoint>, first: nat)
    requires AllPackable(ms) && IdsFrom(ms, first) && IdsBelow(t, first)
    requires At(f, pos, CueRecords(ms))
    ensures RecordsGive(f, pos, |ms|, t, t + CuesOf(ms), pos + 24 * |ms|)
  {
    RecordsLaidOut(f, pos, ms);
    RecordListRead(f, pos, ms);
    AssignAllFresh(t, ms, first);
  }

  /** The records as laid out read back as the markers' ids and starts. */
  lemma {:induction false} RecordListRead(f: seq<byte>, pos: nat, ms: seq<Marker>)
    requires RecordsLaid(f, pos, ms)
    ensures RecordList(f, pos, |ms|) == Ok(CuesOf(ms))
    decreases |ms|
  {
    if |ms| > 0 {
      RecordListRead(f, pos + 24, ms[1..]);
      assert CuesOf(ms) == [CuePoint(ms[0].id, ms[0].start)] + CuesOf(ms[1..]);
    }
  }

  /** Ids above every id of the table, in increasing order, are appended. */
  lemma {:induction false} AssignAllFresh(t: seq<CuePoint>, ms: seq<Marker>, first: nat)
    requires IdsFrom(ms, first) && IdsBelow(t, first)
    ensures AssignAll(t, CuesOf(ms)) == t + CuesOf(ms)
    decreases |ms|
  {
    if |ms| == 0 {
      assert t + CuesOf(ms) == t;
    } else {
      var c := CuePoint(ms[0].id, ms[0].start);
      assert CuesOf(ms)[1..] == CuesOf(ms[1..]);
      AssignFresh(t, c.id, c.offset);
      FreshAppend(t, c, first);
      assert IdsFrom(ms[1..], first + 1);
      AssignAllFresh(t + [c], ms[1..], first + 1);
      CuesCons(t, ms);
    }
  }

  /** The body of the `cue ` chunk: the count, then the records. */
  lemma CueBody(f: seq<byte>, q: nat, ms: seq<Marker>, acc: Metadata)
    requires AllPackable(ms) && |ms| < TWO_32 && IdsFrom(ms, 1)
    requires acc.cues == []
    requires At(f, q, RegionEncoder.CueChunk(ms).payload)
    ensures CueGives(f, q, acc, Ok(Continue(acc.(cues := CuesOf(ms)), q + 4 + 24 * |ms|)))
  {
    AtSplit(f, q, U32(|ms|), CueRecords(ms));
    ReadAt(f, q, U32(|ms|), 4);
    assert U32(|ms|)[..4] == U32(|ms|);
    CueRecordsRead(f, q + 4, ms, [], 1);
    assert [] + CuesOf(ms) == CuesOf(ms);
    CueCountRead(f, q, acc, |ms|, CuesOf(ms), q + 4 + 24 * |ms|);
  }

  /** The cue branch reads the count, then that many records. */
  lemma CueCountRead(f: seq<byte>, q: nat, acc: Metadata, count: nat, cues: seq<CuePoint>, next: nat)
    requires |Read(f, q, 4)| == 4 && ReadU32(Read(f, q, 4)) == count
    requires RecordsGive(f, q + 4, count, acc.cues, cues, next)
    ensures CueGives(f, q, acc, Ok(Continue(acc.(cues := cues), next)))
  {
  }

  /** A `cue ` header hands the rest of the pass to the cue branch. */
  lemma WalkStepCue(f: seq<byte>, p: nat, acc: Metadata, lengthAt: nat, size: nat, r: Result<Step>)
    requires lengthAt + 4 <= 20
    requires ReadHeader(f, p) == Some(Header(CUE_TAG, size))
    requires CueGives(f, p + 8, acc, r)
    ensures Passes(f, p, acc, lengthAt, r)
  {
  }

  /** The walk reads the whole `cue ` chunk and continues right after it. */
  lemma CueStep(f: seq<byte>, p: nat, ms: seq<Marker>, acc: Metadata, lengthAt: nat)
    requires lengthAt + 4 <= 20
    requires AllPackable(ms) && |ms| < TWO_32 && IdsFrom(ms, 1)
    requires acc.cues == [] && Writable(RegionEncoder.CueChunk(ms))
    requires At(f, p, ChunkBytes(RegionEncoder.CueChunk(ms)))
    ensures Passes(f, p, acc, lengthAt,
            Ok(Continue(acc.(cues := CuesOf(ms)), p + 8 + |RegionEncoder.CueChunk(ms).payload|)))
  {
    CueHeader(f, p, ms);
    CueBody(f, p + 8, ms, acc);
    WalkStepCue(f, p, acc, lengthAt, |RegionEncoder.CueChunk(ms).payload|,
                Ok(Continue(acc.(cues := CuesOf(ms)), p + 8 + 4 + 24 * |ms|)));
  }

  lemma CueHeader(f: seq<byte>, p: nat, ms: seq<Marker>)
    requires AllPackable(ms) && |ms| < TWO_32 && Writable(RegionEncoder.CueChunk(ms))
    requires At(f, p, ChunkBytes(RegionEncoder.CueChunk(ms)))
    ensures ReadHeader(f, p) == Some(Header(CUE_TAG, |RegionEncoder.CueChunk(ms).payload|))
    ensures At(f, p + 8, RegionEncoder.CueChunk(ms).payload)
  {
    TagsAreFourBytes();
    HeaderAt(f, p, RegionEncoder.CueChunk(ms));
  }

  // ------------------------------------------------------------ adtl list

  /** The labels dict after the `labl` chunks of `ms`, in order. */
  function AddLabels(labels: map<nat, seq<byte>>, ms: seq<Marker>): map<nat, seq<byte>>
    decreases |ms|
  {
    if |ms| == 0 then labels else AddLabels(labels[ms[0].id := LabelBytes(ms[0].name)], ms[1..])
  }

  /** The length a decoder reading at `lengthAt` takes from an `ltxt` the
      encoder wrote: the marker's length where the encoder put it, and one of
      the zero fields where the decoders as written look. */
  function StoredLength(m: Marker, lengthAt: nat): nat {
    if lengthAt == LTXT_LENGTH_STANDARD then m.length else 0
  }

  /** The lengths dict after the `ltxt` chunks of `ms`, in order. */
  function AddLengths(lengths: map<nat, nat>, ms: seq<Marker>, lengthAt: nat): map<nat, nat>
    decreases |ms|
  {
    if |ms| == 0 then lengths
    else AddLengths(lengths[ms[0].id := StoredLength(ms[0], lengthAt)], ms[1..], lengthAt)
  }

  /** A `labl` the encoder wrote sets the label of its id to the label
      bytes. */
  lemma LablRead(m: Marker, acc: Metadata, lengthAt: nat)
    requires Packable(m) && lengthAt + 4 <= 20
    ensures SubChunk(LablChunk(m).tag, LablChunk(m).payload, acc, lengthAt)
         == Ok(acc.(labels := acc.labels[m.id := LabelBytes(m.name)]))
  {
    var p := LablChunk(m).payload;
    assert p[..4] == U32(m.id);
    assert p[4..] == LabelBytes(m.name);
  }

  /** An `ltxt` the encoder wrote sets the length of its id to what sits at
      `lengthAt`. */
  lemma LtxtRead(m: Marker, acc: Metadata, lengthAt: nat)
    requires Packable(m)
    requires lengthAt == LTXT_LENGTH_AS_WRITTEN || lengthAt == LTXT_LENGTH_STANDARD
    ensures SubChunk(LtxtChunk(m).tag, LtxtChunk(m).payload, acc, lengthAt)
         == Ok(acc.(lengths := acc.lengths[m.id := StoredLength(m, lengthAt)]))
  {
    TagsAreFourBytes();
    assert LTXT_TAG[0] == LABL_TAG[0] && LTXT_TAG[1] != LABL_TAG[1];
    LtxtFields(m);
  }

  lemma {:induction false} LablsApply(ms: seq<Marker>, acc: Metadata, lengthAt: nat)
    requires AllPackable(ms) && lengthAt + 4 <= 20
    ensures ApplySubs(LablChunks(ms), acc, lengthAt) == Ok(acc.(labels := AddLabels(acc.labels, ms)))
    decreases |ms|
  {
    if |ms| > 0 {
      var cs := LablChunks(ms);
      var acc' := acc.(labels := acc.labels[ms[0].id := LabelBytes(ms[0].name)]);
      assert cs[0] == LablChunk(ms[0]);
      assert cs[1..] == LablChunks(ms[1..]);
      LablRead(ms[0], acc, lengthAt);
      assert AllPackable(ms[1..]);
      LablsApply(ms[1..], acc', lengthAt);
      ApplyCons(cs, acc, lengthAt, acc', Ok(acc.(labels := AddLabels(acc.labels, ms))));
    }
  }

  lemma {:induction false} LtxtsApply(ms: seq<Marker>, acc: Metadata, lengthAt: nat)
    requires AllPackable(ms)
    requires lengthAt == LTXT_LENGTH_AS_WRITTEN || lengthAt == LTXT_LENGTH_STANDARD
    ensures ApplySubs(LtxtChunks(ms), acc, lengthAt) == Ok(acc.(lengths := AddLengths(acc.lengths, ms, lengthAt)))
    decreases |ms|
  {
    if |ms| > 0 {
      var cs := LtxtChunks(ms);
      var acc' := acc.(lengths := acc.lengths[ms[0].id := StoredLength(ms[0], lengthAt)]);
      assert cs[0] == LtxtChunk(ms[0]);
      assert cs[1..] == LtxtChunks(ms[1..]);
      LtxtRead(ms[0], acc, lengthAt);
      assert AllPackable(ms[1..]);
      LtxtsApply(ms[1..], acc', lengthAt);
      ApplyCons(cs, acc, lengthAt, acc', Ok(acc.(lengths := AddLengths(acc.lengths, ms, lengthAt))));
    }
  }

  /** Every `labl`, then every `ltxt`: the labels and the lengths of all
      markers. */
  lemma AdtlApply(ms: seq<Marker>, acc: Metadata, lengthAt: nat)
    requires AllPackable(ms)
    requires lengthAt == LTXT_LENGTH_AS_WRITTEN || lengthAt == LTXT_LENGTH_STANDARD
    ensures ApplySubs(AdtlChunks(ms), acc, lengthAt)
         == Ok(acc.(labels := AddLabels(acc.labels, ms), lengths := AddLengths(acc.lengths, ms, lengthAt)))
  {
    LablsApply(ms, acc, lengthAt);
    var mid := acc.(labels := AddLabels(acc.labels, ms));
    ApplySubsAppend(LablChunks(ms), LtxtChunks(ms), acc, lengthAt);
    LtxtsApply(ms, mid, lengthAt);
  }

  lemma AdtlTags(ms: seq<Marker>)
    requires AllPackable(ms)
    ensures AsciiTags(AdtlChunks(ms))
  {
    TagsAreFourBytes();
  }

  // ------------------------------------------------------------ the walk

  /** What the walk collects from the encoder's file, reading `ltxt` lengths
      at `lengthAt`. */
  function Expected(ms: seq<Marker>, lengthAt: nat): Metadata {
    Metadata(CuesOf(ms), AddLabels(map[], ms), AddLengths(map[], ms, lengthAt))
  }

  predicate Reads(lengthAt: nat) {
    lengthAt == LTXT_LENGTH_AS_WRITTEN || lengthAt == LTXT_LENGTH_STANDARD
  }

  /** From the `LIST` chunk to the end of the file. */
  lemma TailList(f: seq<byte>, p: nat, ms: seq<Marker>, lengthAt: nat)
    requires Reads(lengthAt) && AllPackable(ms) && IdsFrom(ms, 1)
    requires Writable(RegionEncoder.ListChunk(ms))
    requires At(f, p, ChunkBytes(RegionEncoder.ListChunk(ms)))
    requires p + |ChunkBytes(RegionEncoder.ListChunk(ms))| == |f|
    ensures Walks(f, p, EMPTY.(cues := CuesOf(ms)), lengthAt, Expected(ms, lengthAt))
  {
    AdtlTags(ms);
    AdtlApply(ms, EMPTY.(cues := CuesOf(ms)), lengthAt);
    LastList(f, p, AdtlChunks(ms), EMPTY.(cues := CuesOf(ms)), lengthAt, Expected(ms, lengthAt));
  }

  /** A closing `adtl` list chunk ends the walk with what its sub-chunks add. */
  lemma LastList(f: seq<byte>, p: nat, cs: seq<Chunk>, acc: Metadata, lengthAt: nat, result: Metadata)
    requires lengthAt + 4 <= 20
    requires AllWritable(cs) && AsciiTags(cs) && Writable(AdtlList(cs))
    requires At(f, p, ChunkBytes(AdtlList(cs))) && p + |ChunkBytes(AdtlList(cs))| == |f|
    requires ApplySubs(cs, acc, lengthAt) == Ok(result)
    ensures Walks(f, p, acc, lengthAt, result)
  {
    assert Passes(f, p, acc, lengthAt, Ok(Continue(result, |f|))) by {
      ListStep(f, p, cs, acc, lengthAt);
    }
    WalkAtEnd(f, result, lengthAt);
    Handover(f, p, acc, lengthAt, result, |f|, result);
  }

  /** The walk takes in the `cue ` chunk and carries on after it. */
  lemma CueWalk(f: seq<byte>, p: nat, ms: seq<Marker>, lengthAt: nat, next: nat, result: Metadata)
    requires lengthAt + 4 <= 20 && AllPackable(ms) && |ms| < TWO_32 && IdsFrom(ms, 1)
    requires Writable(RegionEncoder.CueChunk(ms))
    requires At(f, p, ChunkBytes(RegionEncoder.CueChunk(ms)))
    requires next == p + 8 + |RegionEncoder.CueChunk(ms).payload|
    requires Walks(f, next, EMPTY.(cues := CuesOf(ms)), lengthAt, result)
    ensures Walks(f, p, EMPTY, lengthAt, result)
  {
    CueStep(f, p, ms, EMPTY, lengthAt);
    Handover(f, p, EMPTY, lengthAt, EMPTY.(cues := CuesOf(ms)), next, result);
  }

  lemma OtherTags()
    ensures FMT_TAG != CUE_TAG && FMT_TAG != LIST_TAG
    ensures DATA_TAG != CUE_TAG && DATA_TAG != LIST_TAG
  {
    TagsAreFourBytes();
    assert FMT_TAG[0] != CUE_TAG[0] && FMT_TAG[0] != LIST_TAG[0];
    assert DATA_TAG[0] != CUE_TAG[0] && DATA_TAG[0] != LIST_TAG[0];
  }

  /** Four chunks one after another, each where the one before ends. */
  lemma FourAt(f: seq<byte>, p: nat, a: seq<byte>, b: seq<byte>, c: seq<byte>, d: seq<byte>)
    requires At(f, p, a + b + c + d)
    ensures At(f, p, a) && At(f, p + |a|, b) && At(f, p + |a| + |b|, c) && At(f, p + |a| + |b| + |c|, d)
  {
    AtSplit(f, p, a + b + c, d);
    AtSplit(f, p, a + b, c);
    AtSplit(f, p, a, b);
  }

  /** The walk over the `fmt `, `data` and `cue ` chunks the encoder writes
      from byte 12 on, which start at 12, `p1` and `p2`, up to the `LIST`
      chunk at `p3`. */
  lemma WalkChunks(f: seq<byte>, fmt: Chunk, frames: seq<byte>, ms: seq<Marker>, lengthAt: nat,
                   p1: nat, p2: nat, p3: nat, result: Metadata)
    requires lengthAt + 4 <= 20 && AllPackable(ms) && |ms| < TWO_32 && IdsFrom(ms, 1)
    requires Writable(fmt) && fmt.tag == FMT_TAG
    requires Writable(Chunk(DATA_TAG, frames)) && Writable(RegionEncoder.CueChunk(ms))
    requires At(f, 12, ChunkBytes(fmt)) && p1 == 12 + 8 + |fmt.payload|
    requires At(f, p1, ChunkBytes(Chunk(DATA_TAG, frames))) && p2 == p1 + 8 + |frames|
    requires At(f, p2, ChunkBytes(RegionEncoder.CueChunk(ms)))
    requires p3 == p2 + 8 + |RegionEncoder.CueChunk(ms).payload|
    requires Walks(f, p3, EMPTY.(cues := CuesOf(ms)), lengthAt, result)
    ensures Walks(f, 12, EMPTY, lengthAt, result)
  {
    OtherTags();
    CueWalk(f, p2, ms, lengthAt, p3, result);
    SkipWalk(f, p1, Chunk(DATA_TAG, frames), EMPTY, lengthAt, p2, result);
    SkipWalk(f, 12, fmt, EMPTY, lengthAt, p1, result);
  }

  /** Where four byte strings sit when the file holds them one after another
      from byte 12. */
  lemma Placed(f: seq<byte>, a: seq<byte>, b: seq<byte>, c: seq<byte>, d: seq<byte>, p1: nat, p2: nat, p3: nat)
    requires At(f, 12, a + b + c + d)
    requires p1 == 12 + |a| && p2 == p1 + |b| && p3 == p2 + |c|
    ensures At(f, 12, a) && At(f, p1, b) && At(f, p2, c) && At(f, p3, d)
  {
    FourAt(f, 12, a, b, c, d);
  }

  /** The same walk, to the end of the file, which the `LIST` chunk closes. */
  lemma WalkImage(f: seq<byte>, fmt: Chunk, frames: seq<byte>, ms: seq<Marker>, lengthAt: nat,
                  p1: nat, p2: nat, p3: nat)
    requires Reads(lengthAt) && AllPackable(ms) && |ms| < TWO_32 && IdsFrom(ms, 1)
    requires Writable(fmt) && fmt.tag == FMT_TAG
    requires Writable(Chunk(DATA_TAG, frames))
    requires Writable(RegionEncoder.CueChunk(ms)) && Writable(RegionEncoder.ListChunk(ms))
    requires At(f, 12, ChunkBytes(fmt)) && p1 == 12 + 8 + |fmt.payload|
    requires At(f, p1, ChunkBytes(Chunk(DATA_TAG, frames))) && p2 == p1 + 8 + |frames|
    requires At(f, p2, ChunkBytes(RegionEncoder.CueChunk(ms)))
    requires p3 == p2 + 8 + |RegionEncoder.CueChunk(ms).payload|
    requires At(f, p3, ChunkBytes(RegionEncoder.ListChunk(ms)))
    requires p3 + 8 + |RegionEncoder.ListChunk(ms).payload| == |f|
    ensures Walks(f, 12, EMPTY, lengthAt, Expected(ms, lengthAt))
  {
    TailList(f, p3, ms, lengthAt);
    WalkChunks(f, fmt, frames, ms, lengthAt, p1, p2, p3, Expected(ms, lengthAt));
  }
}

=== FILE: script_round_trip.dfy ===
/** The plain-text script `srt_to_rtf_accessible.py` writes, read back by
    `txt_to_srt.py`: with timecodes, every subtitle whose text stays on one
    line and is not mistaken for a marker line comes back, numbered from 1,
    with its times truncated to whole seconds and its text as the script
    printed it, stripped. */
module ScriptRoundTrip {
  import opened PyCore
  import opened PyText
  import opened SrtTime
  import opened NewlineIo
  import opened AccessibleScript
  import opened TxtToSrt

  /** A subtitle whose script line reads back as its text: one line, not
      blank, and not starting like an `IN:`, `OUT:`, `Line` or `Duration:`
      line; and whose whole seconds `timedelta` can hold. */
  predicate Readable(s: Subtitle) {
    && NoBreak(NormalizeMarker(s.content)) && ContentLine(Strip(NormalizeMarker(s.content)))
    && DeltaFits(s.start / 1000, SECONDS_PER_DAY) && DeltaFits(s.end / 1000, SECONDS_PER_DAY)
  }

  /** Neither line break occurs. */
  predicate NoBreak(t: string) {
    NoChar(t, '\n') && NoChar(t, '\r')
  }

  /** A stripped line `txt_to_srt.py` takes for the text of an entry. */
  predicate ContentLine(line: string) {
    && |line| > 0
    && !StartsWith(line, "IN:") && !StartsWith(line, "OUT:")
    && !StartsWith(line, "Line") && !StartsWith(line, "Duration:")
  }

  /** The subtitles `txt_to_srt.py` rebuilds, numbered from `first`. */
  function Expected(subs: seq<Subtitle>, first: int): (es: seq<Entry>)
    ensures |es| == |subs|
    ensures forall k :: 0 <= k < |es| ==> es[k].index == first + k
  {
    seq(|subs|, k requires 0 <= k < |subs| =>
      Entry(first + k, subs[k].start / 1000, subs[k].end / 1000, Strip(NormalizeMarker(subs[k].content))))
  }

  // ------------------------------------------------------------ the fields

  /** Text of digits and colons, as `HH:MM:SS` is. */
  predicate ClockChars(t: string) {
    |t| > 0 && forall i :: 0 <= i < |t| ==> IsDigitChar(t[i]) || t[i] == ':'
  }

  /** Digit fields joined by `:` hold only digits and colons. */
  lemma ClockText(hh: string, mm: string, ss: string)
    requires IsDigits(hh) && IsDigits(mm) && IsDigits(ss)
    ensures ClockChars(hh + ":" + mm + ":" + ss)
  {
    var t := hh + ":" + mm + ":" + ss;
    forall i | 0 <= i < |t|
      ensures IsDigitChar(t[i]) || t[i] == ':'
    {
      if i < |hh| {
        assert t[i] == hh[i];
      } else if |hh| < i < |hh| + 1 + |mm| {
        assert t[i] == mm[i - |hh| - 1];
      } else if i > |hh| + |mm| + 1 {
        assert t[i] == ss[i - |hh| - |mm| - 2];
      }
    }
  }

  /** Three padded fields joined by `:` read back as their weighted sum,
      when `timedelta` can hold it. */
  lemma FieldsClock(h: nat, m: nat, s: nat)
    ensures ClockChars(ZeroPad(h, 2) + ":" + ZeroPad(m, 2) + ":" + ZeroPad(s, 2))
    ensures ParseTimecode(ZeroPad(h, 2) + ":" + ZeroPad(m, 2) + ":" + ZeroPad(s, 2)) == TimedeltaSeconds(h * 3600 + m * 60 + s)
  {
    PaddedField(h, 2);
    PaddedField(m, 2);
    PaddedField(s, 2);
    ParseTimecodeFields(h, m, s);
    ClockText(ZeroPad(h, 2), ZeroPad(m, 2), ZeroPad(s, 2));
  }

  /** The `HH:MM:SS` of the script reads back, through `parse_timecode`,
      as the whole seconds it printed, or overflows `timedelta`. */
  lemma TimestampText(ms: nat)
    ensures ClockChars(FormatTimestamp(ms)) && ParseTimecode(FormatTimestamp(ms)) == TimedeltaSeconds(ms / 1000)
  {
    var total := ms / 1000;
    TimestampFields(ms);
    FieldsClock(total / 3600, total % 3600 / 60, total % 60);
  }

  /** Text of digits and colons holds no other character. */
  lemma ClockNoChar(ts: string, c: char)
    requires ClockChars(ts) && !IsDigitChar(c) && c != ':'
    ensures NoChar(ts, c)
  {
  }

  /** `str(n)` holds no line break. */
  lemma IntStrOneLine(n: int)
    ensures NoBreak(IntStr(n))
  {
    var a := if n >= 0 then n else -n;
    ZeroFillDigits(a, if n >= 0 then 0 else -1);
    var f := ZeroFill(Decimal(a), if n >= 0 then 0 else -1);
    if n < 0 {
      assert IntStr(n) == "-" + f;
    }
  }

  // ------------------------------------------------------------ one line at a time

  /** The line end does not matter: lines are stripped first. */
  lemma StepNewline(st: State, raw: string)
    ensures StepLine(st, raw + "\n") == StepLine(st, raw)
  {
    StripNewline(raw);
  }

  /** `Line <n>:` changes nothing. */
  lemma LabelStep(st: State, num: string)
    ensures StepLine(st, "Line " + num + ":\n") == Ok(st)
  {
    var line := "Line " + num + ":";
    assert "Line " + num + ":\n" == line + "\n";
    StepNewline(st, line);
    assert line[0] == 'L' && line[|line| - 1] == ':';
    StripOfStripped(line);
    assert line[..4] == "Line";
  }

  /** `IN: HH:MM:SS` sets the start to the seconds the clock reads as. */
  lemma InStep(st: State, ts: string, v: int)
    requires ClockChars(ts) && ParseTimecode(ts) == Ok(v)
    ensures StepLine(st, "IN: " + ts + "\n") == Ok(st.(current := st.current.(start := Some(v))))
  {
    StepNewline(st, "IN: " + ts);
    InLine(ts);
  }

  /** An `IN:` line whose clock does not parse raises what `parse_timecode`
      raises. */
  lemma InStepRaise(st: State, ts: string, e: Exc)
    requires ClockChars(ts) && ParseTimecode(ts) == Raise(e)
    ensures StepLine(st, "IN: " + ts + "\n") == Raise(e)
  {
    StepNewline(st, "IN: " + ts);
    InLine(ts);
  }

  /** An `IN:` line is stripped and splits at `IN: ` into nothing and the
      clock. */
  lemma InLine(ts: string)
    requires ClockChars(ts)
    ensures var line := "IN: " + ts;
      Strip(line) == line && StartsWith(line, "IN:") && Split(line, "IN: ") == ["", ts]
  {
    var line := "IN: " + ts;
    assert line[0] == 'I' && line[|line| - 1] == ts[|ts| - 1];
    StripOfStripped(line);
    ClockNoChar(ts, 'I');
    NoCharNotContains(ts, "IN: ");
    SplitPair("", "IN: ", ts);
    assert "" + "IN: " + ts == line;
    assert line[..3] == "IN:";
  }

  /** A script of one `IN:` line at twenty-four billion hours, with the
      `\r\n` line end a Windows editor writes: `timedelta` overflows, the
      `OverflowError` is not the `ValueError` the script catches, and no
      `.srt` is written. */
  lemma OverflowWritesNothing(argv: seq<string>)
    ensures var ts := ZeroPad(24000000000, 2) + ":" + ZeroPad(0, 2) + ":" + ZeroPad(0, 2);
      TxtMain(argv, Some(WriteCrLf("IN: " + ts + "\n"))) == if |argv| < 2 then Ok(NoOutput) else Raise(OverflowError)
  {
    var ts := ZeroPad(24000000000, 2) + ":" + ZeroPad(0, 2) + ":" + ZeroPad(0, 2);
    FieldsClock(24000000000, 0, 0);
    ParseTimecodeOverflows();
    InFile(ts);
    InStepRaise(START, ts, OverflowError);
  }

  /** A file of one `IN:` line written with `\r\n` reads back as that line. */
  lemma InFile(ts: string)
    requires ClockChars(ts)
    ensures ReadLines(ReadUniversal(WriteCrLf("IN: " + ts + "\n"))) == ["IN: " + ts + "\n"]
  {
    var line := "IN: " + ts + "\n";
    ClockNoChar(ts, '\n');
    ClockNoChar(ts, '\r');
    ConcatNoChar("IN: ", ts, '\n');
    ConcatNoChar("IN: ", ts, '\r');
    LineOf("IN: " + ts, "\n");
    ReadWriteRoundTrip(line);
    assert Concat([line]) == line;
    ReadLinesConcat([line]);
  }

  /** `OUT: HH:MM:SS` sets the end to the seconds the clock reads as. */
  lemma OutStep(st: State, ts: string, v: int)
    requires ClockChars(ts) && ParseTimecode(ts) == Ok(v)
    ensures StepLine(st, "OUT: " + ts + "\n") == Ok(st.(current := st.current.(end := Some(v))))
  {
    var line := "OUT: " + ts;
    StepNewline(st, line);
    OutLine(ts);
    OutBranch(st, line, ts, v);
  }

  /** An `OUT:` line is stripped, is not an `IN:` line, and splits at
      `OUT: ` into nothing and the clock. */
  lemma OutLine(ts: string)
    requires ClockChars(ts)
    ensures var line := "OUT: " + ts;
      && Strip(line) == line && !StartsWith(line, "IN:") && StartsWith(line, "OUT:")
      && Split(line, "OUT: ") == ["", ts]
  {
    var line := "OUT: " + ts;
    assert line[0] == 'O' && line[|line| - 1] == ts[|ts| - 1];
    StripOfStripped(line);
    assert !StartsWith(line, "IN:") by { assert line[0] != "IN:"[0]; }
    ClockNoChar(ts, 'O');
    NoCharNotContains(ts, "OUT: ");
    SplitPair("", "OUT: ", ts);
    assert "" + "OUT: " + ts == line;
    assert line[..4] == "OUT:";
  }

  /** The `OUT:` branch of the loop body, on a line that is already stripped. */
  lemma OutBranch(st: State, line: string, ts: string, v: int)
    requires Strip(line) == line && !StartsWith(line, "IN:") && StartsWith(line, "OUT:")
    requires Split(line, "OUT: ") == ["", ts] && ParseTimecode(ts) == Ok(v)
    ensures StepLine(st, line) == Ok(st.(current := st.current.(end := Some(v))))
  {
  }

  /** Text that strips to a non-blank line not starting like a marker line
      sets the content to that line. */
  lemma ContentStep(st: State, t: string)
    requires ContentLine(Strip(t))
    ensures StepLine(st, t + "\n") == Ok(st.(current := st.current.(content := Some(Strip(t)))))
  {
    StepNewline(st, t);
  }

  /** `Duration: <n> seconds` emits the complete entry and starts afresh. */
  lemma DurationStep(st: State, num: string)
    requires Complete(st.current)
    ensures StepLine(st, "Duration: " + num + " seconds\n")
      == Ok(State(st.entries + [Entry(st.idx, st.current.start.value, st.current.end.value, st.current.content.value)], st.idx + 1, FRESH))
  {
    var line := "Duration: " + num + " seconds";
    assert "Duration: " + num + " seconds\n" == line + "\n";
    StepNewline(st, line);
    assert line[0] == 'D' && line[|line| - 1] == 's';
    StripOfStripped(line);
    assert line[..9] == "Duration:";
    DurationLine(st, line);
  }

  /** The blank line changes nothing. */
  lemma BlankStep(st: State)
    ensures StepLine(st, "\n") == Ok(st)
  {
    StripNewline("");
    assert "" + "\n" == "\n";
  }

  // ------------------------------------------------------------ one entry, then all

  /** Running from line `i` is one step, then running from line `i + 1`. */
  lemma RunStep(st: State, lines: seq<string>, i: nat, next: State)
    requires i < |lines| && StepLine(st, lines[i]) == Ok(next)
    ensures RunLines(st, lines[i..]) == RunLines(next, lines[i + 1..])
  {
    assert lines[i..][0] == lines[i];
    assert lines[i..][1..] == lines[i + 1..];
  }

  /** The six lines of an entry with timecodes, read from a fresh partial
      entry, emit the entry under the next number. */
  lemma LinesRun(entries: seq<Entry>, n: int, lines: seq<string>, num: string, tsA: string, tsB: string, t: string, dnum: string, a: int, b: int)
    requires |lines| == 6
    requires lines[0] == "Line " + num + ":\n" && lines[1] == "IN: " + tsA + "\n" && lines[2] == "OUT: " + tsB + "\n"
    requires lines[3] == t + "\n" && lines[4] == "Duration: " + dnum + " seconds\n" && lines[5] == "\n"
    requires ClockChars(tsA) && ParseTimecode(tsA) == Ok(a)
    requires ClockChars(tsB) && ParseTimecode(tsB) == Ok(b)
    requires ContentLine(Strip(t))
    ensures RunLines(State(entries, n, FRESH), lines) == Ok(State(entries + [Entry(n, a, b, Strip(t))], n + 1, FRESH))
  {
    HeadRun(entries, n, lines, num, tsA, tsB, t, a, b);
    TailRun(entries, n, a, b, Strip(t), lines, dnum);
  }

  /** The first four lines of an entry set start, end and text. */
  lemma HeadRun(entries: seq<Entry>, n: int, lines: seq<string>, num: string, tsA: string, tsB: string, t: string, a: int, b: int)
    requires |lines| == 6
    requires lines[0] == "Line " + num + ":\n" && lines[1] == "IN: " + tsA + "\n" && lines[2] == "OUT: " + tsB + "\n"
    requires lines[3] == t + "\n"
    requires ClockChars(tsA) && ParseTimecode(tsA) == Ok(a)
    requires ClockChars(tsB) && ParseTimecode(tsB) == Ok(b)
    requires ContentLine(Strip(t))
    ensures RunLines(State(entries, n, FRESH), lines) == RunLines(State(entries, n, Partial(Some(a), Some(b), Some(Strip(t)))), lines[4..])
  {
    var st := State(entries, n, FRESH);
    var st1 := st.(current := st.current.(start := Some(a)));
    var st2 := st1.(current := st1.current.(end := Some(b)));
    LabelRun(st, lines, num);
    InRun(st, lines, tsA, a);
    OutRun(st1, lines, tsB, b);
    ContentRun(st2, lines, t);
  }

  /** The last two lines of an entry emit it. */
  lemma TailRun(entries: seq<Entry>, n: int, a: int, b: int, c: string, lines: seq<string>, dnum: string)
    requires |lines| == 6
    requires lines[4] == "Duration: " + dnum + " seconds\n" && lines[5] == "\n"
    ensures RunLines(State(entries, n, Partial(Some(a), Some(b), Some(c))), lines[4..]) == Ok(State(entries + [Entry(n, a, b, c)], n + 1, FRESH))
  {
    DurationRun(State(entries, n, Partial(Some(a), Some(b), Some(c))), lines, dnum);
    BlankRun(State(entries + [Entry(n, a, b, c)], n + 1, FRESH), lines);
  }

  lemma LabelRun(st: State, lines: seq<string>, num: string)
    requires |lines| > 0 && lines[0] == "Line " + num + ":\n"
    ensures RunLines(st, lines) == RunLines(st, lines[1..])
  {
    LabelStep(st, num);
    RunStep(st, lines, 0, st);
    DropNone(lines);
  }

  lemma InRun(st: State, lines: seq<string>, ts: string, v: int)
    requires |lines| > 1 && lines[1] == "IN: " + ts + "\n"
    requires ClockChars(ts) && ParseTimecode(ts) == Ok(v)
    ensures RunLines(st, lines[1..]) == RunLines(st.(current := st.current.(start := Some(v))), lines[2..])
  {
    InStep(st, ts, v);
    RunStep(st, lines, 1, st.(current := st.current.(start := Some(v))));
  }

  lemma OutRun(st: State, lines: seq<string>, ts: string, v: int)
    requires |lines| > 2 && lines[2] == "OUT: " + ts + "\n"
    requires ClockChars(ts) && ParseTimecode(ts) == Ok(v)
    ensures RunLines(st, lines[2..]) == RunLines(st.(current := st.current.(end := Some(v))), lines[3..])
  {
    OutStep(st, ts, v);
    RunStep(st, lines, 2, st.(current := st.current.(end := Some(v))));
  }

  lemma ContentRun(st: State, lines: seq<string>, t: string)
    requires |lines| > 3 && lines[3] == t + "\n" && ContentLine(Strip(t))
    ensures RunLines(st, lines[3..]) == RunLines(st.(current := st.current.(content := Some(Strip(t)))), lines[4..])
  {
    ContentStep(st, t);
    RunStep(st, lines, 3, st.(current := st.current.(content := Some(Strip(t)))));
  }

  lemma DurationRun(st: State, lines: seq<string>, num: string)
    requires |lines| > 4 && lines[4] == "Duration: " + num + " seconds\n" && Complete(st.current)
    ensures RunLines(st, lines[4..])
      == RunLines(State(st.entries + [Entry(st.idx, st.current.start.value, st.current.end.value, st.current.content.value)], st.idx + 1, FRESH), lines[5..])
  {
    DurationStep(st, num);
    RunStep(st, lines, 4, State(st.entries + [Entry(st.idx, st.current.start.value, st.current.end.value, st.current.content.value)], st.idx + 1, FRESH));
  }

  lemma BlankRun(st: State, lines: seq<string>)
    requires |lines| == 6 && lines[5] == "\n"
    ensures RunLines(st, lines[5..]) == Ok(st)
  {
    BlankStep(st);
    RunStep(st, lines, 5, st);
    assert lines[6..] == [];
  }

  /** The six lines of one entry, read from a fresh partial entry, emit that
      entry under the next number. */
  lemma EntryRun(entries: seq<Entry>, n: nat, s: Subtitle)
    requires Readable(s)
    ensures RunLines(State(entries, n, FRESH), PlainEntry(n, s, true))
      == Ok(State(entries + [Entry(n, s.start / 1000, s.end / 1000, Strip(NormalizeMarker(s.content)))], n + 1, FRESH))
  {
    TimestampText(s.start);
    TimestampText(s.end);
    PlainEntryLines(n, s, true);
    LinesRun(entries, n, PlainEntry(n, s, true), IntStr(n), FormatTimestamp(s.start), FormatTimestamp(s.end),
      NormalizeMarker(s.content), IntStr(DurationSeconds(s)), s.start / 1000, s.end / 1000);
  }

  lemma DropNone<T>(s: seq<T>)
    ensures s[0..] == s
  {
  }

  lemma TakeAll<T>(s: seq<T>)
    ensures s[..|s|] == s
  {
  }

  lemma TakeSnoc<T>(s: seq<T>, j: nat)
    requires 0 < j <= |s|
    ensures s[..j] == s[..j - 1] + [s[j - 1]]
  {
  }

  /** The rebuilt subtitles of one more subtitle are one entry longer. */
  lemma ExpectedSnoc(subs: seq<Subtitle>, j: nat)
    requires 0 < j <= |subs|
    ensures Expected(subs[..j], 1) == Expected(subs[..j - 1], 1)
      + [Entry(j, subs[j - 1].start / 1000, subs[j - 1].end / 1000, Strip(NormalizeMarker(subs[j - 1].content)))]
  {
    var x, y := Expected(subs[..j], 1), Expected(subs[..j - 1], 1);
    forall k | 0 <= k < j - 1 ensures x[k] == y[k] {
      assert subs[..j][k] == subs[..j - 1][k];
    }
  }

  /** The first `j` entries of the script emit the first `j` subtitles. */
  lemma {:induction false} EntriesRun(subs: seq<Subtitle>, j: nat)
    requires j <= |subs|
    requires forall k :: 0 <= k < |subs| ==> Readable(subs[k])
    ensures RunLines(START, Flatten(PlainEntries(subs, true)[..j])) == Ok(State(Expected(subs[..j], 1), j + 1, FRESH))
    decreases j
  {
    var es := PlainEntries(subs, true);
    if j == 0 {
      assert es[..0] == [];
      assert Expected(subs[..0], 1) == [];
    } else {
      EntriesRun(subs, j - 1);
      TakeSnoc(es, j);
      FlattenSnoc(es[..j - 1], es[j - 1]);
      RunAppend(START, Flatten(es[..j - 1]), es[j - 1]);
      EntryRun(Expected(subs[..j - 1], 1), j, subs[j - 1]);
      ExpectedSnoc(subs, j);
    }
  }

  /** Every line of the script is one line as `readlines` returns it, and
      none holds a `\r`. */
  lemma ScriptLines(subs: seq<Subtitle>, timecodes: bool)
    requires forall k :: 0 <= k < |subs| ==> Readable(subs[k])
    ensures forall i :: 0 <= i < |Flatten(PlainEntries(subs, timecodes))| ==> OneLine(Flatten(PlainEntries(subs, timecodes))[i])
  {
    var es := PlainEntries(subs, timecodes);
    forall k | 0 <= k < |es|
      ensures forall j :: 0 <= j < |es[k]| ==> OneLine(es[k][j])
    {
      EntryOneLine(k + 1, subs[k], timecodes);
    }
    FlattenOneLine(es);
  }

  lemma FlattenOneLine(blocks: seq<seq<string>>)
    requires forall k, j :: 0 <= k < |blocks| && 0 <= j < |blocks[k]| ==> OneLine(blocks[k][j])
    ensures forall i :: 0 <= i < |Flatten(blocks)| ==> OneLine(Flatten(blocks)[i])
  {
    FlattenAll(blocks, OneLine);
  }

  /** A line as `readlines` returns it, without `\r`. */
  predicate OneLine(l: string) {
    IsLine(l) && NoChar(l, '\r')
  }

  /** Text without line breaks before a tail holding its only `\n` at the
      end is one line. */
  lemma LineOf(x: string, tail: string)
    requires NoBreak(x) && |tail| > 0 && tail[|tail| - 1] == '\n'
    requires NoChar(tail, '\r') && NoChar(tail[..|tail| - 1], '\n')
    ensures OneLine(x + tail)
  {
    var l := x + tail;
    forall i | 0 <= i < |l| - 1 ensures l[i] != '\n' {
      if i >= |x| { assert l[i] == tail[..|tail| - 1][i - |x|]; }
    }
    forall i | 0 <= i < |l| ensures l[i] != '\r' {
      if i >= |x| { assert l[i] == tail[i - |x|]; }
    }
  }

  /** The lines of one entry, timecodes or not. */
  lemma BlockOneLine(block: seq<string>, timecodes: bool, num: string, tsA: string, tsB: string, t: string, dnum: string)
    requires NoBreak(num) && NoBreak(tsA) && NoBreak(tsB) && NoBreak(t) && NoBreak(dnum)
    requires block == ["Line " + num + ":\n"]
      + (if timecodes then ["IN: " + tsA + "\n", "OUT: " + tsB + "\n"] else [])
      + [t + "\n", "Duration: " + dnum + " seconds\n", "\n"]
    ensures forall j :: 0 <= j < |block| ==> OneLine(block[j])
  {
    ConcatNoChar("Line ", num, '\n');
    ConcatNoChar("Line ", num, '\r');
    LineOf("Line " + num, ":\n");
    ConcatNoChar("IN: ", tsA, '\n');
    ConcatNoChar("IN: ", tsA, '\r');
    LineOf("IN: " + tsA, "\n");
    ConcatNoChar("OUT: ", tsB, '\n');
    ConcatNoChar("OUT: ", tsB, '\r');
    LineOf("OUT: " + tsB, "\n");
    LineOf(t, "\n");
    ConcatNoChar("Duration: ", dnum, '\n');
    ConcatNoChar("Duration: ", dnum, '\r');
    LineOf("Duration: " + dnum, " seconds\n");
    LineOf("", "\n");
    assert "" + "\n" == "\n";
  }

  lemma EntryOneLine(idx: nat, s: Subtitle, timecodes: bool)
    requires Readable(s)
    ensures forall j :: 0 <= j < |PlainEntry(idx, s, timecodes)| ==> OneLine(PlainEntry(idx, s, timecodes)[j])
  {
    IntStrOneLine(idx);
    IntStrOneLine(DurationSeconds(s));
    TimestampText(s.start);
    TimestampText(s.end);
    ClockNoChar(FormatTimestamp(s.start), '\n');
    ClockNoChar(FormatTimestamp(s.start), '\r');
    ClockNoChar(FormatTimestamp(s.end), '\n');
    ClockNoChar(FormatTimestamp(s.end), '\r');
    BlockOneLine(PlainEntry(idx, s, timecodes), timecodes, IntStr(idx), FormatTimestamp(s.start), FormatTimestamp(s.end),
      NormalizeMarker(s.content), IntStr(DurationSeconds(s)));
  }

  /** Pieces without `c` concatenate to text without `c`. */
  lemma {:induction false} ConcatNoCharAll(parts: seq<string>, c: char)
    requires forall i :: 0 <= i < |parts| ==> NoChar(parts[i], c)
    ensures NoChar(Concat(parts), c)
    decreases |parts|
  {
    if |parts| > 0 {
      ConcatNoCharAll(parts[1..], c);
      ConcatNoChar(parts[0], Concat(parts[1..]), c);
    }
  }

  // ------------------------------------------------------------ the round trip

  /** All entries of the script emit all subtitles. */
  lemma AllEntriesRun(subs: seq<Subtitle>)
    requires forall k :: 0 <= k < |subs| ==> Readable(subs[k])
    ensures RunLines(START, Flatten(PlainEntries(subs, true))) == Ok(State(Expected(subs, 1), |subs| + 1, FRESH))
  {
    EntriesRun(subs, |subs|);
    TakeAll(PlainEntries(subs, true));
    TakeAll(subs);
  }

  /** A run that ends in a state gives that state's entries. */
  lemma ProcessFrom(lines: seq<string>, st: State)
    requires RunLines(START, lines) == Ok(st)
    ensures ProcessLines(lines) == Ok(st.entries)
  {
  }

  /** `txt_to_srt.py` on the lines of the plain-text script with timecodes
      gives back the subtitles, numbered from 1, with whole-second times and
      the printed text stripped. */
  lemma ScriptReadsBack(subs: seq<Subtitle>)
    requires forall k :: 0 <= k < |subs| ==> Readable(subs[k])
    ensures ProcessLines(ReadLines(PlainText(subs, true))) == Ok(Expected(subs, 1))
  {
    PlainTextLines(subs, true);
    AllEntriesRun(subs);
    ProcessFrom(Flatten(PlainEntries(subs, true)), State(Expected(subs, 1), |subs| + 1, FRESH));
  }

  /** `readlines` on the script gives back the lines it was written as. */
  lemma PlainTextLines(subs: seq<Subtitle>, timecodes: bool)
    requires forall k :: 0 <= k < |subs| ==> Readable(subs[k])
    ensures ReadLines(PlainText(subs, timecodes)) == Flatten(PlainEntries(subs, timecodes))
  {
    var lines := Flatten(PlainEntries(subs, timecodes));
    ScriptLines(subs, timecodes);
    forall i | 0 <= i < |lines| ensures IsLine(lines[i]) {
      assert OneLine(lines[i]);
    }
    ReadLinesConcat(lines);
  }

  /** The script holds no `\r`. */
  lemma PlainTextNoCr(subs: seq<Subtitle>, timecodes: bool)
    requires forall k :: 0 <= k < |subs| ==> Readable(subs[k])
    ensures NoChar(PlainText(subs, timecodes), '\r')
  {
    var lines := Flatten(PlainEntries(subs, timecodes));
    ScriptLines(subs, timecodes);
    forall i | 0 <= i < |lines| ensures NoChar(lines[i], '\r') {
      assert OneLine(lines[i]);
    }
    ConcatNoCharAll(lines, '\r');
  }

  /** `txt_to_srt.py` given a script path and text that reads as subtitles
      writes them next to the script. */
  lemma TxtMainWrites(argv: seq<string>, text: string, entries: seq<Entry>)
    requires |argv| >= 2 && ProcessLines(ReadLines(ReadUniversal(text))) == Ok(entries)
    ensures TxtMain(argv, Some(text)) == Ok(WroteSrt(StripExt(argv[1]) + ".srt", entries))
  {
  }

  /** The `.txt` file the converter writes, given to `txt_to_srt.py` as
      its argument, is read back through the `\r\n` line ends into the same
      subtitles, and they go to the `.srt` file named after it. */
  lemma ConvertReadsBack(input: string, subs: seq<Subtitle>, prog: string)
    requires forall k :: 0 <= k < |subs| ==> Readable(subs[k])
    ensures var out := Convert(input, Some(subs), true, true).value;
      && out.path == StripExt(input) + ".txt"
      && ReadUniversal(out.text) == PlainText(subs, true)
      && TxtMain([prog, out.path], Some(out.text)) == Ok(WroteSrt(StripExt(out.path) + ".srt", Expected(subs, 1)))
  {
    var out := Convert(input, Some(subs), true, true).value;
    var text := WriteCrLf(PlainText(subs, true));
    assert out.text == text;
    PlainTextNoCr(subs, true);
    ReadWriteRoundTrip(PlainText(subs, true));
    ScriptReadsBack(subs);
    TxtMainWrites([prog, out.path], text, Expected(subs, 1));
  }
}

=== FILE: smpte.dfy ===
/** What the SMPTE converters share: frame rates as exact fractions, the
    four-field `{:02}` timecode text, and `re.split` on a class of single
    characters. */
module Smpte {
  import opened PyCore
  import opened PyText
  import opened SrtTime
  import opened NewlineIo

  /** A frame rate of exactly `num / den` frames per second. The scripts hold
      it in a float; here it is the fraction the float was read from. */
  datatype Rate = Rate(num: nat, den: pos)

  /** Fewer frames than the rate: `f` frames of `1 / rate` seconds fit in
      `a` parts of `1 / (unit * rate.den)` seconds, less than a second. */
  lemma BelowRate(f: nat, a: nat, unit: pos, rate: Rate)
    requires f * (unit * rate.den) <= a
    requires rate.num > 0 ==> a < unit * rate.num
    ensures rate.num > 0 ==> f * rate.den < rate.num
  {
    assert f * (unit * rate.den) == unit * (f * rate.den);
  }

  /** `f"{h:02}:{m:02}:{s:02}:{f:02}"` */
  function SmpteText(h: int, m: int, s: int, f: int): string {
    ZeroPad(h, 2) + ":" + ZeroPad(m, 2) + ":" + ZeroPad(s, 2) + ":" + ZeroPad(f, 2)
  }

  /** No character of `s` is in `cs`. */
  predicate NoneIn(s: string, cs: set<char>) {
    forall i :: 0 <= i < |s| ==> s[i] !in cs
  }

  /** `re.split('[...]', s)` for a class `cs` of single characters: the
      pieces between the characters of `cs`, one more piece than there are
      such characters. */
  function SplitAny(s: string, cs: set<char>): (parts: seq<string>)
    ensures |parts| >= 1
    decreases |s|
  {
    if |s| == 0 then [""]
    else
      var rest := SplitAny(s[1..], cs);
      if s[0] in cs then [""] + rest else [[s[0]] + rest[0]] + rest[1..]
  }

  /** Text without a character of the class is a single piece. */
  lemma {:induction false} SplitAnyNone(s: string, cs: set<char>)
    requires NoneIn(s, cs)
    ensures SplitAny(s, cs) == [s]
    decreases |s|
  {
    if |s| > 0 {
      SplitAnyNone(s[1..], cs);
      assert [s[0]] + s[1..] == s;
    }
  }

  /** A piece free of the class, then a character of the class, splits off
      that piece. */
  lemma {:induction false} SplitAnyCons(a: string, c: char, rest: string, cs: set<char>)
    requires NoneIn(a, cs) && c in cs
    ensures SplitAny(a + [c] + rest, cs) == [a] + SplitAny(rest, cs)
    decreases |a|
  {
    var s := a + [c] + rest;
    if |a| == 0 {
      assert s[1..] == rest;
    } else {
      assert s[1..] == a[1..] + [c] + rest;
      SplitAnyCons(a[1..], c, rest, cs);
      assert [a[0]] + a[1..] == a;
    }
  }

  /** No piece holds a character of the class. */
  lemma {:induction false} SplitAnyPieces(s: string, cs: set<char>)
    ensures forall i :: 0 <= i < |SplitAny(s, cs)| ==> NoneIn(SplitAny(s, cs)[i], cs)
    decreases |s|
  {
    if |s| > 0 {
      SplitAnyPieces(s[1..], cs);
      var rest := SplitAny(s[1..], cs);
      if s[0] !in cs {
        var p := [s[0]] + rest[0];
        assert NoneIn(rest[0], cs);
        assert NoneIn(p, cs) by {
          forall i | 0 <= i < |p| ensures p[i] !in cs {
            if i > 0 { assert p[i] == rest[0][i - 1]; }
          }
        }
        assert forall i :: 1 <= i < |SplitAny(s, cs)| ==> SplitAny(s, cs)[i] == rest[i];
      } else {
        assert forall i :: 1 <= i < |SplitAny(s, cs)| ==> SplitAny(s, cs)[i] == rest[i - 1];
      }
    }
  }

  /** A padded integer holds only digits and perhaps a leading minus sign. */
  lemma ZeroPadNoChar(n: int, width: nat, c: char)
    requires !IsDigitChar(c) && c != '-'
    ensures NoChar(ZeroPad(n, width), c)
  {
    if n >= 0 {
      ZeroFillValue(n, width);
    } else {
      ZeroFillValue(-n, width - 1);
      var f := ZeroFill(Decimal(-n), width - 1);
      DigitsNoChar(f, c);
      ConcatNoChar("-", f, c);
    }
  }

  lemma JoinFour(a: string, b: string, c: string, d: string, sep: string)
    ensures Join([a, b, c, d], sep) == a + sep + b + sep + c + sep + d
  {
    assert [a, b, c, d][1..] == [b, c, d];
    assert [b, c, d][1..] == [c, d];
    assert [c, d][1..] == [d];
    assert Join([c, d], sep) == c + sep + d;
    assert Join([b, c, d], sep) == b + sep + (c + sep + d);
    assert Join([a, b, c, d], sep) == a + sep + (b + sep + (c + sep + d));
  }

  /** Splitting a timecode at `:` and converting each piece with `int()`
      gives back the four numbers it was printed from. */
  lemma SmpteFieldsBack(h: int, m: int, s: int, f: int)
    ensures ParseAll(Split(SmpteText(h, m, s, f), ":")) == Ok([h, m, s, f])
  {
    var parts := [ZeroPad(h, 2), ZeroPad(m, 2), ZeroPad(s, 2), ZeroPad(f, 2)];
    JoinFour(parts[0], parts[1], parts[2], parts[3], ":");
    ZeroPadNoChar(h, 2, ':');
    ZeroPadNoChar(m, 2, ':');
    ZeroPadNoChar(s, 2, ':');
    ZeroPadNoChar(f, 2, ':');
    SplitOfJoin(parts, ":");
    ParseZeroPad(h, 2);
    ParseZeroPad(m, 2);
    ParseZeroPad(s, 2);
    ParseZeroPad(f, 2);
    ParseAllOk(parts, [h, m, s, f]);
  }
}

=== FILE: smpte_csv.dfy ===
/** srt_to_smpte.py: an SRT file becomes a CSV of line numbers, SMPTE
    timecodes at the video's frame rate, and one-line texts. The file checks,
    the frame rate read from the video and the CSV writer are not modelled;
    `strptime`, which turns an SRT time into a `timedelta`, is a parameter
    giving whole microseconds. */
module SmpteCsv {
  import opened PyCore
  import opened PyText
  import opened SrtTime
  import opened Smpte
  import opened NewlineIo

  const Million: pos := 1000000

  // ------------------------------------------------------------ timecodes

  /** The fields of `timedelta_to_smpte_timecode` (lines 14-19) for a delta
      of `us` microseconds: whole seconds split by `divmod` into hours (not
      wrapped at 24), minutes and seconds, and the whole frames that fit in
      the fraction of a second left over. */
  function SmpteFields(us: nat, rate: Rate): (fs: seq<nat>)
    ensures |fs| == 4
    ensures fs[1] < 60 && fs[2] < 60
    ensures fs[0] * 3600 + fs[1] * 60 + fs[2] == us / Million
    ensures fs[3] * (Million * rate.den) <= (us % Million) * rate.num < (fs[3] + 1) * (Million * rate.den)
    ensures rate.num > 0 ==> fs[3] * rate.den < rate.num
  {
    var total := us / Million;
    var a := (us % Million) * rate.num;
    var d := Million * rate.den;
    FractionBounds(us % Million, rate.num);
    var f := a / d;
    FloorBounds(a, d);
    BelowRate(f, a, Million, rate);
    ClockSplit(total);
    [total / 3600, total % 3600 / 60, total % 60, f]
  }

  /** `divmod` by 3600 and then by 60 takes a number of seconds apart. */
  lemma ClockSplit(total: nat)
    ensures total % 3600 / 60 < 60 && total % 60 < 60
    ensures (total / 3600) * 3600 + (total % 3600 / 60) * 60 + total % 60 == total
  {
    var r := total % 3600;
    assert total == (total / 3600) * 3600 + r;
    assert r == (r / 60) * 60 + r % 60;
    assert total % 60 == r % 60 by {
      assert total == (total / 3600) * 60 * 60 + r;
    }
  }

  lemma FractionBounds(x: nat, num: nat)
    requires x < Million
    ensures x * num <= Million * num
    ensures num > 0 ==> x * num < Million * num
  {
  }

  /** `timedelta_to_smpte_timecode` */
  function DeltaToSmpte(us: nat, rate: Rate): (r: string)
    ensures var fs := SmpteFields(us, rate);
      ParseAll(Split(r, ":")) == Ok([fs[0], fs[1], fs[2], fs[3]])
  {
    var fs := SmpteFields(us, rate);
    SmpteFieldsBack(fs[0], fs[1], fs[2], fs[3]);
    SmpteText(fs[0], fs[1], fs[2], fs[3])
  }

  /** Read back at `:`, a timecode gives its fields: the whole seconds of
      the delta and the whole frames of its fraction of a second, fewer than
      the frame rate. */
  lemma DeltaToSmpteBack(us: nat, rate: Rate)
    requires rate.num > 0
    ensures ParseAll(Split(DeltaToSmpte(us, rate), ":")).Ok?
    ensures var fs := ParseAll(Split(DeltaToSmpte(us, rate), ":")).value;
      && |fs| == 4 && 0 <= fs[1] < 60 && 0 <= fs[2] < 60 && 0 <= fs[3]
      && var secs := fs[0] * 3600 + fs[1] * 60 + fs[2];
      && secs * Million <= us < (secs + 1) * Million
      && fs[3] * (Million * rate.den) <= (us - secs * Million) * rate.num
      && (us - secs * Million) * rate.num < (fs[3] + 1) * (Million * rate.den)
      && fs[3] * rate.den < rate.num
  {
    var fs := SmpteFields(us, rate);
    SmpteFieldsBack(fs[0], fs[1], fs[2], fs[3]);
    assert us == (us / Million) * Million + us % Million;
  }

  // ------------------------------------------------------------ entries

  /** A CSV record: `Line Number`, `Timecode IN`, `Timecode OUT`, `Text`. */
  datatype CsvRow = CsvRow(number: string, tcIn: string, tcOut: string, text: string)

  /** One pass of the loop at lines 52-65, with `parse` standing for
      `str_to_timedelta`. An entry of fewer than three lines is skipped
      (`None`). The start time is parsed before the end time is looked up,
      so a time line without ` --> ` raises whatever `parse` raises on the
      whole line, or `IndexError` if that parses. */
  function EntryRow(entry: string, rate: Rate, parse: string -> Result<nat>): (r: Result<Option<CsvRow>>)
    ensures r.Ok? && r.value.Some? ==> |Split(entry, "\n")| >= 3
    ensures r.Ok? && r.value.None? <==> |Split(entry, "\n")| < 3
  {
    var lines := Split(entry, "\n");
    if |lines| < 3 then Ok(None)
    else
      var times := Split(lines[1], " --> ");
      var start :- parse(times[0]);
      if |times| < 2 then Raise(IndexError)
      else
        var end :- parse(times[1]);
        var text := ReplaceChar(Join(lines[2..], " "), '\n', ' ');
        Ok(Some(CsvRow(lines[0], DeltaToSmpte(start, rate), DeltaToSmpte(end, rate), text)))
  }

  /** The lines after the time line, joined by spaces, already hold no line
      break: the `.replace('\n', ' ')` of line 59 changes nothing. */
  lemma JoinedTextUnchanged(entry: string)
    requires |Split(entry, "\n")| >= 3
    ensures var rest := Split(entry, "\n")[2..];
      ReplaceChar(Join(rest, " "), '\n', ' ') == Join(rest, " ")
  {
    var lines := Split(entry, "\n");
    SplitJoin(entry, "\n");
    forall i | 0 <= i < |lines[2..]|
      ensures NoChar(lines[2..][i], '\n')
    {
      assert lines[2..][i] == lines[i + 2];
      NotContainsNoBreak(lines[i + 2]);
    }
    JoinNoChar(lines[2..], " ", '\n');
  }

  lemma NotContainsNoBreak(s: string)
    requires !Contains(s, "\n")
    ensures NoChar(s, '\n')
  {
    forall i | 0 <= i < |s|
      ensures s[i] != '\n'
    {
      assert !Occurs(s, "\n", i);
      assert s[i..i + 1] == [s[i]];
    }
  }

  lemma {:induction false} JoinNoChar(parts: seq<string>, sep: string, c: char)
    requires NoChar(sep, c)
    requires forall i :: 0 <= i < |parts| ==> NoChar(parts[i], c)
    ensures NoChar(Join(parts, sep), c)
    decreases |parts|
  {
    if |parts| > 1 {
      JoinNoChar(parts[1..], sep, c);
      ConcatNoChar(parts[0], sep, c);
      ConcatNoChar(parts[0] + sep, Join(parts[1..], sep), c);
    }
  }

  /** An SRT entry as it is written: the number, `start --> end`, and at
      least one line of text. */
  function EntryText(number: string, start: string, end: string, lines: seq<string>): string {
    Join([number, start + " --> " + end] + lines, "\n")
  }

  /** A written entry whose times `parse` accepts gives back its number, the
      timecodes of its times, and its text lines joined by spaces. */
  lemma EntryRowOfText(number: string, start: string, end: string, lines: seq<string>, rate: Rate,
                       parse: string -> Result<nat>)
    requires |lines| >= 1
    requires NoChar(number, '\n') && NoChar(start, '\n') && NoChar(end, '\n')
    requires forall i :: 0 <= i < |lines| ==> NoChar(lines[i], '\n')
    requires NoChar(start, ' ') && !Contains(end, " --> ")
    requires parse(start).Ok? && parse(end).Ok?
    ensures EntryRow(EntryText(number, start, end, lines), rate, parse)
         == Ok(Some(CsvRow(number, DeltaToSmpte(parse(start).value, rate), DeltaToSmpte(parse(end).value, rate),
                           Join(lines, " "))))
  {
    var entry := EntryText(number, start, end, lines);
    EntryLines(number, start, end, lines);
    SplitPair(start, " --> ", end);
    JoinedTextUnchanged(entry);
  }

  /** A written entry splits back into its lines. */
  lemma EntryLines(number: string, start: string, end: string, lines: seq<string>)
    requires NoChar(number, '\n') && NoChar(start, '\n') && NoChar(end, '\n')
    requires forall i :: 0 <= i < |lines| ==> NoChar(lines[i], '\n')
    ensures Split(EntryText(number, start, end, lines), "\n") == [number, start + " --> " + end] + lines
  {
    var parts := [number, start + " --> " + end] + lines;
    ConcatNoChar(start, " --> ", '\n');
    ConcatNoChar(start + " --> ", end, '\n');
    forall i | 0 <= i < |parts|
      ensures NoChar(parts[i], '\n')
    {
      if i >= 2 { assert parts[i] == lines[i - 2]; }
    }
    SplitOfJoin(parts, "\n");
  }

  // ------------------------------------------------------------ the file

  /** The rows of the entries in order, skipping the short ones; the first
      entry that raises ends the conversion. */
  function CollectRows(entries: seq<string>, rate: Rate, parse: string -> Result<nat>): (r: Result<seq<CsvRow>>)
    ensures r.Ok? ==> |r.value| <= |entries|
    decreases |entries|
  {
    if |entries| == 0 then Ok([])
    else
      var row :- EntryRow(entries[0], rate, parse);
      var rest :- CollectRows(entries[1..], rate, parse);
      Ok((if row.Some? then [row.value] else []) + rest)
  }

  /** The entries of three lines or more, in order. */
  function LongEntries(entries: seq<string>): (r: seq<string>)
    ensures |r| <= |entries|
    ensures forall k :: 0 <= k < |r| ==> |Split(r[k], "\n")| >= 3
    decreases |entries|
  {
    if |entries| == 0 then []
    else (if |Split(entries[0], "\n")| >= 3 then [entries[0]] else []) + LongEntries(entries[1..])
  }

  /** A successful conversion has one row per long entry, in order, each
      carrying the entry's first line as its number and the rest after the
      time line as its text. */
  lemma {:induction false} CollectRowsSpec(entries: seq<string>, rate: Rate, parse: string -> Result<nat>)
    requires CollectRows(entries, rate, parse).Ok?
    ensures var rows := CollectRows(entries, rate, parse).value;
      var long := LongEntries(entries);
      && |rows| == |long|
      && forall k :: 0 <= k < |rows| ==>
           rows[k].number == Split(long[k], "\n")[0] && rows[k].text == Join(Split(long[k], "\n")[2..], " ")
    decreases |entries|
  {
    if |entries| > 0 {
      CollectRowsSpec(entries[1..], rate, parse);
      if |Split(entries[0], "\n")| >= 3 {
        JoinedTextUnchanged(entries[0]);
      }
    }
  }

  /** A failure in one entry is a failure of the whole file: nothing is
      written. */
  lemma {:induction false} CollectRowsRaises(entries: seq<string>, k: nat, rate: Rate, parse: string -> Result<nat>)
    requires k < |entries| && EntryRow(entries[k], rate, parse).Raise?
    ensures CollectRows(entries, rate, parse).Raise?
    decreases k
  {
    if k > 0 {
      CollectRowsRaises(entries[1..], k - 1, rate, parse);
    }
  }

  /** `srt_file_path.replace('.srt', '.csv')` (line 40): every `.srt`, not
      only the extension, becomes `.csv`. */
  function CsvPath(srtPath: string): string {
    Replace(srtPath, ".srt", ".csv")
  }

  /** A path without `.srt` is its own CSV path, so the CSV overwrites the
      input. */
  lemma CsvPathAbsent(p: string)
    requires !Contains(p, ".srt")
    ensures CsvPath(p) == p
  {
    ReplaceAbsent(p, ".srt", ".csv");
  }

  /** A path whose only `.srt` is its extension gets the extension `.csv`. */
  lemma CsvPathOfSrt(stem: string)
    requires !Contains(stem, ".srt")
    ensures CsvPath(stem + ".srt") == stem + ".csv"
  {
    var s := stem + ".srt";
    assert Occurs(s, ".srt", |stem|) by { assert s[|stem|..] == ".srt"; }
    forall j | 0 <= j < |stem|
      ensures !Occurs(s, ".srt", j)
    {
      if j + 4 <= |stem| {
        assert s[j..j + 4] == stem[j..j + 4];
        assert !Occurs(stem, ".srt", j);
      } else {
        assert s[|stem|] == '.';
        assert ".srt"[|stem| - j] != '.';
      }
    }
    IndexOfSpec(s, ".srt");
    assert IndexOf(s, ".srt") == Some(|stem|);
    assert s[..|stem|] == stem;
    assert s[|stem| + 4..] == "";
    assert Split("", ".srt") == [""];
    assert Split(s, ".srt") == [stem, ""];
    assert Join([stem, ""], ".csv") == stem + ".csv" + "";
  }

  /** What `convert_srt_to_csv` writes: the CSV path and its rows. */
  datatype CsvFile = CsvFile(path: string, rows: seq<CsvRow>)

  /** `convert_srt_to_csv` (lines 31-71) from the point the SRT text and the
      frame rate are known: the stripped text is split at blank lines and
      every entry converted. Any exception in the loop ends the script with
      status 1 before the CSV is written (`Raise`). */
  function ConvertSrtToCsv(srtPath: string, content: string, rate: Rate, parse: string -> Result<nat>): (r: Result<CsvFile>)
    ensures r.Ok? <==> CollectRows(Split(Strip(content), "\n\n"), rate, parse).Ok?
    ensures r.Ok? ==> r.value.path == CsvPath(srtPath)
    ensures r.Ok? ==> |r.value.rows| == |LongEntries(Split(Strip(content), "\n\n"))|
  {
    var entries := Split(Strip(content), "\n\n");
    var rows :- CollectRows(entries, rate, parse);
    CollectRowsSpec(entries, rate, parse);
    Ok(CsvFile(CsvPath(srtPath), rows))
  }
}

=== FILE: srt_blocks.dfy ===
/** The subtitle-block pattern shared by srt_to_xls.py and
    converters/srt_to_studioscript.py, applied with `re.findall` and
    `re.DOTALL`:
    `(\d+)\n(\d{2}:\d{2}:\d{2},\d{3}) --> (\d{2}:\d{2}:\d{2},\d{3})\n(.*?)\n\n`.
    A block is a number, two timestamps, and the text up to the first blank
    line; a last block with no blank line after it is not found. */
module SrtBlocks {
  import opened PyCore
  import opened PyText
  import opened SrtTime

  /** The four groups of one match. */
  datatype Block = Block(number: string, start: string, end: string, text: string)

  /** The length of the run of digits `\d+` takes at the front of `s`:
      `\d+` is greedy, and giving a digit back cannot help, since a line
      break must follow. */
  function DigitRun(s: string): (n: nat)
    ensures n <= |s|
    ensures forall i :: 0 <= i < n ==> IsDigitChar(s[i])
    ensures n < |s| ==> !IsDigitChar(s[n])
    decreases |s|
  {
    if |s| > 0 && IsDigitChar(s[0]) then 1 + DigitRun(s[1..]) else 0
  }

  /** `\d{2}:\d{2}:\d{2},\d{3}` */
  predicate IsTimestamp(t: string) {
    && |t| == 12
    && IsDigitChar(t[0]) && IsDigitChar(t[1]) && t[2] == ':'
    && IsDigitChar(t[3]) && IsDigitChar(t[4]) && t[5] == ':'
    && IsDigitChar(t[6]) && IsDigitChar(t[7]) && t[8] == ','
    && IsDigitChar(t[9]) && IsDigitChar(t[10]) && IsDigitChar(t[11])
  }

  /** The pattern tried at the start of `s`: the groups and the length of
      the match. After the second timestamp's line break, the lazy `(.*?)`
      (which may cross line breaks) stops at the first `\n\n`. */
  function MatchHere(s: string): (r: Option<(Block, nat)>)
    ensures r.Some? ==> 0 < r.value.1 <= |s|
  {
    var d := DigitRun(s);
    if d == 0 || d + 31 > |s| || s[d] != '\n' then None
    else
      var p := d + 1;
      var a, b := s[p..p + 12], s[p + 17..p + 29];
      if !IsTimestamp(a) || s[p + 12..p + 17] != " --> " || !IsTimestamp(b) || s[p + 29] != '\n' then None
      else
        match FindFrom(s, "\n\n", p + 30)
        case None => None
        case Some(k) => Some((Block(s[..d], a, b, s[p + 30..k]), k + 2))
  }

  /** `pattern.findall(s)`: the pattern is tried at each position in turn;
      after a match the scan resumes where the match ended. The pattern only
      looks forward, so trying it at a position is trying it on the rest of
      the text. */
  function FindAll(s: string): (blocks: seq<Block>)
    decreases |s|
  {
    if |s| == 0 then []
    else
      match MatchHere(s)
      case Some((b, e)) => [b] + FindAll(s[e..])
      case None => FindAll(s[1..])
  }

  // ------------------------------------------------------------ writing blocks

  /** A block as an SRT file holds it, blank line included. */
  function Render(b: Block): string {
    b.number + "\n" + b.start + " --> " + b.end + "\n" + b.text + "\n\n"
  }

  function RenderAll(blocks: seq<Block>): string
    decreases |blocks|
  {
    if |blocks| == 0 then "" else Render(blocks[0]) + RenderAll(blocks[1..])
  }

  /** The blocks the pattern gives back as they were written: a number of
      digits, two timestamps of the pattern's shape, and text with no blank
      line inside it and no line break at its end. */
  predicate WellFormed(b: Block) {
    IsDigits(b.number) && IsTimestamp(b.start) && IsTimestamp(b.end) && !Contains(b.text + "\n", "\n\n")
  }

  lemma {:induction false} DigitRunAt(x: string, y: string)
    requires forall i :: 0 <= i < |x| ==> IsDigitChar(x[i])
    requires |y| > 0 && !IsDigitChar(y[0])
    ensures DigitRun(x + y) == |x|
    decreases |x|
  {
    if |x| > 0 {
      assert (x + y)[1..] == x[1..] + y;
      DigitRunAt(x[1..], y);
    } else {
      assert x + y == y;
    }
  }

  /** The first `\n\n` at or after `from` is at `k` when one is at `k` and
      none starts in between. */
  lemma FindFromAt(s: string, sep: string, from: nat, k: nat)
    requires from <= k && Occurs(s, sep, k)
    requires forall j :: from <= j < k ==> !Occurs(s, sep, j)
    ensures FindFrom(s, sep, from) == Some(k)
  {
    FindFromSpec(s, sep, from);
  }

  /** In `text + "\n\n" + rest`, the first `\n\n` is the one written after
      the text. */
  lemma BlankAfterText(pre: string, text: string, rest: string)
    requires !Contains(text + "\n", "\n\n")
    ensures FindFrom(pre + text + "\n\n" + rest, "\n\n", |pre|) == Some(|pre| + |text|)
  {
    var s := pre + text + "\n\n" + rest;
    var t := text + "\n";
    assert Occurs(s, "\n\n", |pre| + |text|) by {
      assert s[|pre| + |text|..|pre| + |text| + 2] == "\n\n";
    }
    forall j | |pre| <= j < |pre| + |text|
      ensures !Occurs(s, "\n\n", j)
    {
      var q := j - |pre|;
      assert s[j] == t[q] && s[j + 1] == t[q + 1];
      assert !Occurs(t, "\n\n", q);
      assert t[q..q + 2] == [t[q], t[q + 1]];
      assert s[j..j + 2] == [s[j], s[j + 1]];
    }
    FindFromAt(s, "\n\n", |pre|, |pre| + |text|);
  }

  /** The pattern at the start of `s`, read off position by position: the
      digits end at `d`, the line break, the two timestamps around the arrow,
      the second line break, and the first blank line at `k`. */
  lemma MatchHereAt(s: string, d: nat, k: nat)
    requires 0 < d && d + 31 <= |s| && DigitRun(s) == d && s[d] == '\n'
    requires IsTimestamp(s[d + 1..d + 13]) && s[d + 13..d + 18] == " --> "
    requires IsTimestamp(s[d + 18..d + 30]) && s[d + 30] == '\n'
    requires FindFrom(s, "\n\n", d + 31) == Some(k)
    ensures MatchHere(s) == Some((Block(s[..d], s[d + 1..d + 13], s[d + 18..d + 30], s[d + 31..k]), k + 2))
  {
  }

  /** `y` read back out of `x + y + z`. */
  lemma SliceOf(x: string, y: string, z: string)
    ensures (x + y + z)[|x|..|x| + |y|] == y
  {
  }

  /** Where the number, the two timestamps and the arrow sit in a written
      block. */
  lemma RenderHead(b: Block, rest: string)
    requires |b.start| == 12 && |b.end| == 12
    ensures var s, d := Render(b) + rest, |b.number|;
      && d + 31 <= |s| && s[..d] == b.number && s[d] == '\n'
      && s[d + 1..d + 13] == b.start && s[d + 13..d + 18] == " --> "
      && s[d + 18..d + 30] == b.end && s[d + 30] == '\n'
  {
    var s := Render(b) + rest;
    var tail := b.text + "\n\n" + rest;
    assert s == b.number + "\n" + b.start + " --> " + b.end + "\n" + tail;
    HeadPieces(b.number, b.start, b.end, tail);
  }

  /** The pieces of a block's first two lines, read back by position. */
  lemma HeadPieces(n: string, a: string, e: string, tail: string)
    requires |a| == 12 && |e| == 12
    ensures var s, d := n + "\n" + a + " --> " + e + "\n" + tail, |n|;
      && d + 31 <= |s| && s[..d] == n && s[d] == '\n'
      && s[d + 1..d + 13] == a && s[d + 13..d + 18] == " --> "
      && s[d + 18..d + 30] == e && s[d + 30] == '\n'
  {
    var s := n + "\n" + a + " --> " + e + "\n" + tail;
    var d := |n|;
    var x1 := n + "\n";
    var x2 := x1 + a;
    var x3 := x2 + " --> ";
    assert s[..d] == n && s[d] == '\n' by {
      assert s == x1 + a + (" --> " + e + "\n" + tail);
    }
    assert s[d + 1..d + 13] == a by {
      SliceOf(x1, a, " --> " + e + "\n" + tail);
      assert s == x1 + a + (" --> " + e + "\n" + tail);
    }
    assert s[d + 13..d + 18] == " --> " by {
      SliceOf(x2, " --> ", e + "\n" + tail);
      assert s == x2 + " --> " + (e + "\n" + tail);
    }
    assert s[d + 18..d + 30] == e && s[d + 30] == '\n' by {
      SliceOf(x3, e, "\n" + tail);
      assert s == x3 + e + ("\n" + tail);
    }
  }

  /** The number's digits end at the line break after it. */
  lemma RenderDigits(b: Block, rest: string)
    requires WellFormed(b)
    ensures DigitRun(Render(b) + rest) == |b.number|
  {
    var tail := "\n" + b.start + " --> " + b.end + "\n" + b.text + "\n\n" + rest;
    assert Render(b) + rest == b.number + tail;
    DigitRunAt(b.number, tail);
  }

  /** Where the text and the blank line after it sit in a written block. */
  lemma RenderText(b: Block, rest: string)
    requires WellFormed(b)
    ensures var s, t := Render(b) + rest, |b.number| + 31;
      && t + |b.text| + 2 == |Render(b)|
      && FindFrom(s, "\n\n", t) == Some(t + |b.text|) && s[t..t + |b.text|] == b.text
  {
    var s := Render(b) + rest;
    var pre := b.number + "\n" + b.start + " --> " + b.end + "\n";
    assert |pre| == |b.number| + 31;
    assert s == pre + b.text + "\n\n" + rest;
    BlankAfterText(pre, b.text, rest);
    SliceOf(pre, b.text, "\n\n" + rest);
    assert s == pre + b.text + ("\n\n" + rest);
  }

  /** A written block is matched at its start, whole, with its own groups. */
  lemma MatchRender(b: Block, rest: string)
    requires WellFormed(b)
    ensures MatchHere(Render(b) + rest) == Some((b, |Render(b)|))
  {
    var s, d := Render(b) + rest, |b.number|;
    var k := d + 31 + |b.text|;
    RenderDigits(b, rest);
    RenderHead(b, rest);
    RenderText(b, rest);
    MatchHereAt(s, d, k);
    assert Block(s[..d], s[d + 1..d + 13], s[d + 18..d + 30], s[d + 31..k]) == b;
  }

  /** After a written block the scan resumes right behind it. */
  lemma FindAllPastRender(b: Block, rest: string)
    requires WellFormed(b)
    ensures FindAll(Render(b) + rest) == [b] + FindAll(rest)
  {
    var s := Render(b) + rest;
    MatchRender(b, rest);
    assert s[|Render(b)|..] == rest;
  }

  /** Reading written blocks back finds exactly those blocks, in order. */
  lemma {:induction false} FindAllRendered(blocks: seq<Block>)
    requires forall k :: 0 <= k < |blocks| ==> WellFormed(blocks[k])
    ensures FindAll(RenderAll(blocks)) == blocks
    decreases |blocks|
  {
    if |blocks| > 0 {
      var b, tail := blocks[0], blocks[1..];
      assert RenderAll(blocks) == Render(b) + RenderAll(tail);
      FindAllPastRender(b, RenderAll(tail));
      FindAllRendered(tail);
      assert blocks == [b] + tail;
    }
  }

  // ------------------------------------------------------------ what is found

  /** Text cut off before the first `\n\n` after `from` holds no blank
      line, not even one made with a line break added at its end. */
  lemma BeforeFirstBlank(s: string, from: nat, k: nat)
    requires from <= |s| && FindFrom(s, "\n\n", from) == Some(k)
    ensures !Contains(s[from..k] + "\n", "\n\n")
  {
    assert Occurs(s, "\n\n", k) by { FindFromSpec(s, "\n\n", from); }
    var t := s[from..k];
    forall q | 0 <= q <= |t + "\n"| && Occurs(t + "\n", "\n\n", q)
      ensures from + q < k && Occurs(s, "\n\n", from + q)
    {
      assert (t + "\n")[q] == s[from + q] && (t + "\n")[q + 1] == s[from + q + 1];
      assert s[from + q..from + q + 2] == "\n\n";
    }
    FindFromSpec(s, "\n\n", from);
  }

  /** Every block found has the pattern's shape: a run of digits, two
      timestamps, and text with no blank line inside it and none at its
      end. */
  lemma MatchShape(s: string)
    requires MatchHere(s).Some?
    ensures WellFormed(MatchHere(s).value.0)
  {
    var d := DigitRun(s);
    var k := FindFrom(s, "\n\n", d + 31).value;
    assert MatchHere(s).value.0 == Block(s[..d], s[d + 1..d + 13], s[d + 18..d + 30], s[d + 31..k]);
    BeforeFirstBlank(s, d + 31, k);
  }

  lemma {:induction false} FindAllShape(s: string)
    ensures AllWellFormed(FindAll(s))
    decreases |s|
  {
    if |s| > 0 {
      match MatchHere(s)
      case Some((b, e)) =>
        MatchShape(s);
        FindAllShape(s[e..]);
        assert FindAll(s) == [b] + FindAll(s[e..]);
        WellFormedCons(b, FindAll(s[e..]));
      case None =>
        FindAllShape(s[1..]);
    }
  }

  predicate AllWellFormed(blocks: seq<Block>) {
    forall k :: 0 <= k < |blocks| ==> WellFormed(blocks[k])
  }

  lemma WellFormedCons(b: Block, blocks: seq<Block>)
    requires WellFormed(b) && AllWellFormed(blocks)
    ensures AllWellFormed([b] + blocks)
  {
    forall k | 0 < k < |[b] + blocks| ensures ([b] + blocks)[k] == blocks[k - 1] { }
  }

  /** A final block with no blank line after its text is not found: text
      without `\n\n` after a timestamp line yields no match there. */
  lemma NoBlankNoMatch(s: string)
    requires !Contains(s, "\n\n")
    ensures MatchHere(s).None?
  {
    var d := DigitRun(s);
    if d > 0 && d + 31 <= |s| {
      FindFromSpec(s, "\n\n", d + 31);
    }
  }
}

=== FILE: srt_time.dfy ===
/** SRT timestamps `HH:MM:SS,mmm`: the reader `time_to_seconds` /
    `time_to_sample` of converters/srt2regions.py and the writer `format_time`
    of the two WAV extractors. Times are exact: whole milliseconds, and sample
    positions derived from them by truncation toward zero. */
module SrtTime {
  import opened PyCore
  import opened PyText

  /** `list(map(int, parts))`: the first part `int()` rejects raises. */
  function ParseAll(parts: seq<string>): (r: Result<seq<int>>)
    ensures r.Ok? ==> |r.value| == |parts|
    ensures r.Raise? ==> r.exc == ValueError
  {
    if |parts| == 0 then Ok([])
    else
      var v :- ParseInt(parts[0]);
      var vs :- ParseAll(parts[1..]);
      Ok([v] + vs)
  }

  lemma ParseAllCons(parts: seq<string>, v: int, vs: seq<int>)
    requires |parts| > 0 && ParseInt(parts[0]) == Ok(v) && ParseAll(parts[1..]) == Ok(vs)
    ensures ParseAll(parts) == Ok([v] + vs)
  {
  }

  /** `ParseAll` succeeds with the values of the parts when each part
      converts. */
  lemma {:induction false} ParseAllOk(parts: seq<string>, values: seq<int>)
    requires |parts| == |values|
    requires forall i :: 0 <= i < |parts| ==> ParseInt(parts[i]) == Ok(values[i])
    ensures ParseAll(parts) == Ok(values)
  {
    if |parts| > 0 {
      ParseAllOk(parts[1..], values[1..]);
      ParseAllCons(parts, values[0], values[1..]);
      assert values == [values[0]] + values[1..];
    }
  }

  lemma ParseThree(a: string, b: string, c: string, x: int, y: int, z: int)
    requires ParseInt(a) == Ok(x) && ParseInt(b) == Ok(y) && ParseInt(c) == Ok(z)
    ensures ParseAll([a, b, c]) == Ok([x, y, z])
  {
    assert [c][1..] == [];
    assert ParseAll([c][1..]) == Ok([]);
    ParseAllCons([c], z, []);
    assert [z] + [] == [z];
    assert [b, c][1..] == [c];
    ParseAllCons([b, c], y, [z]);
    assert [y] + [z] == [y, z];
    assert [a, b, c][1..] == [b, c];
    ParseAllCons([a, b, c], x, [y, z]);
    assert [x] + [y, z] == [x, y, z];
  }

  /** `time_to_seconds`, in milliseconds: the stripped text must split on
      `,` into exactly two parts; every failure is a `ValueError`. */
  function TimeToMs(ts: string): (r: Result<int>)
    ensures r.Raise? ==> r.exc == ValueError
  {
    var parts := Split(Strip(ts), ",");
    if |parts| != 2 then Raise(ValueError) else ClockToMs(parts[0], parts[1])
  }

  /** `h, m, s = map(int, hms.split(':'))` needs exactly three convertible
      parts, then `int(ms)`; the result is the weighted sum. */
  function ClockToMs(hms: string, frac: string): (r: Result<int>)
    ensures r.Raise? ==> r.exc == ValueError
  {
    var clock :- ParseAll(Split(hms, ":"));
    if |clock| != 3 then Raise(ValueError)
    else
      var ms :- ParseInt(frac);
      Ok(clock[0] * 3_600_000 + clock[1] * 60_000 + clock[2] * 1000 + ms)
  }

  lemma TimeToMsParts(ts: string, hms: string, frac: string)
    requires Split(Strip(ts), ",") == [hms, frac]
    ensures TimeToMs(ts) == ClockToMs(hms, frac)
  {
  }

  lemma ClockToMsValues(hms: string, frac: string, h: int, m: int, s: int, ms: int)
    requires ParseAll(Split(hms, ":")) == Ok([h, m, s])
    requires ParseInt(frac) == Ok(ms)
    ensures ClockToMs(hms, frac) == Ok(h * 3_600_000 + m * 60_000 + s * 1000 + ms)
  {
  }

  /** `time_to_sample`: the sample position of a timestamp. */
  function TimeToSample(ts: string, rate: int): (r: Result<int>)
    ensures r.Ok? <==> TimeToMs(ts).Ok?
    ensures r.Raise? ==> r.exc == ValueError
    ensures r.Ok? ==> r.value == MsToSample(TimeToMs(ts).value, rate)
  {
    var ms :- TimeToMs(ts);
    Ok(MsToSample(ms, rate))
  }

  /** `int(seconds * rate)` for a time in milliseconds: the exact product,
      truncated toward zero. */
  function MsToSample(ms: int, rate: int): (n: int)
    ensures ms * rate >= 0 ==> n >= 0
    ensures ms * rate <= 0 ==> n <= 0
    ensures -1000 < ms * rate - n * 1000 < 1000
  {
    TruncDiv(ms * rate, 1000)
  }

  /** The sample position is `ms * rate / 1000` truncated toward zero. */
  lemma MsToSampleBounds(ms: int, rate: int)
    ensures var n := MsToSample(ms, rate);
      && (ms * rate >= 0 ==> n * 1000 <= ms * rate < (n + 1) * 1000)
      && (ms * rate < 0 ==> (n - 1) * 1000 < ms * rate <= n * 1000)
  {
  }

  /** `format_time`, on a time in whole milliseconds: zero-padded hours (not
      wrapped at 24), minutes, seconds and milliseconds. */
  function FormatTime(ms: nat): (r: string)
    ensures |r| >= 12
  {
    FormatFields(ms / 3_600_000, ms / 60_000 % 60, ms / 1000 % 60, ms % 1000)
  }

  function FormatFields(h: nat, m: nat, s: nat, f: nat): (r: string)
    ensures |r| >= 12
  {
    Timestamp(ZeroPad(h, 2), ZeroPad(m, 2), ZeroPad(s, 2), ZeroPad(f, 3))
  }

  /** A sample position as whole milliseconds at `rate` samples per second:
      the exact value of `sample / rate` seconds, truncated to the millisecond
      that `format_time` prints. */
  function SampleMs(sample: nat, rate: pos): (ms: nat)
    ensures ms * rate <= sample * 1000 < (ms + 1) * rate
  {
    sample * 1000 / rate
  }

  /** The milliseconds are `sample * 1000 / rate` rounded down. */
  lemma SampleMsBounds(sample: nat, rate: pos)
    ensures var ms := SampleMs(sample, rate);
      ms * rate <= sample * 1000 < (ms + 1) * rate
  {
  }

  /** Multiplying by a positive rate keeps a strict order, so the order of
      two products is the order of their factors. */
  lemma MulLtCancel(x: int, y: int, rate: pos)
    requires x * rate < y * rate
    ensures x < y
  {
  }

  /** Integer division is pinned down by the bounds it satisfies. */
  lemma DivUnique(x: nat, rate: pos, n: nat)
    requires n * rate <= x < (n + 1) * rate
    ensures x / rate == n
  {
    var q := x / rate;
    assert q * rate <= x < (q + 1) * rate;
    MulLtCancel(n, q + 1, rate);
    MulLtCancel(q, n + 1, rate);
  }

  /** Later samples never print as earlier milliseconds. */
  lemma SampleMsMonotone(a: nat, b: nat, rate: pos)
    requires a <= b
    ensures SampleMs(a, rate) <= SampleMs(b, rate)
  {
    SampleMsBounds(a, rate);
    SampleMsBounds(b, rate);
    MulLtCancel(SampleMs(a, rate), SampleMs(b, rate) + 1, rate);
  }

  /** Adding `seconds * rate` samples adds exactly `seconds` seconds of
      milliseconds. */
  lemma SampleMsShift(sample: nat, seconds: nat, rate: pos)
    ensures SampleMs(sample + rate * seconds, rate) == SampleMs(sample, rate) + 1000 * seconds
  {
    var ms := SampleMs(sample, rate);
    SampleMsBounds(sample, rate);
    var x := (sample + rate * seconds) * 1000;
    assert x == sample * 1000 + (1000 * seconds) * rate;
    assert (ms + 1000 * seconds) * rate == ms * rate + (1000 * seconds) * rate;
    assert (ms + 1000 * seconds + 1) * rate == (ms + 1) * rate + (1000 * seconds) * rate;
    DivUnique(x, rate, ms + 1000 * seconds);
  }

  /** The four fields `format_time` prints recombine to the time, and each
      field but the hours is within its range. */
  lemma FieldsRecombine(ms: nat)
    ensures ms / 60_000 % 60 < 60 && ms / 1000 % 60 < 60 && ms % 1000 < 1000
    ensures (ms / 3_600_000) * 3_600_000 + (ms / 60_000 % 60) * 60_000
            + (ms / 1000 % 60) * 1000 + ms % 1000 == ms
  {
    var sec := ms / 1000;
    var min := sec / 60;
    assert ms == sec * 1000 + ms % 1000;
    assert sec == min * 60 + sec % 60;
    assert ms / 60_000 == min;
    assert min == (min / 60) * 60 + min % 60;
    assert ms / 3_600_000 == min / 60;
  }

  /** The text `hh:mm:ss,fff` built from four fields. */
  function Timestamp(hh: string, mm: string, ss: string, fff: string): string {
    hh + ":" + mm + ":" + ss + "," + fff
  }

  predicate NoChar(s: string, c: char) {
    forall i :: 0 <= i < |s| ==> s[i] != c
  }

  lemma DigitsNoChar(s: string, c: char)
    requires IsDigits(s) && !IsDigitChar(c)
    ensures NoChar(s, c)
  {
  }

  lemma ConcatNoChar(a: string, b: string, c: char)
    requires NoChar(a, c) && NoChar(b, c)
    ensures NoChar(a + b, c)
  {
    forall i | 0 <= i < |a + b|
      ensures (a + b)[i] != c
    {
      if i >= |a| { assert (a + b)[i] == b[i - |a|]; }
    }
  }

  /** Stripping keeps a slice of the text. */
  lemma StripNoChar(s: string, c: char)
    requires NoChar(s, c)
    ensures NoChar(Strip(s), c)
  {
    var lo := |s| - |LStrip(s)|;
    LStripSpec(s);
    RStripSpec(LStrip(s));
    assert Strip(s) == s[lo..lo + |Strip(s)|];
    forall k | 0 <= k < |Strip(s)| ensures Strip(s)[k] != c {
      assert Strip(s)[k] == s[lo + k];
    }
  }

  /** The clock part `hh:mm:ss` of digit fields holds no comma. */
  lemma ClockNoComma(hh: string, mm: string, ss: string)
    requires IsDigits(hh) && IsDigits(mm) && IsDigits(ss)
    ensures NoChar(hh + ":" + mm + ":" + ss, ',')
  {
    DigitsNoChar(hh, ',');
    DigitsNoChar(mm, ',');
    DigitsNoChar(ss, ',');
    ConcatNoChar(hh, ":", ',');
    ConcatNoChar(hh + ":", mm, ',');
    ConcatNoChar(hh + ":" + mm, ":", ',');
    ConcatNoChar(hh + ":" + mm + ":", ss, ',');
  }

  lemma StripTimestamp(hh: string, mm: string, ss: string, fff: string)
    requires IsDigits(hh) && IsDigits(fff)
    ensures Strip(Timestamp(hh, mm, ss, fff)) == Timestamp(hh, mm, ss, fff)
  {
    var t := Timestamp(hh, mm, ss, fff);
    assert t[0] == hh[0];
    assert t[|t| - 1] == fff[|fff| - 1];
    StripOfStripped(t);
  }

  lemma SplitComma(hh: string, mm: string, ss: string, fff: string)
    requires IsDigits(hh) && IsDigits(mm) && IsDigits(ss) && IsDigits(fff)
    ensures Split(Timestamp(hh, mm, ss, fff), ",") == [hh + ":" + mm + ":" + ss, fff]
  {
    ClockNoComma(hh, mm, ss);
    DigitsNoChar(fff, ',');
    NoCharNotContains(fff, ",");
    SplitPair(hh + ":" + mm + ":" + ss, ",", fff);
  }

  lemma SplitClock(hh: string, mm: string, ss: string)
    requires IsDigits(hh) && IsDigits(mm) && IsDigits(ss)
    ensures Split(hh + ":" + mm + ":" + ss, ":") == [hh, mm, ss]
  {
    assert hh + ":" + mm + ":" + ss == hh + ":" + (mm + ":" + ss);
    DigitsNoChar(hh, ':');
    SplitCons(hh, ":", mm + ":" + ss);
    DigitsNoChar(mm, ':');
    DigitsNoChar(ss, ':');
    NoCharNotContains(ss, ":");
    SplitPair(mm, ":", ss);
  }

  /** A timestamp of four digit fields reads as their weighted sum. */
  lemma ReadTimestamp(hh: string, mm: string, ss: string, fff: string, h: int, m: int, s: int, ms: int)
    requires IsDigits(hh) && IsDigits(mm) && IsDigits(ss) && IsDigits(fff)
    requires ParseInt(hh) == Ok(h) && ParseInt(mm) == Ok(m) && ParseInt(ss) == Ok(s) && ParseInt(fff) == Ok(ms)
    ensures TimeToMs(Timestamp(hh, mm, ss, fff)) == Ok(h * 3_600_000 + m * 60_000 + s * 1000 + ms)
  {
    StripTimestamp(hh, mm, ss, fff);
    SplitComma(hh, mm, ss, fff);
    TimeToMsParts(Timestamp(hh, mm, ss, fff), hh + ":" + mm + ":" + ss, fff);
    SplitClock(hh, mm, ss);
    ParseThree(hh, mm, ss, h, m, s);
    ClockToMsValues(hh + ":" + mm + ":" + ss, fff, h, m, s, ms);
  }

  /** A non-negative padded field is all digits and reads back as its value. */
  lemma PaddedField(n: nat, width: nat)
    ensures IsDigits(ZeroPad(n, width)) && ParseInt(ZeroPad(n, width)) == Ok(n)
  {
    ZeroFillDigits(n, width);
    ParseZeroPad(n, width);
  }

  /** Reading back formatted fields gives their weighted sum. */
  lemma FieldsRoundTrip(h: nat, m: nat, s: nat, f: nat)
    ensures TimeToMs(FormatFields(h, m, s, f)) == Ok(h * 3_600_000 + m * 60_000 + s * 1000 + f)
  {
    PaddedField(h, 2);
    PaddedField(m, 2);
    PaddedField(s, 2);
    PaddedField(f, 3);
    ReadTimestamp(ZeroPad(h, 2), ZeroPad(m, 2), ZeroPad(s, 2), ZeroPad(f, 3), h, m, s, f);
  }

  /** Reading back a formatted time gives the same number of milliseconds. */
  lemma TimeRoundTrip(ms: nat)
    ensures TimeToMs(FormatTime(ms)).Ok? && TimeToMs(FormatTime(ms)).value == ms
  {
    var h, m, s, f := ms / 3_600_000, ms / 60_000 % 60, ms / 1000 % 60, ms % 1000;
    assert FormatTime(ms) == FormatFields(h, m, s, f);
    FieldsRoundTrip(h, m, s, f);
    FieldsRecombine(ms);
  }

  /** A sample position printed by `format_time` and read back by
      `time_to_sample` at the same rate comes back at most one millisecond's
      worth of samples early, and never late. */
  lemma SampleRoundTrip(sample: nat, rate: pos)
    ensures TimeToSample(FormatTime(SampleMs(sample, rate)), rate).Ok?
    ensures var back := TimeToSample(FormatTime(SampleMs(sample, rate)), rate).value;
      back <= sample && (back + 1) * 1000 > sample * 1000 - rate
  {
    var ms := SampleMs(sample, rate);
    var t := FormatTime(ms);
    TimeRoundTrip(ms);
    assert TimeToSample(t, rate).value == MsToSample(ms, rate);
    Sandwich(sample, rate);
  }

  /** Converting a sample position to milliseconds and back loses less
      than one millisecond's worth of samples. */
  lemma Sandwich(sample: nat, rate: pos)
    ensures var back := MsToSample(SampleMs(sample, rate), rate);
      back <= sample && (back + 1) * 1000 > sample * 1000 - rate
  {
    var ms := SampleMs(sample, rate);
    SampleMsBounds(sample, rate);
    MsToSampleBounds(ms, rate);
    var p := ms * rate;
    assert p >= 0;
    var back := MsToSample(ms, rate);
    assert back * 1000 <= p < (back + 1) * 1000;
    assert p <= sample * 1000 < p + rate;
  }
}

=== FILE: srt_to_xls.dfy ===
/** srt_to_xls.py: SRT blocks become spreadsheet rows of a line number, an
    SMPTE in and out timecode, and the text on one line. The hours, minutes
    and seconds of an SRT timestamp are kept; only the milliseconds become a
    frame count. Reading the SRT file and writing the workbook are pandas
    and openpyxl work and are not modelled; the rows, where they go, and the
    output name are. */
module SrtToXls {
  import opened PyCore
  import opened PyText
  import opened SrtTime
  import opened Smpte
  import opened SrtBlocks
  import opened Workbook

  /** The character class of `re.split('[:,]', ...)`. */
  const SrtSeparators: set<char> := {':', ','}

  /** `int((total_seconds * frame_rate) % frame_rate)` with `total_seconds`
      the time `ms` milliseconds: `(x * r) % r` is `r` times the fractional
      part of `x`, so this is the whole frames that fit in the fraction of a
      second past `ms // 1000`. */
  function FrameOf(ms: int, rate: Rate): (f: nat)
    requires rate.num > 0
    ensures f * (1000 * rate.den) <= (ms % 1000) * rate.num < (f + 1) * (1000 * rate.den)
    ensures f * rate.den < rate.num
  {
    var a := (ms % 1000) * rate.num;
    var d := 1000 * rate.den;
    FractionBelowRate(ms % 1000, rate.num);
    var f := a / d;
    FloorBounds(a, d);
    assert f * d <= a;
    assert a < 1000 * rate.num;
    BelowRate(f, a, 1000, rate);
    f
  }

  /** Less than a second of frames at `num` per second. */
  lemma FractionBelowRate(x: nat, num: pos)
    requires x < 1000
    ensures 0 <= x * num < 1000 * num
  {
  }

  /** `srt_to_smpte` (lines 11-16). Unpacking the split into four names
      raises `ValueError` for any other number of pieces, as `int()` does
      for a piece that is not an integer; `timedelta` raises
      `OverflowError` for a billion days or more; after that a zero frame
      rate makes the float `%` raise `ZeroDivisionError`. */
  function SrtToSmpte(tc: string, rate: Rate): (r: Result<string>)
    ensures r.Raise? ==> r.exc == ValueError || r.exc == OverflowError || (r.exc == ZeroDivisionError && rate.num == 0)
    ensures r.Ok? ==> ParseAll(SplitAny(tc, SrtSeparators)).Ok? && |ParseAll(SplitAny(tc, SrtSeparators)).value| == 4
    ensures r.Ok? ==> DeltaFits(ClockMs(ParseAll(SplitAny(tc, SrtSeparators)).value), MS_PER_DAY)
    ensures r.Ok? ==> rate.num > 0
  {
    var vs :- ParseAll(SplitAny(tc, SrtSeparators));
    if |vs| != 4 then Raise(ValueError)
    else if !DeltaFits(ClockMs(vs), MS_PER_DAY) then Raise(OverflowError)
    else if rate.num == 0 then Raise(ZeroDivisionError)
    else
      Ok(SmpteText(vs[0], vs[1], vs[2], FrameOf(ClockMs(vs), rate)))
  }

  /** The time the four fields stand for, in milliseconds, as `timedelta`
      adds them up. */
  function ClockMs(vs: seq<int>): int
    requires |vs| == 4
  {
    vs[0] * 3600000 + vs[1] * 60000 + vs[2] * 1000 + vs[3]
  }

  /** Four integer fields overflow `timedelta` exactly when their time is
      a billion days or more (or that far below zero), whatever the rate:
      the duration is built before the frame rate is used. */
  lemma SmpteOverflow(tc: string, rate: Rate, vs: seq<int>)
    requires ParseAll(SplitAny(tc, SrtSeparators)) == Ok(vs) && |vs| == 4
    ensures SrtToSmpte(tc, rate) == Raise(OverflowError) <==> !DeltaFits(ClockMs(vs), MS_PER_DAY)
  {
  }

  /** Zero-padded fields joined as an SRT timestamp split and read back as
      the four numbers. */
  lemma PaddedClock(h: nat, m: nat, s: nat, ms: nat)
    ensures ParseAll(SplitAny(ZeroPad(h, 2) + ":" + ZeroPad(m, 2) + ":" + ZeroPad(s, 2) + "," + ZeroPad(ms, 3), SrtSeparators))
      == Ok([h, m, s, ms])
  {
    var a, b, c, d := ZeroPad(h, 2), ZeroPad(m, 2), ZeroPad(s, 2), ZeroPad(ms, 3);
    PaddedField(h, 2);
    PaddedField(m, 2);
    PaddedField(s, 2);
    PaddedField(ms, 3);
    ClockPieces(a, b, c, d);
    ParseAllOk([a, b, c, d], [h, m, s, ms]);
  }

  /** Digit fields joined by `:`, `:` and `,` split back into the fields. */
  lemma ClockPieces(a: string, b: string, c: string, d: string)
    requires IsDigits(a) && IsDigits(b) && IsDigits(c) && IsDigits(d)
    ensures SplitAny(a + ":" + b + ":" + c + "," + d, SrtSeparators) == [a, b, c, d]
  {
    var cs := SrtSeparators;
    DigitsNoSeparator(a);
    DigitsNoSeparator(b);
    DigitsNoSeparator(c);
    DigitsNoSeparator(d);
    assert a + ":" + b + ":" + c + "," + d == a + [':'] + (b + [':'] + (c + [','] + d));
    SplitAnyCons(a, ':', b + [':'] + (c + [','] + d), cs);
    SplitAnyCons(b, ':', c + [','] + d, cs);
    SplitAnyCons(c, ',', d, cs);
    SplitAnyNone(d, cs);
  }

  /** Twenty-four billion hours is a billion days: `timedelta` overflows,
      at any frame rate. */
  lemma SmpteOverflows(rate: Rate)
    ensures SrtToSmpte(ZeroPad(24000000000, 2) + ":" + ZeroPad(0, 2) + ":" + ZeroPad(0, 2) + "," + ZeroPad(0, 3), rate)
      == Raise(OverflowError)
  {
    PaddedClock(24000000000, 0, 0, 0);
  }

  /** The fields of a timestamp the block pattern accepts stay under five
      days, which `timedelta` holds. */
  lemma TimestampFits(t: string)
    requires IsTimestamp(t)
    ensures DeltaFits(ClockMs(TimestampFields(t)), MS_PER_DAY)
  {
    TwoDigits(t[..2]);
    TwoDigits(t[3..5]);
    TwoDigits(t[6..8]);
    TwoDigits(t[9..][..2]);
    assert DigitsValue(t[9..]) < 1000;
  }

  lemma TwoDigits(d: string)
    requires |d| == 2 && IsDigitChar(d[0]) && IsDigitChar(d[1])
    ensures DigitsValue(d) < 100
  {
    var first := d[..1];
    assert first[..0] == [] && first[0] == d[0];
    assert DigitsValue(first) == DigitValue(d[0]) < 10;
    assert DigitsValue(d) == DigitsValue(first) * 10 + DigitValue(d[1]);
  }

  /** The timecode keeps the hours, minutes and seconds it was given, and
      its fourth field is a frame count below the frame rate. */
  lemma SmpteKeepsClock(tc: string, rate: Rate)
    requires SrtToSmpte(tc, rate).Ok?
    ensures var vs := ParseAll(SplitAny(tc, SrtSeparators)).value;
      var f := FrameOf(ClockMs(vs), rate);
      && ParseAll(Split(SrtToSmpte(tc, rate).value, ":")) == Ok([vs[0], vs[1], vs[2], f])
      && f * rate.den < rate.num
  {
    var vs := ParseAll(SplitAny(tc, SrtSeparators)).value;
    var f := FrameOf(ClockMs(vs), rate);
    assert SrtToSmpte(tc, rate).value == SmpteText(vs[0], vs[1], vs[2], f);
    SmpteFieldsBack(vs[0], vs[1], vs[2], f);
  }

  /** A piece of digits holds no separator. */
  lemma DigitsNoSeparator(s: string)
    requires forall i :: 0 <= i < |s| ==> IsDigitChar(s[i])
    ensures NoneIn(s, SrtSeparators)
  {
  }

  /** An SRT timestamp `HH:MM:SS,mmm` splits into its four digit fields. */
  lemma TimestampPieces(t: string)
    requires IsTimestamp(t)
    ensures SplitAny(t, SrtSeparators) == [t[..2], t[3..5], t[6..8], t[9..]]
  {
    var cs := SrtSeparators;
    DigitsNoSeparator(t[..2]);
    DigitsNoSeparator(t[3..5]);
    DigitsNoSeparator(t[6..8]);
    DigitsNoSeparator(t[9..]);
    assert t == t[..2] + [':'] + t[3..];
    SplitAnyCons(t[..2], ':', t[3..], cs);
    assert t[3..] == t[3..5] + [':'] + t[6..];
    SplitAnyCons(t[3..5], ':', t[6..], cs);
    assert t[6..] == t[6..8] + [','] + t[9..];
    SplitAnyCons(t[6..8], ',', t[9..], cs);
    SplitAnyNone(t[9..], cs);
  }

  /** The clock fields of an SRT timestamp, as numbers. */
  function TimestampFields(t: string): (vs: seq<int>)
    requires IsTimestamp(t)
    ensures |vs| == 4 && forall i :: 0 <= i < 4 ==> vs[i] >= 0
  {
    [DigitsValue(t[..2]), DigitsValue(t[3..5]), DigitsValue(t[6..8]), DigitsValue(t[9..])]
  }

  /** The four fields of a timestamp the block pattern accepts all read as
      integers, to the values of their digits. */
  lemma TimestampParses(t: string)
    requires IsTimestamp(t)
    ensures ParseAll(SplitAny(t, SrtSeparators)) == Ok(TimestampFields(t))
  {
    var parts := [t[..2], t[3..5], t[6..8], t[9..]];
    var vs := TimestampFields(t);
    TimestampPieces(t);
    forall i | 0 <= i < 4
      ensures ParseInt(parts[i]) == Ok(vs[i])
    {
      ParseDigits(parts[i]);
    }
    ParseAllOk(parts, vs);
  }

  /** Every timestamp the block pattern accepts converts, at any positive
      frame rate, with its own hours, minutes and seconds. */
  lemma TimestampConverts(t: string, rate: Rate)
    requires IsTimestamp(t) && rate.num > 0
    ensures var vs := TimestampFields(t);
      SrtToSmpte(t, rate) == Ok(SmpteText(vs[0], vs[1], vs[2], FrameOf(ClockMs(vs), rate)))
  {
    TimestampParses(t);
    TimestampFits(t);
  }

  // ------------------------------------------------------------ rows

  /** One spreadsheet row: `[line_number, timecode_in, timecode_out,
      script_text]`. */
  datatype Row = Row(number: int, tcIn: string, tcOut: string, text: string)

  /** One pass of the loop in `parse_srt` (lines 27-31), in its order: the
      number, the in time, the out time, then the text with its line
      breaks turned into spaces. */
  function RowOf(b: Block, rate: Rate): (r: Result<Row>)
    ensures r.Ok? ==> NoChar(r.value.text, '\n') && |r.value.text| == |b.text|
  {
    var n :- ParseInt(b.number);
    var tcIn :- SrtToSmpte(b.start, rate);
    var tcOut :- SrtToSmpte(b.end, rate);
    Ok(Row(n, tcIn, tcOut, ReplaceChar(b.text, '\n', ' ')))
  }

  /** `parse_srt` on the text of the file: one row per block the pattern
      finds, or the first exception a block raises. */
  function ParseSrt(content: string, rate: Rate): (r: Result<seq<Row>>)
    ensures r.Ok? ==> |r.value| == |FindAll(content)|
  {
    AllOk(Steps(FindAll(content), rate))
  }

  /** The rows of the blocks, one step each, before `AllOk` collects them. */
  function Steps(blocks: seq<Block>, rate: Rate): (rs: seq<Result<Row>>)
    ensures |rs| == |blocks|
  {
    seq(|blocks|, k requires 0 <= k < |blocks| => RowOf(blocks[k], rate))
  }

  /** A block of the pattern's shape always makes a row, with the number
      and the times it holds. */
  lemma RowOfWellFormed(b: Block, rate: Rate)
    requires WellFormed(b) && rate.num > 0
    ensures RowOf(b, rate).Ok?
    ensures RowOf(b, rate).value.number == DigitsValue(b.number)
    ensures RowOf(b, rate).value.text == ReplaceChar(b.text, '\n', ' ')
  {
    ParseDigits(b.number);
    TimestampConverts(b.start, rate);
    TimestampConverts(b.end, rate);
  }

  /** At a positive frame rate the parse never raises: every block the
      pattern finds makes its row, in order. */
  lemma ParseSrtOk(content: string, rate: Rate)
    requires rate.num > 0
    ensures ParseSrt(content, rate).Ok?
    ensures forall k :: 0 <= k < |FindAll(content)| ==>
      RowOf(FindAll(content)[k], rate).Ok? && ParseSrt(content, rate).value[k] == RowOf(FindAll(content)[k], rate).value
  {
    var rs := Steps(FindAll(content), rate);
    StepsOk(content, rate);
    AllOkSpec(rs);
    assert forall k :: 0 <= k < |rs| ==> rs[k] == RowOf(FindAll(content)[k], rate);
  }

  /** At a positive frame rate every block the pattern finds makes its
      row. */
  lemma StepsOk(content: string, rate: Rate)
    requires rate.num > 0
    ensures var rs := Steps(FindAll(content), rate);
      forall k :: 0 <= k < |rs| ==> rs[k].Ok?
  {
    var blocks := FindAll(content);
    FindAllShape(content);
    forall k | 0 <= k < |blocks|
      ensures Steps(blocks, rate)[k].Ok?
    {
      RowOfWellFormed(blocks[k], rate);
    }
  }

  /** At a zero frame rate, a file with a block raises
      `ZeroDivisionError` at the first one. */
  lemma ParseSrtZeroRate(content: string, rate: Rate)
    requires rate.num == 0 && |FindAll(content)| > 0
    ensures ParseSrt(content, rate) == Raise(ZeroDivisionError)
  {
    var blocks := FindAll(content);
    var rs := Steps(blocks, rate);
    FindAllShape(content);
    ZeroRateRaises(blocks[0], rate);
    assert rs[0] == Raise(ZeroDivisionError);
  }

  lemma ZeroRateRaises(b: Block, rate: Rate)
    requires WellFormed(b) && rate.num == 0
    ensures RowOf(b, rate) == Raise(ZeroDivisionError)
  {
    ParseDigits(b.number);
    ZeroRateTimestamp(b.start, rate);
  }

  /** A timestamp of the pattern's shape reaches the frame division, which
      raises at a zero rate. */
  lemma ZeroRateTimestamp(t: string, rate: Rate)
    requires IsTimestamp(t) && rate.num == 0
    ensures SrtToSmpte(t, rate) == Raise(ZeroDivisionError)
  {
    TimestampParses(t);
    TimestampFits(t);
  }

  /** The row carries the block's number and its text on one line. */
  predicate RowFrom(row: Row, b: Block) {
    IsDigits(b.number) && row.number == DigitsValue(b.number) && row.text == ReplaceChar(b.text, '\n', ' ')
  }

  /** Blocks written out and read back give one row per block, in order,
      each with the block's number and its text on one line. */
  lemma RowsOfRendered(blocks: seq<Block>, rate: Rate)
    requires forall k :: 0 <= k < |blocks| ==> WellFormed(blocks[k])
    requires rate.num > 0
    ensures ParseSrt(RenderAll(blocks), rate).Ok?
    ensures |ParseSrt(RenderAll(blocks), rate).value| == |blocks|
    ensures forall k :: 0 <= k < |blocks| ==> RowFrom(ParseSrt(RenderAll(blocks), rate).value[k], blocks[k])
  {
    var content := RenderAll(blocks);
    FindAllRendered(blocks);
    ParseSrtOk(content, rate);
    var rows := ParseSrt(content, rate).value;
    forall k | 0 <= k < |blocks|
      ensures RowFrom(rows[k], blocks[k])
    {
      assert FindAll(content)[k] == blocks[k];
      assert rows[k] == RowOf(blocks[k], rate).value;
      RowOfWellFormed(blocks[k], rate);
    }
  }

  // ------------------------------------------------------------ the sheet

  /** What `srt_to_excel` writes: the workbook path, whether a template is
      loaded, the header row written above the data (if any), the sheet
      row the data starts at (1-based), and the rows. */
  datatype Sheet = Sheet(path: string, template: Option<string>, header: Option<seq<string>>, firstRow: nat, rows: seq<Row>)

  const Header: seq<string> := ["Line Number", "Timecode In", "Timecode Out", "Script (en)"]

  /** `srt_to_excel` (lines 35-54). With a template (a non-empty path),
      the rows go into its active sheet from row 2 with no header;
      without one, pandas writes the header at row 2 (`startrow=1`) and the
      rows below it. */
  function SrtToExcel(content: string, excelFile: string, rate: Rate, template: Option<string>): (r: Result<Sheet>)
    ensures r.Ok? ==> r.value.path == XlsxName(excelFile) && EndsWith(r.value.path, ".xlsx")
    ensures r.Ok? ==> ParseSrt(content, rate) == Ok(r.value.rows)
    ensures r.Ok? && template.Some? && template.value != "" ==>
      r.value.template == template && r.value.header.None? && r.value.firstRow == 2
    ensures r.Ok? && (template.None? || template.value == "") ==>
      r.value.template.None? && r.value.header == Some(Header) && r.value.firstRow == 3
    ensures r.Raise? ==> ParseSrt(content, rate) == Raise(r.exc)
  {
    var rows :- ParseSrt(content, rate);
    var path := XlsxName(excelFile);
    if template.Some? && template.value != "" then Ok(Sheet(path, template, None, 2, rows))
    else Ok(Sheet(path, None, Some(Header), 3, rows))
  }
}

=== FILE: studioscript.dfy ===
/** converters/srt_to_studioscript.py: SRT blocks become the rows of a
    studio script: a line number, in and out timecodes, the text, and an
    on-screen note taken from the first `[...]` of the text. The frame rate
    is first snapped to the exact NTSC fraction when it is one of the three
    usual decimal approximations. Reading the SRT file and writing the
    workbook are not modelled; the rows, the layout choice and the output
    name are. */
module StudioScript {
  import opened PyCore
  import opened PyText
  import opened SrtTime
  import opened Smpte
  import opened SrtBlocks
  import opened Brackets
  import opened Workbook
  import SrtToXls

  // ------------------------------------------------------------ frame rate

  /** `round(fps, 3)`, in thousandths of a frame per second. */
  function Milli(rate: Rate): (m: int)
    ensures 2 * (m * rate.den - rate.num * 1000) <= rate.den
    ensures 2 * (rate.num * 1000 - m * rate.den) <= rate.den
  {
    RoundHalfEven(rate.num * 1000, rate.den)
  }

  const NtscFilm: Rate := Rate(24000, 1001)
  const NtscVideo: Rate := Rate(30000, 1001)
  const NtscDouble: Rate := Rate(60000, 1001)

  /** `normalize_frame_rate` (lines 12-18): 23.976, 29.97 and 59.94, after
      rounding to three decimals, become the exact NTSC fractions; every
      other rate is returned as given. */
  function NormalizeRate(rate: Rate): (r: Rate)
    ensures Milli(rate) == 23976 ==> r == NtscFilm
    ensures Milli(rate) == 29970 ==> r == NtscVideo
    ensures Milli(rate) == 59940 ==> r == NtscDouble
    ensures Milli(rate) !in {23976, 29970, 59940} ==> r == rate
  {
    var m := Milli(rate);
    if m == 23976 then NtscFilm
    else if m == 29970 then NtscVideo
    else if m == 59940 then NtscDouble
    else rate
  }

  /** The exact fractions round to the keys they are stored under, so
      normalizing twice is normalizing once. */
  lemma NormalizeIdempotent(rate: Rate)
    ensures NormalizeRate(NormalizeRate(rate)) == NormalizeRate(rate)
  {
    assert Milli(NtscFilm) == 23976;
    assert Milli(NtscVideo) == 29970;
    assert Milli(NtscDouble) == 59940;
  }

  /** `args.frame_rate in {24, 25, 30}`: the rate is exactly one of the
      whole non-drop rates. */
  predicate WholeRate(rate: Rate) {
    rate.num == 24 * rate.den || rate.num == 25 * rate.den || rate.num == 30 * rate.den
  }

  /** Realtime mode stays on only for rates that are not 24, 25 or 30
      (lines 117-119). */
  function EffectiveRealtime(realtime: bool, rate: Rate): (r: bool)
    ensures r <==> realtime && !WholeRate(rate)
  {
    if realtime && WholeRate(rate) then false else realtime
  }

  // ------------------------------------------------------------ timecodes

  /** A timecode cell: the SMPTE text, or, in realtime mode, the time it
      stands for in milliseconds (its text is `str(timedelta)` cut short,
      which is not modelled). */
  datatype Timecode = SmpteCode(text: string) | RealtimeCode(ms: int)

  /** The whole frames in `ms` milliseconds at `rate`: `total_seconds *
      frame_rate`, floored. */
  function FramesAt(ms: int, rate: Rate): (n: int)
    ensures n * (1000 * rate.den) <= ms * rate.num < (n + 1) * (1000 * rate.den)
  {
    var a := ms * rate.num;
    var d := 1000 * rate.den;
    FloorBounds(a, d);
    a / d
  }

  /** The four display fields of a frame count on a fixed 24-frame base
      (lines 29-34), whatever the frame rate: hours of 86400 frames,
      minutes of 1440, seconds of 24. */
  function SmpteFields(n: int): (fs: seq<int>)
    ensures |fs| == 4
    ensures 0 <= fs[1] < 60 && 0 <= fs[2] < 60 && 0 <= fs[3] < 24
    ensures fs[0] * 86400 + fs[1] * 1440 + fs[2] * 24 + fs[3] == n
  {
    var h, rest := n / 86400, n % 86400;
    var m, rest2 := rest / 1440, rest % 1440;
    [h, m, rest2 / 24, rest2 % 24]
  }

  /** `srt_to_timecode` (lines 20-35). As in srt_to_xls.py, anything but
      four integer pieces raises `ValueError`. A zero frame rate raises
      nothing here: it only multiplies. */
  function SrtToTimecode(tc: string, rate: Rate, realtime: bool): (r: Result<Timecode>)
    ensures r.Raise? ==> r.exc == ValueError
    ensures r.Ok? ==> (r.value.RealtimeCode? <==> realtime)
  {
    var vs :- ParseAll(SplitAny(tc, SrtToXls.SrtSeparators));
    if |vs| != 4 then Raise(ValueError)
    else
      var ms := SrtToXls.ClockMs(vs);
      if realtime then Ok(RealtimeCode(ms))
      else
        var fs := SmpteFields(FramesAt(ms, rate));
        Ok(SmpteCode(SmpteText(fs[0], fs[1], fs[2], fs[3])))
  }

  /** An SMPTE timecode shows the whole frames of the time at the given
      rate, counted 24 to the second: read back at `:`, its fields are
      below 60, 60 and 24 after the hours and recombine into that count. */
  lemma SmpteCount(tc: string, rate: Rate)
    requires SrtToTimecode(tc, rate, false).Ok?
    ensures var vs := ParseAll(SplitAny(tc, SrtToXls.SrtSeparators)).value;
      var n := FramesAt(SrtToXls.ClockMs(vs), rate);
      var t := SrtToTimecode(tc, rate, false).value.text;
      && |vs| == 4
      && ParseAll(Split(t, ":")).Ok?
      && var fs := ParseAll(Split(t, ":")).value;
      && |fs| == 4 && 0 <= fs[1] < 60 && 0 <= fs[2] < 60 && 0 <= fs[3] < 24
      && fs[0] * 86400 + fs[1] * 1440 + fs[2] * 24 + fs[3] == n
  {
    var vs := ParseAll(SplitAny(tc, SrtToXls.SrtSeparators)).value;
    var fs := SmpteFields(FramesAt(SrtToXls.ClockMs(vs), rate));
    SmpteFieldsBack(fs[0], fs[1], fs[2], fs[3]);
  }

  // ------------------------------------------------------------ notes

  /** Lines 49-56: the text's line breaks become spaces; if it holds a
      `[...]`, the note is the first one's inside, stripped, in brackets,
      and the text loses every `[...]` and is stripped; otherwise there is
      no note and the text is kept as it is. */
  function SplitNote(text: string): (r: (string, Option<string>))
    ensures NoChar(r.0, '\n')
  {
    var t := ReplaceChar(text, '\n', ' ');
    match Search(t)
    case Some((i, j)) =>
      var body := RemoveBrackets(t);
      NoBreakRemoved(t);
      StripNoChar(body, '\n');
      (Strip(body), Some("[" + Strip(t[i + 1..j]) + "]"))
    case None => (t, None)
  }

  /** Removing brackets keeps characters of the text only. */
  lemma {:induction false} NoBreakRemoved(s: string)
    requires NoChar(s, '\n')
    ensures NoChar(RemoveBrackets(s), '\n')
    decreases |s|
  {
    match Search(s)
    case None =>
    case Some((i, j)) =>
      var tail := s[j + 1..];
      assert NoChar(tail, '\n') by {
        forall k | 0 <= k < |tail| ensures tail[k] != '\n' { assert tail[k] == s[j + 1 + k]; }
      }
      NoBreakRemoved(tail);
      ConcatNoChar(s[..i], RemoveBrackets(tail), '\n');
  }

  /** With a bracket pair on the (one) line, the note is the first pair's
      stripped inside in brackets, and the text that is left is stripped
      and holds no bracket pair at all. */
  lemma NoteFound(text: string)
    requires Search(ReplaceChar(text, '\n', ' ')).Some?
    ensures var t := ReplaceChar(text, '\n', ' ');
      var (i, j) := Search(t).value;
      var r := SplitNote(text);
      && r.1 == Some("[" + Strip(t[i + 1..j]) + "]")
      && IsStripped(r.0)
      && (forall a, b :: !BracketAt(r.0, a, b))
      && (forall a, b :: 0 <= a < i ==> !BracketAt(t, a, b))
  {
    var t := ReplaceChar(text, '\n', ' ');
    SearchSpec(t);
    RemovedHasNone(t);
    StripHasNone(RemoveBrackets(t));
    StripIsStripped(RemoveBrackets(t));
  }

  /** Without a bracket pair there is no note, and the text is only
      flattened onto one line, not stripped. */
  lemma NoteAbsent(text: string)
    requires forall a, b :: !BracketAt(ReplaceChar(text, '\n', ' '), a, b)
    ensures SplitNote(text) == (ReplaceChar(text, '\n', ' '), None)
  {
    SearchSpec(ReplaceChar(text, '\n', ' '));
  }

  /** What is left after a note is taken out holds no further note:
      splitting it again changes nothing. */
  lemma NoteOnce(text: string)
    ensures var r := SplitNote(text); SplitNote(r.0) == (r.0, None)
  {
    var t := ReplaceChar(text, '\n', ' ');
    var r := SplitNote(text);
    assert ReplaceChar(r.0, '\n', ' ') == r.0;
    if Search(t).Some? {
      NoteFound(text);
      NoteAbsent(r.0);
    } else {
      SearchSpec(t);
      NoteAbsent(r.0);
    }
  }

  // ------------------------------------------------------------ rows

  /** `[line_number, timecode_in, timecode_out, script_text, note]` */
  datatype Row = Row(number: int, tcIn: Timecode, tcOut: Timecode, text: string, note: Option<string>)

  /** One pass of the loop in `parse_srt` (lines 45-58). */
  function RowOf(b: Block, rate: Rate, realtime: bool): (r: Result<Row>)
    ensures r.Ok? ==> (r.value.text, r.value.note) == SplitNote(b.text)
    ensures r.Ok? ==> (r.value.tcIn.RealtimeCode? <==> realtime) && (r.value.tcOut.RealtimeCode? <==> realtime)
  {
    var n :- ParseInt(b.number);
    var tcIn :- SrtToTimecode(b.start, rate, realtime);
    var tcOut :- SrtToTimecode(b.end, rate, realtime);
    var (text, note) := SplitNote(b.text);
    Ok(Row(n, tcIn, tcOut, text, note))
  }

  /** `parse_srt`: one row per block the pattern finds, in order. */
  function ParseSrt(content: string, rate: Rate, realtime: bool): (r: Result<seq<Row>>)
    ensures r.Ok? ==> |r.value| == |FindAll(content)|
  {
    AllOk(Steps(FindAll(content), rate, realtime))
  }

  /** A timestamp the block pattern accepts always converts. */
  lemma TimestampConverts(t: string, rate: Rate, realtime: bool)
    requires IsTimestamp(t)
    ensures SrtToTimecode(t, rate, realtime).Ok?
  {
    SrtToXls.TimestampParses(t);
  }

  lemma RowOfWellFormed(b: Block, rate: Rate, realtime: bool)
    requires WellFormed(b)
    ensures RowOf(b, rate, realtime).Ok?
    ensures RowOf(b, rate, realtime).value.number == DigitsValue(b.number)
  {
    ParseDigits(b.number);
    TimestampConverts(b.start, rate, realtime);
    TimestampConverts(b.end, rate, realtime);
  }

  /** The rows of the blocks, one step each, before `AllOk` collects them. */
  function Steps(blocks: seq<Block>, rate: Rate, realtime: bool): (rs: seq<Result<Row>>)
    ensures |rs| == |blocks|
  {
    seq(|blocks|, k requires 0 <= k < |blocks| => RowOf(blocks[k], rate, realtime))
  }

  /** Every block the pattern finds makes its row. */
  lemma StepsOk(content: string, rate: Rate, realtime: bool)
    ensures var rs := Steps(FindAll(content), rate, realtime);
      forall k :: 0 <= k < |rs| ==> rs[k].Ok?
  {
    var blocks := FindAll(content);
    FindAllShape(content);
    forall k | 0 <= k < |blocks|
      ensures Steps(blocks, rate, realtime)[k].Ok?
    {
      RowOfWellFormed(blocks[k], rate, realtime);
    }
  }

  /** The parse never raises, at any rate and in either mode: every block
      found makes its row, and the rows' notes and texts are those of the
      blocks' texts. */
  lemma ParseSrtOk(content: string, rate: Rate, realtime: bool)
    ensures ParseSrt(content, rate, realtime).Ok?
    ensures forall k :: 0 <= k < |FindAll(content)| ==>
      RowOf(FindAll(content)[k], rate, realtime).Ok? &&
      ParseSrt(content, rate, realtime).value[k] == RowOf(FindAll(content)[k], rate, realtime).value
  {
    var rs := Steps(FindAll(content), rate, realtime);
    StepsOk(content, rate, realtime);
    AllOkSpec(rs);
    assert forall k :: 0 <= k < |rs| ==> rs[k] == RowOf(FindAll(content)[k], rate, realtime);
  }

  // ------------------------------------------------------------ the sheet

  const DefaultHeaders: seq<string> := ["Line Number", "Timecode In", "Timecode Out", "Script (en)", "On Screen Note (en)"]
  const DefaultWidths: seq<nat> := [12, 15, 15, 50, 30]

  /** What `srt_to_excel` writes: the path, where the header row comes
      from (the template, or `create_default_template`'s row 1), and the
      rows, written from sheet row 2 in both cases. */
  datatype Sheet = Sheet(path: string, layout: Layout, firstRow: nat, rows: seq<Row>)

  /** `srt_to_excel` (lines 78-103). `existing` is the set of paths that
      exist. */
  function SrtToExcel(content: string, excelFile: string, rate: Rate, template: string, existing: set<string>, realtime: bool): (r: Result<Sheet>)
    ensures r.Ok?
    ensures r.value.path == XlsxNameCi(excelFile) && EndsWith(AsciiLower(r.value.path), ".xlsx")
    ensures r.value.layout.FromTemplate? <==> template != "" && template in existing
    ensures r.value.firstRow == 2
    ensures ParseSrt(content, rate, realtime) == Ok(r.value.rows)
  {
    ParseSrtOk(content, rate, realtime);
    var rows := ParseSrt(content, rate, realtime).value;
    Ok(Sheet(XlsxNameCi(excelFile), ChooseLayout(template, existing), 2, rows))
  }

  /** The default output name (lines 124-127). */
  function DefaultExcelName(srtFile: string, realtime: bool): (r: string)
    ensures EndsWith(r, ".xlsx")
  {
    StripExt(Basename(srtFile)) + (if realtime then "_realtime" else "_studioscript") + ".xlsx"
  }

  /** The script's main block (lines 114-129): the rate is normalized, the
      realtime request is dropped for whole rates, the template and output
      names get their defaults, and the sheet is built. */
  function StudioMain(srtFile: string, excelArg: Option<string>, rate: Rate, templateArg: Option<string>,
                      realtime: bool, home: string, content: string, existing: set<string>): (r: Sheet)
    ensures var fr := NormalizeRate(rate);
      var rt := realtime && !WholeRate(fr);
      && ParseSrt(content, fr, rt) == Ok(r.rows)
      && ((excelArg.None? || excelArg.value == "") ==> r.path == DefaultExcelName(srtFile, rt))
      && (excelArg.Some? && excelArg.value != "" ==> r.path == XlsxNameCi(excelArg.value))
      && r.layout == ChooseLayout(TemplatePath(templateArg, home), existing)
  {
    var fr := NormalizeRate(rate);
    var rt := EffectiveRealtime(realtime, fr);
    var template := TemplatePath(templateArg, home);
    var excel := if excelArg.None? || excelArg.value == "" then DefaultExcelName(srtFile, rt) else excelArg.value;
    DefaultNameKept(srtFile, rt);
    SrtToExcel(content, excel, fr, template, existing, rt).value
  }

  /** The default name already ends with `.xlsx`, so the suffix rule keeps
      it. */
  lemma DefaultNameKept(srtFile: string, realtime: bool)
    ensures XlsxNameCi(DefaultExcelName(srtFile, realtime)) == DefaultExcelName(srtFile, realtime)
  {
    var r := DefaultExcelName(srtFile, realtime);
    assert AsciiLower(r)[|r| - 5..] == ".xlsx";
  }

  /** At 24, 25 or 30 frames per second every timecode is SMPTE, whatever
      was asked for. */
  lemma WholeRatesSmpte(srtFile: string, excelArg: Option<string>, rate: Rate, templateArg: Option<string>,
                        realtime: bool, home: string, content: string, existing: set<string>)
    requires WholeRate(NormalizeRate(rate))
    ensures var rows := StudioMain(srtFile, excelArg, rate, templateArg, realtime, home, content, existing).rows;
      forall k :: 0 <= k < |rows| ==> rows[k].tcIn.SmpteCode? && rows[k].tcOut.SmpteCode?
  {
    var fr := NormalizeRate(rate);
    assert StudioMain(srtFile, excelArg, rate, templateArg, realtime, home, content, existing).rows
        == ParseSrt(content, fr, false).value;
    RowsMode(content, fr, false);
  }

  /** Every row's timecodes are in the mode asked for. */
  lemma RowsMode(content: string, rate: Rate, realtime: bool)
    ensures ParseSrt(content, rate, realtime).Ok?
    ensures var rows := ParseSrt(content, rate, realtime).value;
      forall k :: 0 <= k < |rows| ==> (rows[k].tcIn.RealtimeCode? <==> realtime) && (rows[k].tcOut.RealtimeCode? <==> realtime)
  {
    ParseSrtOk(content, rate, realtime);
    var rows := ParseSrt(content, rate, realtime).value;
    forall k | 0 <= k < |rows|
      ensures (rows[k].tcIn.RealtimeCode? <==> realtime) && (rows[k].tcOut.RealtimeCode? <==> realtime)
    {
      assert rows[k] == RowOf(FindAll(content)[k], rate, realtime).value;
    }
  }
}

=== FILE: txt_script.dfy ===
/** txt_to_srt.py: a plain-text script (`IN:`/`OUT:` lines, a text line,
    a `Duration:` line per entry) read back into subtitles. Times are whole
    seconds, as `parse_timecode` gives them; `srt.compose` and the file writes
    are not modelled, the subtitles themselves are the result. */
module TxtToSrt {
  import opened PyCore
  import opened PyText
  import opened SrtTime
  import opened NewlineIo

  /** `srt.Subtitle(index, start, end, content)` with times in seconds. */
  datatype Entry = Entry(index: int, start: int, end: int, content: string)

  /** `current_entry`: which of the keys `start`, `end`, `content` are set. */
  datatype Partial = Partial(start: Option<int>, end: Option<int>, content: Option<string>)

  const FRESH: Partial := Partial(None, None, None)

  /** The loop state: `srt_entries`, `idx` and `current_entry`. */
  datatype State = State(entries: seq<Entry>, idx: int, current: Partial)

  const START: State := State([], 1, FRESH)

  predicate Complete(p: Partial) {
    p.start.Some? && p.end.Some? && p.content.Some?
  }

  /** `timedelta(seconds=t)`, or the `OverflowError` it raises. */
  function TimedeltaSeconds(t: int): (r: Result<int>)
    ensures r.Ok? <==> DeltaFits(t, SECONDS_PER_DAY)
    ensures r.Ok? ==> r.value == t
    ensures r.Raise? ==> r.exc == OverflowError
  {
    if DeltaFits(t, SECONDS_PER_DAY) then Ok(t) else Raise(OverflowError)
  }

  /** `parse_timecode`: exactly three `:`-separated integers, read as hours,
      minutes and seconds; any `ValueError` on the way (a part `int()`
      rejects, too few or too many parts) ends the program with status 1.
      `timedelta` raises `OverflowError` for a duration of a billion days or
      more (or that far below zero), which the `except ValueError` does not
      catch. */
  function ParseTimecode(tc: string): (r: Result<int>)
    ensures r.Ok? ==> DeltaFits(r.value, SECONDS_PER_DAY)
    ensures r.Raise? ==> r.exc == Exit(1) || r.exc == OverflowError
  {
    match ParseAll(Split(tc, ":"))
    case Raise(_) => Raise(Exit(1))
    case Ok(vs) =>
      if |vs| != 3 then Raise(Exit(1))
      else TimedeltaSeconds(vs[0] * 3600 + vs[1] * 60 + vs[2])
  }

  /** The body of the `for line in lines` loop (lines 31-52), on one line as
      `readlines` returns it. */
  function StepLine(st: State, raw: string): (r: Result<State>)
    ensures r.Raise? ==> r.exc == IndexError || r.exc == Exit(1) || r.exc == OverflowError
    ensures r.Ok? && r.value.entries != st.entries ==>
      && Complete(st.current)
      && r.value == State(st.entries + [Entry(st.idx, st.current.start.value, st.current.end.value, st.current.content.value)], st.idx + 1, FRESH)
    ensures r.Ok? && r.value.entries == st.entries ==> r.value.idx == st.idx
  {
    var line := Strip(raw);
    if StartsWith(line, "IN:") then
      var parts := Split(line, "IN: ");
      if |parts| < 2 then Raise(IndexError)
      else
        var t :- ParseTimecode(parts[1]);
        Ok(st.(current := st.current.(start := Some(t))))
    else if StartsWith(line, "OUT:") then
      var parts := Split(line, "OUT: ");
      if |parts| < 2 then Raise(IndexError)
      else
        var t :- ParseTimecode(parts[1]);
        Ok(st.(current := st.current.(end := Some(t))))
    else if StartsWith(line, "Line") then Ok(st)
    else if StartsWith(line, "Duration:") then
      var c := st.current;
      if Complete(c) then
        Ok(State(st.entries + [Entry(st.idx, c.start.value, c.end.value, c.content.value)], st.idx + 1, FRESH))
      else Ok(st)
    else if |line| > 0 then Ok(st.(current := st.current.(content := Some(line))))
    else Ok(st)
  }

  /** The loop over all lines; the first exception ends it. */
  function RunLines(st: State, lines: seq<string>): (r: Result<State>)
    ensures r.Raise? ==> r.exc == IndexError || r.exc == Exit(1) || r.exc == OverflowError
    decreases |lines|
  {
    if |lines| == 0 then Ok(st)
    else
      var next :- StepLine(st, lines[0]);
      RunLines(next, lines[1..])
  }

  /** `process_txt_to_srt` on the lines of an existing file: the subtitles
      `srt.compose` is given. */
  function ProcessLines(lines: seq<string>): (r: Result<seq<Entry>>)
    ensures r.Raise? ==> r.exc == IndexError || r.exc == Exit(1) || r.exc == OverflowError
    ensures r.Ok? ==> forall k :: 0 <= k < |r.value| ==> r.value[k].index == k + 1
  {
    var st :- RunLines(START, lines);
    RunShape(START, lines);
    Ok(st.entries)
  }

  /** What a run of the script leaves behind. */
  datatype Outcome = NoOutput | WroteSrt(path: string, entries: seq<Entry>)

  /** The `__main__` block: without an argument, or when the file does not
      exist, only a message is printed; otherwise the file is read in text
      mode and the subtitles go to `<path without extension>.srt`. */
  function TxtMain(argv: seq<string>, file: Option<string>): (r: Result<Outcome>)
    ensures r.Ok? && r.value.WroteSrt? ==> |argv| >= 2 && file.Some? && r.value.path == StripExt(argv[1]) + ".srt"
    ensures |argv| < 2 || file.None? ==> r == Ok(NoOutput)
  {
    if |argv| < 2 then Ok(NoOutput)
    else match file
      case None => Ok(NoOutput)
      case Some(text) =>
        var entries :- ProcessLines(ReadLines(ReadUniversal(text)));
        Ok(WroteSrt(StripExt(argv[1]) + ".srt", entries))
  }

  // ------------------------------------------------------------ timecodes

  /** Text that does not split into exactly three parts on `:` is rejected
      with exit status 1. */
  lemma ParseTimecodeShape(tc: string)
    requires |Split(tc, ":")| != 3
    ensures ParseTimecode(tc) == Raise(Exit(1))
  {
  }

  /** Three zero-padded fields joined by `:` read back as their weighted
      sum in seconds, unless that is a billion days or more. */
  lemma ParseTimecodeFields(h: nat, m: nat, s: nat)
    ensures var t := h * 3600 + m * 60 + s;
      ParseTimecode(ZeroPad(h, 2) + ":" + ZeroPad(m, 2) + ":" + ZeroPad(s, 2))
        == if t < MAX_DELTA_DAYS * SECONDS_PER_DAY + SECONDS_PER_DAY then Ok(t) else Raise(OverflowError)
  {
    PaddedField(h, 2);
    PaddedField(m, 2);
    PaddedField(s, 2);
    ClockValues(ZeroPad(h, 2), ZeroPad(m, 2), ZeroPad(s, 2), h, m, s);
  }

  /** Twenty-four billion hours is a billion days: `timedelta` overflows and
      the script stops with `OverflowError` instead of exit status 1. */
  lemma ParseTimecodeOverflows()
    ensures ParseTimecode(ZeroPad(24000000000, 2) + ":" + ZeroPad(0, 2) + ":" + ZeroPad(0, 2)) == Raise(OverflowError)
  {
    ParseTimecodeFields(24000000000, 0, 0);
  }

  lemma ClockValues(hh: string, mm: string, ss: string, h: int, m: int, s: int)
    requires IsDigits(hh) && IsDigits(mm) && IsDigits(ss)
    requires ParseInt(hh) == Ok(h) && ParseInt(mm) == Ok(m) && ParseInt(ss) == Ok(s)
    ensures ParseTimecode(hh + ":" + mm + ":" + ss) == TimedeltaSeconds(h * 3600 + m * 60 + s)
  {
    SplitClock(hh, mm, ss);
    ParseThree(hh, mm, ss, h, m, s);
    TimecodeValues(hh + ":" + mm + ":" + ss, h, m, s);
  }

  lemma TimecodeValues(tc: string, h: int, m: int, s: int)
    requires ParseAll(Split(tc, ":")) == Ok([h, m, s])
    ensures ParseTimecode(tc) == TimedeltaSeconds(h * 3600 + m * 60 + s)
  {
  }

  // ------------------------------------------------------------ the loop

  /** Entries are numbered from 1 without gaps, and `idx` is the next
      number. */
  predicate Numbered(st: State) {
    && st.idx == |st.entries| + 1
    && forall k :: 0 <= k < |st.entries| ==> st.entries[k].index == k + 1
  }

  /** One step keeps the numbering, only ever appends, and appends at most
      one entry: one built from a complete partial entry, at a `Duration:`
      line, after which the partial entry starts afresh. */
  lemma StepShape(st: State, raw: string)
    requires StepLine(st, raw).Ok?
    ensures var next := StepLine(st, raw).value;
      && (Numbered(st) ==> Numbered(next))
      && (next.entries == st.entries || next.entries == st.entries + [Entry(st.idx, st.current.start.value, st.current.end.value, st.current.content.value)])
      && (next.entries != st.entries ==>
            Complete(st.current) && StartsWith(Strip(raw), "Duration:") && next.current == FRESH && next.idx == st.idx + 1)
      && (next.entries == st.entries ==> next.idx == st.idx)
  {
    var next := StepLine(st, raw).value;
    if next.entries != st.entries {
      assert |next.entries| == |st.entries| + 1;
    }
  }

  /** A `Duration:` line emits an entry exactly when start, end and text are
      all set, and otherwise leaves the state as it was, partial entry
      included. */
  lemma DurationLine(st: State, raw: string)
    requires StartsWith(Strip(raw), "Duration:")
    ensures Complete(st.current) ==>
      StepLine(st, raw) == Ok(State(st.entries + [Entry(st.idx, st.current.start.value, st.current.end.value, st.current.content.value)], st.idx + 1, FRESH))
    ensures !Complete(st.current) ==> StepLine(st, raw) == Ok(st)
  {
    var line := Strip(raw);
    assert line[0] == 'D';
  }

  /** A line starting `IN:` or `OUT:` without the following space has
      nothing after the split and raises `IndexError`. */
  lemma MarkerWithoutSpace(st: State, raw: string)
    requires (StartsWith(Strip(raw), "IN:") && !Contains(Strip(raw), "IN: "))
          || (StartsWith(Strip(raw), "OUT:") && !Contains(Strip(raw), "OUT: "))
    ensures StepLine(st, raw) == Raise(IndexError)
  {
    var line := Strip(raw);
    if StartsWith(line, "IN:") {
      assert !StartsWith(line, "OUT:") by { assert line[0] == 'I'; }
      SplitAbsent(line, "IN: ");
    } else {
      assert line[0] == 'O';
      SplitAbsent(line, "OUT: ");
    }
  }

  /** Running over the lines keeps the numbering and only appends: the
      entries before the run are a prefix of those after it. */
  lemma {:induction false} RunShape(st: State, lines: seq<string>)
    requires RunLines(st, lines).Ok?
    ensures Numbered(st) ==> Numbered(RunLines(st, lines).value)
    ensures st.entries <= RunLines(st, lines).value.entries
    decreases |lines|
  {
    if |lines| > 0 {
      var next := StepLine(st, lines[0]).value;
      StepShape(st, lines[0]);
      RunShape(next, lines[1..]);
    }
  }

  /** Without a `Duration:` line nothing is emitted. */
  lemma {:induction false} NoDurationNoEntries(st: State, lines: seq<string>)
    requires forall i :: 0 <= i < |lines| ==> !StartsWith(Strip(lines[i]), "Duration:")
    requires RunLines(st, lines).Ok?
    ensures RunLines(st, lines).value.entries == st.entries
    decreases |lines|
  {
    if |lines| > 0 {
      var next := StepLine(st, lines[0]).value;
      StepShape(st, lines[0]);
      NoDurationNoEntries(next, lines[1..]);
    }
  }

  /** The subtitles of a file are numbered 1, 2, 3, ... in order. */
  lemma ProcessNumbered(lines: seq<string>)
    requires ProcessLines(lines).Ok?
    ensures forall k :: 0 <= k < |ProcessLines(lines).value| ==> ProcessLines(lines).value[k].index == k + 1
  {
    RunShape(START, lines);
  }

  /** Running over two lists of lines is running over the first, then over
      the second from where the first left off. */
  lemma {:induction false} RunAppend(st: State, a: seq<string>, b: seq<string>)
    ensures RunLines(st, a + b) == (match RunLines(st, a) case Raise(e) => Raise(e) case Ok(mid) => RunLines(mid, b))
    decreases |a|
  {
    if |a| == 0 {
      assert a + b == b;
    } else {
      assert (a + b)[0] == a[0];
      assert (a + b)[1..] == a[1..] + b;
      match StepLine(st, a[0])
      case Raise(_) =>
      case Ok(next) => RunAppend(next, a[1..], b);
    }
  }
}

=== FILE: utf8.dfy ===
/** UTF-8 as Python applies it: `str.encode('utf-8')`, and
    `bytes.decode('utf-8', errors='ignore')`, which drops every maximal ill-formed
    subsequence (the same spans CPython reports as "invalid start byte",
    "invalid continuation byte" or "unexpected end of data") and keeps decoding
    after it. */
module Utf8 {
  import opened PyCore
  import opened Bytes

  predicate IsCont(b: byte) {
    0x80 <= b <= 0xBF
  }

  function CharOfInt(x: int): (c: char)
    requires 0 <= x < 0xD800 || 0xE000 <= x < 0x11_0000
    ensures c as int == x
  {
    x as char
  }

  /** How many bytes UTF-8 spends on one Unicode scalar value. */
  function Width(c: char): nat {
    if c as int < 0x80 then 1 else if c as int < 0x800 then 2 else if c as int < 0x1_0000 then 3 else 4
  }

  /** The UTF-8 encoding of one Unicode scalar value. */
  function EncodeChar(c: char): (r: seq<byte>)
    ensures |r| == Width(c)
  {
    var x := c as int;
    if x < 0x80 then [x]
    else if x < 0x800 then [0xC0 + x / 64, 0x80 + x % 64]
    else if x < 0x1_0000 then [0xE0 + x / 4096, 0x80 + (x / 64) % 64, 0x80 + x % 64]
    else [0xF0 + x / 262144, 0x80 + (x / 4096) % 64, 0x80 + (x / 64) % 64, 0x80 + x % 64]
  }

  /** `len(s.encode('utf-8'))`, character by character. */
  function EncodedLength(s: string): nat {
    if |s| == 0 then 0 else Width(s[0]) + EncodedLength(s[1..])
  }

  /** `s.encode('utf-8')` */
  function Encode(s: string): (r: seq<byte>)
    ensures |r| == EncodedLength(s) && |r| >= |s|
  {
    if |s| == 0 then [] else EncodeChar(s[0]) + Encode(s[1..])
  }

  /** One decoding step at the start of `b`: how many bytes it consumes and
      the character it yields, or `None` for a dropped ill-formed span. */
  function Step(b: seq<byte>): (r: (nat, Option<char>))
    requires |b| > 0
    ensures 1 <= r.0 <= |b|
  {
    var b0: int := b[0];
    var b1: int := if |b| > 1 then b[1] else 0;
    var b2: int := if |b| > 2 then b[2] else 0;
    var b3: int := if |b| > 3 then b[3] else 0;
    if b0 < 0x80 then (1, Some(CharOfInt(b0)))
    else if 0xC2 <= b0 <= 0xDF then
      if |b| >= 2 && IsCont(b1) then
        (2, Some(CharOfInt((b0 - 0xC0) * 64 + (b1 - 0x80))))
      else (1, None)
    else if 0xE0 <= b0 <= 0xEF then
      var lo := if b0 == 0xE0 then 0xA0 else 0x80;
      var hi := if b0 == 0xED then 0x9F else 0xBF;
      if |b| < 2 || !(lo <= b1 <= hi) then (1, None)
      else if |b| < 3 || !IsCont(b2) then (2, None)
      else (3, Some(CharOfInt((b0 - 0xE0) * 4096 + (b1 - 0x80) * 64 + (b2 - 0x80))))
    else if 0xF0 <= b0 <= 0xF4 then
      var lo := if b0 == 0xF0 then 0x90 else 0x80;
      var hi := if b0 == 0xF4 then 0x8F else 0xBF;
      if |b| < 2 || !(lo <= b1 <= hi) then (1, None)
      else if |b| < 3 || !IsCont(b2) then (2, None)
      else if |b| < 4 || !IsCont(b3) then (3, None)
      else (4, Some(CharOfInt((b0 - 0xF0) * 262144 + (b1 - 0x80) * 4096
                              + (b2 - 0x80) * 64 + (b3 - 0x80))))
    else (1, None)
  }

  /** `b.decode('utf-8', errors='ignore')` */
  function DecodeIgnore(b: seq<byte>): (s: string)
    ensures |s| <= |b|
    decreases |b|
  {
    if |b| == 0 then []
    else
      var (n, oc) := Step(b);
      (if oc.Some? then [oc.value] else []) + DecodeIgnore(b[n..])
  }

  /** The decoder reads back exactly one encoded character. */
  lemma StepEncodeChar(c: char, rest: seq<byte>)
    ensures Step(EncodeChar(c) + rest) == (|EncodeChar(c)|, Some(c))
  {
    var x := c as int;
    if x < 0x80 {
    } else if x < 0x800 {
      StepTwo(c, rest);
    } else if x < 0x1_0000 {
      StepThree(c, rest);
    } else {
      StepFour(c, rest);
    }
  }

  lemma StepTwo(c: char, rest: seq<byte>)
    requires 0x80 <= c as int < 0x800
    ensures Step(EncodeChar(c) + rest) == (2, Some(c))
  {
    var x := c as int;
    var b := EncodeChar(c) + rest;
    var h, l := x / 64, x % 64;
    assert x == h * 64 + l;
    assert b[0] == 0xC0 + h && b[1] == 0x80 + l;
  }

  lemma StepThree(c: char, rest: seq<byte>)
    requires 0x800 <= c as int < 0x1_0000
    ensures Step(EncodeChar(c) + rest) == (3, Some(c))
  {
    var x := c as int;
    var b := EncodeChar(c) + rest;
    var h, m, l := x / 4096, (x / 64) % 64, x % 64;
    assert x / 64 == h * 64 + m;
    assert x == h * 4096 + m * 64 + l;
    assert b[0] == 0xE0 + h && b[1] == 0x80 + m && b[2] == 0x80 + l;
    assert h == 0 ==> m >= 32;
    assert h == 13 ==> m < 32;
  }

  lemma StepFour(c: char, rest: seq<byte>)
    requires 0x1_0000 <= c as int
    ensures Step(EncodeChar(c) + rest) == (4, Some(c))
  {
    var x := c as int;
    var b := EncodeChar(c) + rest;
    var h, m1, m2, l := x / 262144, (x / 4096) % 64, (x / 64) % 64, x % 64;
    assert x / 4096 == h * 64 + m1;
    assert x / 64 == (x / 4096) * 64 + m2;
    assert x == h * 262144 + m1 * 4096 + m2 * 64 + l;
    assert b[0] == 0xF0 + h && b[1] == 0x80 + m1 && b[2] == 0x80 + m2 && b[3] == 0x80 + l;
    assert h == 0 ==> m1 >= 16;
    assert h == 4 ==> m1 < 16;
  }

  /** Decoding what was encoded gives back the text, followed by the decoding
      of whatever bytes come after it. */
  lemma {:induction false} DecodeEncode(s: string, rest: seq<byte>)
    ensures DecodeIgnore(Encode(s) + rest) == s + DecodeIgnore(rest)
  {
    if |s| > 0 {
      var e := EncodeChar(s[0]);
      var b := Encode(s) + rest;
      assert b == e + (Encode(s[1..]) + rest);
      StepEncodeChar(s[0], Encode(s[1..]) + rest);
      assert b[|e|..] == Encode(s[1..]) + rest;
      DecodeEncode(s[1..], rest);
      assert s == [s[0]] + s[1..];
    } else {
      assert Encode(s) + rest == rest;
    }
  }

  /** The round trip `decode(encode(s)) == s`. */
  lemma RoundTrip(s: string)
    ensures DecodeIgnore(Encode(s)) == s
  {
    DecodeEncode(s, []);
    assert Encode(s) + [] == Encode(s);
  }

  /** NUL bytes decode to as many NUL characters. */
  lemma {:induction false} DecodeNuls(n: nat)
    ensures DecodeIgnore(seq(n, _ => 0)) == seq(n, _ => '\0')
  {
    if n > 0 {
      var b: seq<byte> := seq(n, _ => 0);
      assert b[1..] == seq(n - 1, _ => 0);
      DecodeNuls(n - 1);
      assert seq(n, _ => '\0') == ['\0'] + seq(n - 1, _ => '\0');
    }
  }
}

=== FILE: walk_facts.dfy ===
/** Facts about the RIFF chunk walk that hold for every input file. */
module WalkFacts {
  import opened PyCore
  import opened Bytes
  import opened RiffChunks
  import opened RiffWalk


  /** Two files that agree from byte 12 on. */
  predicate SameBody(f: seq<byte>, g: seq<byte>) {
    |f| == |g| && |f| >= 12 && f[12..] == g[12..]
  }

  /** `f` and `g` have the same length and agree at every index from `i` on,
      stated recursively so that the solver unfolds it only on demand. */
  ghost predicate SameFrom(f: seq<byte>, g: seq<byte>, i: nat)
    decreases |f| - i
  {
    |f| == |g| && (i >= |f| || (f[i] == g[i] && SameFrom(f, g, i + 1)))
  }

  lemma {:induction false} SameFromAt(f: seq<byte>, g: seq<byte>, i: nat, j: nat)
    requires SameFrom(f, g, i) && i <= j < |f|
    ensures f[j] == g[j]
    decreases j - i
  {
    if i < j {
      SameFromAt(f, g, i + 1, j);
    }
  }

  lemma {:induction false} SameFromIntro(f: seq<byte>, g: seq<byte>, i: nat)
    requires |f| == |g| && forall j :: i <= j < |f| ==> f[j] == g[j]
    ensures SameFrom(f, g, i)
    decreases |f| - i
  {
    if i < |f| {
      SameFromIntro(f, g, i + 1);
    }
  }

  lemma ReadSame(f: seq<byte>, g: seq<byte>, pos: nat, n: nat)
    requires SameFrom(f, g, 12) && pos >= 12
    ensures Read(f, pos, n) == Read(g, pos, n)
  {
    var a, b := Min(pos, |f|), Min(pos + n, |f|);
    forall j | a <= j < b
      ensures f[j] == g[j]
    {
      SameFromAt(f, g, 12, j);
    }
    assert f[a..b] == g[a..b];
  }

  lemma HeaderSame(f: seq<byte>, g: seq<byte>, pos: nat)
    requires SameFrom(f, g, 12) && pos >= 12
    ensures ReadHeader(f, pos) == ReadHeader(g, pos)
  {
    ReadSame(f, g, pos, 4);
    ReadSame(f, g, pos + |Read(f, pos, 4)|, 4);
  }

  lemma {:induction false} RecordListSame(f: seq<byte>, g: seq<byte>, pos: nat, count: nat)
    requires SameFrom(f, g, 12) && pos >= 12
    ensures RecordList(f, pos, count) == RecordList(g, pos, count)
    decreases count
  {
    if count > 0 {
      ReadSame(f, g, pos, 24);
      RecordListSame(f, g, pos + 24, count - 1);
    }
  }

  lemma AdtlStepSame(f: seq<byte>, g: seq<byte>, pos: nat, acc: Metadata, lengthAt: nat)
    requires SameFrom(f, g, 12) && pos >= 12 && lengthAt + 4 <= 20
    ensures AdtlStep(f, pos, acc, lengthAt) == AdtlStep(g, pos, acc, lengthAt)
  {
    var tag := Read(f, pos, 4);
    ReadSame(f, g, pos, 4);
    ReadSame(f, g, pos + |tag|, 4);
    var sizeBytes := Read(f, pos + |tag|, 4);
    if |sizeBytes| == 4 {
      ReadSame(f, g, pos + |tag| + 4, ReadU32(sizeBytes));
    }
  }

  lemma {:induction false} AdtlSame(f: seq<byte>, g: seq<byte>, pos: nat, bytesRead: int, size: nat, acc: Metadata, lengthAt: nat)
    requires lengthAt + 4 <= 20 && SameFrom(f, g, 12) && pos >= 12
    ensures ReadAdtl(f, pos, bytesRead, size, acc, lengthAt) == ReadAdtl(g, pos, bytesRead, size, acc, lengthAt)
    decreases size - bytesRead
  {
    if bytesRead < size {
      AdtlStepSame(f, g, pos, acc, lengthAt);
      var step := AdtlStep(f, pos, acc, lengthAt);
      if step.Ok? {
        var (acc', next, subsize) := step.value;
        AdtlSame(f, g, next, bytesRead + 8 + subsize, size, acc', lengthAt);
        ReadAdtlOk(f, pos, bytesRead, size, acc, lengthAt, acc', next, subsize);
        ReadAdtlOk(g, pos, bytesRead, size, acc, lengthAt, acc', next, subsize);
      } else {
        ReadAdtlRaise(f, pos, bytesRead, size, acc, lengthAt, step.exc);
        ReadAdtlRaise(g, pos, bytesRead, size, acc, lengthAt, step.exc);
      }
    }
  }

  /** A pass of the `adtl` loop that reads a sub-chunk continues the loop
      after it. */
  lemma ReadAdtlOk(f: seq<byte>, pos: nat, bytesRead: int, size: nat, acc: Metadata, lengthAt: nat,
                   acc': Metadata, next: nat, subsize: nat)
    requires lengthAt + 4 <= 20 && bytesRead < size
    requires AdtlStep(f, pos, acc, lengthAt) == Ok((acc', next, subsize))
    ensures ReadAdtl(f, pos, bytesRead, size, acc, lengthAt) == ReadAdtl(f, next, bytesRead + 8 + subsize, size, acc', lengthAt)
  {
  }

  /** A pass of the `adtl` loop that raises ends the loop with that exception. */
  lemma ReadAdtlRaise(f: seq<byte>, pos: nat, bytesRead: int, size: nat, acc: Metadata, lengthAt: nat, e: Exc)
    requires lengthAt + 4 <= 20 && bytesRead < size
    requires AdtlStep(f, pos, acc, lengthAt) == Raise(e)
    ensures ReadAdtl(f, pos, bytesRead, size, acc, lengthAt) == Raise(e)
  {
  }

  lemma CueChunkSame(f: seq<byte>, g: seq<byte>, p: nat, acc: Metadata)
    requires SameFrom(f, g, 12) && p >= 12
    ensures CueChunk(f, p, acc) == CueChunk(g, p, acc)
  {
    ReadSame(f, g, p, 4);
    var countBytes := Read(f, p, 4);
    if |countBytes| == 4 {
      CueRecordsSame(f, g, p + 4, ReadU32(countBytes), acc.cues);
    }
  }

  lemma CueRecordsSame(f: seq<byte>, g: seq<byte>, pos: nat, count: nat, t: seq<CuePoint>)
    requires SameFrom(f, g, 12) && pos >= 12
    ensures ReadCueRecords(f, pos, count, t) == ReadCueRecords(g, pos, count, t)
  {
    RecordListSame(f, g, pos, count);
  }

  lemma ListChunkSame(f: seq<byte>, g: seq<byte>, p: nat, size: nat, acc: Metadata, lengthAt: nat)
    requires SameFrom(f, g, 12) && p >= 12 && lengthAt + 4 <= 20
    ensures ListChunk(f, p, size, acc, lengthAt) == ListChunk(g, p, size, acc, lengthAt)
  {
    ReadSame(f, g, p, 4);
    AdtlSame(f, g, p + 4, 4, size, acc, lengthAt);
  }

  lemma WalkStepSame(f: seq<byte>, g: seq<byte>, pos: nat, acc: Metadata, lengthAt: nat)
    requires SameFrom(f, g, 12) && pos >= 12 && lengthAt + 4 <= 20
    ensures WalkStep(f, pos, acc, lengthAt) == WalkStep(g, pos, acc, lengthAt)
  {
    HeaderSame(f, g, pos);
    match ReadHeader(f, pos)
    case None =>
    case Some(Header(tag, size)) =>
      if tag == CUE_TAG {
        CueChunkSame(f, g, pos + 8, acc);
      } else if tag == LIST_TAG {
        ListChunkSame(f, g, pos + 8, size, acc, lengthAt);
      }
  }

  lemma {:induction false} WalkSame(f: seq<byte>, g: seq<byte>, pos: nat, acc: Metadata, lengthAt: nat)
    requires lengthAt + 4 <= 20
    requires forall p: nat, a: Metadata :: p >= 12 ==> WalkStep(f, p, a, lengthAt) == WalkStep(g, p, a, lengthAt)
    requires pos >= 12
    ensures WalkFrom(f, pos, acc, lengthAt) == WalkFrom(g, pos, acc, lengthAt)
    decreases |f| - pos
  {
    match WalkStep(f, pos, acc, lengthAt)
    case Ok(Continue(acc', next)) => WalkSame(f, g, next, acc', lengthAt);
    case Ok(Stop) =>
    case Raise(_) =>
  }

  /** The RIFF header (bytes 0-12) is never read or validated: files that
      differ only there decode identically. */
  lemma HeaderIgnored(f: seq<byte>, g: seq<byte>)
    requires SameBody(f, g)
    ensures ExtractMetadata(Some(f)) == ExtractMetadata(Some(g))
  {
    forall j | 12 <= j < |f|
      ensures f[j] == g[j]
    {
      assert f[j] == f[12..][j - 12];
    }
    SameFromIntro(f, g, 12);
    forall q: nat, a: Metadata | q >= 12
      ensures WalkStep(f, q, a, LTXT_LENGTH_AS_WRITTEN) == WalkStep(g, q, a, LTXT_LENGTH_AS_WRITTEN)
    {
      WalkStepSame(f, g, q, a, LTXT_LENGTH_AS_WRITTEN);
    }
    WalkSame(f, g, 12, EMPTY, LTXT_LENGTH_AS_WRITTEN);
  }
}

=== FILE: workbook.dfy ===
/** The path decisions the workbook-writing converters make before handing
    their rows to openpyxl: the default template under the home directory,
    whether a template is used at all, and the `.xlsx` suffix rule, which
    srt_to_xls.py applies case-sensitively and
    converters/srt_to_studioscript.py case-insensitively. */
module Workbook {
  import opened PyCore
  import opened PyText

  /** `os.path.expanduser("~/Documents/studioscript_template.xlsx")` with
      `$HOME` set to `home`: trailing slashes of `home` are dropped. */
  function DefaultTemplate(home: string): (r: string)
    ensures EndsWith(r, "/Documents/studioscript_template.xlsx")
  {
    RStripChar(home, '/') + "/Documents/studioscript_template.xlsx"
  }

  /** The template path the conversion is handed: the `--template` value,
      or the default when that is absent or empty. */
  function TemplatePath(given: Option<string>, home: string): (r: string)
    ensures given.Some? && given.value != "" ==> r == given.value
    ensures given.None? || given.value == "" ==> EndsWith(r, "/Documents/studioscript_template.xlsx")
  {
    if given.Some? && given.value != "" then given.value else DefaultTemplate(home)
  }

  /** Where the header row and the column widths come from. */
  datatype Layout = FromTemplate(path: string) | DefaultLayout

  /** `if template_path and os.path.exists(template_path)`: the template is
      loaded only when its path names an existing file (`existing` is the
      set of paths that exist); otherwise the default layout is built. */
  function ChooseLayout(template: string, existing: set<string>): (r: Layout)
    ensures r.FromTemplate? <==> template != "" && template in existing
    ensures r.FromTemplate? ==> r.path == template
  {
    if template != "" && template in existing then FromTemplate(template) else DefaultLayout
  }

  /** With no `--template`, the default template is used exactly when it
      exists under the home directory. */
  lemma NoTemplateArgument(home: string, existing: set<string>)
    ensures ChooseLayout(TemplatePath(None, home), existing) ==
      if DefaultTemplate(home) in existing then FromTemplate(DefaultTemplate(home)) else DefaultLayout
  {
  }

  /** srt_to_xls.py:39-40: `.xlsx` is appended unless the name already ends
      with it, compared case-sensitively. */
  function XlsxName(name: string): (r: string)
    ensures EndsWith(r, ".xlsx")
    ensures StartsWith(r, name)
    ensures r == name <==> EndsWith(name, ".xlsx")
  {
    if EndsWith(name, ".xlsx") then name else name + ".xlsx"
  }

  /** converters/srt_to_studioscript.py:82-83: the same rule, with the name
      lower-cased for the comparison. Only ASCII letters are lowered; no
      other character lowers into a `.xlsx` ending. */
  function XlsxNameCi(name: string): (r: string)
    ensures EndsWith(AsciiLower(r), ".xlsx")
    ensures StartsWith(r, name)
    ensures r == name <==> EndsWith(AsciiLower(name), ".xlsx")
  {
    if EndsWith(AsciiLower(name), ".xlsx") then name
    else
      var r := name + ".xlsx";
      assert AsciiLower(r)[|r| - 5..] == ".xlsx";
      r
  }

  /** Applying either rule twice is applying it once. */
  lemma XlsxNameIdempotent(name: string)
    ensures XlsxName(XlsxName(name)) == XlsxName(name)
    ensures XlsxNameCi(XlsxNameCi(name)) == XlsxNameCi(name)
  {
  }

  /** The two rules part ways on an upper-case suffix: the studio-script
      converter keeps `Script.XLSX`, srt_to_xls.py writes
      `Script.XLSX.xlsx`. */
  lemma UpperCaseSuffix()
    ensures XlsxNameCi("Script.XLSX") == "Script.XLSX"
    ensures XlsxName("Script.XLSX") == "Script.XLSX.xlsx"
  {
    assert AsciiLower("Script.XLSX")[6..] == ".xlsx";
    assert "Script.XLSX"[6..] != ".xlsx" by { assert "Script.XLSX"[7] != 'x'; }
  }

  /** A name the case-sensitive rule keeps, the case-insensitive rule keeps
      too. */
  lemma SensitiveKeptInsensitiveKept(name: string)
    requires XlsxName(name) == name
    ensures XlsxNameCi(name) == name
  {
    assert AsciiLower(name)[|name| - 5..] == ".xlsx";
  }
}

=== FILE: xls_to_srt.dfy ===
/** converters/xls_to_srt_v2.py: a spreadsheet of SMPTE timecodes becomes an
    SRT file. The frame rate is read from ffprobe's report on the video; the
    hours, minutes and seconds of a timecode are kept and only the frame
    count becomes milliseconds. Running ffprobe and reading the workbook are
    not modelled: the report text and the rows are parameters. */
module XlsToSrt {
  import opened PyCore
  import opened PyText
  import opened SrtTime
  import opened Smpte
  import opened SrtBlocks
  import SrtToXls

  // ------------------------------------------------------------ frame rate

  /** The literal head of `r_frame_rate="(\d+)/(\d+)"`. */
  const RatePrefix: string := "r_frame_rate=\""

  /** The pattern tried at position `p`: the two digit runs, as numbers. */
  function RateAt(s: string, p: nat): (r: Option<(nat, nat)>)
  {
    if p + 14 <= |s| && s[p..p + 14] == RatePrefix then FractionAt(s[p + 14..]) else None
  }

  /** `(\d+)/(\d+)"` at the start of `t`. Each `\d+` is greedy and giving
      digits back cannot help, since a `/` or a `"` must follow. */
  function FractionAt(t: string): (r: Option<(nat, nat)>)
  {
    var a := DigitRun(t);
    if a == 0 || a >= |t| || t[a] != '/' then None
    else
      var u := t[a + 1..];
      var b := DigitRun(u);
      if b == 0 || b >= |u| || u[b] != '"' then None
      else Some((DigitsValue(t[..a]), DigitsValue(u[..b])))
  }

  /** A run of digits, then a character that is not a digit. */
  lemma DigitsThen(x: string, c: char, rest: string)
    requires IsDigits(x) && !IsDigitChar(c)
    ensures var t := x + [c] + rest;
      DigitRun(t) == |x| && |x| < |t| && t[|x|] == c && t[..|x|] == x && t[|x| + 1..] == rest
  {
    DigitRunAt(x, [c] + rest);
    assert x + [c] + rest == x + ([c] + rest);
  }

  /** `re.search` from position `p` on: the first position that matches. */
  function RateFrom(s: string, p: nat): (r: Option<(nat, (nat, nat))>)
    ensures r.Some? ==> p <= r.value.0 < |s| && RateAt(s, r.value.0) == Some(r.value.1)
    decreases |s| - p
  {
    if p >= |s| then None
    else
      match RateAt(s, p)
      case Some(v) => Some((p, v))
      case None => RateFrom(s, p + 1)
  }

  /** `get_frame_rate` on ffprobe's output (lines 16-21): the first
      `r_frame_rate="num/den"`, as the fraction `num / den`. No such text
      raises `ValueError`; a zero denominator makes the division raise
      `ZeroDivisionError`. */
  function ProbeRate(report: string): (r: Result<Rate>)
    ensures r.Raise? ==> r.exc == ValueError || r.exc == ZeroDivisionError
  {
    match RateFrom(report, 0)
    case None => Raise(ValueError)
    case Some((_, (n, d))) => if d == 0 then Raise(ZeroDivisionError) else Ok(Rate(n, d))
  }

  /** The search stops at the first position that matches. */
  lemma {:induction false} RateFromFirst(s: string, p: nat)
    requires RateFrom(s, p).Some?
    ensures forall q :: p <= q < RateFrom(s, p).value.0 ==> RateAt(s, q).None?
    decreases |s| - p
  {
    if RateAt(s, p).None? {
      assert RateFrom(s, p) == RateFrom(s, p + 1);
      RateFromFirst(s, p + 1);
    }
  }

  /** The search finds nothing only when no position matches. */
  lemma {:induction false} RateFromNone(s: string, p: nat)
    requires RateFrom(s, p).None?
    ensures forall q :: p <= q ==> RateAt(s, q).None?
    decreases |s| - p
  {
    if p < |s| {
      assert RateFrom(s, p) == RateFrom(s, p + 1);
      RateFromNone(s, p + 1);
    }
  }

  /** The pattern matches at `q` with the fraction `v`, and nowhere
      before `q`. */
  predicate FirstRateAt(s: string, q: nat, v: (nat, nat)) {
    RateAt(s, q) == Some(v) && forall q' :: 0 <= q' < q ==> RateAt(s, q').None?
  }

  /** The rate comes from the leftmost occurrence of the pattern; with
      none, the report is rejected with `ValueError`. */
  lemma ProbeRateSpec(report: string)
    ensures ProbeRate(report) == Raise(ValueError) <==> forall q :: RateAt(report, q).None?
    ensures ProbeRate(report).Ok? ==>
      exists q :: FirstRateAt(report, q, (ProbeRate(report).value.num, ProbeRate(report).value.den))
  {
    if RateFrom(report, 0).None? {
      RateFromNone(report, 0);
    } else {
      RateFromFirst(report, 0);
      var (q, v) := RateFrom(report, 0).value;
      assert FirstRateAt(report, q, v);
    }
  }

  /** A report that starts with the pattern gives its fraction. */
  lemma ProbeRateAtStart(n: nat, d: pos, rest: string)
    ensures ProbeRate(RatePrefix + Decimal(n) + "/" + Decimal(d) + "\"" + rest) == Ok(Rate(n, d))
  {
    var u := Decimal(d) + ['"'] + rest;
    var t := Decimal(n) + ['/'] + u;
    var s := RatePrefix + t;
    assert s == RatePrefix + Decimal(n) + "/" + Decimal(d) + "\"" + rest;
    FractionOf(n, d, rest);
    assert s[..14] == RatePrefix && s[14..] == t;
    assert RateAt(s, 0) == Some((n, d));
  }

  lemma FractionOf(n: nat, d: nat, rest: string)
    ensures FractionAt(Decimal(n) + ['/'] + (Decimal(d) + ['"'] + rest)) == Some((n, d))
  {
    var u := Decimal(d) + ['"'] + rest;
    DecimalSpec(n);
    DecimalSpec(d);
    DigitsThen(Decimal(n), '/', u);
    DigitsThen(Decimal(d), '"', rest);
  }

  // ------------------------------------------------------------ timecodes

  /** The character class of `re.split(r'[:.]', ...)`. */
  const SmpteSeparators: set<char> := {':', '.'}

  /** `int((frames / frame_rate) * 1000)`: the frames as milliseconds,
      truncated toward zero. */
  function FrameMs(frames: int, rate: Rate): (ms: int)
    requires rate.num > 0
    ensures frames >= 0 ==> 0 <= ms && ms * rate.num <= frames * (1000 * rate.den) < (ms + 1) * rate.num
  {
    TruncDiv(frames * (1000 * rate.den), rate.num)
  }

  /** `f"{h:02}:{m:02}:{s:02},{ms:03}"` */
  function SrtText(h: int, m: int, s: int, ms: int): string {
    Timestamp(ZeroPad(h, 2), ZeroPad(m, 2), ZeroPad(s, 2), ZeroPad(ms, 3))
  }

  /** `smpte_to_srt` (lines 23-32). The piece count is checked before any
      piece is converted; then `int()` may raise `ValueError`, and a zero
      frame rate makes the float division raise `ZeroDivisionError`. */
  function SmpteToSrt(tc: string, rate: Rate): (r: Result<string>)
    ensures r.Raise? ==> r.exc == ValueError || (r.exc == ZeroDivisionError && rate.num == 0)
    ensures |SplitAny(tc, SmpteSeparators)| != 4 ==> r == Raise(ValueError)
    ensures r.Ok? ==> rate.num > 0 && ParseAll(SplitAny(tc, SmpteSeparators)).Ok?
  {
    var parts := SplitAny(tc, SmpteSeparators);
    if |parts| != 4 then Raise(ValueError)
    else
      var vs :- ParseAll(parts);
      if rate.num == 0 then Raise(ZeroDivisionError)
      else Ok(SrtText(vs[0], vs[1], vs[2], FrameMs(vs[3], rate)))
  }

  /** A padded field holds none of the separators. */
  lemma PaddedNoneIn(n: int, width: nat, cs: set<char>)
    requires forall c :: c in cs ==> !IsDigitChar(c) && c != '-'
    ensures NoneIn(ZeroPad(n, width), cs)
  {
    forall i | 0 <= i < |ZeroPad(n, width)|
      ensures ZeroPad(n, width)[i] !in cs
    {
      if ZeroPad(n, width)[i] in cs {
        ZeroPadNoChar(n, width, ZeroPad(n, width)[i]);
      }
    }
  }

  /** Four fields joined by the separators `a`, `b` and `c`, all in the
      class, split back into the four fields. */
  lemma SplitAnyFour(p: string, a: char, q: string, b: char, r: string, c: char, s: string, cs: set<char>)
    requires NoneIn(p, cs) && NoneIn(q, cs) && NoneIn(r, cs) && NoneIn(s, cs)
    requires a in cs && b in cs && c in cs
    ensures SplitAny(p + [a] + q + [b] + r + [c] + s, cs) == [p, q, r, s]
  {
    var rs := r + [c] + s;
    var qs := q + [b] + rs;
    assert p + [a] + q + [b] + r + [c] + s == p + [a] + qs;
    SplitAnyCons(p, a, qs, cs);
    SplitAnyCons(q, b, rs, cs);
    SplitAnyCons(r, c, s, cs);
    SplitAnyNone(s, cs);
  }

  /** The SRT timestamp splits at `:` and `,` into the four numbers it was
      printed from. */
  lemma SrtTextBack(h: int, m: int, s: int, ms: int)
    ensures ParseAll(SplitAny(SrtText(h, m, s, ms), SrtToXls.SrtSeparators)) == Ok([h, m, s, ms])
  {
    var cs := SrtToXls.SrtSeparators;
    var p, q, r, t := ZeroPad(h, 2), ZeroPad(m, 2), ZeroPad(s, 2), ZeroPad(ms, 3);
    PaddedNoneIn(h, 2, cs);
    PaddedNoneIn(m, 2, cs);
    PaddedNoneIn(s, 2, cs);
    PaddedNoneIn(ms, 3, cs);
    assert SrtText(h, m, s, ms) == p + [':'] + q + [':'] + r + [','] + t;
    SplitAnyFour(p, ':', q, ':', r, ',', t, cs);
    ParseZeroPad(h, 2);
    ParseZeroPad(m, 2);
    ParseZeroPad(s, 2);
    ParseZeroPad(ms, 3);
    ParseAllOk([p, q, r, t], [h, m, s, ms]);
  }

  /** The SRT time keeps the hours, minutes and seconds it was given; its
      milliseconds are the frames' duration, truncated. */
  lemma SmpteToSrtFields(tc: string, rate: Rate)
    requires SmpteToSrt(tc, rate).Ok?
    ensures var vs := ParseAll(SplitAny(tc, SmpteSeparators)).value;
      var ms := FrameMs(vs[3], rate);
      && ParseAll(SplitAny(SmpteToSrt(tc, rate).value, SrtToXls.SrtSeparators)) == Ok([vs[0], vs[1], vs[2], ms])
      && (vs[3] >= 0 ==> ms * rate.num <= vs[3] * (1000 * rate.den) < (ms + 1) * rate.num)
  {
    var vs := ParseAll(SplitAny(tc, SmpteSeparators)).value;
    SrtTextBack(vs[0], vs[1], vs[2], FrameMs(vs[3], rate));
  }

  /** No carry into the seconds: a frame count of a second or more gives a
      millisecond field of 1000 or more. */
  lemma NoCarry(frames: int, rate: Rate)
    requires rate.num > 0 && frames * rate.den >= rate.num
    ensures FrameMs(frames, rate) >= 1000
  {
    var ms := FrameMs(frames, rate);
    PositiveFactor(frames, rate.den, rate.num);
    assert frames * (1000 * rate.den) == 1000 * (frames * rate.den);
    MulMono(1000, frames * rate.den, rate.num);
    assert (ms + 1) * rate.num > 1000 * rate.num;
    MulLessCancel(1000, ms + 1, rate.num);
  }

  lemma PositiveFactor(x: int, y: pos, z: pos)
    requires x * y >= z
    ensures x > 0
  {
  }

  lemma MulMono(c: nat, x: int, y: int)
    requires x >= y
    ensures c * x >= c * y
  {
  }

  lemma MulLessCancel(x: int, y: int, n: pos)
    requires x * n < y * n
    ensures x < y
  {
  }

  /** The srt2regions reader takes a non-negative time this writes as
      hours, minutes, seconds and milliseconds, summed. */
  lemma SrtTextRead(h: nat, m: nat, s: nat, ms: nat)
    ensures TimeToMs(SrtText(h, m, s, ms)) == Ok(h * 3_600_000 + m * 60_000 + s * 1000 + ms)
  {
    FieldsRoundTrip(h, m, s, ms);
  }

  /** A time printed with at most two digits per clock field and three for
      the milliseconds has the shape the SRT block pattern reads. */
  lemma SrtTextShape(h: nat, m: nat, s: nat, ms: nat)
    requires h < 100 && m < 100 && s < 100 && ms < 1000
    ensures IsTimestamp(SrtText(h, m, s, ms))
  {
    PadExact(h, 2);
    PadExact(m, 2);
    PadExact(s, 2);
    PadExact(ms, 3);
    var t := SrtText(h, m, s, ms);
    assert t[..2] == ZeroPad(h, 2);
    assert t[3..5] == ZeroPad(m, 2);
    assert t[6..8] == ZeroPad(s, 2);
    assert t[9..] == ZeroPad(ms, 3);
  }

  /** A number below `10^width`, for the widths 2 and 3, pads to exactly
      `width` digits. */
  lemma PadExact(n: nat, width: nat)
    requires width == 2 || width == 3
    requires (width == 2 ==> n < 100) && (width == 3 ==> n < 1000)
    ensures |ZeroPad(n, width)| == width && IsDigits(ZeroPad(n, width))
  {
    ZeroFillValue(n, width);
    DecimalShort(n);
  }

  /** An SRT timestamp turned into SMPTE by srt_to_xls.py and back into SRT
      here keeps its hours, minutes and seconds and loses less than one
      frame plus one millisecond: `ms' <= ms` and `(ms - ms') * fps < fps +
      1000`, with `fps = num / den`. */
  lemma SmpteRoundTrip(t: string, rate: Rate)
    requires IsTimestamp(t) && rate.num > 0
    ensures var vs := SrtToXls.TimestampFields(t);
      var f := SrtToXls.FrameOf(vs[3], rate);
      var ms := FrameMs(f, rate);
      && SrtToXls.SrtToSmpte(t, rate) == Ok(SmpteText(vs[0], vs[1], vs[2], f))
      && SmpteToSrt(SmpteText(vs[0], vs[1], vs[2], f), rate) == Ok(SrtText(vs[0], vs[1], vs[2], ms))
      && 0 <= ms <= vs[3] && (vs[3] - ms) * rate.num < rate.num + 1000 * rate.den
  {
    var vs := SrtToXls.TimestampFields(t);
    var f := SrtToXls.FrameOf(vs[3], rate);
    assert SrtToXls.SrtToSmpte(t, rate) == Ok(SmpteText(vs[0], vs[1], vs[2], f)) by {
      SrtToXls.TimestampConverts(t, rate);
      ClockFraction(t);
    }
    SmpteToSrtOf(vs[0], vs[1], vs[2], f, rate);
    SmallField(t);
    FrameLoss(vs[3], f, FrameMs(f, rate), rate);
  }

  /** Converting an SMPTE text this module's counterpart printed. */
  lemma SmpteToSrtOf(h: int, m: int, s: int, f: int, rate: Rate)
    requires rate.num > 0
    ensures SmpteToSrt(SmpteText(h, m, s, f), rate) == Ok(SrtText(h, m, s, FrameMs(f, rate)))
  {
    SmpteBack(h, m, s, f);
  }

  /** The milliseconds of a timestamp are its total modulo a second. */
  lemma ClockFraction(t: string)
    requires IsTimestamp(t)
    ensures var vs := SrtToXls.TimestampFields(t); SrtToXls.ClockMs(vs) % 1000 == vs[3] % 1000
  {
    var vs := SrtToXls.TimestampFields(t);
    assert SrtToXls.ClockMs(vs) == (vs[0] * 3600 + vs[1] * 60 + vs[2]) * 1000 + vs[3];
  }

  /** The last field of a timestamp has three digits. */
  lemma SmallField(t: string)
    requires IsTimestamp(t)
    ensures SrtToXls.TimestampFields(t)[3] < 1000 && SrtToXls.TimestampFields(t)[3] % 1000 == SrtToXls.TimestampFields(t)[3]
  {
    var d := t[9..];
    assert d[..2][..1] == d[..1];
    assert DigitsValue(d[..1]) < 10;
    assert DigitsValue(d[..2]) < 100;
  }

  /** An SMPTE text splits at `:` and `.` into the four numbers it was
      printed from. */
  lemma SmpteBack(h: int, m: int, s: int, f: int)
    ensures ParseAll(SplitAny(SmpteText(h, m, s, f), SmpteSeparators)) == Ok([h, m, s, f])
  {
    var cs := SmpteSeparators;
    var p, q, r, t := ZeroPad(h, 2), ZeroPad(m, 2), ZeroPad(s, 2), ZeroPad(f, 2);
    PaddedNoneIn(h, 2, cs);
    PaddedNoneIn(m, 2, cs);
    PaddedNoneIn(s, 2, cs);
    PaddedNoneIn(f, 2, cs);
    assert SmpteText(h, m, s, f) == p + [':'] + q + [':'] + r + [':'] + t;
    SplitAnyFour(p, ':', q, ':', r, ':', t, cs);
    ParseZeroPad(h, 2);
    ParseZeroPad(m, 2);
    ParseZeroPad(s, 2);
    ParseZeroPad(f, 2);
    ParseAllOk([p, q, r, t], [h, m, s, f]);
  }

  /** Frames down, then milliseconds down: each step truncates, and the two
      losses together stay below a frame plus a millisecond. */
  lemma FrameLoss(x: nat, f: nat, ms: int, rate: Rate)
    requires rate.num > 0
    requires f * (1000 * rate.den) <= x * rate.num < (f + 1) * (1000 * rate.den)
    requires 0 <= ms && ms * rate.num <= f * (1000 * rate.den) < (ms + 1) * rate.num
    ensures ms <= x && (x - ms) * rate.num < rate.num + 1000 * rate.den
  {
    MulLessCancelLe(ms, x, rate.num);
    assert x * rate.num < f * (1000 * rate.den) + 1000 * rate.den;
    assert (x - ms) * rate.num == x * rate.num - ms * rate.num;
    assert (ms + 1) * rate.num == ms * rate.num + rate.num;
  }

  lemma MulLessCancelLe(x: int, y: int, n: pos)
    requires x * n <= y * n
    ensures x <= y
  {
  }

  // ------------------------------------------------------------ the file

  /** One spreadsheet row: `Event Number`, `TimeCode In`, `TimeCode Out`
      and `Event`, each as the text it prints as. */
  datatype SheetRow = SheetRow(number: string, tcIn: string, tcOut: string, event: string)

  /** The block one row becomes: both times converted, in then out. */
  function BlockOf(row: SheetRow, rate: Rate): (r: Result<Block>)
    ensures r.Ok? ==> r.value.number == row.number && r.value.text == row.event
  {
    var tcIn :- SmpteToSrt(row.tcIn, rate);
    var tcOut :- SmpteToSrt(row.tcOut, rate);
    Ok(Block(row.number, tcIn, tcOut, row.event))
  }

  /** What the SRT file holds when the loop ends, and the exception that
      ended it early, if any. The file is opened before the loop, so the
      blocks of the rows before a failing row are already in it. */
  datatype Written = Written(text: string, error: Option<Exc>)

  /** The loop of `excel_to_srt` (lines 43-51). */
  function WriteRows(rows: seq<SheetRow>, rate: Rate): (w: Written)
    ensures w.error.None? <==> BlocksOf(rows, rate).Ok?
    ensures w.error.None? ==> w.text == RenderAll(BlocksOf(rows, rate).value)
    ensures w.error.Some? ==> w.error.value == BlocksOf(rows, rate).exc
    decreases |rows|
  {
    if |rows| == 0 then Written("", None)
    else
      match BlockOf(rows[0], rate)
      case Raise(e) => Written("", Some(e))
      case Ok(b) =>
        var w := WriteRows(rows[1..], rate);
        Written(Render(b) + w.text, w.error)
  }

  /** `excel_to_srt`: the rate is found before the file is opened, so a
      report without it raises with nothing written. */
  function ExcelToSrt(report: string, rows: seq<SheetRow>): (r: Result<Written>)
    ensures r.Raise? ==> ProbeRate(report).Raise? && r.exc == ProbeRate(report).exc
    ensures r.Ok? ==> ProbeRate(report).Ok? && r.value == WriteRows(rows, ProbeRate(report).value)
  {
    var rate :- ProbeRate(report);
    Ok(WriteRows(rows, rate))
  }

  /** The blocks of all rows, or the exception of the first row that
      does not convert. */
  function BlocksOf(rows: seq<SheetRow>, rate: Rate): (r: Result<seq<Block>>)
    ensures r.Ok? ==> |r.value| == |rows|
    decreases |rows|
  {
    if |rows| == 0 then Ok([])
    else
      var b :- BlockOf(rows[0], rate);
      var bs :- BlocksOf(rows[1..], rate);
      Ok([b] + bs)
  }

  /** The index of the first row that does not convert, or the number of
      rows when all do. */
  function FirstFailure(rows: seq<SheetRow>, rate: Rate): (k: nat)
    ensures k <= |rows|
    ensures forall j :: 0 <= j < k ==> BlockOf(rows[j], rate).Ok?
    ensures k < |rows| ==> BlockOf(rows[k], rate).Raise?
    decreases |rows|
  {
    if |rows| == 0 || BlockOf(rows[0], rate).Raise? then 0
    else
      var k := FirstFailure(rows[1..], rate);
      assert forall j :: 1 <= j < k + 1 ==> rows[j] == rows[1..][j - 1];
      1 + k
  }

  /** The file holds the blocks of the rows before the first failing one,
      in order, and that row's exception is raised; when no row fails, it
      holds every row's block and nothing is raised. */
  lemma {:induction false} WriteRowsSpec(rows: seq<SheetRow>, rate: Rate)
    ensures var k := FirstFailure(rows, rate);
      && BlocksOf(rows[..k], rate).Ok?
      && WriteRows(rows, rate).text == RenderAll(BlocksOf(rows[..k], rate).value)
      && WriteRows(rows, rate).error == (if k < |rows| then Some(BlockOf(rows[k], rate).exc) else None)
    decreases |rows|
  {
    var k := FirstFailure(rows, rate);
    if |rows| == 0 || BlockOf(rows[0], rate).Raise? {
      assert rows[..k] == [];
    } else {
      WriteRowsSpec(rows[1..], rate);
      var tail := rows[1..];
      assert k == 1 + FirstFailure(tail, rate);
      assert rows[..k][1..] == tail[..k - 1];
      assert rows[..k][0] == rows[0];
      assert BlocksOf(rows[..k], rate) == Ok([BlockOf(rows[0], rate).value] + BlocksOf(tail[..k - 1], rate).value);
      assert k < |rows| ==> rows[k] == tail[k - 1];
    }
  }

  /** Every row converts exactly when the file is complete and nothing is
      raised. */
  lemma {:induction false} BlocksOfOk(rows: seq<SheetRow>, rate: Rate)
    ensures BlocksOf(rows, rate).Ok? <==> FirstFailure(rows, rate) == |rows|
    decreases |rows|
  {
    if |rows| > 0 && BlockOf(rows[0], rate).Ok? {
      BlocksOfOk(rows[1..], rate);
    }
  }

  /** The file this writes, read back with the block pattern of the other
      two converters, gives back exactly the rows' blocks when every row
      converts, the numbers are digits, the times have the pattern's shape
      and no text holds a blank line. */
  lemma ExcelReadsBack(report: string, rows: seq<SheetRow>)
    requires ExcelToSrt(report, rows).Ok?
    requires BlocksOf(rows, ProbeRate(report).value).Ok?
    requires forall k :: 0 <= k < |rows| ==> WellFormed(BlocksOf(rows, ProbeRate(report).value).value[k])
    ensures ExcelToSrt(report, rows).value.error.None?
    ensures FindAll(ExcelToSrt(report, rows).value.text) == BlocksOf(rows, ProbeRate(report).value).value
  {
    var rate := ProbeRate(report).value;
    BlocksOfOk(rows, rate);
    WriteRowsSpec(rows, rate);
    assert rows[..|rows|] == rows;
    FindAllRendered(BlocksOf(rows, rate).value);
  }
}
